=== FILE: README.md ===
# probe-station-esp32 in Dafny

A model of the firmware of an ESP32 temperature monitor. Up to ten
DS18B20 probes sit on one 1-Wire bus. The firmware reads them, applies
per-probe calibration and alarm thresholds with hysteresis, and keeps a
reading history. It stores its configuration in NVS. It serves a JSON
API and a WebSocket feed, publishes readings to an MQTT broker, and
draws pages on a small TFT display driven by two buttons. It can update
itself (firmware image, SPIFFS image or both) from the latest GitHub
release.

The project has one Dafny module per component of the firmware:

| module | file | component |
|---|---|---|
| `Common` | common.dfy | shared vocabulary: `Option`, `Result`, uint32 clock arithmetic, the Arduino `String` and C string operations the firmware relies on |
| `Version` | version.dfy | `parseVersionNumber`, `normalizeTagToVersion`, `isUpdateAvailable` |
| `Url` | url.dfy | `parseUrl` and the next target of a redirect |
| `Redirect` | redirect.dfy | `resolveRedirects`: header parsing and the ten-hop loop |
| `HttpGet` | http_get.dfy | `httpGetToString`: retries, back-off, the capped body read |
| `Release` | release.dfy | `fetchLatestReleaseFromGitHub`: tag and asset URL extraction |
| `FlashWriter` | flash_writer.dfy | `downloadAndApply` / `downloadAndApplySPIFFS`: the streaming loop and its error paths |
| `OtaManager` | ota_manager.dfy | the OTA state machine: progress, release cache, auto-check, `startUpdate`, the update task |
| `Config` | config.dfy | `ConfigManager`: defaults, sensor-slot lookup and find-or-create, JSON import |
| `Sensors` | sensors.dfy | `SensorManager`: discovery, reading, calibration, alarms, history |
| `WiFi` | wifi.dfy | `WiFiManager`: the station/AP state machine, signal strength |
| `WebApi` | web_api.dfy | the REST handlers' request validation and response contents |
| `Display` | display.dfy | `DisplayManager`: pages, buttons, redraw timing, row selection, colours |
| `Mqtt` | mqtt.dfy | `MQTTClient`: topics, publishing policy, reconnect timing, commands |

The model works on values, not hardware. Every input the firmware gets
from the outside world is a parameter of the function that consumes it:
clock readings, HTTP replies, bus search results, temperatures, flash
and broker outcomes, and whether a lock or a task was obtained. The
result describes what the firmware does with that input. `millis()` is
a `uint32` and every elapsed-time test uses the wrapping difference
`Common.Elapsed`. Floating-point temperatures are `real`.

## Model

| member | source | states |
|---|---|---|
| Common.Elapsed | src/ota_manager.cpp:464 | the uint32 difference `now - since`: added back to `since` modulo 2^32 it gives `now`, and without a wrap it is the plain difference |
| Common.AddU32 | src/ota_manager.cpp:145 | a uint32 sum: the plain sum below 2^32, the sum less 2^32 above |
| Common.ToLower | src/ota_manager.cpp:589 | same length, every character passed through C `tolower` |
| Common.ToLowerIdempotent | src/ota_manager.cpp:589 | lower-casing twice is lower-casing once |
| Common.Trim | src/ota_manager.cpp:148 | a trimmed line neither starts nor ends with whitespace and is a contiguous part of the line, unchanged, with only whitespace before and after it |
| Common.TrimNoop | src/ota_manager.cpp:148 | a line without surrounding whitespace is left unchanged by trimming |
| Common.Truncate | src/ota_manager.cpp:402 | copying into a buffer of n + 1 bytes keeps a prefix of the text, at most n long, all of it when it fits |
| Common.IndexOf | src/ota_manager.cpp:90 | -1 exactly when the character does not occur; otherwise the position of its first occurrence |
| Common.RemoveAll | src/ota_manager.cpp:83 | replacing a pattern by nothing never lengthens the text and leaves a text without the pattern unchanged |
| Common.RemoveAllSinglePass | src/ota_manager.cpp:83 | the removal is one left-to-right pass: "aabb" without "ab" is "ab", which still contains the pattern |
| Common.RemoveAllDeletesFirst | src/ota_manager.cpp:83 | the first occurrence of the pattern is deleted, the text before it is kept and the removal continues after it; with the fixed point on pattern-free text this determines the result on every text |
| Common.NatToDecimal | src/ota_manager.cpp:209 | a non-empty digit string whose decimal value is the number, with no leading zero |
| Common.NatToDecimalInjective | src/ota_manager.cpp:209 | different numbers print differently |
| Common.LeadingDigits | src/ota_manager.cpp:154 | the longest all-digit prefix: the character after it is not a digit |
| Common.Atol | src/ota_manager.cpp:154 | an all-digit string reads as its decimal value |
| Common.AtolSkipsSpace | src/ota_manager.cpp:154 | whitespace in front of the number does not change the value read |
| Common.AtolReadsNumber | src/ota_manager.cpp:154 | the number stops at the first character that is not a digit; a leading minus negates it, a leading plus keeps it, and a sign without digits reads 0 |
| Common.AtolNoNumber | src/ota_manager.cpp:154 | text that starts with neither whitespace, a sign nor a digit reads as 0 |
| Common.AtolIntToDecimal | src/ota_manager.cpp:209 | a status code printed with `String(int)` and followed by a non-digit reads back as the same code |
| Common.IntToDecimal | src/ota_manager.cpp:670-675 | `String(int)` prints a minus sign exactly for a negative number, followed by digits whose decimal value is the number's magnitude |
| Version.StripV | src/ota_manager.cpp:36-39 | one leading 'v' or 'V' is dropped; any other text is kept |
| Version.ParseVersionNumber | src/ota_manager.cpp:35-66 | a version that is empty after the optional prefix, or whose first character is neither a digit nor a dot, reads as 0 |
| Version.Code | src/ota_manager.cpp:65 | with minor and patch below 100, the three parts can be read back from the code by division |
| Version.Close | src/ota_manager.cpp:49-53 | a dot stores the open value as major after no dot and as minor after one dot, discards it after two, counts the dot and restarts the value |
| Version.ScanStopsAt | src/ota_manager.cpp:54-57 | a character that is neither a digit nor a dot ends the scan: nothing after it changes the state |
| Version.ScanSegment | src/ota_manager.cpp:47-48 | a run of digits accumulates to its decimal value |
| Version.ScanThroughDot | src/ota_manager.cpp:45-53 | a run of digits and the dot after it close the segment with the run's value |
| Version.ParseAfterPrefix | src/ota_manager.cpp:35-39 | a version with a leading 'v' or 'V' is scanned from the character after it |
| Version.ScanTriple | src/ota_manager.cpp:45-58 | "A.B.C" followed by a stop character fills major A, minor B and open value C after two dots |
| Version.ParseTriple | src/ota_manager.cpp:35-66 | "vA.B.C" with any tail parses to A*10000 + B*100 + C |
| Version.ParseShort | src/ota_manager.cpp:60-65 | missing segments count as zero: "vA" is A.0.0 and "vA.B" is A.B.0 |
| Version.ParseIgnoresPrefixV | src/ota_manager.cpp:37-39 | text without a prefix parses the same as with 'v' or with 'V' in front |
| Version.CodeOrder | src/ota_manager.cpp:65 | with minor and patch below 100, the codes order versions exactly as their triples order lexicographically |
| Version.MinorTenAfterNine | src/ota_manager.cpp:35-66 | "v1.10.0" has a larger code than "v1.9.0": segments compare as numbers |
| Version.FirmwareCode | src/config.h:164-172 | the default firmware version "v1.0.0" has code 10000 |
| Version.FourthSegmentDropsPatch | src/ota_manager.cpp:49-61 | "v1.2.3.4" reads as 1.2.0: a third dot discards the patch |
| Version.StripRef | src/ota_manager.cpp:222 | the result is a suffix of the tag |
| Version.NormalizeTagToVersion | src/ota_manager.cpp:220-225 | the normalised tag is non-empty and starts with 'v' |
| Version.NormalizedIsTrimmed | src/ota_manager.cpp:220-225 | the normalised tag has no surrounding whitespace |
| Version.NormalizeIdempotent | src/ota_manager.cpp:220-225 | normalising a normalised tag changes nothing |
| Version.NormalizeCleanTag | src/ota_manager.cpp:223-224 | a clean tag gets a 'v' in front exactly when it does not start with one |
| Version.NormalizeStripsRef | src/ota_manager.cpp:222-224 | "refs/tags/" in front of a clean tag is removed before the 'v' test |
| Version.UpperCaseTagParsesAsZero | src/ota_manager.cpp:223-224 | a tag starting with 'V' becomes "vV...", whose code is 0, so it never counts as an update |
| Version.IsUpdateAvailable | src/ota_manager.cpp:365-377 | true exactly when the lock was obtained, a tag is cached and its code exceeds the firmware's 10000 |
| Version.TripleAvailable | src/ota_manager.cpp:365-377 | for a tag "vA.B.C" an update is available exactly when (A, B, C) is after (1, 0, 0) |
| Url.ParseUrl | src/ota_manager.cpp:76-100 | port 80 exactly when the URL starts with "http://", else 443; the scheme follows the port; the path is non-empty and starts with '/' |
| Url.ParseCompose | src/ota_manager.cpp:76-100 | splitting a URL built from well-formed parts gives those parts back |
| Url.NextTarget | src/ota_manager.cpp:195-201 | an absolute Location replaces the URL; any other is appended to the current scheme and host |
| Url.RelativeRedirectKeepsOrigin | src/ota_manager.cpp:199-200 | a relative redirect keeps scheme, host and port, and its Location becomes the path |
| Url.RemoveSchemeTwice | src/ota_manager.cpp:87 | removing the scheme deletes every copy of it, also one inside the path |
| Url.SchemeRemovedEverywhere | src/ota_manager.cpp:87-96 | "https://h/https://x" is split with path "/x": the second scheme copy is lost |
| Redirect.LineStatus | src/ota_manager.cpp:151-157 | a line yields a status code exactly when it starts with "HTTP/1." and contains a space |
| Redirect.LineLocation | src/ota_manager.cpp:160-165 | a line yields a target exactly when it starts with "Location: " or "location: "; the target is the trimmed rest |
| Redirect.ScanHeadStopsAtEmpty | src/ota_manager.cpp:167-170 | lines after the first empty trimmed line are never looked at |
| Redirect.ReadHeadStopsAtBlank | src/ota_manager.cpp:146-171 | lines after the first blank line of a head are never looked at |
| Redirect.ReadHead | src/ota_manager.cpp:146-171 | a head whose first line is blank yields code 0 and no target |
| Redirect.ScanHeadSources | src/ota_manager.cpp:146-171 | the header loop keeps its starting code and target unless some line supplies a new one |
| Redirect.ReadHeadSources | src/ota_manager.cpp:146-171 | a non-zero code is the status of some trimmed line and a target is the Location of some trimmed line |
| Redirect.StatusLineCode | src/ota_manager.cpp:151-156 | "HTTP/1.x NNN reason" yields the code NNN |
| Redirect.UpperCaseLocationIgnored | src/ota_manager.cpp:160 | a field name in another capitalisation, such as "LOCATION: ", is not recognised |
| Redirect.HeadError | src/ota_manager.cpp:207-212 | "No HTTP response" when no positive code was read, else "HTTP " and the code |
| Redirect.Judge | src/ota_manager.cpp:115-128 | allocation failure and connection failure each get their own verdict, and only those hops do |
| Redirect.JudgeMeaning | src/ota_manager.cpp:146-205 | a head succeeds exactly on 200/206, redirects exactly on another code in 300..399 with a non-empty Location, which it carries, and otherwise fails with the code read |
| Redirect.HopStep | src/ota_manager.cpp:187-213 | only a redirect moves on; a success stops with the current URL and no other verdict does; no SSL client stops with "Out of memory for SSL client", a failed connection with "Connection to <host> failed" for the current URL's host, and any other head with "HTTP <code>" or "No HTTP response" |
| Redirect.HopStepMeaning | src/ota_manager.cpp:187-213 | a hop stops with a URL only on success, and no single hop reports "Too many redirects" |
| Redirect.ResolveFrom | src/ota_manager.cpp:107 | hops from i onwards issue at most 10 - i requests, the first to the given URL |
| Redirect.ResolveChain | src/ota_manager.cpp:193-204 | every requested URL but the last was redirected to the next one |
| Redirect.ResolveLast | src/ota_manager.cpp:107-217 | the last request decides the result, or on the tenth request a further redirect runs the chain out |
| Redirect.ResolveRedirects | src/ota_manager.cpp:104-218 | one to ten requests starting at the start URL, each redirected to the next; success returns the last requested URL |
| Redirect.ResolveSucceedsExactlyOnSuccessCode | src/ota_manager.cpp:188-191 | resolution succeeds exactly when the last request answered 200 or 206 |
| Redirect.ResolveReportsLastStop | src/ota_manager.cpp:104-218 | a resolution that stops on its last requested URL reports that hop's own outcome: the out-of-memory text, the connection failure text naming that URL's host, or the head's error text |
| Redirect.TooManyRedirectsExactly | src/ota_manager.cpp:216-217 | "Too many redirects" exactly when ten requests were made and the tenth redirected too |
| Redirect.AllRedirectsRunOut | src/ota_manager.cpp:107-217 | when every hop redirects, ten URLs are requested and the chain runs out |
| Redirect.ChainRunsOut | src/ota_manager.cpp:107-217 | when every remaining hop moves on, one URL is requested per remaining hop and the chain runs out |
| HttpGet.Body | src/ota_manager.cpp:317-323 | the kept body never exceeds the cap |
| HttpGet.ReceivedSnoc | src/ota_manager.cpp:306-321 | each non-empty read is appended to what was received |
| HttpGet.ReceivedStopsAtEmpty | src/ota_manager.cpp:315 | nothing after the first empty read is received |
| HttpGet.ReceivedExtends | src/ota_manager.cpp:306-324 | later reads only extend what was already received |
| HttpGet.ReadBody | src/ota_manager.cpp:299-324 | the loop keeps exactly the received bytes cut at the cap |
| HttpGet.Describe | src/ota_manager.cpp:258-335 | an attempt is retried exactly when it is retryable (begin failure, refused/lost/no server, 403/429, empty body), accepted exactly on 200 with a non-empty body, and carries its error text |
| HttpGet.NextDelay | src/ota_manager.cpp:243-289 | after a 403 or 429 the next wait is 5000 ms; after any other retried attempt it is the running delay |
| HttpGet.DescribeAll | src/ota_manager.cpp:242-336 | one description per reply, in order |
| HttpGet.GetFrom | src/ota_manager.cpp:242-336 | at most four attempts in all; one wait between consecutive attempts |
| HttpGet.GetFromUnfold | src/ota_manager.cpp:242-336 | a retried attempt is followed by the rest of the call after its wait; an accepted one returns its body; a rejected one its error |
| HttpGet.RetriedAreRetryable | src/ota_manager.cpp:242-336 | every attempt but the last was retried |
| HttpGet.EarlyStopNotRetryable | src/ota_manager.cpp:242-336 | a call ending before the fourth attempt ends on an attempt that is not retried |
| HttpGet.SuccessOnAccept | src/ota_manager.cpp:334-335 | the call succeeds exactly when its last attempt is accepted, with that attempt's body |
| HttpGet.FailureReportsLastError | src/ota_manager.cpp:338-340 | a failed call reports the error of its last attempt |
| HttpGet.BackoffSchedule | src/ota_manager.cpp:243-289 | the first wait is the starting delay, each later one doubles the previous, and after a 403 or 429 the next wait is 5000 ms |
| HttpGet.HttpGetToString | src/ota_manager.cpp:238-341 | one to four attempts, one wait fewer than attempts, and a body within the cap |
| HttpGet.RetriesOnlyRetryable | src/ota_manager.cpp:242-336 | every attempt before the last was retryable, and a call ending early ends on one that is not |
| HttpGet.SuccessExactly | src/ota_manager.cpp:292-335 | success exactly when the last reply was 200 with a non-empty capped body, which is returned; otherwise its error |
| HttpGet.PlainBackoff | src/ota_manager.cpp:243-248 | without rate limiting the waits are 2000, 4000 and 8000 ms |
| HttpGet.PowerStep | src/ota_manager.cpp:247 | doubling from 2000 ms gives 2000 * 2^j before the j-th retry |
| HttpGet.ExhaustedReportsLastError | src/ota_manager.cpp:338-340 | four retryable failures use up the call, which reports the fourth's error |
| Release.LastMatchWins | src/ota_manager.cpp:586-594 | the last asset with the wanted name decides the URL |
| Release.NoMatchEmpty | src/ota_manager.cpp:582-583 | without a matching asset the URL stays empty |
| Release.ExtractAssetUrls | src/ota_manager.cpp:585-596 | the firmware and SPIFFS URLs are those of the last assets named "firmware.bin" and "spiffs.bin" |
| Release.NameCaseIrrelevant | src/ota_manager.cpp:589 | asset lists whose names agree up to case give the same URLs |
| Release.FetchLatestRelease | src/ota_manager.cpp:552-598 | a GET failure is passed on; success needs the GET, the JSON parse and a non-empty tag_name; the tag is normalised and the URLs are those of the last matching assets; a missing tag reports "Missing tag_name" |
| FlashWriter.PercentMonotone | src/ota_manager.cpp:754 | more bytes written never lowers the percentage |
| FlashWriter.PercentBound | src/ota_manager.cpp:754 | the percentage is at most 100, and exactly 100 when everything is written |
| FlashWriter.Publish | src/ota_manager.cpp:754-763 | the new percentage is published last, only when it differs from the last one, so the published list stays increasing and only grows |
| FlashWriter.WriteKeepsAccounted | src/ota_manager.cpp:751-757 | after a write the last published percentage is that of the new total |
| FlashWriter.Got | src/ota_manager.cpp:730-733 | one read takes at most what is offered, what remains and 1024 bytes |
| FlashWriter.StreamFrom | src/ota_manager.cpp:720-766 | the loop completes exactly when every byte is written; the published percentages match what was written |
| FlashWriter.StreamFromExtends | src/ota_manager.cpp:720-766 | the byte count never decreases and published percentages stay published |
| FlashWriter.Stream | src/ota_manager.cpp:714-766 | at most the content length is written; completion exactly when all of it is; percentages increase, stay within 100, end at the current one, and reach 100 on completion; a stall before the first read times out with nothing written or published |
| FlashWriter.ZeroReadRetried | src/ota_manager.cpp:734-738 | a read that delivers nothing changes nothing |
| FlashWriter.WriteFailureAborts | src/ota_manager.cpp:742-749 | a refused write ends the loop with nothing more written |
| FlashWriter.StallAborts | src/ota_manager.cpp:722-723 | more than 30 s without progress on the 32-bit clock ends the loop with a timeout and nothing more written, whatever the stream would still deliver |
| FlashWriter.ProgressRestartsClock | src/ota_manager.cpp:740-757 | an accepted write restarts the 30 s window at the time of its read, adds the bytes and publishes the new percentage only when it changed |
| FlashWriter.GetError | src/ota_manager.cpp:668-676 | a GET that did not answer 200 reports its code; a transport failure (code 0 or below) adds the client's description, and the TLS error when there is one |
| FlashWriter.Preflight | src/ota_manager.cpp:622-687 | no error exactly when the client is allocated, `begin` succeeds, the code is 200 and the length is positive; otherwise the text of the first check that fails, in that order |
| FlashWriter.WriteFirmware | src/ota_manager.cpp:600-802 | a session opens exactly when the partition exists, the download passes its checks, the length fits and `esp_ota_begin` succeeds; the writer never reports success and restarts the device only after writing everything, ending the session cleanly and setting the boot partition; every failure carries its own text: no partition (616), the download checks (625, 646, 670-676, 686), too large (693), `esp_ota_begin` (703), timeout (722-723), `esp_ota_write` (744), bad signature (779), `esp_ota_end` (781), `esp_ota_set_boot_partition` (789) |
| FlashWriter.WriteSpiffs | src/ota_manager.cpp:805-957 | a session opens exactly when the download passes its checks and `Update.begin` succeeds; the writer never restarts the device and reports success only after writing everything and ending the update; every failure carries its own text: the download checks (813, 831, 854-859, 870), `Update.begin` (880), timeout (896-897), write failed (917), `Update.end` (951) |
| FlashWriter.WritersStreamAlike | src/ota_manager.cpp:894-939 | with the sessions open, both writers write the same bytes and publish the same percentages |
| OtaManager.SetProgress | src/ota_manager.cpp:397-412 | state and percent are set and the target kept; message and error are truncated to the 96-byte buffers, kept whole when they fit, and a missing error clears the field |
| OtaManager.IsBusy | src/ota_manager.cpp:422-425 | not busy exactly in IDLE, READY and ERROR |
| OtaManager.EnsureReleaseInfoFresh | src/ota_manager.cpp:483-517 | the release cache is never touched; flashing answers "OTA busy"; the call fails exactly when it reports an error; a change happens only when idle with no check task, giving CHECKING when the check task starts and ERROR with the spawn error when not |
| OtaManager.CheckStartsExactly | src/ota_manager.cpp:483-517 | a check task is started, or its spawn failure reported, exactly when nothing is busy, no check runs, and the call is forced or the cache is stale or unreadable |
| OtaManager.SecondCallNoop | src/ota_manager.cpp:490-492 | right after a check starts, any further call changes nothing and succeeds |
| OtaManager.RunCheckTask | src/ota_manager.cpp:525-550 | the check-task handle clears; READY with the fetched release stamped with the time when the lock is held; ERROR with the fetch error and the old release otherwise |
| OtaManager.CheckTask | src/ota_manager.cpp:519-598 | READY only after a successful GET and parse; the stored release is then stamped, has a 'v' tag and an empty body |
| OtaManager.CheckedReleaseStaysFresh | src/ota_manager.cpp:499-501 | within five minutes of a check an unforced call changes nothing |
| OtaManager.CheckedReleaseGoesStale | src/ota_manager.cpp:499-516 | five minutes or more after a check an unforced call starts a new one |
| OtaManager.Update | src/ota_manager.cpp:455-481 | the release is never touched; the timer restarts on the first call and when the check is due; while it is not due progress and task stay; a due check with no check task running starts one (CHECKING) or reports the spawn failure (ERROR) |
| OtaManager.AutoCheckAcrossWrap | src/ota_manager.cpp:464 | the check is due exactly when 24 hours have passed, also across the millis() wrap |
| OtaManager.BootCheckAfterDelay | src/ota_manager.cpp:359-363 | after checkOnBoot the first automatic check is due exactly 90 s later |
| OtaManager.CheckOnBoot | src/ota_manager.cpp:359-363 | the stored check time lies 24 hours less 90 s behind the boot time, modulo 2^32, so the periodic test fires 90 s after boot |
| OtaManager.StartUpdate | src/ota_manager.cpp:959-1036 | the call fails exactly when it reports an error, never touches the release or the auto-check clock, and answers "OTA already in progress" while busy |
| OtaManager.StartAcceptedExactly | src/ota_manager.cpp:985-1035 | accepted exactly when every guard passes and the update task starts; the progress is then UPDATING_FIRMWARE at 0 for the target; a failed spawn leaves ERROR |
| OtaManager.CheckingBranchUnreachable | src/ota_manager.cpp:960-969 | "Checking for updates, please wait" is never answered: CHECKING already counts as busy |
| OtaManager.RejectionSideEffects | src/ota_manager.cpp:973-978 | without cached release info the call requests a check and answers "Update info not ready"; no other rejection changes state except a failed spawn |
| OtaManager.GuardOrder | src/ota_manager.cpp:980-1012 | a release equal to the running version is "Already up to date" for every target; a missing firmware asset stops FIRMWARE and BOTH but not SPIFFS; with both assets present, a missing OTA partition stops FIRMWARE and BOTH, and a heap under 50000 bytes then gives "Not enough memory for OTA" with the heap in KB for SPIFFS always and for the others when the partition exists |
| OtaManager.AfterWriter | src/ota_manager.cpp:754-757 | after a writer that published, the progress shows its phase and last percentage; otherwise it is unchanged |
| OtaManager.FlashPhase | src/ota_manager.cpp:1086-1111 | a phase logs its flash, continues exactly when the writer succeeded, and on failure reports ERROR with the writer's error and leaves OTA mode |
| OtaManager.RunUpdateTask | src/ota_manager.cpp:1045-1075 | the update task always begins by putting MQTT, WebSocket and display into OTA mode |
| OtaManager.SpiffsBeforeFirmware | src/ota_manager.cpp:1082-1104 | for BOTH with a SPIFFS asset, SPIFFS is flashed first and firmware only after SPIFFS succeeded |
| OtaManager.FailureRestoresCollaborators | src/ota_manager.cpp:1088-1152 | an ERROR ends with the three collaborators leaving OTA mode right after the flash that failed |
| OtaManager.RebootingExactly | src/ota_manager.cpp:1045-1161 | REBOOTING exactly when every phase that ran succeeded, then at 100 % with a restart last |
| OtaManager.UpdateTask | src/ota_manager.cpp:793-798 | with the real writers REBOOTING is reached only by a SPIFFS-only update, because the firmware writer restarts the device itself |
| Config.DefaultSlots | src/config_manager.cpp:79-81 | ten slots, each the default sensor configuration |
| Config.ResetToDefaults | src/config_manager.cpp:74-85 | every slot is the default, the store is marked dirty, and the storage flags are kept |
| Config.MarkDirty | src/config_manager.h:193 | only the dirty flag changes, and it is set |
| Config.ClearDirty | src/config_manager.h:203 | only the dirty flag changes, and it is cleared |
| Config.GetSensorConfig | src/config_manager.cpp:176-181 | a slot is returned exactly for an index below 10, and it is that slot |
| Config.LookupFrom | src/config_manager.cpp:195-200 | a found slot is configured with exactly that address |
| Config.LookupFromFirst | src/config_manager.cpp:195-202 | the first such slot is returned; none is returned only when no slot matches |
| Config.GetSensorConfigByAddress | src/config_manager.cpp:190-203 | a null address finds nothing; a found slot matches the address |
| Config.LookupExactly | src/config_manager.cpp:190-203 | nothing is found exactly when no configured slot has the address; otherwise the first matching slot is found |
| Config.FreeFrom | src/config_manager.cpp:228-229 | a returned slot is unconfigured |
| Config.FreeFromFirst | src/config_manager.cpp:228-244 | the first unconfigured slot is returned; none only when all are configured |
| Config.ConfiguredCount | src/config_manager.cpp:247-255 | the count never exceeds the number of slots |
| Config.ConfiguredCountClaim | src/config_manager.cpp:236 | configuring a free slot raises the count by one |
| Config.ConfiguredCountFull | src/config_manager.cpp:247-255 | the count is 10 exactly when every slot is configured |
| Config.FindOrCreate | src/config_manager.cpp:220-245 | an existing slot is returned unchanged; otherwise the first free slot gets the truncated address and the name "Sensor i+1", is configured, and the store is dirty; nothing is returned, and nothing changes, exactly when the address is absent and no slot is free |
| Config.FindOrCreateIdempotent | src/config_manager.cpp:220-245 | a second call with the same address returns the same slot and changes nothing |
| Config.FindOrCreateCount | src/config_manager.cpp:220-245 | the count rises by one exactly when a slot was claimed; a new address is refused exactly when all ten slots are configured |
| Config.LoadFromNvs | src/config_manager.cpp:87-119 | loading succeeds exactly when storage is open and the stored blob has the right size, magic and version; it then replaces every section and clears the dirty flag, and a failure changes nothing |
| Config.SaveToNvs | src/config_manager.cpp:121-145 | saving succeeds exactly when storage is open and the whole blob was written; it then stores the current sections and clears the dirty flag, and a failure changes nothing |
| Config.SaveLoadRoundTrip | src/config_manager.cpp:87-145 | what a successful save writes, a later load reads back as the same four sections |
| Config.SensorFromJson | src/config_manager.cpp:375-387 | an imported slot is configured; address and name are prefixes of the given texts that fit their buffers, kept whole when they fit; a missing address reads "", a missing name "Sensor", a missing offset 0, missing thresholds 10 and 80 degrees, a missing alert flag true; every present member is taken as given |
| Config.ImportSensors | src/config_manager.cpp:342-357 | the first (up to ten) array elements fill the slots in order; the other slots are default |
| Config.FromJson | src/config_manager.cpp:300-360 | a missing section leaves that section alone and a present one is replaced by its section import (`SystemFromJson` under the current name, `WiFiFromJson`, `MqttFromJson`); the sensor table is always reset and refilled by `ImportSensors` from the array, or left all default without one; the configured count afterwards is the array length capped at 10; the flags are untouched |
| Config.SystemFromJson | src/config_manager.cpp:302-313 | a missing device name keeps the current one; a given one is cut to its first 32 characters; a read interval or UTC offset that is missing or outside the 32-bit `int` range takes its default (2, 0); an `int` interval is reduced modulo 2^32 into the `uint32_t` field (a negative one gains 2^32) and an `int` offset is reduced modulo 256 into the `int8_t` range; an empty object gives the default settings under the current name |
| Config.WiFiFromJson | src/config_manager.cpp:316-327 | every text fits its field (32, 64 and 15 characters); an empty object gives the default WiFi settings |
| Config.MqttFromJson | src/config_manager.cpp:330-343 | every text fits its field (64, 32, 64 and 64 characters), the port a `uint16_t` and the interval a `uint32_t`; a port outside 0..65535 or missing reads as 1883; an interval missing or outside the `int` range reads as 10, and a negative one gains 2^32; a missing "enabled" means disabled; an empty object gives the default MQTT settings |
| Config.NarrowingExamples | src/config_manager.cpp:308-339 | a UTC offset of 200 is stored as -56, a read interval of -5 as 4294967291, one of 3000000000 falls back to 2, and a port of 70000 falls back to 1883 |
| Config.SystemJsonRoundTrip | src/config_manager.cpp:261-313 | system settings survive export and import exactly when the name fits 32 characters, the offset fits `int8_t` and the interval fits a non-negative `int`; an interval above 2^31 - 1 comes back as 2 |
| Config.WiFiJsonRoundTrip | src/config_manager.cpp:269-327 | WiFi settings survive export and import exactly when every text fits its field |
| Config.MqttJsonRoundTrip | src/config_manager.cpp:279-343 | MQTT settings survive export and import exactly when every text fits its field, the port fits `uint16_t` and the interval fits a non-negative `int` |
| Config.ImportedCount | src/config_manager.cpp:348-356 | the first n imported slots hold min(array length, n) configured ones |
| Config.SensorToJson | src/config_manager.cpp:366-373 | every member of the slot but the configured flag is written with its stored value |
| Config.SystemToJson | src/config_manager.cpp:260-266 | every member of the system settings is written with its stored value |
| Config.WiFiToJson | src/config_manager.cpp:268-276 | every member of the WiFi settings, password included, is written with its stored value |
| Config.MqttToJson | src/config_manager.cpp:278-288 | every member of the MQTT settings, password included, is written with its stored value |
| Config.ToJson | src/config_manager.cpp:257-298 | the document holds all three sections and one array element per configured slot |
| Config.StoreJsonRoundTrip | src/config_manager.cpp:257-360 | exporting a store and importing it into any store gives back each section exactly when it fits its fields, packs the configured slots to the front in order, resets the rest and keeps the target's dirty flag |
| Config.ExportSensors | src/config_manager.cpp:290-297 | one array element per configured slot |
| Config.Configured | src/config_manager.cpp:292-296 | the configured slots in slot order, as many as the count |
| Config.ExportImportSlots | src/config_manager.cpp:366-387 | importing an exported slot gives the slot back |
| Config.SensorTableRoundTrip | src/config_manager.cpp:257-360 | export then import packs the configured slots to the front in order and leaves the rest default |
| Sensors.InitialData | src/sensor_manager.h:56-72 | a fresh record is disconnected in the sensor-error state with no errors, invalid temperatures and every history slot holding the never-written marker |
| Sensors.InitialHoldsNothing | src/sensor_manager.h:56-72 | a fresh record holds no history writes |
| Sensors.Push | src/sensor_manager.cpp:509-514 | adding to the history keeps the ring well formed and changes nothing but the ring |
| Sensors.PushHolds | src/sensor_manager.cpp:504-515 | after a sequence of writes the ring holds the last min(writes, 30) values, each in the slot its position modulo 30 selects, with the cursor at writes modulo 30 |
| Sensors.Trunc | src/sensor_manager.cpp:509 | the float-to-int16 conversion lands within one unit of its argument, toward zero |
| Sensors.HistoryValueAsWritten | src/sensor_manager.cpp:509 | the stored history value is the temperature itself truncated toward zero to whole degrees (not hundredths): at most one degree below a non-negative reading and at most one above a negative one |
| Sensors.HistoryValue | src/sensor_manager.h:46 | the stored history value is the temperature in hundredths of a degree truncated toward zero: at most one hundredth below a non-negative reading and at most one above a negative one |
| Sensors.AddressToString | src/sensor_manager.cpp:255-260 | the hex form of an address has two upper-case hex digits per byte |
| Sensors.ParseAddress | src/sensor_manager.cpp:255-260 | a parsed hex string gives one byte per two characters |
| Sensors.AddressRoundTrip | src/sensor_manager.cpp:255-260 | parsing the hex form of an address gives the address back |
| Sensors.AddressToStringInjective | src/sensor_manager.cpp:255-260 | two different addresses never share a hex form, so address strings identify probes |
| Sensors.AddressStringLength | src/sensor_manager.cpp:255-260 | an 8-byte address prints as the 16 characters a configuration slot stores |
| Sensors.UpdateAlarm | src/sensor_manager.cpp:446-502 | a disconnected probe is untouched; no config or alerts off forces Normal silently; otherwise the state becomes the hysteresis classification, and exactly when it changes the previous state is remembered and one alarm notice carries old state, new state and temperature |
| Sensors.Classify | src/sensor_manager.cpp:464-480 | below the low threshold is a low alarm; a low alarm holds until the reading reaches low + 1 degree; above both high and low + 1 degree is a high alarm; a high alarm holds above high - 1 degree; inside the band narrowed by 1 degree on both sides is normal |
| Sensors.LowAlarmHysteresis | src/sensor_manager.cpp:464-478 | a low alarm is entered below the low threshold and kept until the temperature reaches the threshold plus 1 degree |
| Sensors.HighAlarmHysteresis | src/sensor_manager.cpp:464-480 | a high alarm is entered above the high threshold and kept until the temperature drops to the threshold minus 1 degree |
| Sensors.AlarmSettles | src/sensor_manager.cpp:446-502 | a second evaluation with the same temperature changes nothing and fires no notice |
| Sensors.ConfigFor | src/config_manager.cpp:190-203 | a configuration found for an address is a configured slot with that address |
| Sensors.ApplyCalibration | src/sensor_manager.cpp:517-531 | the invalid marker passes through; otherwise the temperature is the raw value plus the probe's offset, or the raw value without a configuration |
| Sensors.ReadOne | src/sensor_manager.cpp:149-200 | a valid reading clears the error count, reconnects with a notice, stores raw and calibrated temperature and appends to the history; an invalid one bumps the 32-bit error count, disconnects at the third error with the invalid marker, the sensor-error alarm and the notices in firmware order, and otherwise changes nothing else |
| Sensors.ReadMany | src/sensor_manager.cpp:149-200 | successive readings keep the record well formed |
| Sensors.ErrorRun | src/sensor_manager.cpp:153-175 | n invalid readings add n to the error count and leave the probe connected only while fewer than 3 errors have accumulated |
| Sensors.ThirdErrorDisconnects | src/sensor_manager.cpp:153-173 | from a healthy probe the first two invalid readings keep it connected and the third disconnects it with the invalid marker and the sensor-error alarm |
| Sensors.ValidReadingRecovers | src/sensor_manager.cpp:178-190 | whatever came before, a valid reading reconnects the probe with a zero error count and that raw temperature |
| Sensors.ReadManySnoc | src/sensor_manager.cpp:149-200 | a run of readings followed by one more is the run then that single reading |
| Sensors.InitialBank | src/sensor_manager.h:270 | the manager starts with no discovered probes and well-formed records |
| Sensors.AddToHistory | src/sensor_manager.cpp:504-515 | an index past the count changes nothing; otherwise only that record's ring changes |
| Sensors.HasDataChanged | src/sensor_manager.h:261-265 | reports the flag and leaves it cleared, nothing else changing |
| Sensors.DataChangedOnce | src/sensor_manager.h:261-265 | a second query right after the first reports no change |
| Sensors.GetSensorData | src/sensor_manager.cpp:223-235 | a record is returned exactly for an index below the count, and it is that slot's record |
| Sensors.IndexFrom | src/sensor_manager.cpp:246-253 | the search from a slot gives -1 or a slot at or after it, below the count, with that address |
| Sensors.GetSensorIndexByAddress | src/sensor_manager.cpp:246-253 | the index is -1 or a discovered slot with that address |
| Sensors.IndexFromFirst | src/sensor_manager.cpp:246-253 | the search from a slot fails exactly when no later slot has the address, and otherwise no earlier slot after the start has it |
| Sensors.IndexExactly | src/sensor_manager.cpp:246-253 | -1 exactly when no discovered probe has the address, otherwise the first one that has it |
| Sensors.AlarmCountTo | src/sensor_manager.cpp:421-432 | the alarm count over the first n slots is at most n |
| Sensors.GetAlarmCount | src/sensor_manager.cpp:421-432 | the alarm count is at most the number of discovered probes |
| Sensors.AlarmFromExists | src/sensor_manager.cpp:411-419 | the scan from a slot reports an alarm exactly when some slot in range is in a threshold alarm |
| Sensors.AlarmCountExists | src/sensor_manager.cpp:421-432 | the count is positive exactly when some slot in range is in a threshold alarm |
| Sensors.HasAlarmExactly | src/sensor_manager.cpp:411-432 | hasAlarm agrees with a positive alarm count, and both mean some discovered probe is below low or above high (a sensor error does not count) |
| Sensors.HasAlarm | src/sensor_manager.cpp:411-419 | true exactly when some live sensor is in a low or a high alarm |
| Sensors.AlarmCountChange | src/sensor_manager.cpp:421-432 | changing one probe's state moves the count by exactly the change in whether that probe is alarming |
| Sensors.AlarmCountPrefix | src/sensor_manager.cpp:421-432 | the count depends only on the alarm states of the counted slots |
| Sensors.CheckAlarms | src/sensor_manager.cpp:438-444 | re-evaluating every probe's alarm keeps the records well formed |
| Sensors.ReadTemperatures | src/sensor_manager.cpp:135-206 | a read pass keeps the probe count and the rescan flag, and with no probes changes nothing |
| Sensors.ReadTemperaturesSlot | src/sensor_manager.cpp:135-206 | slots past the count are untouched; each probe gets its reading, then its alarm evaluation, after which the alarm is settled; a valid reading appends the corrected hundredths value (`Sensors.HistoryValue`, not the whole degrees the firmware stores) to the history and an invalid one leaves the history as it was |
| Sensors.Ds18b20s | src/sensor_manager.cpp:80-84 | the discovered addresses are the found addresses whose family byte is 0x28 |
| Sensors.Enumerate | src/sensor_manager.cpp:80-113 | enumeration claims one slot per DS18B20 address up to 10 slots and touches no slot outside the claimed range |
| Sensors.ClaimAllClaims | src/sensor_manager.cpp:86-97 | the k-th taken address is written into slot count + k |
| Sensors.ConfigureAllConfigures | src/sensor_manager.cpp:99-102 | every taken address has a configuration after the pass unless the table is full |
| Sensors.ConfigureAllKeeps | src/sensor_manager.cpp:99-102 | the find-or-create pass never loses an address's configuration |
| Sensors.EnumerateClaims | src/sensor_manager.cpp:86-112 | the k-th claimed slot holds the k-th DS18B20 address, its hex form, connected with no errors |
| Sensors.DiscoverSensors | src/sensor_manager.cpp:59-133 | the count becomes min(DS18B20s found, 10), the rescan flag is cleared, previously connected probes past the new count are disconnected with a sensor error, and other slots past the count are untouched |
| Sensors.DiscoveredSlot | src/sensor_manager.cpp:86-97 | each discovered slot holds the DS18B20 address in bus order, its hex form, connected with a zero error count |
| Sensors.EnumerateConfigures | src/sensor_manager.cpp:99-102 | every claimed probe ends with a configuration for its address unless the configuration table is full |
| Sensors.FindOrCreateFinds | src/config_manager.cpp:220-245 | find-or-create leaves a configuration for the address unless the table is full |
| Sensors.EnumerateKeeps | src/sensor_manager.cpp:99-102 | later find-or-create calls during enumeration never lose a configuration an address already has |
| Sensors.FindOrCreateKeeps | src/config_manager.cpp:220-245 | find-or-create for one address never loses the configuration of another |
| Sensors.CalibrateSensor | src/sensor_manager.cpp:311-335 | calibration applies exactly to a discovered, connected probe with a configuration; it sets that slot's offset to reference minus raw, marks the store dirty, and changes only that probe's temperature |
| Sensors.CalibrationHitsReference | src/sensor_manager.cpp:311-335 | after calibration the probe's calibrated temperature, and any later calibration of the same raw value, equals the reference |
| Sensors.IsUncalibrated | src/sensor_manager.cpp:291-309 | false past the live sensors; true without a configuration; otherwise true exactly for a default name (empty or "Sensor ...") with a zero offset |
| Sensors.CalibrationMarks | src/sensor_manager.cpp:291-335 | a calibration that changes the offset leaves the sensor no longer uncalibrated |
| Sensors.UncalibratedFromAsWritten | src/sensor_manager.cpp:276-281 | the loop counts at most one probe per remaining slot |
| Sensors.CalibrateUncalibratedAsWritten | src/sensor_manager.cpp:272-289 | the reported count is at most the probe count, and the store is saved exactly when it is positive |
| Sensors.UncalibratedFrom | src/sensor_manager.cpp:276-281 | the corrected loop counts at most the connected probes in range |
| Sensors.ConnectedFromFrame | src/sensor_manager.cpp:276-281 | the connected count depends only on the connection flags of the counted slots |
| Sensors.CalibrateUncalibrated | src/sensor_manager.cpp:272-289 | the corrected count is at most the number of connected probes, and the store is saved exactly when it is positive |
| Sensors.UncalibratedCountAsWritten | src/sensor_manager.cpp:276-283 | a single disconnected, uncalibrated probe is reported as calibrated although the store is unchanged |
| Sensors.UncalibratedCountCorrected | src/sensor_manager.cpp:276-283 | the corrected count for that probe is zero |
| Sensors.CalibrateKeepsOthers | src/sensor_manager.cpp:311-335 | calibrating one probe leaves the configuration that every other address finds unchanged |
| Sensors.UncalibratedFromCounts | src/sensor_manager.cpp:276-281 | with distinct addresses, the corrected loop from slot i counts exactly the probes from i on that are uncalibrated, connected and configured at the start, which are the ones it calibrates |
| Sensors.UncalibratedFromAsWrittenCounts | src/sensor_manager.cpp:276-281 | with distinct addresses, the loop as written from slot i counts exactly the probes from i on that are uncalibrated at the start, calibrated or not |
| Sensors.CalibrationCounts | src/sensor_manager.cpp:272-289 | with distinct addresses, the corrected calibrateUncalibrated reports exactly the number of probes it calibrates, while the one as written reports every probe that was uncalibrated when it started |
| WiFi.SetState | src/wifi_manager.cpp:362-375 | the state becomes the new one; the previous state is recorded and one callback (old, new) fires exactly when the state changes, otherwise nothing changes |
| WiFi.StartAp | src/wifi_manager.cpp:208-240 | the access point is up and the state is AP_STA_MODE when the station is kept, AP_MODE otherwise; the retry bookkeeping is untouched |
| WiFi.AttemptConnection | src/wifi_manager.cpp:377-410 | an empty SSID starts the access point; otherwise the 8-bit attempt counter goes up by one, both clocks are set to now and the state is CONNECTING |
| WiFi.Connect | src/wifi_manager.cpp:163-200 | a connect from the access-point retry enters CONNECTING with both clocks at now and the attempt counter unchanged |
| WiFi.HandleTimeout | src/wifi_manager.cpp:412-424 | a timeout falls back to access point plus station after 3 attempts, and to DISCONNECTED before |
| WiFi.Begin | src/wifi_manager.cpp:36-55 | with an SSID the first attempt starts (counter 1, CONNECTING); without one the access point runs in AP_MODE |
| WiFi.Reconnect | src/wifi_manager.cpp:267-271 | with an SSID a reconnect counts as the first attempt again |
| WiFi.Update | src/wifi_manager.cpp:57-121 | CONNECTING becomes CONNECTED with a zero counter when the link is up and times out after 15 s on the 32-bit clock; losing the link from CONNECTED reports the drop first and re-attempts at once; DISCONNECTED and the access-point states retry only with an SSID after 30 s, and otherwise nothing happens |
| WiFi.UpdateConsistent | src/wifi_manager.cpp:57-121 | the access point is up whenever the state is an access-point state, and the counter fits 8 bits, across every update and reconnect |
| WiFi.ThreeTimeoutsFallBack | src/wifi_manager.cpp:377-424 | from a zero counter, two timed-out attempts leave the manager DISCONNECTED and the third falls back to access point plus station |
| WiFi.ApRetryReturnsToAp | src/wifi_manager.cpp:113-117 | once the attempts are exhausted, a timed-out retry from the access point goes back to AP_STA_MODE |
| WiFi.ConnectionResetsCounter | src/wifi_manager.cpp:66-98 | a connection resets the counter, so a later link loss starts again at the first attempt |
| WiFi.Rssi | src/wifi_manager.cpp:131-136 | the RSSI is 0 unless connected |
| WiFi.SignalStrength | src/wifi_manager.cpp:138-149 | a percentage in 0..100: 0 for no link, 100 for any other reading at -50 dBm or better, 0 at -100 dBm or worse, and 2*(rssi+100) strictly between |
| WiFi.SignalMonotone | src/wifi_manager.cpp:138-149 | a stronger signal never gives a lower percentage |
| WiFi.StartAsyncScan | src/wifi_manager.cpp:309-329 | previous results are discarded and the scan is in progress exactly when the radio reports it running |
| WiFi.ScanNetworks | src/wifi_manager.cpp:273-307 | a finished scan answers its cached count; otherwise the answer is a count (then cached), -1 with a scan running, or -2 with none running; nothing but the scan fields changes |
| WiFi.ScanCached | src/wifi_manager.cpp:273-307 | the scan fields stay consistent, and once a count is answered every later call answers the same without asking the radio |
| WiFi.ScannedNetwork | src/wifi_manager.cpp:331-341 | an index names a result exactly when the count is non-negative and the index is below it |
| WebApi.ReadBackSlot | src/web_server.cpp:771-773 | every visited index is a slot of the ring |
| WebApi.HistoryWindow | src/web_server.cpp:771-777 | the handler visits as many slots as the record counts |
| WebApi.WindowIsLastWrites | src/web_server.cpp:771-777 | the visiting order reads back exactly the last historyCount writes, oldest first |
| WebApi.Readings | src/web_server.cpp:774-775 | skipping never-written slots never adds entries |
| WebApi.ReadingsOfValid | src/web_server.cpp:774-775 | with no never-written marker, every slot is reported, decoded, in order |
| WebApi.GetHistory | src/web_server.cpp:759-763 | 404 exactly for an index past the discovered probes |
| WebApi.HistoryAnswersLastWrites | src/web_server.cpp:759-782 | for a probe whose writes are real readings, the answer is its last min(writes, 30) values, oldest first, divided by 100 |
| WebApi.HistoryScaleAsWritten | src/web_server.cpp:775 | as written, 23.5 degrees is stored as 23 and reported as 0.23 |
| WebApi.HistoryScaleCorrected | src/web_server.cpp:775 | with hundredths stored, the reported value is within 0.01 degree of the temperature |
| WebApi.OtaStateFromName | src/web_server.cpp:788-799 | a name a client reads back names the state that prints as it |
| WebApi.OtaStateName | src/web_server.cpp:788-799 | every state has a non-empty name of lower-case letters and underscores |
| WebApi.OtaStateNameRoundTrip | src/web_server.cpp:788-799 | every state's name reads back as that state, so the seven names are distinct |
| WebApi.GetOtaInfo | src/web_server.cpp:801-861 | the running version is always reported; OTA disabled answers "OTA disabled" with nothing available and no state change; only force=1 can start a check; otherwise the tag is the cached release's and an update is offered exactly when the tag is non-empty and differs from the running version as a string |
| WebApi.InfoOffersOlderRelease | src/web_server.cpp:849-850 | the info endpoint's flag means "the cached tag differs from the running version", not "is newer": for a release v0.b.c the flag is set while isUpdateAvailable, which compares version numbers, answers false |
| WebApi.ParseTarget | src/web_server.cpp:895-900 | "firmware" or "spiffs" in any letter case select that image, anything else or no field means both |
| WebApi.TargetIgnoresCase | src/web_server.cpp:895-900 | the target does not depend on letter case, and a missing field means both |
| WebApi.StartOtaUpdate | src/web_server.cpp:877-909 | 403 exactly when OTA is disabled; 200 exactly when OTA is enabled, WiFi is CONNECTED or AP_STA_MODE, the body parses and the manager accepts the start; only those statuses and 400 occur; the manager changes only through that start |
| WebApi.ScanSignal | src/web_server.cpp:662-666 | the listed signal is a percentage in 0..100 |
| WebApi.ScanSignalAgrees | src/web_server.cpp:662-666 | for every non-zero RSSI the listing's percentage equals getSignalStrength's |
| WebApi.Listing | src/web_server.cpp:652-667 | the listing never grows and holds only named networks |
| WebApi.ListingExactly | src/web_server.cpp:652-667 | a network is listed exactly when it was scanned and has a non-empty SSID |
| WebApi.WiFiScan | src/web_server.cpp:624-675 | -1 reports a running scan and -2 a failed one; otherwise at most 20 entries, the named networks among the first min(count, 20) results in scan order |
| WebApi.WiFiConfigView | src/web_server.cpp:435-450 | the WiFi settings response is the stored record with the password blanked and nothing else changed |
| WebApi.ReplacePassword | src/web_server.cpp:467-469 | an absent or empty password keeps the stored one; a non-empty one replaces it, cut to the buffer |
| WebApi.ApplyWiFiUpdate | src/web_server.cpp:462-484 | the stored password changes only by the non-empty-password rule |
| WebApi.WiFiFormRoundTrip | src/web_server.cpp:435-484 | submitting the settings page as read back (blank password) leaves the stored WiFi record, password included, unchanged |
| WebApi.WiFiViewHidesPassword | src/web_server.cpp:440 | the WiFi response does not depend on the stored password |
| WebApi.UpdateWiFiConfig | src/web_server.cpp:452-496 | invalid JSON answers 400 with nothing changed; otherwise the fields are written in memory, a failed save answers 500 without reconnecting, and a successful one answers 200 and reconnects with the new SSID |
| WebApi.MqttConfigView | src/web_server.cpp:498-515 | the MQTT settings response is the stored record with the password blanked and nothing else changed |
| WebApi.ApplyMqttUpdate | src/web_server.cpp:527-555 | the stored MQTT password changes only by the non-empty-password rule |
| WebApi.MqttFormRoundTrip | src/web_server.cpp:498-555 | submitting the MQTT page as read back leaves the stored MQTT record, password included, unchanged |
| Display.PageNumber | src/display_manager.cpp:93 | a page's number is one of the four pages |
| Display.PageAt | src/display_manager.cpp:95 | converting a number back to a page gives the page with that number |
| Display.InitialScreen | src/display_manager.h:69-75 | the display starts on the sensors page at the first sensor with a redraw pending |
| Display.NextPage | src/display_manager.cpp:92-99 | the page advances mod 4, the sensor offset returns to 0, a redraw is requested and nothing else changes |
| Display.PreviousPage | src/display_manager.cpp:101-107 | the page goes back mod 4 (plus 3), the offset returns to 0, a redraw is requested and nothing else changes |
| Display.PageMovesInverse | src/display_manager.cpp:92-107 | previous after next, and next after previous, return to the same page |
| Display.NextPagesCycle | src/display_manager.cpp:92-99 | k presses advance the page by k mod 4, so four presses come back to the same page |
| Display.NextSensorPage | src/display_manager.cpp:109-117 | without a sensor manager or with at most 4 sensors nothing changes; otherwise only the offset and the redraw flag change, and the offset stays below the sensor count |
| Display.ScrollSteps | src/display_manager.cpp:109-117 | from the first sensor, k scroll presses land on offset 4k while that is below the count |
| Display.HandleButton1 | src/display_manager.cpp:131-141 | a press within 200 ms of the last accepted one on the 32-bit clock is ignored; otherwise it is recorded and scrolls on the sensors page, or moves to another page with the offset reset |
| Display.HandleButton2 | src/display_manager.cpp:143-149 | a bounced press is ignored; otherwise it is recorded and always moves to another page with the offset reset |
| Display.ButtonsAgreeOffSensorsPage | src/display_manager.cpp:131-149 | away from the sensors page both buttons do the same |
| Display.SecondPressIgnored | src/display_manager.cpp:131-149 | a second press less than 200 ms after an accepted one changes nothing, whichever button |
| Display.Update | src/display_manager.cpp:53-90 | the screen is redrawn exactly when a redraw is pending or 500 ms have passed on the 32-bit clock; a redraw clears the flag and stamps the time, and otherwise nothing changes |
| Display.PressIsDrawn | src/display_manager.cpp:53-63 | an accepted button press is drawn at the next update whatever the time |
| Display.ColorValue | src/display_manager.h:87-91 | every colour is a 16-bit RGB565 value |
| Display.TemperatureColor | src/display_manager.cpp:426-435 | cold exactly below the low threshold; alert exactly above the high one and not below the low one; OK exactly at least 5 degrees inside both thresholds; warn otherwise |
| Display.ColorMatchesFreshAlarm | src/display_manager.cpp:426-435 | for a probe not yet in alarm, the cold colour coincides with a low alarm and the alert colour with a high alarm |
| Display.ColorDuringHeldLowAlarm | src/display_manager.cpp:426-435 | while a low alarm is held by hysteresis the colour is cold or warn, never OK or alert |
| Display.ShortName | src/display_manager.cpp:211-214 | a name within the limit is shown as is; a longer one becomes its first limit-1 characters and a '.' |
| Display.SensorName | src/display_manager.cpp:211 | the configured name, or "Sensor " followed by the 1-based index without a configuration |
| Display.DefaultNamesDiffer | src/display_manager.cpp:211 | two unconfigured sensors at different indices get different default names |
| Display.SensorLine | src/display_manager.cpp:205-233 | each row carries its index and a name of at most 12 characters; a temperature is shown exactly when it is above the invalid marker plus 1, and then it is the probe's temperature |
| Display.FirstShown | src/display_manager.cpp:201 | the corrected first row is the offset when that is in range, and always a discovered sensor when there is one |
| Display.LinesFrom | src/display_manager.cpp:201-239 | rows for up to 4 consecutive sensors from the first shown one, each row the line of its sensor |
| Display.SensorRowsAsWritten | src/display_manager.cpp:201-203 | as written, an offset at or past the sensor count shows no rows |
| Display.SensorRows | src/display_manager.cpp:196-239 | the corrected page shows at least one row whenever there are sensors and agrees with the code whenever the offset is in range |
| Display.SensorRowsShow | src/display_manager.cpp:205-233 | each shown row has its sensor's shortened name and shows a temperature exactly when the reading is valid |
| Display.ScrollShowsEverySensor | src/display_manager.cpp:109-117 | every discovered sensor appears on the page reached after index/4 scroll presses from the start |
| Display.PageIndicator | src/display_manager.cpp:242-245 | the indicator appears exactly with more than 4 sensors; the total is ceil(count/4) and the current page is at least 1 |
| Display.IndicatorInRange | src/display_manager.cpp:242-245 | with the offset in range the current page never exceeds the total |
| Display.StaleOffsetAfterRescan | src/display_manager.cpp:196-245 | as written, offset 8 left over from 9 sensors after a rescan finds 5 shows no rows and "3/2"; the corrected page shows sensors 1-4 and "1/2" |
| Display.AlertLine | src/display_manager.cpp:335-371 | each alert row carries its index, the probe's state and a name of at most 10 characters, with a temperature exactly when the reading is valid |
| Display.AlertRowsFrom | src/display_manager.cpp:331-379 | the rows from a sensor are sensors in range that are not in the normal state, no more than the lines left on screen |
| Display.AlertRowsLines | src/display_manager.cpp:331-379 | each alert row is the alert line of its sensor |
| Display.AlertListedFrom | src/display_manager.cpp:331-379 | a non-normal sensor is listed exactly when fewer non-normal sensors precede it than lines remain |
| Display.AlertListedPast | src/display_manager.cpp:331-379 | listing from a non-normal sensor uses one line for it and continues with the next |
| Display.AlertRows | src/display_manager.cpp:319-387 | at most 5 alert rows, each a discovered sensor not in the normal state |
| Display.AlertListed | src/display_manager.cpp:319-387 | a non-normal sensor is listed exactly when fewer than 5 non-normal sensors come before it |
| Display.NoAlertsFrom | src/display_manager.cpp:331-379 | no rows from a sensor on exactly when every remaining sensor is normal |
| Display.AllOkExactly | src/display_manager.cpp:380-385 | "All OK" shows exactly when every discovered sensor is normal, and never while a threshold alarm is active |
| Mqtt.SanitizeChar | src/mqtt_client.cpp:412-416 | a sanitised character is never a space, a level separator or a wildcard |
| Mqtt.Sanitize | src/mqtt_client.cpp:412-416 | sanitising keeps the length, replaces character by character and leaves no separator or wildcard |
| Mqtt.SanitizeKeepsPlain | src/mqtt_client.cpp:412-416 | a name without special characters is left as is, and sanitising twice is sanitising once |
| Mqtt.SensorId | src/mqtt_client.cpp:405-419 | the sensor level is never empty and holds no separator or wildcard; a named sensor uses its first 31 characters sanitised, an unnamed one "sensor_" and its index |
| Mqtt.CountConcat | src/mqtt_client.cpp:421-427 | occurrences of a character in a concatenation add up |
| Mqtt.PlainCount | src/mqtt_client.cpp:412-416 | a sanitised level contains no separator or wildcard |
| Mqtt.SensorTopic | src/mqtt_client.cpp:421-427 | the corrected sensor topic, built without a length cut, starts with the prefix |
| Mqtt.SensorTopicAsWritten | src/mqtt_client.cpp:180-181 | the topic as built in the 128-byte buffer has at most 127 characters and is the full topic whenever that fits |
| Mqtt.TopicCount | src/mqtt_client.cpp:421-427 | a character occurs in the topic as often as in its five levels plus the four separators |
| Mqtt.PlainTopicCount | src/mqtt_client.cpp:421-427 | with a sanitised sensor level and suffix, only the prefix and device name can bring extra separators or wildcards |
| Mqtt.SensorTopicLevels | src/mqtt_client.cpp:396-428 | the topic has exactly four separators beyond those in the prefix and device name, no wildcard beyond theirs, and the sensor id sits as a whole level between two separators |
| Mqtt.TopicsDistinct | src/mqtt_client.cpp:396-428 | the corrected temperature and alarm topics of a sensor always differ |
| Mqtt.TopicTruncationCollides | src/mqtt_client.cpp:180-181 | as written, once prefix, device and sensor level fill the buffer, the temperature and alarm topics are cut to the same string |
| Mqtt.CommandFilter | src/mqtt_client.cpp:356-362 | the subscription starts with the prefix, ends in "/#", and its only wildcard beyond the prefix and device name is that final '#' |
| Mqtt.InitialClient | src/mqtt_client.cpp:20-35 | the client starts disconnected, with no publishes counted and nothing published for any sensor |
| Mqtt.IsEnabled | src/mqtt_client.cpp:120-123 | the client is enabled exactly when switched on and given a non-empty server |
| Mqtt.MissingFieldsDisable | src/mqtt_client.cpp:120-123 | a stored configuration without "enabled" or without a server leaves the client disabled |
| Mqtt.SetOtaMode | src/mqtt_client.cpp:51-56 | the OTA flag takes the given value; entering OTA mode drops the link, leaving it changes nothing else; publish history is kept |
| Mqtt.Reconnect | src/mqtt_client.cpp:125-132 | during OTA a reconnect is ignored; otherwise it only raises the request flag |
| Mqtt.Disconnect | src/mqtt_client.cpp:134-139 | the link ends closed; a connected client counts its offline status publish on the 32-bit counter, a disconnected one is unchanged |
| Mqtt.Connect | src/mqtt_client.cpp:295-375 | a connect succeeds exactly when not in OTA mode, a server is configured and the broker accepts; success connects, clears the error and counts the status publish; refusal records the state code; OTA or no server changes nothing |
| Mqtt.ShouldPublishTemperature | src/mqtt_client.cpp:472-485 | never past the 10 sensors; always before the first publish; otherwise exactly when the reading moved by at least the threshold in either direction |
| Mqtt.PublishSensor | src/mqtt_client.cpp:167-206 | publishing one reading keeps the per-sensor table shaped |
| Mqtt.PublishFrom | src/mqtt_client.cpp:148-164 | the publish loop changes only the counter, the per-sensor last values and the error |
| Mqtt.PublishStep | src/mqtt_client.cpp:149-163 | one iteration changes only the counter, the per-sensor last values and the error |
| Mqtt.PublishTemperatures | src/mqtt_client.cpp:141-165 | nothing happens without a link, and otherwise only the counter, the last values and the error change |
| Mqtt.PublishesFrame | src/mqtt_client.cpp:150-157 | whether a sensor is published depends only on its own last published value |
| Mqtt.PublishFromSlot | src/mqtt_client.cpp:148-205 | after the loop a sensor's last published value is its temperature exactly when it was due and the broker accepted it, and otherwise stays as it was |
| Mqtt.PublishFromCount | src/mqtt_client.cpp:148-205 | the counter grows, modulo 2^32, by exactly the number of accepted publishes |
| Mqtt.StepCount | src/mqtt_client.cpp:199-205 | one iteration moves one accepted publish from the pending tally to the counter |
| Mqtt.DeliveredFrame | src/mqtt_client.cpp:150-157 | the tally of due, accepted publishes depends only on the last values of the remaining sensors |
| Mqtt.SmallChangeSuppressed | src/mqtt_client.cpp:154-160 | with publish-on-change, once a reading was published a later one within the threshold is not published |
| Mqtt.Update | src/mqtt_client.cpp:58-118 | nothing in OTA mode or when disabled; a pending reconnect is consumed by dropping the link, re-arming discovery and restarting the delay; a connect is tried only while disconnected and 5 s after the last try on the 32-bit clock; a serviced cycle needs link and WiFi, sends discovery exactly once per connection, and always publishes when publishing on change |
| Mqtt.ReconnectConsumedOnce | src/mqtt_client.cpp:68-92 | a reconnect request is consumed by one update, and an update within the next 5 s does nothing |
| Mqtt.OtaLockOut | src/mqtt_client.cpp:51-132 | in OTA mode the client is disconnected, update does nothing, reconnect is ignored and connect fails without changes |
| Mqtt.Message | src/mqtt_client.cpp:430-440 | the delivered message is a prefix of the payload of at most 255 characters and without a NUL, the whole payload cut to 255 when it has none |
| Mqtt.HandleMessage | src/mqtt_client.cpp:442-470 | dispatch on the first matching command: calibrate with a reference exactly for a calibrate topic with one, rescan only when not a calibrate topic, reboot only when neither |
| Mqtt.CommandDispatch | src/mqtt_client.cpp:442-470 | a topic ending in the calibrate command calibrates to the reference or is ignored without one; one ending in the rescan command rescans |

## Left out

- Network, TLS and radio I/O (WiFiClientSecure, HTTPClient, DNSServer, PubSubClient, the async web server's routing and WebSocket feed): they are replaced by the oracle parameters named above, because only their outcomes drive the logic.
- JSON serialisation and deserialisation (ArduinoJson): handlers and importers receive documents already parsed into records with optional fields, and responses are modelled as the values they carry, because the library is not part of this model.
- NVS Preferences and SPIFFS storage: the stored blob is a value handed to `Config.LoadFromNvs` and returned by `Config.SaveToNvs`; `loadLegacyFromSPIFFS`, `load`, `save` and `begin` only sequence those calls and touch the file system.
- ESP-IDF partition and update APIs, `ESP.restart` and the watchdog: the flash sessions are oracles that succeed or fail, restart is a terminal event, and `getPartitionInfo` only reports platform figures.
- FreeRTOS tasks, mutex timeouts and `delay`/`vTaskDelay`: the model is sequential; a mutex that times out is the `lockOk` parameter and task creation is `spawnOk`; the thunks `checkThunk` and `taskThunk` only forward to the check and update bodies.
- Floating point: temperatures, offsets and thresholds are `real`, so float rounding, `round(x*100)/100` in payloads and the exact float equality `calibrationOffset == 0.0f` are exact here.
- `getAverageTemperature`, `getMinTemperature`, `getMaxTemperature`: floating-point aggregates that no other modelled operation depends on.
- `calibrateAll`, `resetCalibration`, `resetSensorCalibration` and `getSensorDataByAddress`: loops over `Sensors.CalibrateSensor` and the lookup already modelled; the calibrate, rescan, reboot and factory-reset web handlers only forward to them.
- `SensorManager::update`: it only schedules discovery and reading on the clock; the `readInterval * 1000` product overflowing 32 bits for intervals above 49 days is not modelled.
- The int16 width of a history slot: values are unbounded integers, so a conversion out of the int16 range (undefined behaviour in C++) is not modelled; nor is the 512-byte response buffer of the history handler.
- `_dataChanged` in the sensor manager is never set by the implementation; `Sensors.HasDataChanged` models the accessor on its own.
- Display drawing, brightness, the footer, the status page and the info page: they only format values for the TFT. The display's OTA-mode switch, called by the OTA task, is not defined in the display implementation; the OTA model treats the three collaborators as flags.
- MQTT payload documents, `publishAlarm`, `publishStatus` contents and Home Assistant discovery documents: JSON formatting only; the status publish is modelled as one counted publish.
- `WiFiManager::stopAP`, `disconnect`, `configureStaticIP`, `configureHostname` and the getters for IP, SSID, MAC and hostname: radio configuration calls with no logic beyond what `WiFi.SetState` already models; `connect` with `save` set writes the credentials through the configuration store and is modelled only on its retry path.
- `Version.ParseVersionNumber` does not model the C `int` overflow of segments longer than nine digits, which is undefined behaviour in the source.
- WebApi.ApplyMqttUpdate: takes the port and the interval as the numbers given; ArduinoJson's conversion of an out-of-range or non-integer value to `uint16_t` or `uint32_t` in the MQTT settings handler is not modelled.
- WebApi.GetHistory: takes the index the handler receives; the route first narrows the path number to `uint8_t` (src/web_server.cpp:250), so `/api/history/256` answers for sensor 0. Routing is not part of this model.
- Mqtt.Update: the interval branch (publishOnChange off) is stated only as "serviced"; its `publishInterval * 1000` timer is not spelled out in the contract.
- Sensors.HistoryValue: states the hundredths encoding that the slot type promises, not what addToHistory stores; the stored value as written is `Sensors.HistoryValueAsWritten` (see Findings), and the rest of the model uses the corrected one.
- Sensors.ReadOne: stores the corrected history value, hundredths of a degree (`Sensors.HistoryValue`), where the firmware as written stores the truncated whole degrees (`Sensors.HistoryValueAsWritten`; see Findings).
- Sensors.ReadTemperaturesSlot: appends the corrected hundredths value to the history for the same reason as `Sensors.ReadOne`; the firmware as written appends whole degrees.
- Common.RemoveAll: its own contract gives only the length bound and the fixed point on text without the pattern; what is deleted is `Common.RemoveAllDeletesFirst`, which together with that fixed point determines the result on every text.
- Sensors.CalibrateUncalibratedAsWritten: its own contract only bounds the count by the number of probes; the exact count is `Sensors.CalibrationCounts`, which assumes that live probes have distinct address strings, as the ROM codes of devices on one bus are. Without that, calibrating one probe could change what a later probe with the same address finds.
- The SPIFFS writer's "Incomplete write" error (src/ota_manager.cpp:944-948) has no branch in `FlashWriter.WriteSpiffs`: the loop leaves only with every byte written or by returning early, and each read is capped at what remains, so the check cannot fail (`FlashWriter.Stream` ends `Completed` exactly when every byte is written).
- The `lastPublished` table of the MQTT client is indexed by slot and is not reset by a rescan; the model keeps that behaviour without a property about it.

## Findings

| source | as written | input that shows it | evidently intended | confidence | as-written member | corrected member |
|---|---|---|---|---|---|---|
| src/sensor_manager.cpp:509 | the float temperature is stored directly into the int16 slot, while the slot type's comment and the reader (src/web_server.cpp:775) treat it as hundredths of a degree | a reading of 23.5 degrees is stored as 23 and reported by the history endpoint as 0.23 | store the temperature multiplied by 100 | high, not executed | Sensors.HistoryValueAsWritten, WebApi.HistoryScaleAsWritten | Sensors.HistoryValue, WebApi.HistoryScaleCorrected |
| src/sensor_manager.cpp:276-283 | every uncalibrated probe is counted, but `calibrateSensor` silently skips disconnected ones | one discovered, disconnected probe without a custom name or offset: the count is 1 although nothing is calibrated, and the store is saved unchanged | count only probes that were actually calibrated | medium, not executed | Sensors.CalibrateUncalibratedAsWritten, Sensors.UncalibratedCountAsWritten | Sensors.CalibrateUncalibrated, Sensors.UncalibratedCountCorrected, Sensors.CalibrationCounts |
| src/display_manager.cpp:196-245 | the sensor-page offset is kept when a rescan shrinks the sensor count | offset 8 from a 9-probe bus, then a rescan finds 5 probes: the page shows no rows and the indicator reads "3/2" | start from the first sensor when the offset is out of range | medium, not executed | Display.SensorRowsAsWritten, Display.StaleOffsetAfterRescan | Display.SensorRows, Display.ScrollShowsEverySensor |
| src/mqtt_client.cpp:180-181 | the sensor topic is built in a 128-byte buffer and silently cut | a 64-character prefix, a 31-character device name and a 31-character sensor name: the temperature and alarm topics are cut to the same 127 characters | topics that keep their suffix level (or a refusal to publish) | low, not executed | Mqtt.SensorTopicAsWritten, Mqtt.TopicTruncationCollides | Mqtt.SensorTopic, Mqtt.TopicsDistinct |

=== FILE: common.dfy ===
/** Shared vocabulary of the model: optional values, 32-bit unsigned clock
    arithmetic and the handful of Arduino `String` / C string operations the
    firmware relies on, each written once and used by every other module. */
module Common {

  /** A value that may be absent: a null pointer, a missing JSON member,
      a failed lookup. */
  datatype Option<+T> = None | Some(value: T) {
    function GetOr(default: T): T {
      match this
      case Some(v) => v
      case None => default
    }
  }

  /** The outcome of an operation that reports failure through an error
      text, as the firmware's `bool f(..., String& error)` functions do. */
  datatype Result<+T> = Ok(value: T) | Err(error: string)

  // ---------------------------------------------------------------------------
  // 32-bit unsigned arithmetic (millis() and every uint32_t timestamp)
  // ---------------------------------------------------------------------------

  const U32: int := 0x1_0000_0000

  type uint32 = x: int | 0 <= x < 0x1_0000_0000

  /** `now - since` computed in uint32_t: the elapsed time survives the
      49.7-day wrap-around of millis(). */
  function Elapsed(now: uint32, since: uint32): (r: uint32)
    ensures (since + r) % U32 == now
    ensures since <= now ==> r == now - since
  {
    (now - since) % U32
  }

  /** `a + b` computed in uint32_t. */
  function AddU32(a: uint32, b: uint32): (r: uint32)
    ensures a + b < U32 ==> r == a + b
    ensures a + b >= U32 ==> r == a + b - U32
  {
    (a + b) % U32
  }

  // ---------------------------------------------------------------------------
  // Characters
  // ---------------------------------------------------------------------------

  /** C `isspace` in the "C" locale. */
  predicate IsSpace(c: char) {
    c == ' ' || c == '\t' || c == '\n' || c == '\r' || c as int == 11 || c as int == 12
  }

  predicate IsDigit(c: char) {
    '0' <= c <= '9'
  }

  function DigitValue(c: char): (d: nat)
    requires IsDigit(c)
    ensures d < 10
  {
    c as int - '0' as int
  }

  function DigitChar(d: nat): (c: char)
    requires d < 10
    ensures IsDigit(c) && DigitValue(c) == d
  {
    ('0' as int + d) as char
  }

  /** C `tolower` on one character: only 'A'..'Z' change. */
  function LowerChar(c: char): char {
    if 'A' <= c <= 'Z' then (c as int + 32) as char else c
  }

  // ---------------------------------------------------------------------------
  // Strings
  // ---------------------------------------------------------------------------

  predicate StartsWith(s: string, prefix: string) {
    |prefix| <= |s| && s[..|prefix|] == prefix
  }

  /** `strstr(s, p) != NULL` */
  predicate Contains(s: string, p: string)
    decreases |s|
  {
    StartsWith(s, p) || (|s| > 0 && Contains(s[1..], p))
  }

  /** Arduino `String::toLowerCase`: `tolower` applied to every character. */
  function ToLower(s: string): (r: string)
    ensures |r| == |s|
    ensures forall i :: 0 <= i < |s| ==> r[i] == LowerChar(s[i])
  {
    if |s| == 0 then "" else [LowerChar(s[0])] + ToLower(s[1..])
  }

  lemma ToLowerIdempotent(s: string)
    ensures ToLower(ToLower(s)) == ToLower(s)
  {
  }

  /** The first `n` characters: `strncpy`/`strlcpy`/`snprintf` into a
      buffer of `n + 1` bytes. */
  function Truncate(s: string, n: nat): (r: string)
    ensures |r| <= n
    ensures |r| == if |s| <= n then |s| else n
    ensures StartsWith(s, r)
  {
    if |s| <= n then s else s[..n]
  }

  /** Characters `lo` to `hi - 1` of `s` are all whitespace. */
  predicate BlankBetween(s: string, lo: nat, hi: nat)
    requires lo <= hi <= |s|
  {
    forall k :: lo <= k < hi ==> IsSpace(s[k])
  }

  /** Leading whitespace removed. */
  function TrimLeft(s: string): (r: string)
    ensures |r| <= |s| && r == s[|s| - |r|..]
    ensures BlankBetween(s, 0, |s| - |r|)
    ensures |r| > 0 ==> !IsSpace(r[0])
  {
    if |s| > 0 && IsSpace(s[0]) then
      var r := TrimLeft(s[1..]);
      TrimLeftStep(s, s[1..], r);
      r
    else s
  }

  lemma TrimLeftStep(s: string, t: string, r: string)
    requires |s| > 0 && IsSpace(s[0]) && t == s[1..]
    requires |r| <= |t| && r == t[|t| - |r|..] && BlankBetween(t, 0, |t| - |r|)
    ensures r == s[|s| - |r|..] && BlankBetween(s, 0, |s| - |r|)
  {
    assert forall k :: 1 <= k < |s| - |r| ==> s[k] == t[k - 1];
  }

  /** Trailing whitespace removed. */
  function TrimRight(s: string): (r: string)
    ensures |r| <= |s| && r == s[..|r|]
    ensures BlankBetween(s, |r|, |s|)
    ensures |r| > 0 ==> !IsSpace(r[|r| - 1])
  {
    if |s| > 0 && IsSpace(s[|s| - 1]) then TrimRight(s[..|s| - 1]) else s
  }

  /** Arduino `String::trim`: the text between the leading and the
      trailing whitespace, kept as it is. */
  function Trim(s: string): (r: string)
    ensures |r| <= |s|
    ensures |r| > 0 ==> !IsSpace(r[0]) && !IsSpace(r[|r| - 1])
    ensures exists i: nat :: PaddedAt(s, r, i)
  {
    TrimBothSides(s);
    TrimRight(TrimLeft(s))
  }

  lemma TrimBothSides(s: string)
    ensures exists i: nat :: PaddedAt(s, TrimRight(TrimLeft(s)), i)
  {
    var t := TrimLeft(s);
    var i: nat := |s| - |t|;
    SliceBlank(s, t, TrimRight(t), i);
  }

  /** `r` sits at `i` in `s` with only whitespace before and after it. */
  predicate PaddedAt(s: string, r: string, i: nat)
  {
    i + |r| <= |s| && r == s[i..i + |r|]
    && BlankBetween(s, 0, i) && BlankBetween(s, i + |r|, |s|)
  }

  /** A prefix `r` of the suffix `t` of `s` from `i` on, with whitespace
      before `t` in `s` and after `r` in `t`, sits at `i` in `s`. */
  lemma SliceBlank(s: string, t: string, r: string, i: nat)
    requires i <= |s| && t == s[i..] && |r| <= |t| && r == t[..|r|]
    requires BlankBetween(s, 0, i) && BlankBetween(t, |r|, |t|)
    ensures PaddedAt(s, r, i)
  {
    assert forall k :: i + |r| <= k < |s| ==> s[k] == t[k - i];
    assert r == s[i..i + |r|] && BlankBetween(s, i + |r|, |s|);
  }

  lemma TrimNoop(s: string)
    requires |s| > 0 ==> !IsSpace(s[0]) && !IsSpace(s[|s| - 1])
    ensures Trim(s) == s
  {
  }

  /** Arduino `String::indexOf(char)`: the first position of `c`, or -1. */
  function IndexOf(s: string, c: char): (r: int)
    ensures -1 <= r < |s|
    ensures r == -1 <==> c !in s
    ensures r >= 0 ==> s[r] == c && c !in s[..r]
    decreases |s|
  {
    if |s| == 0 then -1
    else if s[0] == c then 0
    else
      var k := IndexOf(s[1..], c);
      if k < 0 then -1
      else
        assert s[..k + 1] == [s[0]] + s[1..][..k];
        k + 1
  }

  /** `s` contains no occurrence of `p`. */
  predicate Free(s: string, p: string)
    decreases |s|
  {
    |s| < |p| || (s[..|p|] != p && Free(s[1..], p))
  }

  /** Arduino `String::replace(p, "")`: every occurrence of `p`, scanning
      left to right without overlap, is deleted. */
  function RemoveAll(s: string, p: string): (r: string)
    requires |p| > 0
    ensures |r| <= |s|
    ensures Free(s, p) ==> r == s
    decreases |s|
  {
    if |s| < |p| then s
    else if s[..|p|] == p then RemoveAll(s[|p|..], p)
    else
      assert [s[0]] + s[1..] == s;
      [s[0]] + RemoveAll(s[1..], p)
  }

  /** RemoveAll at an occurrence of the pattern. */
  lemma RemoveAllAtMatch(s: string, p: string)
    requires |p| > 0 && StartsWith(s, p)
    ensures RemoveAll(s, p) == RemoveAll(s[|p|..], p)
  {
  }

  /** The scan is a single pass: deleting one occurrence can bring a new
      one together, which stays. */
  lemma RemoveAllSinglePass()
    ensures RemoveAll("aabb", "ab") == "ab"
    ensures !Free(RemoveAll("aabb", "ab"), "ab")
  {
    assert "aabb"[..2][1] != "ab"[1];
    RemoveAllAtOther("aabb", "ab");
    assert "aabb"[1..] == "abb" && "abb"[..2] == "ab" && "abb"[2..] == "b";
    RemoveAllAtMatch("abb", "ab");
    assert "ab"[..2] == "ab";
  }

  /** RemoveAll where the pattern does not start. */
  lemma RemoveAllAtOther(s: string, p: string)
    requires |p| > 0 && |s| > 0 && !StartsWith(s, p)
    ensures RemoveAll(s, p) == [s[0]] + RemoveAll(s[1..], p)
  {
  }

  /** The first occurrence of the pattern is deleted: the text before it
      is kept as it is and the removal goes on after it. With the fixed
      point on pattern-free text this determines RemoveAll on every text
      (one that contains the pattern splits at its first occurrence). */
  lemma {:induction false} RemoveAllDeletesFirst(a: string, b: string, p: string)
    requires |p| > 0 && Free(a + p[..|p| - 1], p)
    ensures RemoveAll(a + p + b, p) == a + RemoveAll(b, p)
    decreases |a|
  {
    if |a| == 0 {
      RemoveAllFromMatch(b, p);
      assert a + p + b == p + b;
      assert a + RemoveAll(b, p) == RemoveAll(b, p);
    } else {
      FreeHead(a, b, p);
      RemoveAllPastHead(a, b, p);
      RemoveAllDeletesFirst(a[1..], b, p);
      ConsGlue(RemoveAll(a + p + b, p), RemoveAll(a[1..] + p + b, p), a, RemoveAll(b, p));
    }
  }

  lemma ConsSplit(a: string, r: string)
    requires |a| > 0
    ensures [a[0]] + (a[1..] + r) == a + r
  {
    assert a == [a[0]] + a[1..];
  }

  lemma ConsGlue(x: string, y: string, a: string, r: string)
    requires |a| > 0 && x == [a[0]] + y && y == a[1..] + r
    ensures x == a + r
  {
    ConsSplit(a, r);
  }

  lemma RemoveAllFromMatch(b: string, p: string)
    requires |p| > 0
    ensures RemoveAll(p + b, p) == RemoveAll(b, p)
  {
    RemoveAllAtMatch(p + b, p);
    assert (p + b)[|p|..] == b;
  }

  /** Before the first occurrence, the pattern does not start the text. */
  lemma FreeHead(a: string, b: string, p: string)
    requires |p| > 0 && |a| > 0 && Free(a + p[..|p| - 1], p)
    ensures !StartsWith(a + p + b, p) && Free(a[1..] + p[..|p| - 1], p)
  {
    var q := a + p[..|p| - 1];
    FreeCons(q, p);
    assert (a + p + b)[..|p|] == q[..|p|];
    assert q[1..] == a[1..] + p[..|p| - 1];
  }

  lemma RemoveAllPastHead(a: string, b: string, p: string)
    requires |p| > 0 && |a| > 0 && !StartsWith(a + p + b, p)
    ensures RemoveAll(a + p + b, p) == [a[0]] + RemoveAll(a[1..] + p + b, p)
  {
    RemoveAllAtOther(a + p + b, p);
    assert (a + p + b)[1..] == a[1..] + p + b;
  }

  /** Text of at least the pattern's length is free when the pattern does
      not start it and the rest is free. */
  lemma FreeCons(q: string, p: string)
    requires 0 < |p| <= |q|
    ensures Free(q, p) <==> q[..|p|] != p && Free(q[1..], p)
  {
  }

  // ---------------------------------------------------------------------------
  // Decimal numbers (String(int), printf "%d", atoi)
  // ---------------------------------------------------------------------------

  predicate AllDigits(s: string) {
    forall i :: 0 <= i < |s| ==> IsDigit(s[i])
  }

  /** The value of a string of decimal digits, most significant first. */
  function DecimalValue(s: string): nat
    requires AllDigits(s)
  {
    if |s| == 0 then 0 else DecimalValue(s[..|s| - 1]) * 10 + DigitValue(s[|s| - 1])
  }

  /** The shortest decimal spelling of `n` (`printf("%u")`). */
  function NatToDecimal(n: nat): (r: string)
    ensures |r| > 0 && AllDigits(r)
    ensures DecimalValue(r) == n
    ensures n < 10 ==> |r| == 1
    ensures 10 <= n ==> |r| >= 2 && r[0] != '0'
  {
    if n < 10 then [DigitChar(n)]
    else
      var r := NatToDecimal(n / 10) + [DigitChar(n % 10)];
      assert r[..|r| - 1] == NatToDecimal(n / 10);
      r
  }

  lemma {:induction false} NatToDecimalLength(n: nat)
    ensures 100 <= n < 1000 ==> |NatToDecimal(n)| == 3
    ensures 10 <= n < 100 ==> |NatToDecimal(n)| == 2
  {
    if 10 <= n < 1000 {
      NatToDecimalLength(n / 10);
    }
  }

  lemma {:induction false} NatToDecimalInjective(a: nat, b: nat)
    requires NatToDecimal(a) == NatToDecimal(b)
    ensures a == b
  {
  }

  /** `String(int)` / `printf("%d")`: a minus sign for a negative
      number, then the decimal digits of its magnitude. */
  function IntToDecimal(i: int): (r: string)
    ensures |r| > 0 && (r[0] == '-' <==> i < 0)
    ensures i >= 0 ==> AllDigits(r) && DecimalValue(r) == i
    ensures i < 0 ==> AllDigits(r[1..]) && |r| >= 2 && DecimalValue(r[1..]) == -i
  {
    if i >= 0 then NatToDecimal(i)
    else
      var d := NatToDecimal(-i);
      assert ("-" + d)[1..] == d;
      "-" + d
  }

  /** The longest prefix of `s` made of decimal digits. */
  function LeadingDigits(s: string): (r: string)
    ensures AllDigits(r) && StartsWith(s, r)
    ensures |r| < |s| ==> !IsDigit(s[|r|])
  {
    if |s| == 0 || !IsDigit(s[0]) then ""
    else
      var r := [s[0]] + LeadingDigits(s[1..]);
      assert s == [s[0]] + s[1..];
      r
  }

  /** Digits followed by text that does not continue the number. */
  lemma {:induction false} LeadingDigitsOf(d: string, x: string)
    requires AllDigits(d) && (|x| == 0 || !IsDigit(x[0]))
    ensures LeadingDigits(d + x) == d
    decreases |d|
  {
    if |d| > 0 {
      assert (d + x)[1..] == d[1..] + x;
      LeadingDigitsOf(d[1..], x);
      assert d == [d[0]] + d[1..];
    } else {
      assert d + x == x;
    }
  }

  /** What `atol` reads once leading whitespace is skipped: an optional
      sign, then the digits that follow. */
  function ReadSigned(t: string): int {
    if |t| > 0 && t[0] == '-' then 0 - DecimalValue(LeadingDigits(t[1..]))
    else if |t| > 0 && t[0] == '+' then DecimalValue(LeadingDigits(t[1..]))
    else DecimalValue(LeadingDigits(t))
  }

  /** C `atol`: optional leading whitespace, an optional sign, then as many
      digits as follow; 0 when there are none. */
  function Atol(s: string): (r: int)
    ensures AllDigits(s) ==> r == DecimalValue(s)
  {
    assert AllDigits(s) ==> ReadSigned(TrimLeft(s)) == DecimalValue(s) by {
      if AllDigits(s) {
        ReadDigits(s);
      }
    }
    ReadSigned(TrimLeft(s))
  }

  /** A digit string is read whole. */
  lemma ReadDigits(s: string)
    requires AllDigits(s)
    ensures ReadSigned(TrimLeft(s)) == DecimalValue(s)
  {
    if |s| > 0 {
      TrimLeftKeeps(s);
      LeadingDigitsOf(s, "");
      assert s + "" == s;
    }
  }

  /** Text that does not start with whitespace is not trimmed. */
  lemma TrimLeftKeeps(t: string)
    requires |t| == 0 || !IsSpace(t[0])
    ensures TrimLeft(t) == t
  {
  }

  /** Whitespace in front changes nothing. */
  lemma AtolSkipsSpace(w: string, s: string)
    requires BlankBetween(w, 0, |w|)
    ensures Atol(w + s) == Atol(s)
  {
    TrimLeftSkipsSpace(w, s);
  }

  lemma {:induction false} TrimLeftSkipsSpace(w: string, s: string)
    requires BlankBetween(w, 0, |w|)
    ensures TrimLeft(w + s) == TrimLeft(s)
    decreases |w|
  {
    if |w| > 0 {
      assert (w + s)[0] == w[0] && (w + s)[1..] == w[1..] + s;
      TrimLeftSkipsSpace(w[1..], s);
    } else {
      assert w + s == s;
    }
  }

  /** The number ends at the first character that is not a digit; a sign
      in front is honoured, and without a digit the value is 0. */
  lemma AtolReadsNumber(d: string, x: string)
    requires AllDigits(d) && (|x| == 0 || !IsDigit(x[0]))
    ensures |d| > 0 ==> Atol(d + x) == DecimalValue(d)
    ensures Atol("-" + (d + x)) == -(DecimalValue(d) as int)
    ensures Atol("+" + (d + x)) == DecimalValue(d)
  {
    if |d| > 0 {
      AtolDigitsThen(d, x);
    }
    AtolSignThen('-', d, x);
    AtolSignThen('+', d, x);
  }

  lemma AtolDigitsThen(d: string, x: string)
    requires AllDigits(d) && |d| > 0 && (|x| == 0 || !IsDigit(x[0]))
    ensures Atol(d + x) == DecimalValue(d)
  {
    LeadingDigitsOf(d, x);
    assert (d + x)[0] == d[0];
    AtolUnsigned(d + x);
  }

  lemma AtolSignThen(c: char, d: string, x: string)
    requires c == '-' || c == '+'
    requires AllDigits(d) && (|x| == 0 || !IsDigit(x[0]))
    ensures Atol([c] + (d + x)) == if c == '-' then -(DecimalValue(d) as int) else DecimalValue(d)
  {
    LeadingDigitsOf(d, x);
    AtolSigned(c, d + x);
  }

  /** Without leading whitespace `atol` reads the text as it is. */
  lemma AtolUntrimmed(t: string)
    requires |t| == 0 || !IsSpace(t[0])
    ensures Atol(t) == ReadSigned(t)
  {
    TrimLeftKeeps(t);
  }

  /** After a sign, `atol` reads the digits that follow. */
  lemma AtolSigned(c: char, u: string)
    requires c == '-' || c == '+'
    ensures Atol([c] + u) == if c == '-' then 0 - DecimalValue(LeadingDigits(u)) else DecimalValue(LeadingDigits(u))
  {
    AtolUntrimmed([c] + u);
    ReadSignedSign(c, u);
  }

  lemma ReadSignedSign(c: char, u: string)
    requires c == '-' || c == '+'
    ensures ReadSigned([c] + u) == if c == '-' then 0 - DecimalValue(LeadingDigits(u)) else DecimalValue(LeadingDigits(u))
  {
    assert ([c] + u)[1..] == u;
  }

  /** Text that starts with a digit is read from its first character. */
  lemma AtolUnsigned(t: string)
    requires |t| > 0 && IsDigit(t[0])
    ensures Atol(t) == DecimalValue(LeadingDigits(t))
  {
    AtolUntrimmed(t);
    ReadSignedDigits(t);
  }

  lemma ReadSignedDigits(t: string)
    requires |t| > 0 && IsDigit(t[0])
    ensures ReadSigned(t) == DecimalValue(LeadingDigits(t))
  {
  }

  /** Text that starts with neither whitespace, a sign nor a digit reads
      as 0. */
  lemma AtolNoNumber(x: string)
    requires |x| == 0 || (!IsSpace(x[0]) && !IsDigit(x[0]) && x[0] != '-' && x[0] != '+')
    ensures Atol(x) == 0
  {
    AtolUntrimmed(x);
  }

  /** `atol` reads back what `String(int)` printed, whatever follows as
      long as it does not continue the number. */
  lemma {:induction false} AtolIntToDecimal(i: int, x: string)
    requires |x| == 0 || !IsDigit(x[0])
    ensures Atol(IntToDecimal(i) + x) == i
  {
    var r := IntToDecimal(i);
    if i >= 0 {
      AtolDigitsThen(r, x);
    } else {
      ConsSplit(r, x);
      AtolSignThen('-', r[1..], x);
    }
  }
}

=== FILE: config.dfy ===
/** The configuration store: four configuration records with their
    default constructors, the fixed table of MAX_SENSORS sensor slots, the
    dirty flag, the binary blob kept in non-volatile storage and the JSON
    import of a configuration document. Temperatures and offsets are
    reals. */
module Config {
  import opened Common

  const MaxSensors: nat := 10
  /** Address buffers hold 16 hex digits and the terminator. */
  const AddressLength: nat := 16
  /** Name buffers hold 31 characters and the terminator. */
  const NameLength: nat := 31
  const DefaultThresholdLow: real := 10.0
  const DefaultThresholdHigh: real := 80.0
  const MqttDefaultPort: nat := 1883
  const MqttTopicBase := "tempmonitor"

  // ---------------------------------------------------------------------------
  // Records and their default constructors
  // ---------------------------------------------------------------------------

  datatype SensorConfig = SensorConfig(
    address: string,
    name: string,
    calibrationOffset: real,
    thresholdLow: real,
    thresholdHigh: real,
    alertEnabled: bool,
    isConfigured: bool)

  const DefaultSensor := SensorConfig("", "", 0.0, DefaultThresholdLow, DefaultThresholdHigh, true, false)

  datatype WiFiConfig = WiFiConfig(
    ssid: string, password: string, dhcp: bool,
    staticIp: string, gateway: string, subnet: string, dns: string)

  const DefaultWiFi := WiFiConfig("", "", true, "192.168.1.100", "192.168.1.1", "255.255.255.0", "8.8.8.8")

  datatype MqttConfig = MqttConfig(
    server: string, port: nat, username: string, password: string, topicPrefix: string,
    enabled: bool, publishOnChange: bool, publishThreshold: real, publishInterval: nat)

  const DefaultMqtt := MqttConfig("", MqttDefaultPort, "", "", MqttTopicBase, false, true, 0.5, 10)

  datatype SystemConfig = SystemConfig(
    deviceName: string, readInterval: nat, celsiusUnits: bool, utcOffset: int, otaEnabled: bool)

  const DefaultSystem := SystemConfig("TempMonitor", 2, true, 0, true)

  /** The ConfigManager's state. `initialized` and `prefsOpen` record
      whether the file system was mounted and the preferences namespace
      opened by begin(). */
  datatype Store = Store(
    wifi: WiFiConfig,
    mqtt: MqttConfig,
    system: SystemConfig,
    sensors: seq<SensorConfig>,
    dirty: bool,
    initialized: bool,
    prefsOpen: bool)

  /** The sensor table always has MAX_SENSORS slots. */
  predicate WellFormed(c: Store) {
    |c.sensors| == MaxSensors
  }

  /** The sensor table of a freshly constructed manager. */
  function DefaultSlots(): (slots: seq<SensorConfig>)
    ensures |slots| == MaxSensors
    ensures forall i :: 0 <= i < |slots| ==> slots[i] == DefaultSensor
  {
    seq(MaxSensors, _ => DefaultSensor)
  }

  /** resetToDefaults: every record and every slot back to its default
      constructor, and the store marked dirty. */
  function ResetToDefaults(c: Store): (r: Store)
    ensures WellFormed(r) && r.dirty
    ensures r.initialized == c.initialized && r.prefsOpen == c.prefsOpen
    ensures forall i :: 0 <= i < |r.sensors| ==> r.sensors[i] == DefaultSensor
  {
    Store(DefaultWiFi, DefaultMqtt, DefaultSystem, DefaultSlots(), true, c.initialized, c.prefsOpen)
  }

  function MarkDirty(c: Store): (r: Store)
    ensures r.dirty && r.(dirty := c.dirty) == c
  {
    c.(dirty := true)
  }

  function ClearDirty(c: Store): (r: Store)
    ensures !r.dirty && r.(dirty := c.dirty) == c
  {
    c.(dirty := false)
  }

  // ---------------------------------------------------------------------------
  // Slot lookup
  // ---------------------------------------------------------------------------

  /** getSensorConfig: a slot by index, absent past the table. */
  function GetSensorConfig(c: Store, index: nat): (r: Option<SensorConfig>)
    requires WellFormed(c)
    ensures r.Some? <==> index < MaxSensors
    ensures r.Some? ==> r.value == c.sensors[index]
  {
    if index >= MaxSensors then None else Some(c.sensors[index])
  }

  /** A configured slot holding the given address. */
  predicate Matches(s: SensorConfig, address: string) {
    s.isConfigured && s.address == address
  }

  /** The first slot at or after `i` matching the address. */
  function LookupFrom(slots: seq<SensorConfig>, address: string, i: nat): (r: Option<nat>)
    requires i <= |slots|
    ensures r.Some? ==> i <= r.value < |slots| && Matches(slots[r.value], address)
    decreases |slots| - i
  {
    if i == |slots| then None
    else if Matches(slots[i], address) then Some(i)
    else LookupFrom(slots, address, i + 1)
  }

  lemma {:induction false} LookupFromFirst(slots: seq<SensorConfig>, address: string, i: nat)
    requires i <= |slots|
    ensures LookupFrom(slots, address, i).Some? ==>
              forall j :: i <= j < LookupFrom(slots, address, i).value ==> !Matches(slots[j], address)
    ensures LookupFrom(slots, address, i).None? ==>
              forall j :: i <= j < |slots| ==> !Matches(slots[j], address)
    decreases |slots| - i
  {
    if i < |slots| && !Matches(slots[i], address) {
      LookupFromFirst(slots, address, i + 1);
    }
  }

  /** Two tables whose slots agree on what a lookup reads. */
  predicate SameKeys(a: seq<SensorConfig>, b: seq<SensorConfig>) {
    |a| == |b| && forall j :: 0 <= j < |a| ==> a[j].isConfigured == b[j].isConfigured && a[j].address == b[j].address
  }

  /** A lookup reads only the configured flags and the addresses. */
  lemma {:induction false} LookupSameKeys(a: seq<SensorConfig>, b: seq<SensorConfig>, address: string, i: nat)
    requires SameKeys(a, b) && i <= |a|
    ensures LookupFrom(a, address, i) == LookupFrom(b, address, i)
    decreases |a| - i
  {
    if i < |a| {
      assert Matches(a[i], address) == Matches(b[i], address);
      LookupSameKeys(a, b, address, i + 1);
    }
  }

  /** getSensorConfigByAddress: the index of the first configured slot
      with that address; a null address finds nothing. */
  function GetSensorConfigByAddress(c: Store, address: Option<string>): (r: Option<nat>)
    ensures r.Some? ==> address.Some? && r.value < |c.sensors| && Matches(c.sensors[r.value], address.value)
  {
    match address
    case None => None
    case Some(a) => LookupFrom(c.sensors, a, 0)
  }

  /** The lookup finds a slot exactly when some configured slot carries
      the address, and then the first one. */
  lemma LookupExactly(c: Store, address: string)
    ensures GetSensorConfigByAddress(c, Some(address)).None? <==>
              forall j :: 0 <= j < |c.sensors| ==> !Matches(c.sensors[j], address)
    ensures GetSensorConfigByAddress(c, Some(address)).Some? ==>
              forall j :: 0 <= j < GetSensorConfigByAddress(c, Some(address)).value ==> !Matches(c.sensors[j], address)
  {
    LookupFromFirst(c.sensors, address, 0);
  }

  /** The first unconfigured slot at or after `i`. */
  function FreeFrom(slots: seq<SensorConfig>, i: nat): (r: Option<nat>)
    requires i <= |slots|
    ensures r.Some? ==> i <= r.value < |slots| && !slots[r.value].isConfigured
    decreases |slots| - i
  {
    if i == |slots| then None
    else if !slots[i].isConfigured then Some(i)
    else FreeFrom(slots, i + 1)
  }

  lemma {:induction false} FreeFromFirst(slots: seq<SensorConfig>, i: nat)
    requires i <= |slots|
    ensures FreeFrom(slots, i).Some? ==>
              forall j :: i <= j < FreeFrom(slots, i).value ==> slots[j].isConfigured
    ensures FreeFrom(slots, i).None? ==> forall j :: i <= j < |slots| ==> slots[j].isConfigured
    decreases |slots| - i
  {
    if i < |slots| && slots[i].isConfigured {
      FreeFromFirst(slots, i + 1);
    }
  }

  // ---------------------------------------------------------------------------
  // Counting configured slots
  // ---------------------------------------------------------------------------

  /** getConfiguredSensorCount. */
  function ConfiguredCount(slots: seq<SensorConfig>): (n: nat)
    ensures n <= |slots|
  {
    if |slots| == 0 then 0
    else ConfiguredCount(slots[..|slots| - 1]) + if slots[|slots| - 1].isConfigured then 1 else 0
  }

  /** Configuring one more slot raises the count by one. */
  lemma {:induction false} ConfiguredCountClaim(slots: seq<SensorConfig>, i: nat, s: SensorConfig)
    requires i < |slots| && !slots[i].isConfigured && s.isConfigured
    ensures ConfiguredCount(slots[i := s]) == ConfiguredCount(slots) + 1
  {
    var n := |slots| - 1;
    if i < n {
      assert slots[i := s][..n] == slots[..n][i := s];
      ConfiguredCountClaim(slots[..n], i, s);
    } else {
      assert slots[i := s][..n] == slots[..n];
    }
  }

  /** The count reaches the table size exactly when every slot is
      configured. */
  lemma {:induction false} ConfiguredCountFull(slots: seq<SensorConfig>)
    ensures ConfiguredCount(slots) == |slots| <==> forall j :: 0 <= j < |slots| ==> slots[j].isConfigured
  {
    if |slots| > 0 {
      var n := |slots| - 1;
      ConfiguredCountFull(slots[..n]);
      assert forall j :: 0 <= j < n ==> slots[..n][j] == slots[j];
    }
  }

  // ---------------------------------------------------------------------------
  // findOrCreateSensorConfig
  // ---------------------------------------------------------------------------

  /** The store after a find-or-create and the slot it designates. */
  datatype Claim = Claim(store: Store, slot: Option<nat>)

  /** The default name of slot `i`: "Sensor <i+1>". */
  function DefaultName(i: nat): string {
    "Sensor " + NatToDecimal(i + 1)
  }

  /** findOrCreateSensorConfig: an existing configured slot is returned
      untouched; otherwise the first unconfigured slot receives the
      address (at most 16 characters) and the default name, becomes
      configured, and the store is marked dirty; a full table gives none.
      The slot's other fields keep what they held. */
  function FindOrCreate(c: Store, address: string): (r: Claim)
    requires WellFormed(c)
    ensures WellFormed(r.store)
    ensures r.slot.Some? ==> r.slot.value < MaxSensors && r.store.sensors[r.slot.value].isConfigured
    ensures GetSensorConfigByAddress(c, Some(address)).Some? ==>
              r == Claim(c, GetSensorConfigByAddress(c, Some(address)))
    ensures GetSensorConfigByAddress(c, Some(address)).None? && r.slot.Some? ==>
              var i := r.slot.value;
              FreeFrom(c.sensors, 0) == Some(i) && r.store.dirty &&
              r.store == c.(sensors := c.sensors[i := c.sensors[i].(address := Truncate(address, AddressLength),
                                                                  name := DefaultName(i),
                                                                  isConfigured := true)],
                           dirty := true)
    ensures r.slot.None? <==> GetSensorConfigByAddress(c, Some(address)).None? && FreeFrom(c.sensors, 0).None?
    ensures r.slot.None? ==> r.store == c
  {
    match GetSensorConfigByAddress(c, Some(address))
    case Some(i) => Claim(c, Some(i))
    case None =>
      match FreeFrom(c.sensors, 0)
      case None => Claim(c, None)
      case Some(i) =>
        var s := c.sensors[i].(address := Truncate(address, AddressLength), name := DefaultName(i), isConfigured := true);
        Claim(c.(sensors := c.sensors[i := s], dirty := true), Some(i))
  }

  /** For a sensor address (at most 16 characters), a second
      find-or-create finds the slot the first one returned and changes
      nothing. */
  lemma FindOrCreateIdempotent(c: Store, address: string)
    requires WellFormed(c) && |address| <= AddressLength
    ensures var r1 := FindOrCreate(c, address);
            FindOrCreate(r1.store, address) == r1
  {
    var r1 := FindOrCreate(c, address);
    if r1.slot.Some? && GetSensorConfigByAddress(c, Some(address)).None? {
      var i := r1.slot.value;
      assert Matches(r1.store.sensors[i], address);
      LookupFromFirst(c.sensors, address, 0);
      LookupFromFirst(r1.store.sensors, address, 0);
    }
  }

  /** Creating a slot adds one to the configured count; the table is
      full exactly when creation fails for a new address. */
  lemma FindOrCreateCount(c: Store, address: string)
    requires WellFormed(c)
    ensures var r := FindOrCreate(c, address);
            ConfiguredCount(r.store.sensors) ==
              ConfiguredCount(c.sensors) + if r.store != c then 1 else 0
    ensures GetSensorConfigByAddress(c, Some(address)).None? ==>
              (FindOrCreate(c, address).slot.None? <==> ConfiguredCount(c.sensors) == MaxSensors)
  {
    ConfiguredCountFull(c.sensors);
    FreeFromFirst(c.sensors, 0);
    var r := FindOrCreate(c, address);
    if r.store != c {
      var i := r.slot.value;
      ConfiguredCountClaim(c.sensors, i, r.store.sensors[i]);
    }
  }

  // ---------------------------------------------------------------------------
  // The blob in non-volatile storage
  // ---------------------------------------------------------------------------

  /** 'TMCF' */
  const ConfigMagic: nat := 0x544D4346
  const ConfigVersion: nat := 1
  /** sizeof(PersistentConfigBlob) for the ESP32 toolchain's layout:
      an 8-byte header, then WiFiConfig (163 bytes, padded to 164),
      MQTTConfig (244), SystemConfig (44) and ten SensorConfig (68 each). */
  const BlobSize: nat := 1140

  datatype Blob = Blob(
    magic: nat, version: nat,
    wifi: WiFiConfig, mqtt: MqttConfig, system: SystemConfig, sensors: seq<SensorConfig>)

  /** The preferences key: the stored length, how many bytes a read
      returns, and the blob the bytes encode. */
  datatype NvsEntry = NvsEntry(length: nat, readable: nat, blob: Blob)

  /** The blob that describes the store. */
  function BlobOf(c: Store): Blob {
    Blob(ConfigMagic, ConfigVersion, c.wifi, c.mqtt, c.system, c.sensors)
  }

  /** loadFromNVS: refused before begin() succeeded, when the key's length
      is not the blob size, on a short read, or on a wrong magic or
      version; the store is then untouched. Otherwise every section is
      copied and the dirty flag cleared. */
  function LoadFromNvs(c: Store, entry: Option<NvsEntry>): (r: (Store, bool))
    requires WellFormed(c)
    ensures WellFormed(r.0)
    ensures !r.1 ==> r.0 == c
    ensures r.1 <==>
              c.initialized && c.prefsOpen && entry.Some? &&
              entry.value.length == BlobSize && entry.value.readable == BlobSize &&
              entry.value.blob.magic == ConfigMagic && entry.value.blob.version == ConfigVersion &&
              |entry.value.blob.sensors| == MaxSensors
    ensures r.1 ==>
              r.0 == c.(wifi := entry.value.blob.wifi, mqtt := entry.value.blob.mqtt,
                        system := entry.value.blob.system, sensors := entry.value.blob.sensors, dirty := false)
  {
    if !c.initialized || !c.prefsOpen then (c, false)
    else match entry
      case None => (c, false)
      case Some(e) =>
        if e.length != BlobSize || e.readable != BlobSize then (c, false)
        else if e.blob.magic != ConfigMagic || e.blob.version != ConfigVersion then (c, false)
        else if |e.blob.sensors| != MaxSensors then (c, false)
        else (c.(wifi := e.blob.wifi, mqtt := e.blob.mqtt, system := e.blob.system,
                 sensors := e.blob.sensors, dirty := false), true)
  }

  /** saveToNVS: refused before begin() succeeded; otherwise the blob is
      written, and only a complete write (`written` is what putBytes
      reports) clears the dirty flag and replaces the stored entry. */
  function SaveToNvs(c: Store, entry: Option<NvsEntry>, written: nat): (r: (Store, Option<NvsEntry>, bool))
    ensures r.2 <==> c.initialized && c.prefsOpen && written == BlobSize
    ensures r.2 ==> r.0 == c.(dirty := false) && r.1 == Some(NvsEntry(BlobSize, BlobSize, BlobOf(c)))
    ensures !r.2 ==> r.0 == c && r.1 == entry
  {
    if !c.initialized || !c.prefsOpen then (c, entry, false)
    else if written != BlobSize then (c, entry, false)
    else (c.(dirty := false), Some(NvsEntry(BlobSize, BlobSize, BlobOf(c))), true)
  }

  /** A successful save followed by a load reproduces the configuration,
      whatever the store held in between. */
  lemma SaveLoadRoundTrip(c: Store, entry: Option<NvsEntry>, other: Store)
    requires WellFormed(c) && WellFormed(other) && other.initialized && other.prefsOpen
    requires SaveToNvs(c, entry, BlobSize).2
    ensures var stored := SaveToNvs(c, entry, BlobSize).1;
            LoadFromNvs(other, stored) ==
              (other.(wifi := c.wifi, mqtt := c.mqtt, system := c.system, sensors := c.sensors, dirty := false), true)
  {
  }

  // ---------------------------------------------------------------------------
  // JSON import
  // ---------------------------------------------------------------------------

  /** A JSON object as the importer sees it: each member is `None` when it
      is absent or does not convert to the wanted type. An integer member
      holds whatever integer the document wrote, however large; the
      importer decides what fits. */
  datatype JsonSensor = JsonSensor(
    address: Option<string>, name: Option<string>, calibrationOffset: Option<real>,
    thresholdLow: Option<real>, thresholdHigh: Option<real>, alertEnabled: Option<bool>)

  datatype JsonSystem = JsonSystem(
    deviceName: Option<string>, readInterval: Option<int>, celsiusUnits: Option<bool>,
    utcOffset: Option<int>, otaEnabled: Option<bool>)

  datatype JsonWiFi = JsonWiFi(
    ssid: Option<string>, password: Option<string>, dhcp: Option<bool>,
    staticIp: Option<string>, gateway: Option<string>, subnet: Option<string>, dns: Option<string>)

  datatype JsonMqtt = JsonMqtt(
    server: Option<string>, port: Option<int>, username: Option<string>, password: Option<string>,
    topicPrefix: Option<string>, enabled: Option<bool>, publishOnChange: Option<bool>,
    publishThreshold: Option<real>, publishInterval: Option<int>)

  /** A configuration document: a section is `None` when it is absent or
      not an object (an array for "sensors"). */
  datatype JsonConfig = JsonConfig(
    system: Option<JsonSystem>, wifi: Option<JsonWiFi>, mqtt: Option<JsonMqtt>, sensors: Option<seq<JsonSensor>>)

  /** sensorConfigFromJson: address and name are cut to their buffers, a
      missing name reads "Sensor", and the slot becomes configured. */
  function SensorFromJson(j: JsonSensor): (s: SensorConfig)
    ensures s.isConfigured && |s.address| <= AddressLength && |s.name| <= NameLength
    ensures j.address.None? ==> s.address == ""
    ensures j.address.Some? ==> StartsWith(j.address.value, s.address)
    ensures j.address.Some? && |j.address.value| <= AddressLength ==> s.address == j.address.value
    ensures j.name.None? ==> s.name == "Sensor"
    ensures j.name.Some? ==> StartsWith(j.name.value, s.name)
    ensures j.name.Some? && |j.name.value| <= NameLength ==> s.name == j.name.value
    ensures j.calibrationOffset.None? ==> s.calibrationOffset == 0.0
    ensures j.calibrationOffset.Some? ==> s.calibrationOffset == j.calibrationOffset.value
    ensures j.thresholdLow.None? ==> s.thresholdLow == DefaultThresholdLow
    ensures j.thresholdLow.Some? ==> s.thresholdLow == j.thresholdLow.value
    ensures j.thresholdHigh.None? ==> s.thresholdHigh == DefaultThresholdHigh
    ensures j.thresholdHigh.Some? ==> s.thresholdHigh == j.thresholdHigh.value
    ensures j.alertEnabled.None? ==> s.alertEnabled
    ensures j.alertEnabled.Some? ==> s.alertEnabled == j.alertEnabled.value
  {
    SensorConfig(Truncate(j.address.GetOr(""), AddressLength), Truncate(j.name.GetOr("Sensor"), NameLength),
                 j.calibrationOffset.GetOr(0.0), j.thresholdLow.GetOr(DefaultThresholdLow),
                 j.thresholdHigh.GetOr(DefaultThresholdHigh), j.alertEnabled.GetOr(true), true)
  }

  /** The sensor table after an import: every slot reset, then the first
      MAX_SENSORS array elements loaded in order. */
  function ImportSensors(items: seq<JsonSensor>): (slots: seq<SensorConfig>)
    ensures |slots| == MaxSensors
    ensures forall i :: 0 <= i < MaxSensors ==>
              slots[i] == if i < |items| then SensorFromJson(items[i]) else DefaultSensor
  {
    seq(MaxSensors, i requires 0 <= i < MaxSensors => if i < |items| then SensorFromJson(items[i]) else DefaultSensor)
  }

  const IntMin: int := -0x8000_0000
  const IntMax: int := 0x7FFF_FFFF

  /** A JSON member that ArduinoJson reads as an `int`: an integer within
      the 32-bit signed range. */
  predicate IsInt(v: Option<int>) {
    v.Some? && IntMin <= v.value <= IntMax
  }

  /** ArduinoJson's `member | d` with an `int` default: the member when it
      reads as an `int`, the default otherwise. */
  function IntOr(v: Option<int>, d: int): (r: int)
    ensures IsInt(v) ==> r == v.value
    ensures !IsInt(v) ==> r == d
  {
    if IsInt(v) then v.value else d
  }

  /** The assignment of an `int` to a `uint32_t` field: reduction modulo
      2^32. */
  function ToUint32(i: int): (r: uint32)
    ensures (r - i) % U32 == 0
    ensures 0 <= i < U32 ==> r == i
  {
    i % U32
  }

  /** The assignment of an `int` to an `int8_t` field: the low eight bits,
      read in two's complement. */
  function ToInt8(i: int): (r: int)
    ensures -128 <= r < 128
    ensures (r - i) % 256 == 0
    ensures -128 <= i < 128 ==> r == i
  {
    (i + 128) % 256 - 128
  }

  /** The system record holds what its C fields can: a 32-character name,
      a `uint32_t` interval and an `int8_t` UTC offset. */
  predicate SystemFits(c: SystemConfig) {
    |c.deviceName| <= 32 && c.readInterval < U32 && -128 <= c.utcOffset < 128
  }

  /** The system section of fromJson: a device name is taken (cut to 32
      characters) only when present. The interval and the UTC offset are
      read with `int` defaults, so a missing member, or one outside the
      `int` range, takes the default (2 and 0); an `int` is then narrowed
      into the `uint32_t` interval and the `int8_t` offset. */
  function SystemFromJson(current: SystemConfig, j: JsonSystem): (r: SystemConfig)
    ensures r.readInterval < U32 && -128 <= r.utcOffset < 128
    ensures j.deviceName.None? ==> r.deviceName == current.deviceName
    ensures j.deviceName.Some? ==> |r.deviceName| <= 32 && StartsWith(j.deviceName.value, r.deviceName)
    ensures IsInt(j.readInterval) && j.readInterval.value >= 0 ==> r.readInterval == j.readInterval.value
    ensures IsInt(j.readInterval) && j.readInterval.value < 0 ==> r.readInterval == j.readInterval.value + U32
    ensures !IsInt(j.readInterval) ==> r.readInterval == 2
    ensures IsInt(j.utcOffset) ==> (r.utcOffset - j.utcOffset.value) % 256 == 0
    ensures !IsInt(j.utcOffset) ==> r.utcOffset == 0
    ensures j == JsonSystem(None, None, None, None, None) ==> r == DefaultSystem.(deviceName := current.deviceName)
  {
    SystemConfig(
      match j.deviceName case Some(n) => Truncate(n, 32) case None => current.deviceName,
      ToUint32(IntOr(j.readInterval, 2)), j.celsiusUnits.GetOr(true), ToInt8(IntOr(j.utcOffset, 0)),
      j.otaEnabled.GetOr(true))
  }

  /** The WiFi fields fit the firmware's buffers. */
  predicate WiFiFits(w: WiFiConfig) {
    |w.ssid| <= 32 && |w.password| <= 64 && |w.staticIp| <= 15 && |w.gateway| <= 15
    && |w.subnet| <= 15 && |w.dns| <= 15
  }

  /** The WiFi section of fromJson: every string is cut to its buffer and
      a missing member takes its default. */
  function WiFiFromJson(j: JsonWiFi): (r: WiFiConfig)
    ensures WiFiFits(r)
    ensures j == JsonWiFi(None, None, None, None, None, None, None) ==> r == DefaultWiFi
  {
    WiFiConfig(
      Truncate(j.ssid.GetOr(""), 32), Truncate(j.password.GetOr(""), 64), j.dhcp.GetOr(true),
      Truncate(j.staticIp.GetOr(DefaultWiFi.staticIp), 15), Truncate(j.gateway.GetOr(DefaultWiFi.gateway), 15),
      Truncate(j.subnet.GetOr(DefaultWiFi.subnet), 15), Truncate(j.dns.GetOr(DefaultWiFi.dns), 15))
  }

  /** The MQTT record holds what its C fields can: the strings fit their
      buffers, the port a `uint16_t` and the interval a `uint32_t`. */
  predicate MqttFits(m: MqttConfig) {
    |m.server| <= 64 && |m.username| <= 32 && |m.password| <= 64 && |m.topicPrefix| <= 64
    && m.port < 0x1_0000 && m.publishInterval < U32
  }

  /** ArduinoJson's `member | d` with a `uint16_t` default: the member when
      it is an integer that fits `uint16_t`, the default otherwise. */
  function PortOr(v: Option<int>, d: nat): (r: nat)
    ensures v.Some? && 0 <= v.value < 0x1_0000 ==> r == v.value
    ensures !(v.Some? && 0 <= v.value < 0x1_0000) ==> r == d
  {
    if v.Some? && 0 <= v.value < 0x1_0000 then v.value else d
  }

  /** The MQTT section of fromJson: every string is cut to its buffer and
      a missing member takes its default, so MQTT stays off unless the
      document enables it. The port's default is a `uint16_t`, so a port
      outside 0..65535 reads as 1883; the interval's default is an `int`,
      so one outside the `int` range reads as 10 and a negative one wraps
      into the `uint32_t` field. */
  function MqttFromJson(j: JsonMqtt): (r: MqttConfig)
    ensures MqttFits(r)
    ensures j.enabled.None? ==> !r.enabled
    ensures j.port.Some? && 0 <= j.port.value < 0x1_0000 ==> r.port == j.port.value
    ensures !(j.port.Some? && 0 <= j.port.value < 0x1_0000) ==> r.port == MqttDefaultPort
    ensures IsInt(j.publishInterval) && j.publishInterval.value >= 0 ==> r.publishInterval == j.publishInterval.value
    ensures IsInt(j.publishInterval) && j.publishInterval.value < 0 ==> r.publishInterval == j.publishInterval.value + U32
    ensures !IsInt(j.publishInterval) ==> r.publishInterval == 10
    ensures j == JsonMqtt(None, None, None, None, None, None, None, None, None) ==> r == DefaultMqtt
  {
    MqttConfig(
      Truncate(j.server.GetOr(""), 64), PortOr(j.port, MqttDefaultPort), Truncate(j.username.GetOr(""), 32),
      Truncate(j.password.GetOr(""), 64), Truncate(j.topicPrefix.GetOr(MqttTopicBase), 64),
      j.enabled.GetOr(false), j.publishOnChange.GetOr(true), j.publishThreshold.GetOr(0.5),
      ToUint32(IntOr(j.publishInterval, 10)))
  }

  /** How the importer narrows integers: a UTC offset of 200 wraps to -56,
      a read interval of -5 wraps to 2^32 - 5, one of 3000000000 (past the
      `int` range) falls back to 2, and a port of 70000 falls back to
      1883. */
  lemma NarrowingExamples(current: SystemConfig)
    ensures SystemFromJson(current, JsonSystem(None, None, None, Some(200), None)).utcOffset == -56
    ensures SystemFromJson(current, JsonSystem(None, Some(-5), None, None, None)).readInterval == 4294967291
    ensures SystemFromJson(current, JsonSystem(None, Some(3000000000), None, None, None)).readInterval == 2
    ensures MqttFromJson(JsonMqtt(None, Some(70000), None, None, None, None, None, None, None)).port == 1883
  {
  }

  /** fromJson: each present section overwrites its record, missing
      members taking their defaults; the sensor table is always reset and
      refilled. The dirty flag is left alone, and the import always
      succeeds. */
  function FromJson(c: Store, doc: JsonConfig): (r: Store)
    ensures WellFormed(r)
    ensures r.dirty == c.dirty && r.initialized == c.initialized && r.prefsOpen == c.prefsOpen
    ensures doc.system.None? ==> r.system == c.system
    ensures doc.wifi.None? ==> r.wifi == c.wifi
    ensures doc.mqtt.None? ==> r.mqtt == c.mqtt
    ensures doc.system.Some? ==> r.system == SystemFromJson(c.system, doc.system.value)
    ensures doc.wifi.Some? ==> r.wifi == WiFiFromJson(doc.wifi.value)
    ensures doc.mqtt.Some? ==> r.mqtt == MqttFromJson(doc.mqtt.value)
    ensures r.sensors == ImportSensors(doc.sensors.GetOr([]))
    ensures ConfiguredCount(r.sensors) == if doc.sensors.Some? then Min(|doc.sensors.value|, MaxSensors) else 0
  {
    var slots := ImportSensors(doc.sensors.GetOr([]));
    ImportedCount(doc.sensors.GetOr([]), MaxSensors);
    assert slots[..MaxSensors] == slots;
    Store(
      match doc.wifi case Some(w) => WiFiFromJson(w) case None => c.wifi,
      match doc.mqtt case Some(m) => MqttFromJson(m) case None => c.mqtt,
      match doc.system case Some(s) => SystemFromJson(c.system, s) case None => c.system,
      slots, c.dirty, c.initialized, c.prefsOpen)
  }

  function Min(a: nat, b: nat): nat {
    if a <= b then a else b
  }

  lemma {:induction false} ImportedCount(items: seq<JsonSensor>, n: nat)
    requires n <= MaxSensors
    ensures ConfiguredCount(ImportSensors(items)[..n]) == Min(|items|, n)
  {
    if n > 0 {
      var slots := ImportSensors(items);
      assert slots[..n][..n - 1] == slots[..n - 1];
      ImportedCount(items, n - 1);
    } else {
      assert ImportSensors(items)[..0] == [];
    }
  }

  // ---------------------------------------------------------------------------
  // JSON export, and the round trip
  // ---------------------------------------------------------------------------

  /** sensorConfigToJson: every member but the configured flag written
      with its stored value. */
  function SensorToJson(s: SensorConfig): (j: JsonSensor)
    ensures j.address == Some(s.address) && j.name == Some(s.name)
    ensures j.calibrationOffset == Some(s.calibrationOffset)
    ensures j.thresholdLow == Some(s.thresholdLow) && j.thresholdHigh == Some(s.thresholdHigh)
    ensures j.alertEnabled == Some(s.alertEnabled)
  {
    JsonSensor(Some(s.address), Some(s.name), Some(s.calibrationOffset), Some(s.thresholdLow),
               Some(s.thresholdHigh), Some(s.alertEnabled))
  }

  /** toJson's sensor array: the configured slots, in slot order. */
  function ExportSensors(slots: seq<SensorConfig>): (items: seq<JsonSensor>)
    ensures |items| == ConfiguredCount(slots)
  {
    if |slots| == 0 then []
    else ExportSensors(slots[..|slots| - 1]) +
         if slots[|slots| - 1].isConfigured then [SensorToJson(slots[|slots| - 1])] else []
  }

  /** The configured slots, in slot order. */
  function Configured(slots: seq<SensorConfig>): (r: seq<SensorConfig>)
    ensures |r| == ConfiguredCount(slots)
  {
    if |slots| == 0 then []
    else Configured(slots[..|slots| - 1]) + if slots[|slots| - 1].isConfigured then [slots[|slots| - 1]] else []
  }

  /** Strings fit their buffers, as every stored slot's do. */
  predicate SlotFits(s: SensorConfig) {
    |s.address| <= AddressLength && |s.name| <= NameLength
  }

  lemma {:induction false} ExportImportSlots(slots: seq<SensorConfig>)
    requires forall i :: 0 <= i < |slots| ==> SlotFits(slots[i])
    ensures forall i :: 0 <= i < |ExportSensors(slots)| ==> SensorFromJson(ExportSensors(slots)[i]) == Configured(slots)[i]
  {
    if |slots| > 0 {
      ExportImportSlots(slots[..|slots| - 1]);
    }
  }

  /** Exporting and re-importing the sensor table packs the configured
      slots to the front, in order, and resets the rest. */
  lemma SensorTableRoundTrip(slots: seq<SensorConfig>)
    requires |slots| == MaxSensors
    requires forall i :: 0 <= i < |slots| ==> SlotFits(slots[i])
    ensures ImportSensors(ExportSensors(slots))[..ConfiguredCount(slots)] == Configured(slots)
    ensures forall i :: ConfiguredCount(slots) <= i < MaxSensors ==> ImportSensors(ExportSensors(slots))[i] == DefaultSensor
  {
    ExportImportSlots(slots);
  }

  /** toJson's system section: every member written with its stored
      value. */
  function SystemToJson(c: SystemConfig): (j: JsonSystem)
    ensures j.deviceName == Some(c.deviceName) && j.readInterval == Some(c.readInterval)
    ensures j.celsiusUnits == Some(c.celsiusUnits) && j.utcOffset == Some(c.utcOffset)
    ensures j.otaEnabled == Some(c.otaEnabled)
  {
    JsonSystem(Some(c.deviceName), Some(c.readInterval), Some(c.celsiusUnits), Some(c.utcOffset), Some(c.otaEnabled))
  }

  /** toJson's WiFi section: every member written with its stored value. */
  function WiFiToJson(w: WiFiConfig): (j: JsonWiFi)
    ensures j.ssid == Some(w.ssid) && j.password == Some(w.password) && j.dhcp == Some(w.dhcp)
    ensures j.staticIp == Some(w.staticIp) && j.gateway == Some(w.gateway)
    ensures j.subnet == Some(w.subnet) && j.dns == Some(w.dns)
  {
    JsonWiFi(Some(w.ssid), Some(w.password), Some(w.dhcp), Some(w.staticIp), Some(w.gateway), Some(w.subnet), Some(w.dns))
  }

  /** toJson's MQTT section: every member written with its stored value. */
  function MqttToJson(m: MqttConfig): (j: JsonMqtt)
    ensures j.server == Some(m.server) && j.port == Some(m.port) && j.username == Some(m.username)
    ensures j.password == Some(m.password) && j.topicPrefix == Some(m.topicPrefix)
    ensures j.enabled == Some(m.enabled) && j.publishOnChange == Some(m.publishOnChange)
    ensures j.publishThreshold == Some(m.publishThreshold) && j.publishInterval == Some(m.publishInterval)
  {
    JsonMqtt(Some(m.server), Some(m.port), Some(m.username), Some(m.password), Some(m.topicPrefix),
             Some(m.enabled), Some(m.publishOnChange), Some(m.publishThreshold), Some(m.publishInterval))
  }

  /** toJson: all three sections and the configured slots, in slot order. */
  function ToJson(c: Store): (doc: JsonConfig)
    ensures doc.system == Some(SystemToJson(c.system))
    ensures doc.wifi == Some(WiFiToJson(c.wifi))
    ensures doc.mqtt == Some(MqttToJson(c.mqtt))
    ensures doc.sensors.Some? && |doc.sensors.value| == ConfiguredCount(c.sensors)
  {
    JsonConfig(Some(SystemToJson(c.system)), Some(WiFiToJson(c.wifi)), Some(MqttToJson(c.mqtt)),
               Some(ExportSensors(c.sensors)))
  }

  /** Importing an exported system section gives it back exactly when the
      record fits its C fields and the interval also fits an `int`: an
      interval above 2^31 - 1 is written as an unsigned number, which the
      `int` default refuses, so it comes back as 2. */
  lemma SystemJsonRoundTrip(current: SystemConfig, c: SystemConfig)
    ensures SystemFromJson(current, SystemToJson(c)) == c <==> SystemFits(c) && c.readInterval <= IntMax
  {
  }

  /** Importing an exported WiFi section gives it back exactly when its
      strings fit their buffers. */
  lemma WiFiJsonRoundTrip(w: WiFiConfig)
    ensures WiFiFromJson(WiFiToJson(w)) == w <==> WiFiFits(w)
  {
  }

  /** Importing an exported MQTT section gives it back exactly when the
      record fits its C fields and the interval also fits an `int`. */
  lemma MqttJsonRoundTrip(m: MqttConfig)
    ensures MqttFromJson(MqttToJson(m)) == m <==> MqttFits(m) && m.publishInterval <= IntMax
  {
  }

  /** Exporting a whole store and importing it into any other store: each
      section comes back exactly when it fits its fields, the configured
      slots are packed to the front in order, the rest are reset, and the
      target's flags are kept. */
  lemma StoreJsonRoundTrip(c: Store, other: Store)
    requires WellFormed(c)
    requires forall i :: 0 <= i < |c.sensors| ==> SlotFits(c.sensors[i])
    ensures var r := FromJson(other, ToJson(c));
            && (r.system == c.system <==> SystemFits(c.system) && c.system.readInterval <= IntMax)
            && (r.wifi == c.wifi <==> WiFiFits(c.wifi))
            && (r.mqtt == c.mqtt <==> MqttFits(c.mqtt) && c.mqtt.publishInterval <= IntMax)
            && r.sensors[..ConfiguredCount(c.sensors)] == Configured(c.sensors)
            && (forall i :: ConfiguredCount(c.sensors) <= i < MaxSensors ==> r.sensors[i] == DefaultSensor)
            && r.dirty == other.dirty
  {
    SystemJsonRoundTrip(other.system, c.system);
    WiFiJsonRoundTrip(c.wifi);
    MqttJsonRoundTrip(c.mqtt);
    SensorTableRoundTrip(c.sensors);
  }
}

=== FILE: display.dfy ===
/** The TFT display of the monitor: four pages cycled by two buttons, a
    scrolling list of sensors four at a time, an alerts list and the
    colour coding of temperatures. Drawing itself is left out; what is
    modelled is the navigation state and the rows each page shows. */
module Display {
  import opened Common
  import Config
  import Sensors

  const SensorsPerPage: nat := 4
  const UpdateInterval: uint32 := 500
  const ButtonDebounce: uint32 := 200

  /** Names longer than these are cut to one less character plus ".". */
  const SensorNameLimit: nat := 12
  const AlertNameLimit: nat := 10

  /** A reading is shown when it is above TEMP_INVALID + 1. */
  const ShownAbove: real := Sensors.TempInvalid + 1.0
  /** The band inside either threshold that is drawn as a warning. */
  const WarnMargin: real := 5.0

  /** The alerts page starts at y = 28, moves down 20 per alert and stops
      listing once y reaches 110. */
  const AlertsTop: nat := 28
  const AlertLineHeight: nat := 20
  const AlertsBottom: nat := 110
  const MaxAlertRows: nat := 5

  // ---------------------------------------------------------------------------
  // Pages and navigation
  // ---------------------------------------------------------------------------

  datatype Page = SensorsPage | StatusPage | AlertsPage | InfoPage

  /** The page's value as the uint8 the enum is stored in. */
  function PageNumber(p: Page): (n: nat)
    ensures n < 4
  {
    match p
    case SensorsPage => 0
    case StatusPage => 1
    case AlertsPage => 2
    case InfoPage => 3
  }

  function PageAt(n: nat): (p: Page)
    requires n < 4
    ensures PageNumber(p) == n
  {
    if n == 0 then SensorsPage
    else if n == 1 then StatusPage
    else if n == 2 then AlertsPage
    else InfoPage
  }

  /** The navigation state of the DisplayManager. */
  datatype Screen = Screen(
    page: Page,
    offset: nat,
    lastUpdate: uint32,
    lastButtonPress: uint32,
    needsRefresh: bool)

  function InitialScreen(): (s: Screen)
    ensures s.page == SensorsPage && s.offset == 0 && s.needsRefresh
  {
    Screen(SensorsPage, 0, 0, 0, true)
  }

  /** nextPage: the following page mod 4, back to the first sensors and
      a redraw requested. */
  function NextPage(s: Screen): (r: Screen)
    ensures PageNumber(r.page) == (PageNumber(s.page) + 1) % 4
    ensures r == s.(page := r.page, offset := 0, needsRefresh := true)
  {
    s.(page := PageAt((PageNumber(s.page) + 1) % 4), offset := 0, needsRefresh := true)
  }

  /** previousPage: +3 mod 4, which is -1 mod 4. */
  function PreviousPage(s: Screen): (r: Screen)
    ensures PageNumber(r.page) == (PageNumber(s.page) + 3) % 4
    ensures r == s.(page := r.page, offset := 0, needsRefresh := true)
  {
    s.(page := PageAt((PageNumber(s.page) + 3) % 4), offset := 0, needsRefresh := true)
  }

  /** The two page moves undo each other; only the sensor offset and the
      refresh request are reset. */
  lemma PageMovesInverse(s: Screen)
    ensures PreviousPage(NextPage(s)) == s.(offset := 0, needsRefresh := true)
    ensures NextPage(PreviousPage(s)) == s.(offset := 0, needsRefresh := true)
  {
    var n := PageNumber(s.page);
    assert PageAt(n) == s.page;
  }

  function NextPages(s: Screen, k: nat): Screen {
    if k == 0 then s else NextPage(NextPages(s, k - 1))
  }

  /** Pressing "next" k times lands on page (p + k) mod 4: every page is
      reached and four presses come back to the start. */
  lemma {:induction false} NextPagesCycle(s: Screen, k: nat)
    requires k > 0
    ensures PageNumber(NextPages(s, k).page) == (PageNumber(s.page) + k) % 4
    ensures k % 4 == 0 ==> NextPages(s, k).page == s.page
  {
    if k > 1 {
      NextPagesCycle(s, k - 1);
    }
    var n := PageNumber(s.page);
    assert PageAt(n) == s.page;
  }

  /** nextSensorPage: without a sensor manager, or with no more than one
      page of sensors, nothing changes; otherwise the offset moves four
      on, wrapping modulo the sensor count, and stays below it. */
  function NextSensorPage(s: Screen, count: Option<nat>): (r: Screen)
    ensures r.page == s.page && r.lastButtonPress == s.lastButtonPress && r.lastUpdate == s.lastUpdate
    ensures count.None? || count.value <= SensorsPerPage ==> r == s
    ensures count.Some? && count.value > SensorsPerPage ==>
              r == s.(offset := r.offset, needsRefresh := true) && r.offset < count.value
  {
    if count.None? || count.value <= SensorsPerPage then s
    else s.(offset := (s.offset + SensorsPerPage) % count.value, needsRefresh := true)
  }

  function Scroll(s: Screen, count: Option<nat>, k: nat): Screen {
    if k == 0 then s else NextSensorPage(Scroll(s, count, k - 1), count)
  }

  /** Scrolling from the first sensor steps through the offsets 0, 4, 8,
      … while they are below the count. */
  lemma {:induction false} ScrollSteps(s: Screen, count: nat, k: nat)
    requires s.offset == 0 && count > SensorsPerPage
    requires SensorsPerPage * k < count
    ensures Scroll(s, Some(count), k).offset == SensorsPerPage * k
  {
    if k > 0 {
      ScrollSteps(s, count, k - 1);
    }
  }

  // ---------------------------------------------------------------------------
  // Buttons and redraws
  // ---------------------------------------------------------------------------

  /** A press within the debounce interval of the last accepted press is
      dropped; the interval is measured on the wrapping millisecond
      clock. */
  predicate Bounce(s: Screen, now: uint32) {
    Elapsed(now, s.lastButtonPress) < ButtonDebounce
  }

  /** handleButton1: scroll the sensors on the sensors page, otherwise
      go to the next page. */
  function HandleButton1(s: Screen, now: uint32, count: Option<nat>): (r: Screen)
    ensures Bounce(s, now) ==> r == s
    ensures !Bounce(s, now) ==> r.lastButtonPress == now
    ensures !Bounce(s, now) && s.page == SensorsPage ==> r.page == SensorsPage
    ensures !Bounce(s, now) && s.page != SensorsPage ==> r.page != s.page && r.offset == 0
  {
    if Bounce(s, now) then s
    else
      var t := s.(lastButtonPress := now);
      if s.page == SensorsPage then NextSensorPage(t, count) else NextPage(t)
  }

  /** handleButton2: always the next page. */
  function HandleButton2(s: Screen, now: uint32): (r: Screen)
    ensures Bounce(s, now) ==> r == s
    ensures !Bounce(s, now) ==> r.lastButtonPress == now && r.page != s.page && r.offset == 0
  {
    if Bounce(s, now) then s else NextPage(s.(lastButtonPress := now))
  }

  /** Away from the sensors page both buttons do the same thing. */
  lemma ButtonsAgreeOffSensorsPage(s: Screen, now: uint32, count: Option<nat>)
    requires s.page != SensorsPage
    ensures HandleButton1(s, now, count) == HandleButton2(s, now)
  {
  }

  /** A second press less than the debounce interval after an accepted
      one is ignored, even across the wrap of the millisecond clock. */
  lemma SecondPressIgnored(s: Screen, now: uint32, delay: uint32, count: Option<nat>)
    requires !Bounce(s, now) && delay < ButtonDebounce
    ensures var t := HandleButton2(s, now);
            HandleButton2(t, AddU32(now, delay)) == t
            && HandleButton1(t, AddU32(now, delay), count) == t
  {
    var t := HandleButton2(s, now);
    assert t.lastButtonPress == now;
    assert Elapsed(AddU32(now, delay), now) == delay;
  }

  datatype Redraw = Redraw(screen: Screen, drawn: bool)

  /** update: redraw when a refresh was requested or the update interval
      has passed, recording the time and clearing the request. */
  function Update(s: Screen, now: uint32): (r: Redraw)
    ensures r.drawn <==> s.needsRefresh || Elapsed(now, s.lastUpdate) >= UpdateInterval
    ensures r.drawn ==> r.screen == s.(lastUpdate := now, needsRefresh := false)
    ensures !r.drawn ==> r.screen == s
  {
    if !s.needsRefresh && Elapsed(now, s.lastUpdate) < UpdateInterval then Redraw(s, false)
    else Redraw(s.(lastUpdate := now, needsRefresh := false), true)
  }

  /** Any accepted press that changes the page is drawn at the next
      update, whatever the clock says. */
  lemma PressIsDrawn(s: Screen, now: uint32, later: uint32)
    requires !Bounce(s, now)
    ensures Update(HandleButton2(s, now), later).drawn
  {
  }

  // ---------------------------------------------------------------------------
  // Temperature colours
  // ---------------------------------------------------------------------------

  datatype Color = TempCold | TempAlert | TempWarn | TempOk

  /** The RGB565 values of the colours. */
  function ColorValue(c: Color): (v: nat)
    ensures v < 0x1_0000
  {
    match c
    case TempCold => 0x001F
    case TempAlert => 0xF800
    case TempWarn => 0xFD20
    case TempOk => 0x07E0
  }

  /** getTemperatureColor: cold below the low threshold, alert above the
      high one, a warning within five degrees inside either, else OK. */
  function TemperatureColor(temp: real, low: real, high: real): (c: Color)
    ensures c == TempCold <==> temp < low
    ensures c == TempAlert <==> low <= temp && temp > high
    ensures c == TempOk ==> low + WarnMargin <= temp <= high - WarnMargin
    ensures low + WarnMargin <= temp <= high - WarnMargin ==> c == TempOk
  {
    if temp < low then TempCold
    else if temp > high then TempAlert
    else if temp > high - WarnMargin || temp < low + WarnMargin then TempWarn
    else TempOk
  }

  /** The colours agree with the alarm the sensor manager raises from a
      normal state: blue exactly when it goes to BELOW_LOW and red exactly
      when it goes to ABOVE_HIGH. */
  lemma ColorMatchesFreshAlarm(temp: real, c: Config.SensorConfig)
    ensures TemperatureColor(temp, c.thresholdLow, c.thresholdHigh) == TempCold
            <==> Sensors.Classify(Sensors.Normal, temp, c) == Sensors.BelowLow
    ensures TemperatureColor(temp, c.thresholdLow, c.thresholdHigh) == TempAlert
            <==> Sensors.Classify(Sensors.Normal, temp, c) == Sensors.AboveHigh
  {
  }

  /** While a low alarm is held by the hysteresis the reading is drawn
      blue or orange, never green: the hysteresis is narrower than the
      warning band. */
  lemma ColorDuringHeldLowAlarm(temp: real, c: Config.SensorConfig)
    requires c.thresholdLow + Sensors.Hysteresis <= c.thresholdHigh
    requires Sensors.Classify(Sensors.BelowLow, temp, c) == Sensors.BelowLow
    ensures TemperatureColor(temp, c.thresholdLow, c.thresholdHigh) in {TempCold, TempWarn}
  {
  }

  // ---------------------------------------------------------------------------
  // Names
  // ---------------------------------------------------------------------------

  /** A name cut to `limit` characters: the first limit - 1 followed by
      "." when it is longer, the name itself otherwise. */
  function ShortName(name: string, limit: nat): (r: string)
    requires limit > 0
    ensures |r| <= limit
    ensures r == name <==> |name| <= limit
    ensures |name| > limit ==> |r| == limit && r[..limit - 1] == name[..limit - 1] && r[limit - 1] == '.'
  {
    if |name| > limit then name[..limit - 1] + "." else name
  }

  /** The name a sensor is shown under: its configured name, or "Sensor "
      and its one-based position when it has no configuration. */
  function SensorName(cfg: Config.Store, d: Sensors.SensorData, i: nat): (name: string)
    ensures Sensors.ConfigFor(cfg, d.addressStr).Some? ==> name == Sensors.ConfigFor(cfg, d.addressStr).value.name
    ensures Sensors.ConfigFor(cfg, d.addressStr).None? ==>
              StartsWith(name, Sensors.DefaultNamePrefix)
              && name[|Sensors.DefaultNamePrefix|..] == NatToDecimal(i + 1)
  {
    match Sensors.ConfigFor(cfg, d.addressStr)
    case Some(c) => c.name
    case None =>
      var n := Sensors.DefaultNamePrefix + NatToDecimal(i + 1);
      assert n[..|Sensors.DefaultNamePrefix|] == Sensors.DefaultNamePrefix;
      n
  }

  /** The default names of unconfigured sensors tell the sensors apart. */
  lemma DefaultNamesDiffer(cfg: Config.Store, d: Sensors.SensorData, e: Sensors.SensorData, i: nat, j: nat)
    requires Sensors.ConfigFor(cfg, d.addressStr).None? && Sensors.ConfigFor(cfg, e.addressStr).None?
    requires i != j
    ensures SensorName(cfg, d, i) != SensorName(cfg, e, j)
  {
  }

  // ---------------------------------------------------------------------------
  // The sensors page
  // ---------------------------------------------------------------------------

  /** What a sensor line shows on the right: the reading in its colour,
      or "ERR" in red. */
  datatype Shown = Reading(value: real, color: Color) | Err

  datatype SensorRow = SensorRow(index: nat, name: string, shown: Shown)

  /** The line drawn for sensor `i`: the short name, and the reading
      coloured against the configured thresholds (10 and 80 degrees
      without a configuration) when it is above TEMP_INVALID + 1. */
  function SensorLine(cfg: Config.Store, d: Sensors.SensorData, i: nat): (row: SensorRow)
    ensures row.index == i && |row.name| <= SensorNameLimit
    ensures row.shown.Reading? <==> d.temperature > ShownAbove
    ensures row.shown.Reading? ==> row.shown.value == d.temperature
  {
    var c := Sensors.ConfigFor(cfg, d.addressStr);
    var low := if c.Some? then c.value.thresholdLow else Config.DefaultThresholdLow;
    var high := if c.Some? then c.value.thresholdHigh else Config.DefaultThresholdHigh;
    SensorRow(i, ShortName(SensorName(cfg, d, i), SensorNameLimit),
              if d.temperature > ShownAbove then Reading(d.temperature, TemperatureColor(d.temperature, low, high))
              else Shown.Err)
  }

  /** The first index the sensors page draws from. The code starts at the
      stored offset even when a rescan has left it at or past the sensor
      count; the corrected page falls back to the first sensor. */
  function FirstShownAsWritten(offset: nat, count: nat): nat {
    offset
  }

  function FirstShown(offset: nat, count: nat): (first: nat)
    ensures count > 0 ==> first < count
    ensures offset < count ==> first == offset
  {
    if offset < count then offset else 0
  }

  /** The lines drawn from `first`: up to four consecutive live sensors. */
  function LinesFrom(cfg: Config.Store, b: Sensors.Bank, first: nat): (rows: seq<SensorRow>)
    requires Sensors.BankShaped(b)
    ensures |rows| <= SensorsPerPage
    ensures first < b.count ==> |rows| == Sensors.Min(SensorsPerPage, b.count - first)
    ensures forall k :: 0 <= k < |rows| ==>
              first + k < b.count && rows[k] == SensorLine(cfg, b.data[first + k], first + k)
  {
    var n := if first < b.count then Sensors.Min(SensorsPerPage, b.count - first) else 0;
    seq(n, k requires 0 <= k < n => SensorLine(cfg, b.data[first + k], first + k))
  }

  /** drawSensorsPage as written. */
  function SensorRowsAsWritten(cfg: Config.Store, b: Sensors.Bank, offset: nat): (rows: seq<SensorRow>)
    requires Sensors.BankShaped(b)
    ensures offset >= b.count ==> rows == []
  {
    LinesFrom(cfg, b, FirstShownAsWritten(offset, b.count))
  }

  /** drawSensorsPage with the offset clamped: whenever there are sensors
      the page shows at least one of them. */
  function SensorRows(cfg: Config.Store, b: Sensors.Bank, offset: nat): (rows: seq<SensorRow>)
    requires Sensors.BankShaped(b)
    ensures b.count > 0 ==> |rows| > 0
    ensures offset < b.count ==> rows == SensorRowsAsWritten(cfg, b, offset)
  {
    LinesFrom(cfg, b, FirstShown(offset, b.count))
  }

  /** Each line shows the sensor at its index under its own short name. */
  lemma SensorRowsShow(cfg: Config.Store, b: Sensors.Bank, offset: nat, k: nat)
    requires Sensors.BankShaped(b) && k < |SensorRows(cfg, b, offset)|
    ensures var row := SensorRows(cfg, b, offset)[k];
            row.name == ShortName(SensorName(cfg, b.data[row.index], row.index), SensorNameLimit)
            && (row.shown.Reading? <==> b.data[row.index].temperature > ShownAbove)
  {
  }

  /** Starting from the first page, button 1 brings every live sensor onto
      the screen: sensor j is on the page reached after j / 4 scrolls. */
  lemma {:induction false} ScrollShowsEverySensor(s: Screen, cfg: Config.Store, b: Sensors.Bank, j: nat)
    requires Sensors.BankShaped(b) && s.offset == 0 && j < b.count
    ensures var t := Scroll(s, Some(b.count), j / SensorsPerPage);
            t.offset <= j < t.offset + SensorsPerPage
            && SensorRows(cfg, b, t.offset)[j - t.offset].index == j
  {
    var k := j / SensorsPerPage;
    if b.count <= SensorsPerPage {
      assert k == 0;
    } else {
      ScrollSteps(s, b.count, k);
    }
  }

  /** The page indicator, drawn only with more than one page of sensors:
      offset / 4 + 1 out of ceil(count / 4). */
  datatype Indicator = Indicator(current: nat, total: nat)

  function PageIndicator(offset: nat, count: nat): (r: Option<Indicator>)
    ensures r.Some? <==> count > SensorsPerPage
    ensures r.Some? ==> (r.value.total - 1) * SensorsPerPage < count <= r.value.total * SensorsPerPage
    ensures r.Some? ==> r.value.current >= 1
  {
    if count > SensorsPerPage then
      Some(Indicator(offset / SensorsPerPage + 1, (count + SensorsPerPage - 1) / SensorsPerPage))
    else None
  }

  /** With the offset below the count the indicator never claims more
      pages than there are. */
  lemma IndicatorInRange(offset: nat, count: nat)
    requires offset < count && count > SensorsPerPage
    ensures PageIndicator(offset, count).value.current <= PageIndicator(offset, count).value.total
  {
  }

  /** A rescan that shrinks the sensor list under a scrolled page: the
      code keeps offset 8 with five sensors left, so the page draws no
      line and the indicator reads 3/2; the corrected page starts over at
      the first sensor. */
  lemma StaleOffsetAfterRescan(cfg: Config.Store, b: Sensors.Bank)
    requires Sensors.BankShaped(b) && b.count == 5
    ensures SensorRowsAsWritten(cfg, b, 8) == []
    ensures PageIndicator(8, b.count) == Some(Indicator(3, 2))
    ensures |SensorRows(cfg, b, 8)| == SensorsPerPage && SensorRows(cfg, b, 8)[0].index == 0
    ensures PageIndicator(FirstShown(8, b.count), b.count) == Some(Indicator(1, 2))
  {
  }

  // ---------------------------------------------------------------------------
  // The alerts page
  // ---------------------------------------------------------------------------

  /** An alerts line: every state other than NORMAL is listed, sensor
      errors included, with the reading when it is above
      TEMP_INVALID + 1. */
  datatype AlertRow = AlertRow(index: nat, name: string, state: Sensors.Alarm, reading: Option<real>)

  function AlertLine(cfg: Config.Store, d: Sensors.SensorData, i: nat): (row: AlertRow)
    ensures row.index == i && row.state == d.alarm && |row.name| <= AlertNameLimit
    ensures row.reading.Some? <==> d.temperature > ShownAbove
  {
    AlertRow(i, ShortName(SensorName(cfg, d, i), AlertNameLimit), d.alarm,
             if d.temperature > ShownAbove then Some(d.temperature) else None)
  }

  /** The sensors in [i, j) not in the NORMAL state. */
  function NotNormalBetween(data: seq<Sensors.SensorData>, i: nat, j: nat): nat
    requires i <= j <= |data|
    decreases j - i
  {
    if i == j then 0
    else NotNormalBetween(data, i + 1, j) + if data[i].alarm != Sensors.Normal then 1 else 0
  }

  /** The number of alert lines that still start above the bottom when
      the next one would start at `y`. */
  function LinesLeft(y: nat): nat
    decreases AlertsBottom - y
  {
    if y >= AlertsBottom then 0 else 1 + LinesLeft(y + AlertLineHeight)
  }

  /** drawAlertsPage's loop from sensor `i` at height `y`. */
  function AlertRowsFrom(cfg: Config.Store, data: seq<Sensors.SensorData>, count: nat, i: nat, y: nat)
    : (rows: seq<AlertRow>)
    requires i <= count <= |data|
    ensures forall k :: 0 <= k < |rows| ==>
              i <= rows[k].index < count && rows[k].state != Sensors.Normal
    ensures |rows| <= LinesLeft(y)
    decreases count - i
  {
    if i == count || y >= AlertsBottom then []
    else if data[i].alarm != Sensors.Normal then
      [AlertLine(cfg, data[i], i)] + AlertRowsFrom(cfg, data, count, i + 1, y + AlertLineHeight)
    else AlertRowsFrom(cfg, data, count, i + 1, y)
  }

  /** Each listed alert is the line of the sensor it names. */
  lemma {:induction false} AlertRowsLines(cfg: Config.Store, data: seq<Sensors.SensorData>, count: nat,
                                          i: nat, y: nat, k: nat)
    requires i <= count <= |data| && k < |AlertRowsFrom(cfg, data, count, i, y)|
    ensures var row := AlertRowsFrom(cfg, data, count, i, y)[k];
            row == AlertLine(cfg, data[row.index], row.index)
    decreases count - i
  {
    if data[i].alarm == Sensors.Normal {
      AlertRowsLines(cfg, data, count, i + 1, y, k);
    } else if k > 0 {
      AlertRowsLines(cfg, data, count, i + 1, y + AlertLineHeight, k - 1);
    }
  }

  /** Some row of `rows` is the line of sensor `j`. */
  predicate Listed(rows: seq<AlertRow>, j: nat) {
    |rows| > 0 && (rows[0].index == j || Listed(rows[1..], j))
  }

  /** A sensor that is not NORMAL is listed exactly when the lines of the
      alerts before it still leave room above the bottom. */
  lemma {:induction false} AlertListedFrom(cfg: Config.Store, data: seq<Sensors.SensorData>, count: nat,
                                           i: nat, y: nat, j: nat)
    requires i <= j < count <= |data| && data[j].alarm != Sensors.Normal
    ensures Listed(AlertRowsFrom(cfg, data, count, i, y), j)
            <==> NotNormalBetween(data, i, j) < LinesLeft(y)
    decreases count - i
  {
    var rows := AlertRowsFrom(cfg, data, count, i, y);
    if y >= AlertsBottom {
      assert rows == [];
    } else if i == j {
      assert rows[0].index == j;
      assert LinesLeft(y) == 1 + LinesLeft(y + AlertLineHeight);
    } else if data[i].alarm != Sensors.Normal {
      AlertListedFrom(cfg, data, count, i + 1, y + AlertLineHeight, j);
      AlertListedPast(cfg, data, count, i, y, j);
    } else {
      AlertListedFrom(cfg, data, count, i + 1, y, j);
      assert NotNormalBetween(data, i, j) == NotNormalBetween(data, i + 1, j);
      assert rows == AlertRowsFrom(cfg, data, count, i + 1, y);
    }
  }

  /** One step of AlertListedFrom past an earlier sensor that is listed. */
  lemma AlertListedPast(cfg: Config.Store, data: seq<Sensors.SensorData>, count: nat, i: nat, y: nat, j: nat)
    requires i < j < count <= |data| && y < AlertsBottom && data[i].alarm != Sensors.Normal
    requires Listed(AlertRowsFrom(cfg, data, count, i + 1, y + AlertLineHeight), j)
             <==> NotNormalBetween(data, i + 1, j) < LinesLeft(y + AlertLineHeight)
    ensures Listed(AlertRowsFrom(cfg, data, count, i, y), j) <==> NotNormalBetween(data, i, j) < LinesLeft(y)
  {
    var rest := AlertRowsFrom(cfg, data, count, i + 1, y + AlertLineHeight);
    assert NotNormalBetween(data, i, j) == NotNormalBetween(data, i + 1, j) + 1;
    var rows := AlertRowsFrom(cfg, data, count, i, y);
    assert rows == [AlertLine(cfg, data[i], i)] + rest;
    assert rows[1..] == rest;
  }

  /** drawAlertsPage: the listed alerts of the live sensors. */
  function AlertRows(cfg: Config.Store, b: Sensors.Bank): (rows: seq<AlertRow>)
    requires Sensors.BankShaped(b)
    ensures |rows| <= MaxAlertRows
    ensures forall k :: 0 <= k < |rows| ==> rows[k].index < b.count && rows[k].state != Sensors.Normal
  {
    assert LinesLeft(108) == 1;
    assert LinesLeft(68) == 3;
    assert LinesLeft(AlertsTop) == MaxAlertRows;
    AlertRowsFrom(cfg, b.data, b.count, 0, AlertsTop)
  }

  /** Only the five-line limit hides an alert: a sensor not in the NORMAL
      state is listed exactly when fewer than five such sensors come
      before it. */
  lemma AlertListed(cfg: Config.Store, b: Sensors.Bank, j: nat)
    requires Sensors.BankShaped(b) && j < b.count && b.data[j].alarm != Sensors.Normal
    ensures Listed(AlertRows(cfg, b), j) <==> NotNormalBetween(b.data, 0, j) < MaxAlertRows
  {
    AlertListedFrom(cfg, b.data, b.count, 0, AlertsTop, j);
    assert LinesLeft(108) == 1;
    assert LinesLeft(68) == 3;
  }

  /** Below the bottom, the loop lists nothing exactly when every sensor
      it still visits is NORMAL. */
  lemma {:induction false} NoAlertsFrom(cfg: Config.Store, data: seq<Sensors.SensorData>, count: nat, i: nat, y: nat)
    requires i <= count <= |data| && y < AlertsBottom
    ensures AlertRowsFrom(cfg, data, count, i, y) == []
            <==> forall k :: i <= k < count ==> data[k].alarm == Sensors.Normal
    decreases count - i
  {
    if i < count && data[i].alarm == Sensors.Normal {
      NoAlertsFrom(cfg, data, count, i + 1, y);
    }
  }

  /** "All OK" is drawn exactly when every live sensor is NORMAL; a
      threshold alarm always prevents it, and so does a sensor error,
      which hasAlarm does not count. */
  lemma AllOkExactly(cfg: Config.Store, b: Sensors.Bank)
    requires Sensors.BankShaped(b)
    ensures AlertRows(cfg, b) == [] <==> forall j :: 0 <= j < b.count ==> b.data[j].alarm == Sensors.Normal
    ensures Sensors.HasAlarm(b) ==> AlertRows(cfg, b) != []
  {
    NoAlertsFrom(cfg, b.data, b.count, 0, AlertsTop);
    Sensors.HasAlarmExactly(b);
  }
}

=== FILE: flash_writer.dfy ===
/** The two chunked writers that stream a downloaded image into flash:
    the application image through the ESP-IDF OTA session, and the SPIFFS
    image through the Arduino Update session. The HTTP answer, the byte
    stream, the clock and the flash sessions are oracles. */
module FlashWriter {
  import opened Common

  const ChunkSize: nat := 1024
  /** Milliseconds without a successful read before the session is aborted. */
  const StallTimeout: nat := 30000

  /** One pass of the streaming loop: the clock at the stall check, the
      bytes the stream would deliver, the clock once the read returned,
      and whether the flash session accepted the bytes. */
  datatype Step = Step(checkAt: uint32, offered: nat, readAt: uint32, writeOk: bool)

  datatype StreamEnd = Completed | TimedOut | WriteFailed | OutOfSteps

  datatype Streamed = Streamed(written: nat, published: seq<nat>, end: StreamEnd)

  predicate Prefix(a: seq<nat>, b: seq<nat>) {
    |a| <= |b| && b[..|a|] == a
  }

  lemma PrefixTransitive(a: seq<nat>, b: seq<nat>, c: seq<nat>)
    requires Prefix(a, b) && Prefix(b, c)
    ensures Prefix(a, c)
  {
    assert c[..|a|] == c[..|b|][..|a|];
  }

  /** Each element below the next, stated from the back so that
      appending one element unfolds one step. */
  predicate Increasing(s: seq<nat>)
    decreases |s|
  {
    |s| < 2 || (s[|s| - 2] < s[|s| - 1] && Increasing(s[..|s| - 1]))
  }

  /** An increasing sequence is strictly ordered pairwise and bounded by
      its last element. */
  lemma {:induction false} IncreasingPairwise(s: seq<nat>)
    requires Increasing(s)
    ensures forall i, j :: 0 <= i < j < |s| ==> s[i] < s[j]
    ensures forall i :: 0 <= i < |s| ==> s[i] <= s[|s| - 1]
    decreases |s|
  {
    if |s| >= 2 {
      var init := s[..|s| - 1];
      IncreasingPairwise(init);
      assert forall i :: 0 <= i < |init| ==> init[i] == s[i];
    }
  }

  /** Natural-number division by repeated subtraction: the C quotient
      `x / n` of unsigned operands (QuotIsDivision), kept recursive so that the progress arithmetic
      stays linear for the solver. */
  function Quot(x: nat, n: nat): nat
    requires n > 0
    decreases x
  {
    if x < n then 0 else 1 + Quot(x - n, n)
  }

  /** Quot is the rounded-down quotient. */
  lemma {:induction false} QuotIsDivision(x: nat, n: nat)
    requires n > 0
    ensures Quot(x, n) * n <= x < (Quot(x, n) + 1) * n
    decreases x
  {
    if x >= n {
      var q := Quot(x - n, n);
      QuotIsDivision(x - n, n);
      assert (q + 1) * n == q * n + n;
      assert (q + 2) * n == (q + 1) * n + n;
    }
  }

  lemma {:induction false} QuotMonotone(x: nat, y: nat, n: nat)
    requires n > 0 && x <= y
    ensures Quot(x, n) <= Quot(y, n)
    decreases x
  {
    if x >= n {
      QuotMonotone(x - n, y - n, n);
    }
  }

  lemma {:induction false} QuotExact(k: nat, n: nat)
    requires n > 0
    ensures Quot(k * n, n) == k
    decreases k
  {
    if k > 0 {
      assert k * n - n == (k - 1) * n;
      QuotExact(k - 1, n);
    }
  }

  /** The percentage published for `written` of `len` bytes:
      written * 100 / len, rounded down. */
  function Percent(written: nat, len: nat): nat
    requires len > 0
  {
    Quot(100 * written, len)
  }

  lemma {:induction false} PercentMonotone(a: nat, b: nat, len: nat)
    requires len > 0 && a <= b
    ensures Percent(a, len) <= Percent(b, len)
  {
    QuotMonotone(100 * a, 100 * b, len);
  }

  lemma {:induction false} PercentBound(a: nat, len: nat)
    requires len > 0 && a <= len
    ensures Percent(a, len) <= 100
    ensures a == len ==> Percent(a, len) == 100
  {
    PercentMonotone(a, len, len);
    assert 100 * len == 100 * len;
    QuotExact(100, len);
  }

  function Min(a: nat, b: nat): nat {
    if a < b then a else b
  }

  /** Publishing a percentage only when it differs from the last one
      keeps the published list increasing. */
  function Publish(published: seq<nat>, pct: nat): (r: seq<nat>)
    ensures |r| > 0 && r[|r| - 1] == pct
    ensures Increasing(published) && (|published| > 0 ==> published[|published| - 1] <= pct) ==> Increasing(r)
    ensures Prefix(published, r) && |r| <= |published| + 1
  {
    if |published| > 0 && published[|published| - 1] == pct then published
    else
      assert (published + [pct])[..|published|] == published;
      published + [pct]
  }

  /** What the loop keeps true about its counters: bytes within the
      length, the published list increasing, within 100, and ending with
      the current percentage once anything was written. */
  predicate Accounted(len: nat, written: nat, published: seq<nat>) {
    && 0 < len && written <= len
    && Increasing(published)
    && (|published| == 0 ==> written == 0)
    && (|published| > 0 ==> published[|published| - 1] == Percent(written, len))
  }

  /** Writing `got` more bytes and publishing on change keeps the
      accounting. */
  lemma {:induction false} WriteKeepsAccounted(len: nat, written: nat, got: nat, published: seq<nat>)
    requires Accounted(len, written, published) && written + got <= len
    ensures Accounted(len, written + got, Publish(published, Percent(written + got, len)))
  {
    PercentBound(written + got, len);
    PercentMonotone(written, written + got, len);
  }

  /** More than 30 s since the last progress. */
  predicate Stalled(step: Step, lastProgress: uint32) {
    Elapsed(step.checkAt, lastProgress) > StallTimeout
  }

  /** The bytes one pass reads: what the stream offers, capped at the
      remaining length and at the 1024-byte buffer. */
  function Got(len: nat, written: nat, step: Step): (got: nat)
    requires written <= len
    ensures got <= len - written && got <= ChunkSize && got <= step.offered
  {
    Min(step.offered, Min(len - written, ChunkSize))
  }

  /** The streaming loop from `written` bytes on, with the clock of the
      last progress and the percentages published so far. Each pass first
      aborts if more than 30 s passed without progress, then reads at most
      min(remaining, 1024) bytes; a read of nothing is retried; accepted
      bytes are written and the percentage is published only when it
      differs from the last one published. */
  function StreamFrom(len: nat, steps: seq<Step>, written: nat, lastProgress: uint32, published: seq<nat>): (r: Streamed)
    requires Accounted(len, written, published)
    ensures Accounted(len, r.written, r.published)
    ensures r.end == Completed <==> r.written == len
    decreases |steps|
  {
    if written == len then Streamed(written, published, Completed)
    else if |steps| == 0 then Streamed(written, published, OutOfSteps)
    else
      var step := steps[0];
      var got := Got(len, written, step);
      if Stalled(step, lastProgress) then Streamed(written, published, TimedOut)
      else if got == 0 then StreamFrom(len, steps[1..], written, lastProgress, published)
      else if !step.writeOk then Streamed(written, published, WriteFailed)
      else
        var next := Publish(published, Percent(written + got, len));
        WriteKeepsAccounted(len, written, got, published);
        StreamFrom(len, steps[1..], written + got, step.readAt, next)
  }

  /** The loop only adds: bytes written never decrease and percentages
      already published stay. */
  lemma {:induction false} StreamFromExtends(len: nat, steps: seq<Step>, written: nat, lastProgress: uint32, published: seq<nat>)
    requires Accounted(len, written, published)
    ensures var r := StreamFrom(len, steps, written, lastProgress, published);
            written <= r.written && Prefix(published, r.published)
    decreases |steps|
  {
    if Continues(len, steps, written, lastProgress) {
      var got := Got(len, written, steps[0]);
      StreamFromStep(len, steps, written, lastProgress, published);
      if got == 0 {
        StreamFromExtends(len, steps[1..], written, lastProgress, published);
      } else {
        var next := Publish(published, Percent(written + got, len));
        StreamFromExtends(len, steps[1..], written + got, steps[0].readAt, next);
        PrefixTransitive(published, next, StreamFrom(len, steps, written, lastProgress, published).published);
      }
    } else {
      StreamFromStops(len, steps, written, lastProgress, published);
    }
  }

  /** The loop goes on past the first step: bytes are missing, a step
      is there, the clock has not run out, and the read either delivered
      nothing or was written. */
  predicate Continues(len: nat, steps: seq<Step>, written: nat, lastProgress: uint32) {
    written < len && |steps| > 0 && !Stalled(steps[0], lastProgress)
    && (Got(len, written, steps[0]) == 0 || steps[0].writeOk)
  }

  /** Where the loop goes on, it goes on from the state after the first
      step. */
  lemma StreamFromStep(len: nat, steps: seq<Step>, written: nat, lastProgress: uint32, published: seq<nat>)
    requires Accounted(len, written, published) && Continues(len, steps, written, lastProgress)
    ensures var got := Got(len, written, steps[0]);
            var next := Publish(published, Percent(written + got, len));
            && (got == 0 ==> StreamFrom(len, steps, written, lastProgress, published)
                               == StreamFrom(len, steps[1..], written, lastProgress, published))
            && (got > 0 ==> Accounted(len, written + got, next)
                            && StreamFrom(len, steps, written, lastProgress, published)
                               == StreamFrom(len, steps[1..], written + got, steps[0].readAt, next))
  {
    WriteKeepsAccounted(len, written, Got(len, written, steps[0]), published);
  }

  /** Where the loop does not go on, it ends with what it had. */
  lemma StreamFromStops(len: nat, steps: seq<Step>, written: nat, lastProgress: uint32, published: seq<nat>)
    requires Accounted(len, written, published) && !Continues(len, steps, written, lastProgress)
    ensures StreamFrom(len, steps, written, lastProgress, published).written == written
    ensures StreamFrom(len, steps, written, lastProgress, published).published == published
  {
  }

  /** The loop as both writers enter it: nothing written, nothing
      published, the stall clock started at `start`. */
  function Stream(len: nat, start: uint32, steps: seq<Step>): (r: Streamed)
    requires len > 0
    ensures r.written <= len
    ensures r.end == Completed <==> r.written == len
    ensures Increasing(r.published) && forall i :: 0 <= i < |r.published| ==> r.published[i] <= 100
    ensures |r.published| > 0 ==> r.published[|r.published| - 1] == Percent(r.written, len)
    ensures r.end == Completed ==> |r.published| > 0 && r.published[|r.published| - 1] == 100
    ensures |steps| > 0 && Stalled(steps[0], start) ==> r == Streamed(0, [], TimedOut)
  {
    var r := StreamFrom(len, steps, 0, start, []);
    PercentBound(r.written, len);
    IncreasingPairwise(r.published);
    assert r.end == Completed ==> |r.published| > 0;
    r
  }

  /** A read that delivers nothing changes nothing but the step count. */
  lemma ZeroReadRetried(len: nat, step: Step, rest: seq<Step>, written: nat, lastProgress: uint32, published: seq<nat>)
    requires Accounted(len, written, published) && written < len
    requires step.offered == 0 && !Stalled(step, lastProgress)
    ensures StreamFrom(len, [step] + rest, written, lastProgress, published)
            == StreamFrom(len, rest, written, lastProgress, published)
  {
    assert ([step] + rest)[1..] == rest;
  }

  /** A write the session refuses ends the loop with nothing more
      written. */
  lemma WriteFailureAborts(len: nat, step: Step, rest: seq<Step>, written: nat, lastProgress: uint32, published: seq<nat>)
    requires Accounted(len, written, published) && written < len
    requires step.offered > 0 && !step.writeOk && !Stalled(step, lastProgress)
    ensures StreamFrom(len, [step] + rest, written, lastProgress, published) == Streamed(written, published, WriteFailed)
  {
  }

  /** More than 30 s without progress on the 32-bit clock ends the loop
      with nothing more written, whatever the stream would still
      deliver. */
  lemma StallAborts(len: nat, step: Step, rest: seq<Step>, written: nat, lastProgress: uint32, published: seq<nat>)
    requires Accounted(len, written, published) && written < len
    requires Stalled(step, lastProgress)
    ensures StreamFrom(len, [step] + rest, written, lastProgress, published) == Streamed(written, published, TimedOut)
  {
  }

  /** An accepted write restarts the 30 s window at the clock of its
      read and publishes the new percentage when it changed. */
  lemma ProgressRestartsClock(len: nat, step: Step, rest: seq<Step>, written: nat, lastProgress: uint32, published: seq<nat>)
    requires Accounted(len, written, published) && written < len
    requires !Stalled(step, lastProgress) && step.offered > 0 && step.writeOk
    ensures var got := Got(len, written, step);
            var next := Publish(published, Percent(written + got, len));
            && Accounted(len, written + got, next)
            && StreamFrom(len, [step] + rest, written, lastProgress, published)
               == StreamFrom(len, rest, written + got, step.readAt, next)
  {
    WriteKeepsAccounted(len, written, Got(len, written, step), published);
    assert ([step] + rest)[1..] == rest;
  }

  // ---------------------------------------------------------------------------
  // The two writers
  // ---------------------------------------------------------------------------

  /** The HTTP side of a download. `sslError` is the TLS client's last
      error text when it has one. */
  datatype Download = Download(
    clientAllocated: bool,
    beginOk: bool,
    code: int,
    errorText: string,
    sslError: Option<string>,
    contentLength: int,
    start: uint32,
    steps: seq<Step>)

  /** How `esp_ota_end` finished. */
  datatype OtaEnd = EndOk | ValidateFailed | EndFailed(errName: string)

  /** The ESP-IDF side of a firmware write. */
  datatype OtaFlash = OtaFlash(
    partitionSize: Option<nat>,
    beginError: Option<string>,
    writeError: string,
    end: OtaEnd,
    bootError: Option<string>)

  /** The Arduino Update side of a SPIFFS write. */
  datatype SpiffsFlash = SpiffsFlash(beginOk: bool, endOk: bool, errorText: string)

  /** How a writer finished. A firmware write that succeeds restarts the
      device; `Unfinished` means the stream oracle ran out before the loop
      ended. */
  datatype Outcome = Flashed | Restarted | Failed(error: string) | Unfinished

  datatype Report = Report(sessionOpened: bool, written: nat, published: seq<nat>, outcome: Outcome)

  /** The error text for a GET that did not answer 200: the code, and
      for a transport failure (a code of 0 or below) the client's
      description and the TLS error when there is one. */
  function GetError(kind: string, d: Download): (e: string)
    ensures StartsWith(e, kind + ": HTTP " + IntToDecimal(d.code))
    ensures d.code > 0 ==> e == kind + ": HTTP " + IntToDecimal(d.code)
    ensures d.code <= 0 ==> StartsWith(e, kind + ": HTTP " + IntToDecimal(d.code) + " - " + d.errorText)
    ensures d.code <= 0 && d.sslError.None? ==> e == kind + ": HTTP " + IntToDecimal(d.code) + " - " + d.errorText
    ensures d.code <= 0 && d.sslError.Some? ==>
              var tail := " (SSL: " + d.sslError.value + ")";
              |tail| <= |e| && e[|e| - |tail|..] == tail
  {
    if d.code <= 0 then
      kind + ": HTTP " + IntToDecimal(d.code) + " - " + d.errorText
        + (match d.sslError case Some(e) => " (SSL: " + e + ")" case None => "")
    else kind + ": HTTP " + IntToDecimal(d.code)
  }

  /** Failures that happen before any flash session is opened, checked
      in the order the writers check them. */
  function Preflight(kind: string, d: Download): (r: Option<string>)
    ensures r.None? <==> d.clientAllocated && d.beginOk && d.code == 200 && d.contentLength > 0
    ensures !d.clientAllocated ==> r == Some(kind + ": Out of memory for SSL client")
    ensures d.clientAllocated && !d.beginOk ==> r == Some(kind + ": HTTP begin failed")
    ensures d.clientAllocated && d.beginOk && d.code != 200 ==> r == Some(GetError(kind, d))
    ensures d.clientAllocated && d.beginOk && d.code == 200 && d.contentLength <= 0 ==>
              r == Some(kind + ": Invalid content length")
  {
    if !d.clientAllocated then Some(kind + ": Out of memory for SSL client")
    else if !d.beginOk then Some(kind + ": HTTP begin failed")
    else if d.code != 200 then Some(GetError(kind, d))
    else if d.contentLength <= 0 then Some(kind + ": Invalid content length")
    else None
  }

  /** downloadAndApply for the application image. */
  function WriteFirmware(kind: string, d: Download, f: OtaFlash): (r: Report)
    ensures r.sessionOpened ==> d.contentLength > 0 && f.partitionSize.Some? && d.contentLength <= f.partitionSize.value
    ensures r.written <= if d.contentLength > 0 then d.contentLength else 0
    ensures r.outcome != Flashed
    ensures r.outcome == Restarted ==>
              r.sessionOpened && r.written == d.contentLength && f.end == EndOk && f.bootError.None?
    ensures f.partitionSize.None? ==> r.outcome == Failed(kind + ": No OTA partition found")
    ensures f.partitionSize.Some? && d.code == 200 && d.clientAllocated && d.beginOk && d.contentLength <= 0 ==>
              r.outcome == Failed(kind + ": Invalid content length") && !r.sessionOpened
    ensures r.sessionOpened && r.written == d.contentLength && f.end == ValidateFailed ==>
              r.outcome == Failed(kind + ": Firmware validation failed (bad signature)")
    ensures r.sessionOpened <==> f.partitionSize.Some? && Preflight(kind, d).None?
                                 && d.contentLength <= f.partitionSize.value && f.beginError.None?
    ensures !r.sessionOpened ==> r.outcome.Failed? && r.written == 0 && r.published == []
    ensures f.partitionSize.Some? && Preflight(kind, d).Some? ==> r.outcome == Failed(Preflight(kind, d).value)
    ensures f.partitionSize.Some? && Preflight(kind, d).None? && d.contentLength > f.partitionSize.value ==>
              r.outcome == Failed(kind + ": Firmware too large for partition")
    ensures f.partitionSize.Some? && Preflight(kind, d).None? && d.contentLength <= f.partitionSize.value
            && f.beginError.Some? ==>
              r.outcome == Failed(kind + ": esp_ota_begin failed: " + f.beginError.value)
    ensures r.sessionOpened ==>
              var s := Stream(d.contentLength, d.start, d.steps);
              && r.written == s.written && r.published == s.published
              && (s.end == TimedOut ==> r.outcome == Failed(kind + ": Download timeout"))
              && (s.end == WriteFailed ==> r.outcome == Failed(kind + ": esp_ota_write failed: " + f.writeError))
              && (s.end == OutOfSteps ==> r.outcome == Unfinished)
              && (s.end == Completed && f.end.EndFailed? ==>
                    r.outcome == Failed(kind + ": esp_ota_end failed: " + f.end.errName))
              && (s.end == Completed && f.end == EndOk && f.bootError.Some? ==>
                    r.outcome == Failed(kind + ": esp_ota_set_boot_partition failed: " + f.bootError.value))
    ensures r.sessionOpened && |d.steps| > 0 && Stalled(d.steps[0], d.start) ==>
              r.outcome == Failed(kind + ": Download timeout") && r.written == 0 && r.published == []
  {
    match f.partitionSize
    case None => Report(false, 0, [], Failed(kind + ": No OTA partition found"))
    case Some(size) =>
      match Preflight(kind, d)
      case Some(e) => Report(false, 0, [], Failed(e))
      case None =>
        if d.contentLength > size then Report(false, 0, [], Failed(kind + ": Firmware too large for partition"))
        else if f.beginError.Some? then
          Report(false, 0, [], Failed(kind + ": esp_ota_begin failed: " + f.beginError.value))
        else
          var s := Stream(d.contentLength, d.start, d.steps);
          var outcome :=
            match s.end
            case TimedOut => Failed(kind + ": Download timeout")
            case WriteFailed => Failed(kind + ": esp_ota_write failed: " + f.writeError)
            case OutOfSteps => Unfinished
            case Completed =>
              match f.end
              case ValidateFailed => Failed(kind + ": Firmware validation failed (bad signature)")
              case EndFailed(n) => Failed(kind + ": esp_ota_end failed: " + n)
              case EndOk =>
                match f.bootError
                case Some(n) => Failed(kind + ": esp_ota_set_boot_partition failed: " + n)
                case None => Restarted;
          Report(true, s.written, s.published, outcome)
  }

  /** downloadAndApplySPIFFS. The check for an incomplete write that
      follows the loop can never fire, since the loop only ends early by
      returning. */
  function WriteSpiffs(kind: string, d: Download, f: SpiffsFlash): (r: Report)
    ensures r.sessionOpened ==> d.contentLength > 0
    ensures r.written <= if d.contentLength > 0 then d.contentLength else 0
    ensures r.outcome != Restarted
    ensures r.outcome == Flashed ==> r.sessionOpened && r.written == d.contentLength && f.endOk
    ensures d.code == 200 && d.clientAllocated && d.beginOk && d.contentLength <= 0 ==>
              r.outcome == Failed(kind + ": Invalid content length") && !r.sessionOpened
    ensures r.sessionOpened <==> Preflight(kind, d).None? && f.beginOk
    ensures !r.sessionOpened ==> r.outcome.Failed? && r.written == 0 && r.published == []
    ensures Preflight(kind, d).Some? ==> r.outcome == Failed(Preflight(kind, d).value)
    ensures Preflight(kind, d).None? && !f.beginOk ==> r.outcome == Failed(kind + ": Update.begin failed - " + f.errorText)
    ensures r.sessionOpened ==>
              var s := Stream(d.contentLength, d.start, d.steps);
              && r.written == s.written && r.published == s.published
              && (s.end == TimedOut ==> r.outcome == Failed(kind + ": Download timeout"))
              && (s.end == WriteFailed ==> r.outcome == Failed(kind + ": Write failed - " + f.errorText))
              && (s.end == OutOfSteps ==> r.outcome == Unfinished)
              && (s.end == Completed && !f.endOk ==> r.outcome == Failed(kind + ": Update.end failed - " + f.errorText))
    ensures r.sessionOpened && |d.steps| > 0 && Stalled(d.steps[0], d.start) ==>
              r.outcome == Failed(kind + ": Download timeout") && r.written == 0 && r.published == []
  {
    match Preflight(kind, d)
    case Some(e) => Report(false, 0, [], Failed(e))
    case None =>
      if !f.beginOk then Report(false, 0, [], Failed(kind + ": Update.begin failed - " + f.errorText))
      else
        var s := Stream(d.contentLength, d.start, d.steps);
        var outcome :=
          match s.end
          case TimedOut => Failed(kind + ": Download timeout")
          case WriteFailed => Failed(kind + ": Write failed - " + f.errorText)
          case OutOfSteps => Unfinished
          case Completed =>
            if f.endOk then Flashed else Failed(kind + ": Update.end failed - " + f.errorText);
        Report(true, s.written, s.published, outcome)
  }

  /** Both writers stream identically: the same bytes are written and the
      same percentages published for the same download. */
  lemma {:induction false} WritersStreamAlike(d: Download, f: OtaFlash, g: SpiffsFlash)
    requires f.partitionSize.Some? && d.contentLength <= f.partitionSize.value && f.beginError.None? && g.beginOk
    ensures var a := WriteFirmware("Firmware", d, f);
            var b := WriteSpiffs("SPIFFS", d, g);
            a.sessionOpened == b.sessionOpened && a.written == b.written && a.published == b.published
  {
    var p1 := Preflight("Firmware", d);
    var p2 := Preflight("SPIFFS", d);
    assert p1.None? <==> p2.None?;
  }
}

=== FILE: http_get.dfy ===
/** The bounded GET used to fetch release metadata: up to four attempts
    with exponential backoff, a longer pause after rate limiting, and a
    body cut at a byte cap. Each attempt's reply is an oracle. */
module HttpGet {
  import opened Common

  const MaxRetries: nat := 3
  const InitialRetryDelay: nat := 2000
  const RateLimitDelay: nat := 5000

  /** HTTPClient error codes that are worth another attempt. */
  const ConnectionRefused: int := -1
  const ConnectionLost: int := -5
  const NoHttpServer: int := -7

  /** What one attempt produced. For `code <= 0` the library's error text
      is `errorText`; for a positive status the body arrives as the
      successive results of `readBytes` (an empty one ends the read, as
      does the end of the sequence: connection closed or 15 s timeout). */
  datatype Reply =
    | BeginFailed
    | Response(code: int, errorText: string, chunks: seq<string>)

  // ---------------------------------------------------------------------------
  // Reading the body
  // ---------------------------------------------------------------------------

  /** The chunks before the first empty read. */
  function Received(chunks: seq<string>): string
    decreases |chunks|
  {
    if |chunks| == 0 || |chunks[0]| == 0 then "" else chunks[0] + Received(chunks[1..])
  }

  /** The body the firmware keeps: the received bytes cut at the cap. */
  function Body(chunks: seq<string>, maxBytes: nat): (b: string)
    ensures |b| <= maxBytes
  {
    Truncate(Received(chunks), maxBytes)
  }

  lemma {:induction false} ReceivedSnoc(chunks: seq<string>, i: nat)
    requires i < |chunks| && forall j :: 0 <= j <= i ==> |chunks[j]| > 0
    ensures Received(chunks[..i + 1]) == Received(chunks[..i]) + chunks[i]
    decreases i
  {
    if i == 0 {
      assert chunks[..1] == [chunks[0]];
      assert chunks[..1][1..] == [];
    } else {
      var tail := chunks[1..];
      ReceivedSnoc(tail, i - 1);
      assert chunks[..i + 1][1..] == tail[..i];
      assert chunks[..i][1..] == tail[..i - 1];
      assert tail[i - 1] == chunks[i];
    }
  }

  lemma {:induction false} ReceivedStopsAtEmpty(chunks: seq<string>, i: nat)
    requires i < |chunks| && |chunks[i]| == 0 && forall j :: 0 <= j < i ==> |chunks[j]| > 0
    ensures Received(chunks) == Received(chunks[..i])
    decreases i
  {
    if i > 0 {
      ReceivedStopsAtEmpty(chunks[1..], i - 1);
      assert chunks[..i][1..] == chunks[1..][..i - 1];
    }
  }

  /** Whatever comes after the prefix is received later, so once the
      prefix fills the cap the rest cannot change the kept body. */
  lemma {:induction false} ReceivedExtends(chunks: seq<string>, i: nat)
    requires i <= |chunks| && forall j :: 0 <= j < i ==> |chunks[j]| > 0
    ensures StartsWith(Received(chunks), Received(chunks[..i]))
    decreases i
  {
    if i > 0 {
      ReceivedExtends(chunks[1..], i - 1);
      assert chunks[..i][1..] == chunks[1..][..i - 1];
      assert Received(chunks[..i]) == chunks[0] + Received(chunks[1..][..i - 1]);
    }
  }

  /** The read loop of httpGetToString: each read is appended up to what
      still fits under `maxBytes`, an empty read ends the loop, and so
      does reaching the cap. */
  method ReadBody(chunks: seq<string>, maxBytes: nat) returns (out: string)
    ensures out == Body(chunks, maxBytes)
    ensures |out| <= maxBytes
  {
    out := "";
    var total := 0;
    var i := 0;
    while i < |chunks|
      invariant 0 <= i <= |chunks|
      invariant forall j :: 0 <= j < i ==> |chunks[j]| > 0
      invariant total == |out| < maxBytes || (total == |out| == 0 == maxBytes && i == 0)
      invariant out == Received(chunks[..i])
    {
      var r := chunks[i];
      if |r| == 0 {
        ReceivedStopsAtEmpty(chunks, i);
        return;
      }
      var canTake := |r|;
      if total + canTake > maxBytes {
        canTake := maxBytes - total;
      }
      ReceivedSnoc(chunks, i);
      ReceivedExtends(chunks, i + 1);
      out := out + r[..canTake];
      total := total + canTake;
      if total >= maxBytes {
        assert out == Truncate(Received(chunks[..i + 1]), maxBytes);
        return;
      }
      assert out == Received(chunks[..i]) + r;
      i := i + 1;
    }
    assert chunks[..i] == chunks;
  }

  // ---------------------------------------------------------------------------
  // The attempt loop
  // ---------------------------------------------------------------------------

  predicate RateLimited(reply: Reply) {
    reply.Response? && (reply.code == 403 || reply.code == 429)
  }

  /** Outcomes after which another attempt is made: begin failure, a
      refused or lost connection, no HTTP server, rate limiting, or an OK
      answer whose body turned out empty. */
  predicate Retryable(reply: Reply, maxBytes: nat) {
    match reply
    case BeginFailed => true
    case Response(code, _, chunks) =>
      || code == ConnectionRefused || code == ConnectionLost || code == NoHttpServer
      || code == 403 || code == 429
      || (code == 200 && |Body(chunks, maxBytes)| == 0)
  }

  /** The error text one attempt leaves behind. */
  function AttemptError(reply: Reply): string {
    match reply
    case BeginFailed => "HTTP begin failed"
    case Response(code, text, chunks) =>
      if code <= 0 then "HTTP GET failed: " + text
      else if code == 403 || code == 429 then "HTTP " + IntToDecimal(code) + " (rate limited)"
      else if code != 200 then "HTTP " + IntToDecimal(code)
      else "No data received"
  }

  /** What one attempt means for the call: try again, accept the body,
      or give up with the attempt's error. */
  datatype Verdict = Retry | Accept | Reject

  /** Everything the attempt loop uses of one reply. */
  datatype Attempt = Attempt(verdict: Verdict, rateLimited: bool, error: string, body: string)

  function Describe(reply: Reply, maxBytes: nat): (a: Attempt)
    ensures a.verdict == Retry <==> Retryable(reply, maxBytes)
    ensures a.verdict == Accept <==> reply.Response? && reply.code == 200 && |Body(reply.chunks, maxBytes)| > 0
    ensures a.rateLimited <==> RateLimited(reply)
    ensures a.error == AttemptError(reply)
    ensures reply.Response? ==> a.body == Body(reply.chunks, maxBytes)
    ensures |a.body| <= maxBytes
  {
    var body := if reply.Response? then Body(reply.chunks, maxBytes) else "";
    var verdict :=
      if Retryable(reply, maxBytes) then Retry
      else if reply.Response? && reply.code == 200 then Accept
      else Reject;
    Attempt(verdict, RateLimited(reply), AttemptError(reply), body)
  }

  /** The replies of a call, each described. */
  function DescribeAll(replies: seq<Reply>, maxBytes: nat): (r: seq<Attempt>)
    ensures |r| == |replies|
    ensures forall j :: 0 <= j < |r| ==> r[j] == Describe(replies[j], maxBytes)
    decreases |replies|
  {
    if |replies| == 0 then [] else [Describe(replies[0], maxBytes)] + DescribeAll(replies[1..], maxBytes)
  }

  /** The history of one call. */
  datatype GetOutcome = GetOutcome(attempts: nat, waits: seq<nat>, result: Result<string>)

  /** The wait before the attempt after `a`, given the current delay. */
  function NextDelay(a: Attempt, delay: nat): (d: nat)
    ensures a.rateLimited ==> d == RateLimitDelay
    ensures !a.rateLimited ==> d == delay
  {
    if a.rateLimited then RateLimitDelay else delay
  }

  /** Attempts `k` onwards; `delay` is what the next retry will wait. */
  function GetFrom(attempts: seq<Attempt>, k: nat, delay: nat, lastError: string): (o: GetOutcome)
    requires k <= MaxRetries + 1 <= |attempts|
    ensures k + o.attempts <= MaxRetries + 1
    ensures k <= MaxRetries ==> o.attempts >= 1
    ensures |o.waits| == if o.attempts == 0 then 0 else o.attempts - 1
    decreases MaxRetries + 1 - k
  {
    if k > MaxRetries then GetOutcome(0, [], Err(lastError))
    else
      var a := attempts[k];
      var d := NextDelay(a, delay);
      match a.verdict
      case Retry =>
        var rest := GetFrom(attempts, k + 1, 2 * d, a.error);
        var waits := if k < MaxRetries then [d] + rest.waits else [];
        GetOutcome(1 + rest.attempts, waits, rest.result)
      case Accept => GetOutcome(1, [], Ok(a.body))
      case Reject => GetOutcome(1, [], Err(a.error))
  }

  /** One attempt followed by the rest of the call. */
  lemma {:induction false} GetFromUnfold(attempts: seq<Attempt>, k: nat, delay: nat, lastError: string)
    requires k <= MaxRetries < |attempts|
    ensures var o := GetFrom(attempts, k, delay, lastError);
            var a := attempts[k];
            var d := NextDelay(a, delay);
            var rest := GetFrom(attempts, k + 1, 2 * d, a.error);
            && (a.verdict == Retry ==>
                  o.attempts == 1 + rest.attempts && o.result == rest.result &&
                  o.waits == if k < MaxRetries then [d] + rest.waits else [])
            && (a.verdict != Retry ==> o.attempts == 1 && o.waits == [])
            && (a.verdict == Accept ==> o.result == Ok(a.body))
            && (a.verdict == Reject ==> o.result == Err(a.error))
  {
  }

  /** Every attempt but the last was retried. */
  lemma {:induction false} RetriedAreRetryable(attempts: seq<Attempt>, k: nat, delay: nat, lastError: string)
    requires k <= MaxRetries + 1 <= |attempts|
    ensures var o := GetFrom(attempts, k, delay, lastError);
            forall j :: k <= j < k + o.attempts - 1 ==> attempts[j].verdict == Retry
    decreases MaxRetries + 1 - k
  {
    if k <= MaxRetries {
      var a := attempts[k];
      GetFromUnfold(attempts, k, delay, lastError);
      if a.verdict == Retry {
        var o := GetFrom(attempts, k, delay, lastError);
        var d := NextDelay(a, delay);
        var rest := GetFrom(attempts, k + 1, 2 * d, a.error);
        RetriedAreRetryable(attempts, k + 1, 2 * d, a.error);
        forall j | k <= j < k + o.attempts - 1
          ensures attempts[j].verdict == Retry
        {
          if j > k {
            assert k + 1 <= j < (k + 1) + rest.attempts - 1;
          }
        }
      }
    }
  }

  /** A call that ends before the fourth attempt ends on an attempt that
      is not retried. */
  lemma {:induction false} EarlyStopNotRetryable(attempts: seq<Attempt>, k: nat, delay: nat, lastError: string)
    requires k <= MaxRetries + 1 <= |attempts|
    ensures var o := GetFrom(attempts, k, delay, lastError);
            o.attempts > 0 && k + o.attempts <= MaxRetries ==> attempts[k + o.attempts - 1].verdict != Retry
    decreases MaxRetries + 1 - k
  {
    if k <= MaxRetries {
      var a := attempts[k];
      GetFromUnfold(attempts, k, delay, lastError);
      if a.verdict == Retry {
        EarlyStopNotRetryable(attempts, k + 1, 2 * NextDelay(a, delay), a.error);
      }
    }
  }

  /** The call succeeds exactly when its last attempt is accepted, and the
      result is that attempt's body. */
  lemma {:induction false} SuccessOnAccept(attempts: seq<Attempt>, k: nat, delay: nat, lastError: string)
    requires k <= MaxRetries + 1 <= |attempts|
    ensures var o := GetFrom(attempts, k, delay, lastError);
            o.result.Ok? <==> o.attempts > 0 && attempts[k + o.attempts - 1].verdict == Accept
    ensures var o := GetFrom(attempts, k, delay, lastError);
            o.result.Ok? ==> o.result.value == attempts[k + o.attempts - 1].body
    decreases MaxRetries + 1 - k
  {
    if k <= MaxRetries {
      var a := attempts[k];
      GetFromUnfold(attempts, k, delay, lastError);
      var o := GetFrom(attempts, k, delay, lastError);
      if a.verdict == Retry {
        var d := NextDelay(a, delay);
        var rest := GetFrom(attempts, k + 1, 2 * d, a.error);
        SuccessOnAccept(attempts, k + 1, 2 * d, a.error);
        if rest.attempts == 0 {
          assert o.result == Err(a.error);
          assert k + o.attempts - 1 == k;
        } else {
          assert k + o.attempts - 1 == (k + 1) + rest.attempts - 1;
          assert o.result == rest.result;
        }
      } else {
        assert k + o.attempts - 1 == k;
      }
    }
  }

  /** The call fails with the error of its last attempt. */
  lemma {:induction false} FailureReportsLastError(attempts: seq<Attempt>, k: nat, delay: nat, lastError: string)
    requires k <= MaxRetries + 1 <= |attempts|
    ensures var o := GetFrom(attempts, k, delay, lastError);
            o.result.Err? && o.attempts > 0 ==> o.result.error == attempts[k + o.attempts - 1].error
    decreases MaxRetries + 1 - k
  {
    if k <= MaxRetries {
      var a := attempts[k];
      GetFromUnfold(attempts, k, delay, lastError);
      var o := GetFrom(attempts, k, delay, lastError);
      if a.verdict == Retry {
        var d := NextDelay(a, delay);
        var rest := GetFrom(attempts, k + 1, 2 * d, a.error);
        FailureReportsLastError(attempts, k + 1, 2 * d, a.error);
        if rest.attempts == 0 {
          assert rest.result == Err(a.error);
        } else {
          assert k + o.attempts - 1 == (k + 1) + rest.attempts - 1;
        }
      }
    }
  }

  /** Waits start at the given delay and double per retry; after a 403
      or 429 the next wait is 5000 ms instead. */
  lemma {:induction false} BackoffSchedule(attempts: seq<Attempt>, k: nat, delay: nat, lastError: string)
    requires k <= MaxRetries + 1 <= |attempts|
    ensures var o := GetFrom(attempts, k, delay, lastError);
            |o.waits| > 0 ==> o.waits[0] == NextDelay(attempts[k], delay)
    ensures var o := GetFrom(attempts, k, delay, lastError);
            forall j :: 0 < j < |o.waits| ==> o.waits[j] == NextDelay(attempts[k + j], 2 * o.waits[j - 1])
    decreases MaxRetries + 1 - k
  {
    if k <= MaxRetries {
      var a := attempts[k];
      GetFromUnfold(attempts, k, delay, lastError);
      if a.verdict == Retry && k < MaxRetries {
        var d := NextDelay(a, delay);
        var o := GetFrom(attempts, k, delay, lastError);
        var rest := GetFrom(attempts, k + 1, 2 * d, a.error);
        BackoffSchedule(attempts, k + 1, 2 * d, a.error);
        assert o.waits == [d] + rest.waits;
        forall j | 0 < j < |o.waits|
          ensures o.waits[j] == NextDelay(attempts[k + j], 2 * o.waits[j - 1])
        {
          assert o.waits[j] == rest.waits[j - 1];
          assert attempts[k + j] == attempts[(k + 1) + (j - 1)];
        }
      }
    }
  }

  /** httpGetToString: the attempt loop over the described replies. */
  function HttpGetToString(replies: seq<Reply>, maxBytes: nat): (o: GetOutcome)
    requires |replies| >= MaxRetries + 1
    ensures 1 <= o.attempts <= MaxRetries + 1
    ensures |o.waits| == o.attempts - 1
    ensures o.result.Ok? ==> |o.result.value| <= maxBytes
  {
    var attempts := DescribeAll(replies, maxBytes);
    SuccessOnAccept(attempts, 0, InitialRetryDelay, "");
    GetFrom(attempts, 0, InitialRetryDelay, "")
  }

  /** Every attempt before the last was retryable, and a call that stops
      before the fourth attempt stops on one that is not. */
  lemma {:induction false} RetriesOnlyRetryable(replies: seq<Reply>, maxBytes: nat)
    requires |replies| >= MaxRetries + 1
    ensures var o := HttpGetToString(replies, maxBytes);
            && (forall j :: 0 <= j < o.attempts - 1 ==> Retryable(replies[j], maxBytes))
            && (o.attempts <= MaxRetries ==> !Retryable(replies[o.attempts - 1], maxBytes))
  {
    var attempts := DescribeAll(replies, maxBytes);
    RetriedAreRetryable(attempts, 0, InitialRetryDelay, "");
    EarlyStopNotRetryable(attempts, 0, InitialRetryDelay, "");
  }

  /** httpGetToString succeeds exactly when its last attempt got status
      200 with a non-empty body, and returns that body; otherwise it
      reports the last attempt's error. */
  lemma {:induction false} SuccessExactly(replies: seq<Reply>, maxBytes: nat)
    requires |replies| >= MaxRetries + 1
    ensures var o := HttpGetToString(replies, maxBytes);
            var last := replies[o.attempts - 1];
            && (o.result.Ok? <==> last.Response? && last.code == 200 && |Body(last.chunks, maxBytes)| > 0)
            && (o.result.Ok? ==> o.result.value == Body(last.chunks, maxBytes))
            && (o.result.Err? ==> o.result.error == AttemptError(last))
  {
    var attempts := DescribeAll(replies, maxBytes);
    var o := HttpGetToString(replies, maxBytes);
    var last := replies[o.attempts - 1];
    SuccessOnAccept(attempts, 0, InitialRetryDelay, "");
    FailureReportsLastError(attempts, 0, InitialRetryDelay, "");
    assert attempts[o.attempts - 1] == Describe(last, maxBytes);
  }

  /** With no rate limiting the waits are 2000, 4000 and 8000 ms. */
  lemma {:induction false} PlainBackoff(replies: seq<Reply>, maxBytes: nat)
    requires |replies| >= MaxRetries + 1
    requires forall j :: 0 <= j <= MaxRetries ==> !RateLimited(replies[j])
    ensures var o := HttpGetToString(replies, maxBytes);
            forall j :: 0 <= j < |o.waits| ==> o.waits[j] == InitialRetryDelay * Pow2(j)
  {
    var attempts := DescribeAll(replies, maxBytes);
    var o := HttpGetToString(replies, maxBytes);
    BackoffSchedule(attempts, 0, InitialRetryDelay, "");
    forall j | 0 <= j < |o.waits|
      ensures o.waits[j] == InitialRetryDelay * Pow2(j)
    {
      PowerStep(o.waits, attempts, j);
    }
  }

  function Pow2(j: nat): nat {
    if j == 0 then 1 else 2 * Pow2(j - 1)
  }

  lemma {:induction false} PowerStep(waits: seq<nat>, attempts: seq<Attempt>, j: nat)
    requires j < |waits| <= |attempts|
    requires |waits| > 0 ==> waits[0] == NextDelay(attempts[0], InitialRetryDelay)
    requires forall i :: 0 < i < |waits| ==> waits[i] == NextDelay(attempts[i], 2 * waits[i - 1])
    requires forall i :: 0 <= i < |waits| ==> !attempts[i].rateLimited
    ensures waits[j] == InitialRetryDelay * Pow2(j)
  {
    if j > 0 {
      PowerStep(waits, attempts, j - 1);
    }
  }

  /** Four retryable failures exhaust the call, which reports the last
      attempt's error. */
  lemma {:induction false} ExhaustedReportsLastError(replies: seq<Reply>, maxBytes: nat)
    requires |replies| >= MaxRetries + 1
    requires forall j :: 0 <= j <= MaxRetries ==> Retryable(replies[j], maxBytes)
    ensures HttpGetToString(replies, maxBytes).attempts == MaxRetries + 1
    ensures HttpGetToString(replies, maxBytes).result == Err(AttemptError(replies[MaxRetries]))
  {
    var attempts := DescribeAll(replies, maxBytes);
    var o := HttpGetToString(replies, maxBytes);
    EarlyStopNotRetryable(attempts, 0, InitialRetryDelay, "");
    SuccessOnAccept(attempts, 0, InitialRetryDelay, "");
    FailureReportsLastError(attempts, 0, InitialRetryDelay, "");
    assert o.attempts == MaxRetries + 1;
    assert attempts[MaxRetries].verdict == Retry;
  }
}

=== FILE: mqtt.dfy ===
/** The MQTT client: the topic a sensor publishes under, when a reading
    is published, the connection and reconnect bookkeeping of the main
    loop, the OTA lock-out and the dispatch of incoming commands. The
    broker connection, the JSON payloads and Home Assistant discovery
    documents are outside the model; whether a connect or a publish
    succeeds is a parameter. */
module Mqtt {
  import opened Common
  import Config
  import Sensors

  const ReconnectInterval: uint32 := 5000
  /** Incoming payloads are copied into a 256-byte buffer and terminated. */
  const MessageLength: nat := 255
  /** The sensor level is built in a SENSOR_NAME_MAX_LEN (32) buffer. */
  const SensorIdLength: nat := 31
  /** Topics are built in a 128-byte buffer. */
  const TopicLength: nat := 127

  /** The topic level separator and the two wildcards of section 4.7.1 of
      OASIS MQTT 3.1.1. */
  const LevelSeparator: char := '/'
  const MultiLevelWildcard: char := '#'
  const SingleLevelWildcard: char := '+'

  const TopicSensor: string := "sensor"
  const TopicTemperature: string := "temperature"
  const TopicAlarm: string := "alarm"
  const TopicStatus: string := "status"
  const TopicCommand: string := "cmd"
  const SensorIdPrefix: string := "sensor_"

  const CommandCalibrate: string := "/cmd/calibrate"
  const CommandRescan: string := "/cmd/rescan"
  const CommandReboot: string := "/cmd/reboot"

  // ---------------------------------------------------------------------------
  // Topics
  // ---------------------------------------------------------------------------

  /** The characters a sensor name may not bring into its topic level. */
  predicate Special(c: char) {
    c == ' ' || c == LevelSeparator || c == MultiLevelWildcard || c == SingleLevelWildcard
  }

  function SanitizeChar(c: char): (r: char)
    ensures !Special(r)
  {
    if Special(c) then '_' else c
  }

  /** No separator, wildcard or space: the text is a single topic level
      that matches only itself. */
  predicate PlainLevel(s: string) {
    forall k :: 0 <= k < |s| ==> !Special(s[k])
  }

  function Sanitize(s: string): (r: string)
    ensures |r| == |s| && PlainLevel(r)
    ensures forall k :: 0 <= k < |s| ==> r[k] == SanitizeChar(s[k])
  {
    seq(|s|, k requires 0 <= k < |s| => SanitizeChar(s[k]))
  }

  /** Sanitising keeps every ordinary character and is idempotent. */
  lemma SanitizeKeepsPlain(s: string)
    ensures PlainLevel(s) <==> Sanitize(s) == s
    ensures Sanitize(Sanitize(s)) == Sanitize(s)
  {
    if Sanitize(s) == s {
      assert forall k :: 0 <= k < |s| ==> s[k] == SanitizeChar(s[k]);
    }
  }

  predicate Named(c: Option<Config.SensorConfig>) {
    c.Some? && |c.value.name| > 0
  }

  /** The sensor level: the configured name cut to 31 characters with
      spaces, separators and wildcards replaced by '_', or "sensor_" and
      the index when the sensor has no name. */
  function SensorId(c: Option<Config.SensorConfig>, index: nat): (id: string)
    ensures |id| > 0 && PlainLevel(id)
    ensures Named(c) ==>
              |id| == Sensors.Min(|c.value.name|, SensorIdLength)
              && forall k :: 0 <= k < |id| ==> id[k] == SanitizeChar(c.value.name[k])
    ensures !Named(c) ==> StartsWith(id, SensorIdPrefix) && id[|SensorIdPrefix|..] == NatToDecimal(index)
  {
    if Named(c) then Sanitize(Truncate(c.value.name, SensorIdLength))
    else
      var digits := NatToDecimal(index);
      var id := SensorIdPrefix + digits;
      assert id[..|SensorIdPrefix|] == SensorIdPrefix && id[|SensorIdPrefix|..] == digits;
      assert forall k :: |SensorIdPrefix| <= k < |id| ==> IsDigit(id[k]);
      id
  }

  /** The occurrences of `c` in `s`. */
  function Count(s: string, c: char): nat {
    if |s| == 0 then 0 else (if s[0] == c then 1 else 0) + Count(s[1..], c)
  }

  lemma {:induction false} CountConcat(a: string, b: string, c: char)
    ensures Count(a + b, c) == Count(a, c) + Count(b, c)
    decreases |a|
  {
    if |a| > 0 {
      assert (a + b)[1..] == a[1..] + b;
      CountConcat(a[1..], b, c);
    } else {
      assert a + b == b;
    }
  }

  /** A plain level holds no separator and no wildcard. */
  lemma {:induction false} PlainCount(s: string, c: char)
    requires PlainLevel(s) && Special(c)
    ensures Count(s, c) == 0
    decreases |s|
  {
    if |s| > 0 {
      assert forall k :: 0 <= k < |s[1..]| ==> s[1..][k] == s[k + 1];
      PlainCount(s[1..], c);
    }
  }

  /** buildSensorTopic without the 128-byte buffer: prefix/device/sensor/
      id/suffix. */
  function SensorTopic(prefix: string, device: string, id: string, suffix: string): (t: string)
    ensures StartsWith(t, prefix)
  {
    prefix + [LevelSeparator] + device + [LevelSeparator] + TopicSensor + [LevelSeparator] + id
    + [LevelSeparator] + suffix
  }

  /** buildSensorTopic as written: the same text cut to the buffer. */
  function SensorTopicAsWritten(prefix: string, device: string, id: string, suffix: string): (t: string)
    ensures |t| <= TopicLength
    ensures |SensorTopic(prefix, device, id, suffix)| <= TopicLength ==> t == SensorTopic(prefix, device, id, suffix)
  {
    Truncate(SensorTopic(prefix, device, id, suffix), TopicLength)
  }

  /** Each character of a sensor topic comes from one of its parts or
      from the four separators between them. */
  lemma TopicCount(prefix: string, device: string, id: string, suffix: string, c: char)
    ensures Count(SensorTopic(prefix, device, id, suffix), c)
            == Count(prefix, c) + Count(device, c) + Count(TopicSensor, c) + Count(id, c) + Count(suffix, c)
               + 4 * Count([LevelSeparator], c)
  {
    var sep := [LevelSeparator];
    CountConcat(prefix, sep, c);
    CountConcat(prefix + sep, device, c);
    CountConcat(prefix + sep + device, sep, c);
    CountConcat(prefix + sep + device + sep, TopicSensor, c);
    CountConcat(prefix + sep + device + sep + TopicSensor, sep, c);
    CountConcat(prefix + sep + device + sep + TopicSensor + sep, id, c);
    CountConcat(prefix + sep + device + sep + TopicSensor + sep + id, sep, c);
    CountConcat(prefix + sep + device + sep + TopicSensor + sep + id + sep, suffix, c);
  }

  /** A special character of a topic comes from the prefix, the device
      name or the four separators, when the sensor level and the suffix
      are plain. */
  lemma PlainTopicCount(prefix: string, device: string, id: string, suffix: string, c: char)
    requires PlainLevel(id) && PlainLevel(suffix) && Special(c)
    ensures Count(SensorTopic(prefix, device, id, suffix), c)
            == Count(prefix, c) + Count(device, c) + if c == LevelSeparator then 4 else 0
  {
    assert PlainLevel(TopicSensor) by {
      assert TopicSensor == ['s', 'e', 'n', 's', 'o', 'r'];
    }
    assert Count([LevelSeparator], c) == if c == LevelSeparator then 1 else 0;
    TopicCount(prefix, device, id, suffix, c);
    PlainCount(TopicSensor, c);
    PlainCount(id, c);
    PlainCount(suffix, c);
  }

  /** The sensor's name adds no level and no wildcard to its topic (section
      4.7.1 of OASIS MQTT 3.1.1): the topic has the separators and
      wildcards of the prefix and the device name, four separators more,
      and the sanitised name sits whole as the level between "sensor"
      and the suffix. */
  lemma SensorTopicLevels(prefix: string, device: string, c: Option<Config.SensorConfig>, index: nat, suffix: string)
    requires PlainLevel(suffix)
    ensures var id := SensorId(c, index);
            var t := SensorTopic(prefix, device, id, suffix);
            var start := |prefix| + |device| + |TopicSensor| + 3;
            Count(t, LevelSeparator) == Count(prefix, LevelSeparator) + Count(device, LevelSeparator) + 4
            && Count(t, MultiLevelWildcard) == Count(prefix, MultiLevelWildcard) + Count(device, MultiLevelWildcard)
            && Count(t, SingleLevelWildcard) == Count(prefix, SingleLevelWildcard) + Count(device, SingleLevelWildcard)
            && start + |id| < |t| && t[start..start + |id|] == id && t[start + |id|] == LevelSeparator
            && t[start - 1] == LevelSeparator
  {
    var id := SensorId(c, index);
    PlainTopicCount(prefix, device, id, suffix, LevelSeparator);
    PlainTopicCount(prefix, device, id, suffix, MultiLevelWildcard);
    PlainTopicCount(prefix, device, id, suffix, SingleLevelWildcard);
  }

  /** A sensor's temperature and alarm topics differ as long as the whole
      topic is kept. */
  lemma TopicsDistinct(prefix: string, device: string, id: string)
    ensures SensorTopic(prefix, device, id, TopicTemperature) != SensorTopic(prefix, device, id, TopicAlarm)
  {
    assert |TopicTemperature| != |TopicAlarm|;
  }

  /** In the 128-byte buffer, once prefix, device name and sensor level
      fill it, the suffix is cut off and a sensor's temperature and
      alarm topics coincide: a 64-character prefix, a 32-character device
      name and a 31-character sensor name already take 137 characters. */
  lemma TopicTruncationCollides(prefix: string, device: string, c: Option<Config.SensorConfig>, index: nat)
    requires |prefix| + |device| + |SensorId(c, index)| + |TopicSensor| + 4 >= TopicLength
    ensures var id := SensorId(c, index);
            SensorTopicAsWritten(prefix, device, id, TopicTemperature)
            == SensorTopicAsWritten(prefix, device, id, TopicAlarm)
  {
    var id := SensorId(c, index);
    var head := prefix + [LevelSeparator] + device + [LevelSeparator] + TopicSensor + [LevelSeparator] + id + [LevelSeparator];
    assert SensorTopic(prefix, device, id, TopicTemperature) == head + TopicTemperature;
    assert SensorTopic(prefix, device, id, TopicAlarm) == head + TopicAlarm;
    assert |head| >= TopicLength;
    assert (head + TopicTemperature)[..TopicLength] == head[..TopicLength];
    assert (head + TopicAlarm)[..TopicLength] == head[..TopicLength];
  }

  /** The topic the device subscribes to for commands:
      prefix/device/cmd/#, whose only wildcard beyond those of the prefix
      and device name is the final multi-level one, as section 4.7.1.2 of
      OASIS MQTT 3.1.1 requires. */
  function CommandFilter(prefix: string, device: string): (t: string)
    ensures StartsWith(t, prefix)
    ensures |t| >= 2 && t[|t| - 1] == MultiLevelWildcard && t[|t| - 2] == LevelSeparator
    ensures Count(t, MultiLevelWildcard) == Count(prefix, MultiLevelWildcard) + Count(device, MultiLevelWildcard) + 1
  {
    var sep := [LevelSeparator];
    var t := prefix + sep + device + sep + TopicCommand + sep + [MultiLevelWildcard];
    assert TopicCommand == ['c', 'm', 'd'];
    CountConcat(prefix, sep, MultiLevelWildcard);
    CountConcat(prefix + sep, device, MultiLevelWildcard);
    CountConcat(prefix + sep + device, sep, MultiLevelWildcard);
    CountConcat(prefix + sep + device + sep, TopicCommand, MultiLevelWildcard);
    CountConcat(prefix + sep + device + sep + TopicCommand, sep, MultiLevelWildcard);
    CountConcat(prefix + sep + device + sep + TopicCommand + sep, [MultiLevelWildcard], MultiLevelWildcard);
    t
  }

  // ---------------------------------------------------------------------------
  // The client state
  // ---------------------------------------------------------------------------

  /** _lastError. */
  datatype Failure = NoError | ConnectFailed(state: int) | PublishFailed

  /** The MQTTClient's state; `connected` stands for the broker link as
      PubSubClient reports it. */
  datatype Client = Client(
    connected: bool,
    lastPublished: seq<real>,
    publishCount: uint32,
    lastError: Failure,
    lastConnectAttempt: uint32,
    lastPublishTime: uint32,
    discoveryPublished: bool,
    reconnectRequested: bool,
    otaInProgress: bool)

  predicate ClientShaped(c: Client) {
    |c.lastPublished| == Config.MaxSensors
  }

  /** The constructor: nothing published yet for any sensor. */
  function InitialClient(): (c: Client)
    ensures ClientShaped(c) && !c.connected && c.publishCount == 0
    ensures forall i :: 0 <= i < Config.MaxSensors ==> c.lastPublished[i] == Sensors.TempInvalid
  {
    Client(false, seq(Config.MaxSensors, _ => Sensors.TempInvalid), 0, NoError, 0, 0, false, false, false)
  }

  /** isEnabled: the client runs only when switched on and given a
      server; a configuration decoded without "enabled" never runs. */
  function IsEnabled(m: Config.MqttConfig): (r: bool)
    ensures r ==> m.enabled && |m.server| > 0
    ensures m.enabled && |m.server| > 0 ==> r
  {
    m.enabled && |m.server| > 0
  }

  /** A stored configuration that lacks the "enabled" field or the
      server leaves the client idle. */
  lemma MissingFieldsDisable(j: Config.JsonMqtt)
    ensures j.enabled.None? || j.server.None? ==> !IsEnabled(Config.MqttFromJson(j))
  {
  }

  /** setOtaMode: entering OTA mode drops a connected link. */
  function SetOtaMode(c: Client, enabled: bool): (r: Client)
    ensures r.otaInProgress == enabled
    ensures enabled ==> !r.connected
    ensures !enabled ==> r == c.(otaInProgress := false)
    ensures r.lastPublished == c.lastPublished && r.publishCount == c.publishCount
  {
    if enabled && c.connected then c.(otaInProgress := true, connected := false)
    else c.(otaInProgress := enabled)
  }

  /** reconnect: only raises the flag the main loop consumes, and is
      ignored during an update. */
  function Reconnect(c: Client): (r: Client)
    ensures c.otaInProgress ==> r == c
    ensures !c.otaInProgress ==> r == c.(reconnectRequested := true)
  {
    if c.otaInProgress then c else c.(reconnectRequested := true)
  }

  /** disconnect: a connected client announces itself offline (counted as
      a publish) before closing. */
  function Disconnect(c: Client): (r: Client)
    ensures !r.connected
    ensures c.connected ==> r.publishCount == AddU32(c.publishCount, 1)
    ensures !c.connected ==> r == c
  {
    if c.connected then c.(connected := false, publishCount := AddU32(c.publishCount, 1)) else c
  }

  /** connect, given whether the broker accepts the session and the
      PubSubClient state code when it does not: refused during an update
      and without a server; on success the online status is published
      (and counted) and the error cleared. */
  function Connect(c: Client, m: Config.MqttConfig, accepted: bool, state: int): (r: (Client, bool))
    ensures r.1 <==> !c.otaInProgress && |m.server| > 0 && accepted
    ensures r.1 ==> r.0.connected && r.0.lastError == NoError && r.0.publishCount == AddU32(c.publishCount, 1)
    ensures !r.1 && !c.otaInProgress && |m.server| > 0 ==> r.0 == c.(connected := false, lastError := ConnectFailed(state))
    ensures c.otaInProgress || |m.server| == 0 ==> r.0 == c
  {
    if c.otaInProgress || |m.server| == 0 then (c, false)
    else if accepted then
      (c.(connected := true, lastError := NoError, publishCount := AddU32(c.publishCount, 1)), true)
    else (c.(connected := false, lastError := ConnectFailed(state)), false)
  }

  // ---------------------------------------------------------------------------
  // Publishing temperatures
  // ---------------------------------------------------------------------------

  function Abs(x: real): real {
    if x < 0.0 then -x else x
  }

  /** shouldPublishTemperature: never past MAX_SENSORS, always for a
      sensor not yet published, otherwise when the reading moved by at
      least the threshold. */
  function ShouldPublishTemperature(c: Client, index: nat, temp: real, threshold: real): (r: bool)
    requires ClientShaped(c)
    ensures index >= Config.MaxSensors ==> !r
    ensures index < Config.MaxSensors && c.lastPublished[index] == Sensors.TempInvalid ==> r
    ensures index < Config.MaxSensors && c.lastPublished[index] != Sensors.TempInvalid ==>
              (r <==> temp - c.lastPublished[index] >= threshold || c.lastPublished[index] - temp >= threshold)
  {
    if index >= Config.MaxSensors then false
    else if c.lastPublished[index] == Sensors.TempInvalid then true
    else Abs(temp - c.lastPublished[index]) >= threshold
  }

  /** publishTemperatures' choice for one sensor: connected, and either
      never published, publishing on every cycle, or past the threshold. */
  predicate Publishes(c: Client, m: Config.MqttConfig, d: Sensors.SensorData, i: nat)
    requires ClientShaped(c)
  {
    d.connected &&
    (i >= Config.MaxSensors || c.lastPublished[i] == Sensors.TempInvalid
     || !m.publishOnChange || ShouldPublishTemperature(c, i, d.temperature, m.publishThreshold))
  }

  /** publishSensorTemperature for sensor `i`, given whether the broker
      takes the message: on success the count goes up and the reading is
      remembered, on failure only the error is set. */
  function PublishSensor(c: Client, i: nat, temp: real, accepted: bool): (r: Client)
    requires ClientShaped(c) && i < Config.MaxSensors
    ensures ClientShaped(r)
  {
    if !c.connected then c
    else if accepted then
      c.(publishCount := AddU32(c.publishCount, 1), lastPublished := c.lastPublished[i := temp])
    else c.(lastError := PublishFailed)
  }

  /** The loop of publishTemperatures from sensor `i`. */
  function PublishFrom(c: Client, m: Config.MqttConfig, b: Sensors.Bank, accepted: seq<bool>, i: nat): (r: Client)
    requires ClientShaped(c) && Sensors.BankShaped(b) && i <= b.count <= |accepted|
    ensures ClientShaped(r)
    ensures r == c.(publishCount := r.publishCount, lastPublished := r.lastPublished, lastError := r.lastError)
    decreases b.count - i
  {
    if i == b.count then c else PublishFrom(PublishStep(c, m, b, accepted, i), m, b, accepted, i + 1)
  }

  /** One turn of the loop: sensor `i` is sent when it publishes. */
  function PublishStep(c: Client, m: Config.MqttConfig, b: Sensors.Bank, accepted: seq<bool>, i: nat): (r: Client)
    requires ClientShaped(c) && Sensors.BankShaped(b) && i < b.count <= |accepted|
    ensures ClientShaped(r)
    ensures r == c.(publishCount := r.publishCount, lastPublished := r.lastPublished, lastError := r.lastError)
  {
    if Publishes(c, m, b.data[i], i) then PublishSensor(c, i, b.data[i].temperature, accepted[i]) else c
  }

  /** publishTemperatures, given for each live sensor whether the broker
      would take its message. */
  function PublishTemperatures(c: Client, m: Config.MqttConfig, b: Sensors.Bank, accepted: seq<bool>): (r: Client)
    requires ClientShaped(c) && Sensors.BankShaped(b) && b.count <= |accepted|
    ensures ClientShaped(r)
    ensures !c.connected ==> r == c
    ensures r == c.(publishCount := r.publishCount, lastPublished := r.lastPublished, lastError := r.lastError)
  {
    if !c.connected then c else PublishFrom(c, m, b, accepted, 0)
  }

  /** The number of messages the loop from `i` gets through. */
  function Delivered(c: Client, m: Config.MqttConfig, b: Sensors.Bank, accepted: seq<bool>, i: nat): nat
    requires ClientShaped(c) && Sensors.BankShaped(b) && i <= b.count <= |accepted|
    decreases b.count - i
  {
    if i == b.count then 0
    else Delivered(c, m, b, accepted, i + 1) + if Publishes(c, m, b.data[i], i) && accepted[i] then 1 else 0
  }

  /** Publishing depends on the client only through the sensor's own
      remembered reading. */
  lemma PublishesFrame(c: Client, e: Client, m: Config.MqttConfig, d: Sensors.SensorData, j: nat)
    requires ClientShaped(c) && ClientShaped(e)
    requires j < Config.MaxSensors ==> c.lastPublished[j] == e.lastPublished[j]
    ensures Publishes(c, m, d, j) == Publishes(e, m, d, j)
  {
  }

  /** What the loop from `i` does to one sensor's remembered reading:
      replaced by the current reading exactly when that sensor is
      published and the broker takes it. */
  lemma {:induction false} PublishFromSlot(c: Client, m: Config.MqttConfig, b: Sensors.Bank, accepted: seq<bool>,
                                           i: nat, j: nat)
    requires ClientShaped(c) && Sensors.BankShaped(b) && i <= b.count <= |accepted| && c.connected
    requires j < Config.MaxSensors
    ensures PublishFrom(c, m, b, accepted, i).lastPublished[j]
            == if i <= j < b.count && Publishes(c, m, b.data[j], j) && accepted[j]
               then b.data[j].temperature else c.lastPublished[j]
    decreases b.count - i
  {
    if i < b.count {
      var next := PublishStep(c, m, b, accepted, i);
      PublishFromSlot(next, m, b, accepted, i + 1, j);
      if j != i {
        assert next.lastPublished[j] == c.lastPublished[j];
        PublishesFrame(c, next, m, b.data[j], j);
      }
    }
  }

  /** The count goes up by the number of messages delivered, modulo
      2^32. */
  lemma {:induction false} PublishFromCount(c: Client, m: Config.MqttConfig, b: Sensors.Bank, accepted: seq<bool>,
                                            i: nat)
    requires ClientShaped(c) && Sensors.BankShaped(b) && i <= b.count <= |accepted| && c.connected
    ensures PublishFrom(c, m, b, accepted, i).publishCount
            == (c.publishCount + Delivered(c, m, b, accepted, i)) % U32
    decreases b.count - i
  {
    if i < b.count {
      var next := PublishStep(c, m, b, accepted, i);
      PublishFromCount(next, m, b, accepted, i + 1);
      StepCount(c, m, b, accepted, i);
    }
  }

  /** One turn adds its own delivery to the count and leaves the later
      sensors' decisions alone. */
  lemma StepCount(c: Client, m: Config.MqttConfig, b: Sensors.Bank, accepted: seq<bool>, i: nat)
    requires ClientShaped(c) && Sensors.BankShaped(b) && i < b.count <= |accepted| && c.connected
    ensures var next := PublishStep(c, m, b, accepted, i);
            next.connected
            && (next.publishCount + Delivered(next, m, b, accepted, i + 1)) % U32
               == (c.publishCount + Delivered(c, m, b, accepted, i)) % U32
  {
    var next := PublishStep(c, m, b, accepted, i);
    assert forall k :: i + 1 <= k < Config.MaxSensors ==> next.lastPublished[k] == c.lastPublished[k];
    DeliveredFrame(c, next, m, b, accepted, i + 1);
    var d := Delivered(c, m, b, accepted, i + 1);
    if Publishes(c, m, b.data[i], i) && accepted[i] {
      assert next.publishCount == (c.publishCount + 1) % U32;
      ModShift(c.publishCount + 1, d);
    } else {
      assert next.publishCount == c.publishCount;
    }
  }

  lemma ModShift(a: nat, d: nat)
    ensures (a % U32 + d) % U32 == (a + d) % U32
  {
  }

  /** The loop from `i` decides the same for a client that differs only
      before `i`. */
  lemma {:induction false} DeliveredFrame(c: Client, e: Client, m: Config.MqttConfig, b: Sensors.Bank,
                                          accepted: seq<bool>, i: nat)
    requires ClientShaped(c) && ClientShaped(e) && Sensors.BankShaped(b) && i <= b.count <= |accepted|
    requires forall k :: i <= k < Config.MaxSensors ==> c.lastPublished[k] == e.lastPublished[k]
    ensures Delivered(c, m, b, accepted, i) == Delivered(e, m, b, accepted, i)
    decreases b.count - i
  {
    if i < b.count {
      DeliveredFrame(c, e, m, b, accepted, i + 1);
    }
  }

  /** A published reading is not sent again while publishing on change
      until it has moved by the threshold. */
  lemma SmallChangeSuppressed(c: Client, m: Config.MqttConfig, b: Sensors.Bank, accepted: seq<bool>,
                              next: Sensors.Bank, later: seq<bool>, j: nat)
    requires ClientShaped(c) && Sensors.BankShaped(b) && b.count <= |accepted| && c.connected
    requires j < b.count && Publishes(c, m, b.data[j], j) && accepted[j]
    requires b.data[j].temperature != Sensors.TempInvalid
    requires m.publishOnChange
    requires Sensors.BankShaped(next) && j < next.count
    requires Abs(next.data[j].temperature - b.data[j].temperature) < m.publishThreshold
    ensures !Publishes(PublishTemperatures(c, m, b, accepted), m, next.data[j], j)
  {
    PublishFromSlot(c, m, b, accepted, 0, j);
    PublishesFrame(c, c, m, b.data[j], j);
  }

  // ---------------------------------------------------------------------------
  // The main loop
  // ---------------------------------------------------------------------------

  /** What one call of update did. */
  datatype Action =
    | Idle
    | ReconnectDropped
    | ConnectAttempt(ok: bool)
    | Serviced(discovery: bool, published: bool)

  datatype Tick = Tick(client: Client, action: Action)

  /** The broker's answers for one update: whether a connect is accepted
      and the state code otherwise, and which temperature messages go
      through. */
  datatype Link = Link(connectAccepted: bool, connectState: int, accepted: seq<bool>)

  /** update: nothing during an OTA update or while disabled; a pending
      reconnect request drops the link and restarts the reconnect
      delay; nothing without WiFi; a connect attempt every five seconds
      while disconnected; otherwise discovery once per connection and
      the temperatures, on every cycle when publishing on change and
      every publishInterval seconds otherwise. */
  function Update(c: Client, m: Config.MqttConfig, b: Sensors.Bank, wifiUp: bool, now: uint32, link: Link)
    : (r: Tick)
    requires ClientShaped(c) && Sensors.BankShaped(b) && b.count <= |link.accepted|
    ensures ClientShaped(r.client)
    ensures c.otaInProgress || !IsEnabled(m) ==> r == Tick(c, Idle)
    ensures r.action == ReconnectDropped <==> !c.otaInProgress && IsEnabled(m) && c.reconnectRequested
    ensures r.action == ReconnectDropped ==>
              !r.client.reconnectRequested && !r.client.connected && !r.client.discoveryPublished
              && r.client.lastConnectAttempt == now
    ensures r.action.ConnectAttempt? ==>
              !c.connected && Elapsed(now, c.lastConnectAttempt) >= ReconnectInterval
              && r.client.lastConnectAttempt == now
    ensures r.action.Serviced? ==> c.connected && wifiUp && r.client.discoveryPublished
                                   && (r.action.discovery <==> !c.discoveryPublished)
    ensures r.action.Serviced? && m.publishOnChange ==> r.action.published
  {
    if c.otaInProgress || !IsEnabled(m) then Tick(c, Idle)
    else if c.reconnectRequested then
      Tick(c.(reconnectRequested := false, lastConnectAttempt := now, discoveryPublished := false, connected := false),
           ReconnectDropped)
    else if !wifiUp then Tick(c, Idle)
    else if !c.connected then
      if Elapsed(now, c.lastConnectAttempt) >= ReconnectInterval then
        var attempt := Connect(c.(lastConnectAttempt := now), m, link.connectAccepted, link.connectState);
        Tick(attempt.0, ConnectAttempt(attempt.1))
      else Tick(c, Idle)
    else
      var first := !c.discoveryPublished;
      var serviced := c.(discoveryPublished := true);
      if m.publishOnChange then
        Tick(PublishTemperatures(serviced, m, b, link.accepted), Serviced(first, true))
      else
        var interval := (m.publishInterval * 1000) % U32;
        if Elapsed(now, c.lastPublishTime) >= interval then
          Tick(PublishTemperatures(serviced, m, b, link.accepted).(lastPublishTime := now), Serviced(first, true))
        else Tick(serviced, Serviced(first, false))
  }

  /** A reconnect request is consumed by one update, and the next
      connect attempt waits the full reconnect interval from then. */
  lemma ReconnectConsumedOnce(c: Client, m: Config.MqttConfig, b: Sensors.Bank, wifiUp: bool, now: uint32,
                              delay: uint32, link: Link, link2: Link)
    requires ClientShaped(c) && Sensors.BankShaped(b) && b.count <= |link.accepted| && b.count <= |link2.accepted|
    requires !c.otaInProgress && IsEnabled(m)
    requires delay < ReconnectInterval
    ensures var t := Update(Reconnect(c), m, b, wifiUp, now, link);
            t.action == ReconnectDropped
            && Update(t.client, m, b, wifiUp, AddU32(now, delay), link2) == Tick(t.client, Idle)
  {
    var t := Update(Reconnect(c), m, b, wifiUp, now, link);
    assert Elapsed(AddU32(now, delay), now) == delay;
  }

  /** During an OTA update the client is inert: update does nothing,
      reconnect requests are dropped and connect refuses. */
  lemma OtaLockOut(c: Client, m: Config.MqttConfig, b: Sensors.Bank, wifiUp: bool, now: uint32, link: Link)
    requires ClientShaped(c) && Sensors.BankShaped(b) && b.count <= |link.accepted|
    ensures var o := SetOtaMode(c, true);
            Update(o, m, b, wifiUp, now, link) == Tick(o, Idle)
            && Reconnect(o) == o
            && Connect(o, m, link.connectAccepted, link.connectState) == (o, false)
            && !o.connected
  {
  }

  // ---------------------------------------------------------------------------
  // Incoming messages
  // ---------------------------------------------------------------------------

  /** messageCallback's copy of the payload: at most 255 bytes, read as a
      C string up to the first NUL. */
  function Message(payload: string): (r: string)
    ensures |r| <= MessageLength && StartsWith(payload, r) && '\0' !in r
    ensures '\0' !in payload ==> r == Truncate(payload, MessageLength)
  {
    var copied := Truncate(payload, MessageLength);
    var k := IndexOf(copied, '\0');
    if k < 0 then copied
    else
      assert copied[..k] == payload[..k];
      copied[..k]
  }

  datatype Command = Calibrate(reference: real) | Rescan | Reboot | Ignored

  /** handleMessage: the first of "/cmd/calibrate", "/cmd/rescan" and
      "/cmd/reboot" found in the topic decides; a calibration needs a
      payload whose JSON has a reference_temp, given here as `reference`. */
  function HandleMessage(topic: string, reference: Option<real>): (r: Command)
    ensures r.Calibrate? <==> Contains(topic, CommandCalibrate) && reference.Some?
    ensures r.Calibrate? ==> r.reference == reference.value
    ensures r == Rescan <==> !Contains(topic, CommandCalibrate) && Contains(topic, CommandRescan)
    ensures r == Reboot <==>
              !Contains(topic, CommandCalibrate) && !Contains(topic, CommandRescan) && Contains(topic, CommandReboot)
  {
    if Contains(topic, CommandCalibrate) then
      if reference.Some? then Calibrate(reference.value) else Ignored
    else if Contains(topic, CommandRescan) then Rescan
    else if Contains(topic, CommandReboot) then Reboot
    else Ignored
  }

  lemma {:induction false} ContainsSuffix(s: string, p: string)
    ensures Contains(s + p, p)
    decreases |s|
  {
    if |s| == 0 {
      assert s + p == p;
      assert StartsWith(p, p);
    } else {
      assert (s + p)[1..] == s[1..] + p;
      ContainsSuffix(s[1..], p);
    }
  }

  /** A command published under the subscribed filter is dispatched by
      its last level: a calibration with or without a usable reference,
      and a rescan unless the device's own levels spell a calibration. */
  lemma CommandDispatch(base: string, reference: real)
    ensures HandleMessage(base + CommandCalibrate, Some(reference)) == Calibrate(reference)
    ensures HandleMessage(base + CommandCalibrate, None) == Ignored
    ensures !Contains(base + CommandRescan, CommandCalibrate) ==> HandleMessage(base + CommandRescan, None) == Rescan
  {
    ContainsSuffix(base, CommandCalibrate);
    ContainsSuffix(base, CommandRescan);
  }
}

=== FILE: ota_manager.dfy ===
/** The OTA manager's state machine: the published progress record, the
    busy test, the release-cache freshness check, the daily auto-check
    timer, the background check task, the pre-flight chain of
    startUpdate and the phase sequencing of the update task.

    Clocks, the release mutex, task creation, the partition table and the
    heap are oracle parameters; the two flash writers are the functions of
    module FlashWriter applied to oracle downloads. */
module OtaManager {
  import opened Common
  import opened Version
  import opened Release
  import opened HttpGet
  import FlashWriter

  // ---------------------------------------------------------------------------
  // Progress
  // ---------------------------------------------------------------------------

  datatype Target = FirmwareTarget | SpiffsTarget | BothTargets

  datatype State = Idle | Checking | Ready | UpdatingFirmware | UpdatingSpiffs | Rebooting | Error

  /** OTAProgress; `message` and `error` live in 96-byte buffers. */
  datatype Progress = Progress(state: State, target: Target, percent: int, message: string, error: string)

  const TextCapacity: nat := 96

  const InitialProgress := Progress(Idle, BothTargets, 0, "", "")

  /** setProgress: the target is kept, both texts are copied with
      strlcpy, so at most 95 characters survive, and a missing error
      clears the error text. */
  function SetProgress(p: Progress, state: State, percent: int, message: string, error: Option<string>): (r: Progress)
    ensures r.state == state && r.percent == percent && r.target == p.target
    ensures |r.message| < TextCapacity && StartsWith(message, r.message)
    ensures |message| < TextCapacity ==> r.message == message
    ensures error.None? ==> r.error == ""
    ensures error.Some? ==> |r.error| < TextCapacity && StartsWith(error.value, r.error)
    ensures error.Some? && |error.value| < TextCapacity ==> r.error == error.value
  {
    Progress(state, p.target, percent, Truncate(message, TextCapacity - 1),
             match error case None => "" case Some(e) => Truncate(e, TextCapacity - 1))
  }

  /** The states in which a flash write or the reboot is under way. */
  predicate Flashing(s: State) {
    s.UpdatingFirmware? || s.UpdatingSpiffs? || s.Rebooting?
  }

  /** isBusy: only the idle, ready and error states leave the manager
      free. */
  function IsBusy(s: State): (busy: bool)
    ensures !busy <==> s in {Idle, Ready, Error}
  {
    s.Checking? || Flashing(s)
  }

  /** The manager's mutable state. `checkTask` stands for a non-null
      `_checkTask` handle. */
  datatype Manager = Manager(progress: Progress, release: ReleaseInfo, checkTask: bool, lastAutoCheck: uint32)

  const InitialManager := Manager(InitialProgress, EmptyRelease, false, 0)

  /** A boolean answer with the error text it leaves in its out
      parameter ("" when untouched). */
  datatype Answer = Answer(m: Manager, ok: bool, error: string)

  // ---------------------------------------------------------------------------
  // Release cache freshness
  // ---------------------------------------------------------------------------

  const ReleaseInfoTtl: nat := 5 * 60 * 1000

  const ErrOtaBusy := "OTA busy"
  const ErrCheckSpawn := "Failed to start OTA check task"
  const MsgChecking := "Checking GitHub releases..."
  const MsgCheckFailed := "OTA: failed to check releases"

  /** The cached release is recent enough: fetched (non-zero time) less
      than the TTL ago on the wrapping millisecond clock. */
  predicate Fresh(fetchedAt: uint32, now: uint32) {
    fetchedAt != 0 && Elapsed(now, fetchedAt) < ReleaseInfoTtl
  }

  /** ensureReleaseInfoFresh. `lockOk` is whether the release mutex was
      taken (otherwise the fetch time reads as 0) and `spawnOk` whether
      the check task could be created. */
  function EnsureReleaseInfoFresh(m: Manager, force: bool, now: uint32, lockOk: bool, spawnOk: bool): (r: Answer)
    ensures r.m.release == m.release && r.m.lastAutoCheck == m.lastAutoCheck
    ensures Flashing(m.progress.state) ==> r == Answer(m, false, ErrOtaBusy)
    ensures r.ok <==> r.error == ""
    ensures r.m != m ==> !IsBusy(m.progress.state) && !m.checkTask && r.m.checkTask == spawnOk
    ensures r.m != m ==> (r.m.progress.state == Checking <==> spawnOk) && (r.m.progress.state == Error <==> !spawnOk)
    ensures r.m.progress.state == Error && r.m != m ==>
              r.m.progress.error == ErrCheckSpawn && r.error == ErrCheckSpawn
  {
    var p := m.progress;
    if Flashing(p.state) then Answer(m, false, ErrOtaBusy)
    else if p.state == Checking then Answer(m, true, "")
    else
      var fetchedAt := if lockOk then m.release.fetchedAtMs else 0;
      if !force && Fresh(fetchedAt, now) then Answer(m, true, "")
      else if m.checkTask then Answer(m, true, "")
      else if spawnOk then
        Answer(m.(progress := SetProgress(p, Checking, 0, MsgChecking, None), checkTask := true), true, "")
      else
        Answer(m.(progress := SetProgress(p, Error, 0, MsgCheckFailed, Some(ErrCheckSpawn))), false, ErrCheckSpawn)
  }

  /** A check task is requested exactly when the manager is idle, ready
      or in error, has no check task, and the cache is forced or not
      fresh; the request either starts the check task or reports the failure. */
  lemma CheckStartsExactly(m: Manager, force: bool, now: uint32, lockOk: bool, spawnOk: bool)
    ensures var r := EnsureReleaseInfoFresh(m, force, now, lockOk, spawnOk);
            ((r.m.checkTask && !m.checkTask) || r.error == ErrCheckSpawn) <==>
              !IsBusy(m.progress.state) && !m.checkTask &&
              (force || !Fresh(if lockOk then m.release.fetchedAtMs else 0, now))
  {
    assert ErrOtaBusy[0] != ErrCheckSpawn[0];
  }

  /** Once a check task has been started, asking again changes nothing
      and succeeds, whatever the clock and oracles say. */
  lemma SecondCallNoop(m: Manager, force: bool, now: uint32, lockOk: bool, spawnOk: bool,
                       force2: bool, now2: uint32, lockOk2: bool, spawnOk2: bool)
    requires EnsureReleaseInfoFresh(m, force, now, lockOk, spawnOk).m != m
    requires EnsureReleaseInfoFresh(m, force, now, lockOk, spawnOk).ok
    ensures var m1 := EnsureReleaseInfoFresh(m, force, now, lockOk, spawnOk).m;
            EnsureReleaseInfoFresh(m1, force2, now2, lockOk2, spawnOk2) == Answer(m1, true, "")
  {
  }

  // ---------------------------------------------------------------------------
  // The background check task
  // ---------------------------------------------------------------------------

  const MsgFetchFailed := "Failed to fetch release"
  const MsgInfoReady := "Update info ready"

  /** runCheckTask, given what fetchLatestReleaseFromGitHub produced
      (Release.FetchLatestRelease): a failed fetch leaves the cache alone
      and reports ERROR with the fetch error; a successful one stamps the
      record with the clock, replaces the whole cache when the mutex is
      taken, and reports READY. Either way the check-task handle is cleared. */
  function RunCheckTask(m: Manager, fetched: Result<ReleaseInfo>, now: uint32, lockOk: bool): (r: Manager)
    ensures !r.checkTask && r.lastAutoCheck == m.lastAutoCheck && r.progress.target == m.progress.target
    ensures r.progress.state == (if fetched.Ok? then Ready else Error)
    ensures fetched.Err? ==> r.release == m.release && StartsWith(fetched.error, r.progress.error)
    ensures fetched.Ok? && lockOk ==> r.release == fetched.value.(fetchedAtMs := now)
    ensures !lockOk ==> r.release == m.release
  {
    match fetched
    case Err(e) =>
      m.(progress := SetProgress(m.progress, Error, 0, MsgFetchFailed, Some(e)), checkTask := false)
    case Ok(next) =>
      m.(release := if lockOk then next.(fetchedAtMs := now) else m.release,
         progress := SetProgress(m.progress, Ready, 0, MsgInfoReady, None),
         checkTask := false)
  }

  /** The check task as it runs on the device: the release API call and
      the document scan, then the cache update. */
  function CheckTask(m: Manager, replies: seq<Reply>, parsed: Result<ReleaseDoc>, now: uint32, lockOk: bool): (r: Manager)
    requires |replies| >= MaxRetries + 1
    ensures r.progress.state == Ready ==> HttpGetToString(replies, ReleaseApiMaxBytes).result.Ok? && parsed.Ok?
    ensures r.progress.state == Ready && lockOk ==>
              r.release.fetchedAtMs == now && |r.release.tag| > 0 && r.release.tag[0] == 'v' && r.release.body == ""
  {
    RunCheckTask(m, FetchLatestRelease(replies, parsed), now, lockOk)
  }

  /** Partner of the freshness check: right after a successful check at a
      non-zero time, a non-forced request within the TTL does nothing. */
  lemma CheckedReleaseStaysFresh(m: Manager, info: ReleaseInfo, now: uint32, d: nat, spawnOk: bool)
    requires now != 0 && d < ReleaseInfoTtl
    ensures var m1 := RunCheckTask(m, Ok(info), now, true);
            EnsureReleaseInfoFresh(m1, false, AddU32(now, d), true, spawnOk) == Answer(m1, true, "")
  {
    assert Elapsed(AddU32(now, d), now) == d;
  }

  /** ...and once the TTL has passed, the same request starts a check. */
  lemma CheckedReleaseGoesStale(m: Manager, info: ReleaseInfo, now: uint32, d: nat, spawnOk: bool)
    requires ReleaseInfoTtl <= d < U32
    ensures var m1 := RunCheckTask(m, Ok(info), now, true);
            var r := EnsureReleaseInfoFresh(m1, false, AddU32(now, d), true, spawnOk);
            r.m.progress.state == (if spawnOk then Checking else Error) && r.m.checkTask == spawnOk
  {
    assert Elapsed(AddU32(now, d), now) == d;
  }

  // ---------------------------------------------------------------------------
  // The daily auto-check
  // ---------------------------------------------------------------------------

  const AutoCheckInterval: nat := 24 * 60 * 60 * 1000
  const BootCheckDelay: nat := 90000

  /** checkOnBoot: backdate the last auto-check so that the next one is
      due 90 seconds from now. */
  function CheckOnBoot(now: uint32): (last: uint32)
    ensures Elapsed(now, last) == AutoCheckInterval - BootCheckDelay
  {
    (now - AutoCheckInterval + BootCheckDelay) % U32
  }

  /** The timer in `update` has run out and the manager is free. */
  predicate AutoCheckDue(m: Manager, now: uint32) {
    m.lastAutoCheck != 0 && Elapsed(now, m.lastAutoCheck) >= AutoCheckInterval && !IsBusy(m.progress.state)
  }

  /** update: the first call only starts the timer; afterwards a forced
      check is requested once the interval has elapsed on the wrapping
      clock and the manager is not busy, and the timer restarts then. */
  function Update(m: Manager, now: uint32, spawnOk: bool): (r: Manager)
    ensures r.release == m.release
    ensures r.lastAutoCheck == if m.lastAutoCheck == 0 || AutoCheckDue(m, now) then now else m.lastAutoCheck
    ensures !AutoCheckDue(m, now) ==> r.progress == m.progress && r.checkTask == m.checkTask
    ensures AutoCheckDue(m, now) && !m.checkTask ==>
              r.checkTask == spawnOk && r.progress.state == (if spawnOk then Checking else Error)
    ensures AutoCheckDue(m, now) && m.checkTask ==> r.progress == m.progress && r.checkTask
  {
    if m.lastAutoCheck == 0 then m.(lastAutoCheck := now)
    else if Elapsed(now, m.lastAutoCheck) < AutoCheckInterval then m
    else if IsBusy(m.progress.state) then m
    else EnsureReleaseInfoFresh(m.(lastAutoCheck := now), true, now, true, spawnOk).m
  }

  /** The timer survives the 32-bit wrap of millis(): `d` milliseconds
      after the last auto-check the check is due exactly when `d` reaches
      the interval. */
  lemma AutoCheckAcrossWrap(m: Manager, d: nat)
    requires m.lastAutoCheck != 0 && !IsBusy(m.progress.state) && d < U32
    ensures AutoCheckDue(m, AddU32(m.lastAutoCheck, d)) <==> d >= AutoCheckInterval
  {
    assert Elapsed(AddU32(m.lastAutoCheck, d), m.lastAutoCheck) == d;
  }

  /** After checkOnBoot the first auto-check falls due 90 seconds later. */
  lemma BootCheckAfterDelay(m: Manager, now: uint32, d: nat)
    requires m.lastAutoCheck == CheckOnBoot(now) && m.lastAutoCheck != 0 && !IsBusy(m.progress.state)
    requires d + AutoCheckInterval < U32 + BootCheckDelay
    ensures AutoCheckDue(m, AddU32(now, d)) <==> d >= BootCheckDelay
  {
    var e := d + AutoCheckInterval - BootCheckDelay;
    assert 0 <= e < U32;
    assert AddU32(now, d) == AddU32(m.lastAutoCheck, e);
    AutoCheckAcrossWrap(m, e);
  }

  // ---------------------------------------------------------------------------
  // startUpdate
  // ---------------------------------------------------------------------------

  const ErrInProgress := "OTA already in progress"
  const ErrCheckingWait := "Checking for updates, please wait"
  const ErrNotReady := "Update info not ready. Press Check first."
  const ErrUpToDate := "Already up to date"
  const ErrNoFirmwareAsset := "Release missing firmware.bin asset"
  const ErrNoSpiffsAsset := "Release missing spiffs.bin asset"
  const ErrNoPartition := "No OTA partition found"
  const ErrTaskSpawn := "Failed to start OTA task"
  const MinHeapForOta: nat := 50000

  predicate NeedsFirmware(t: Target) { t.FirmwareTarget? || t.BothTargets? }
  predicate NeedsSpiffs(t: Target) { t.SpiffsTarget? || t.BothTargets? }

  function LowHeapError(freeHeap: nat): string {
    "Not enough memory for OTA (need 50KB, have " + NatToDecimal(freeHeap / 1024) + "KB)"
  }

  /** What startUpdate sees of the device: the release mutex, the OTA
      partition, the free heap, task creation and the clock. The one
      `lockOk` stands for both reads of the release under its mutex: the
      copy of the cached release (src/ota_manager.cpp:388-392) and, when
      that copy has no tag, the freshness check's read of the fetch time
      (src/ota_manager.cpp:495-498). The model does not let one take
      succeed while the other times out; when the first times out, the
      freshness check therefore also sees fetch time 0 and treats the
      cache as stale. The final copy back (src/ota_manager.cpp:1015-1018) writes
      the value just read, so its take does not matter. */
  datatype Device = Device(lockOk: bool, partitionPresent: bool, freeHeap: nat, spawnOk: bool, now: uint32)

  /** The cache as startUpdate copies it: empty when the mutex is busy. */
  function CachedRelease(m: Manager, lockOk: bool): ReleaseInfo {
    if lockOk then m.release else EmptyRelease
  }

  /** startUpdate with its guards in source order. Copying the release
      back under the mutex leaves the cache as it was. */
  function StartUpdate(m: Manager, target: Target, dev: Device): (r: Answer)
    ensures r.ok <==> r.error == ""
    ensures r.m.release == m.release && r.m.lastAutoCheck == m.lastAutoCheck
    ensures IsBusy(m.progress.state) ==> r == Answer(m, false, ErrInProgress)
  {
    var p := m.progress;
    if IsBusy(p.state) then Answer(m, false, ErrInProgress)
    else if p.state == Checking then Answer(m, false, ErrCheckingWait)
    else
      var info := CachedRelease(m, dev.lockOk);
      if |info.tag| == 0 then
        Answer(EnsureReleaseInfoFresh(m, false, dev.now, dev.lockOk, dev.spawnOk).m, false, ErrNotReady)
      else if FIRMWARE_VERSION == info.tag then Answer(m, false, ErrUpToDate)
      else if NeedsFirmware(target) && |info.firmwareUrl| == 0 then Answer(m, false, ErrNoFirmwareAsset)
      else if NeedsSpiffs(target) && |info.spiffsUrl| == 0 then Answer(m, false, ErrNoSpiffsAsset)
      else if NeedsFirmware(target) && !dev.partitionPresent then Answer(m, false, ErrNoPartition)
      else if dev.freeHeap < MinHeapForOta then Answer(m, false, LowHeapError(dev.freeHeap))
      else
        var started := Progress(UpdatingFirmware, target, 0, "", "");
        if dev.spawnOk then Answer(m.(progress := started), true, "")
        else Answer(m.(progress := SetProgress(started, Error, 0, ErrTaskSpawn, None)), false, ErrTaskSpawn)
  }

  /** Every pre-flight condition of startUpdate passes. */
  predicate Admissible(m: Manager, target: Target, dev: Device) {
    var info := CachedRelease(m, dev.lockOk);
    !IsBusy(m.progress.state) && |info.tag| > 0 && FIRMWARE_VERSION != info.tag &&
    (NeedsFirmware(target) ==> |info.firmwareUrl| > 0 && dev.partitionPresent) &&
    (NeedsSpiffs(target) ==> |info.spiffsUrl| > 0) &&
    dev.freeHeap >= MinHeapForOta
  }

  /** An update is accepted exactly when every pre-flight condition holds
      and the update task starts; it then runs UPDATING_FIRMWARE on the chosen
      target from 0 % with both texts empty. */
  lemma StartAcceptedExactly(m: Manager, target: Target, dev: Device)
    ensures StartUpdate(m, target, dev).ok <==> Admissible(m, target, dev) && dev.spawnOk
    ensures StartUpdate(m, target, dev).ok ==>
              StartUpdate(m, target, dev).m == m.(progress := Progress(UpdatingFirmware, target, 0, "", ""))
    ensures Admissible(m, target, dev) && !dev.spawnOk ==>
              StartUpdate(m, target, dev).m.progress.state == Error &&
              StartUpdate(m, target, dev).m.progress.target == target
  {
  }

  /** The CHECKING branch can never answer: isBusy already covers it. */
  lemma CheckingBranchUnreachable(m: Manager, target: Target, dev: Device)
    ensures StartUpdate(m, target, dev).error != ErrCheckingWait
    ensures m.progress.state == Checking ==> StartUpdate(m, target, dev).error == ErrInProgress
  {
    assert ErrCheckingWait[0] != ErrInProgress[0];
  }

  /** A missing cache is the only rejection with a side effect: it asks
      for a non-forced refresh. Every other rejection leaves the manager
      untouched. */
  lemma RejectionSideEffects(m: Manager, target: Target, dev: Device)
    ensures var r := StartUpdate(m, target, dev);
            !r.ok && !IsBusy(m.progress.state) && |CachedRelease(m, dev.lockOk).tag| == 0 ==>
              r.error == ErrNotReady &&
              r.m == EnsureReleaseInfoFresh(m, false, dev.now, dev.lockOk, dev.spawnOk).m
    ensures var r := StartUpdate(m, target, dev);
            !r.ok && r.m != m ==>
              r.error == ErrNotReady || (Admissible(m, target, dev) && r.error == ErrTaskSpawn)
  {
  }

  /** The guards are checked in order: a tag equal to the running version
      is reported before any missing asset, a missing firmware asset
      before a missing SPIFFS asset for BOTH, and with the assets present
      a missing OTA partition (for a target that writes firmware) before
      a low heap, which every target then reports. */
  lemma GuardOrder(m: Manager, dev: Device)
    requires !IsBusy(m.progress.state)
    ensures var info := CachedRelease(m, dev.lockOk);
            |info.tag| > 0 && FIRMWARE_VERSION == info.tag ==>
              StartUpdate(m, FirmwareTarget, dev).error == ErrUpToDate &&
              StartUpdate(m, SpiffsTarget, dev).error == ErrUpToDate &&
              StartUpdate(m, BothTargets, dev).error == ErrUpToDate
    ensures var info := CachedRelease(m, dev.lockOk);
            |info.tag| > 0 && FIRMWARE_VERSION != info.tag && |info.firmwareUrl| == 0 ==>
              StartUpdate(m, BothTargets, dev).error == ErrNoFirmwareAsset &&
              (|info.spiffsUrl| > 0 ==> StartUpdate(m, SpiffsTarget, dev).error != ErrNoFirmwareAsset)
    ensures var info := CachedRelease(m, dev.lockOk);
            |info.tag| > 0 && FIRMWARE_VERSION != info.tag && |info.firmwareUrl| > 0 && |info.spiffsUrl| > 0 ==>
              (!dev.partitionPresent ==>
                 StartUpdate(m, FirmwareTarget, dev).error == ErrNoPartition &&
                 StartUpdate(m, BothTargets, dev).error == ErrNoPartition) &&
              (dev.freeHeap < MinHeapForOta ==>
                 StartUpdate(m, SpiffsTarget, dev).error == LowHeapError(dev.freeHeap) &&
                 (dev.partitionPresent ==>
                    StartUpdate(m, FirmwareTarget, dev).error == LowHeapError(dev.freeHeap) &&
                    StartUpdate(m, BothTargets, dev).error == LowHeapError(dev.freeHeap)))
  {
  }

  // ---------------------------------------------------------------------------
  // The update task
  // ---------------------------------------------------------------------------

  datatype Collaborator = Mqtt | WebSocket | Display

  datatype Image = FirmwareImage | SpiffsImage

  /** What the update task does that others can observe. */
  datatype Event = OtaMode(who: Collaborator, on: bool) | Flash(image: Image) | Restart

  const EnterOtaMode := [OtaMode(Mqtt, true), OtaMode(WebSocket, true), OtaMode(Display, true)]
  const LeaveOtaMode := [OtaMode(Mqtt, false), OtaMode(WebSocket, false), OtaMode(Display, false)]

  /** `prefix` is an initial segment of the event log `s`. */
  predicate Begins(s: seq<Event>, prefix: seq<Event>) {
    |prefix| <= |s| && s[..|prefix|] == prefix
  }

  /** The events so far and the progress record. */
  datatype Run = Run(log: seq<Event>, progress: Progress)

  /** A phase either lets the update task continue or ends it. */
  datatype PhaseEnd = Continue(run: Run) | Stopped(run: Run)

  /** The oracles behind the two writers: what each image's download
      delivers and how its flash session behaves. */
  datatype Flashes = Flashes(
    spiffsDownload: FlashWriter.Download,
    spiffsFlash: FlashWriter.SpiffsFlash,
    firmwareDownload: FlashWriter.Download,
    firmwareFlash: FlashWriter.OtaFlash)

  function PhaseState(image: Image): State {
    match image case FirmwareImage => UpdatingFirmware case SpiffsImage => UpdatingSpiffs
  }

  function WriterMessage(image: Image): string {
    match image case FirmwareImage => "Downloading firmware..." case SpiffsImage => "Downloading SPIFFS..."
  }

  function FailMessage(image: Image): string {
    match image case FirmwareImage => "Firmware update failed" case SpiffsImage => "SPIFFS update failed"
  }

  function WriterReport(image: Image, f: Flashes): FlashWriter.Report {
    match image
    case FirmwareImage => FlashWriter.WriteFirmware("Firmware", f.firmwareDownload, f.firmwareFlash)
    case SpiffsImage => FlashWriter.WriteSpiffs("SPIFFS", f.spiffsDownload, f.spiffsFlash)
  }

  /** The progress after a writer ran: its last published percentage, if
      it published any. */
  function AfterWriter(p: Progress, image: Image, published: seq<nat>): (r: Progress)
    ensures |published| == 0 ==> r == p
    ensures |published| > 0 ==> r.state == PhaseState(image) && r.percent == published[|published| - 1]
  {
    if |published| == 0 then p
    else SetProgress(p, PhaseState(image), published[|published| - 1], WriterMessage(image), None)
  }

  /** What a phase adds to the log after announcing itself. */
  function Coda(outcome: FlashWriter.Outcome): seq<Event> {
    match outcome
    case Failed(_) => LeaveOtaMode
    case Restarted => [Restart]
    case _ => []
  }

  /** One flash phase: announce it, run the writer, and on failure report
      ERROR with the writer's error and take the collaborators out of OTA
      mode. Only a writer that reports success lets the update task go on. */
  function FlashPhase(run: Run, image: Image, startMessage: string, report: FlashWriter.Report): (r: PhaseEnd)
    ensures r.run.log == run.log + [Flash(image)] + Coda(report.outcome)
    ensures r.Continue? <==> report.outcome == FlashWriter.Flashed
    ensures r.run.progress.state == if report.outcome.Failed? then Error else PhaseState(image)
    ensures report.outcome.Failed? ==> StartsWith(report.outcome.error, r.run.progress.error)
  {
    var started := SetProgress(run.progress, PhaseState(image), 0, startMessage, None);
    var log := run.log + [Flash(image)];
    var during := AfterWriter(started, image, report.published);
    match report.outcome
    case Flashed => Continue(Run(log, during))
    case Restarted => Stopped(Run(log + [Restart], during))
    case Unfinished => Stopped(Run(log, during))
    case Failed(e) => Stopped(Run(log + LeaveOtaMode, SetProgress(during, Error, 0, FailMessage(image), Some(e))))
  }

  /** The end of a completed run: REBOOTING at 100 %, then the restart. */
  function Reboot(run: Run, message: string): Run {
    Run(run.log + [Restart], SetProgress(run.progress, Rebooting, 100, message, None))
  }

  /** runUpdateTask for the target startUpdate recorded, given what each
      writer reports: the collaborators go into OTA mode, then the phases
      run in the order of the target, SPIFFS before firmware for BOTH
      (and only when the release has a SPIFFS URL). */
  function RunUpdateTask(p: Progress, release: ReleaseInfo, spiffs: FlashWriter.Report, firmware: FlashWriter.Report): (r: Run)
    ensures Begins(r.log, EnterOtaMode)
  {
    var start := Run(EnterOtaMode, p);
    match p.target
    case BothTargets =>
      var first := if |release.spiffsUrl| > 0 then FlashPhase(start, SpiffsImage, "Updating SPIFFS...", spiffs)
                   else Continue(start);
      if first.Stopped? then first.run
      else
        var second := FlashPhase(first.run, FirmwareImage, "Updating firmware...", firmware);
        if second.Stopped? then second.run else Reboot(second.run, "Update complete. Rebooting...")
    case FirmwareTarget =>
      var only := FlashPhase(start, FirmwareImage, "Starting firmware download...", firmware);
      if only.Stopped? then only.run else Reboot(only.run, "Firmware updated. Rebooting...")
    case SpiffsTarget =>
      var only := FlashPhase(start, SpiffsImage, "Starting SPIFFS download...", spiffs);
      if only.Stopped? then only.run else Reboot(only.run, "Update complete. Rebooting...")
  }

  /** For BOTH with a SPIFFS URL, the SPIFFS phase comes first after the
      collaborators, and the firmware phase runs exactly when the SPIFFS
      write succeeded, right after it. */
  lemma SpiffsBeforeFirmware(p: Progress, release: ReleaseInfo, spiffs: FlashWriter.Report, firmware: FlashWriter.Report)
    requires p.target == BothTargets && |release.spiffsUrl| > 0
    ensures var r := RunUpdateTask(p, release, spiffs, firmware);
            |r.log| >= 4 && r.log[3] == Flash(SpiffsImage) &&
            (Flash(FirmwareImage) in r.log <==> spiffs.outcome == FlashWriter.Flashed) &&
            (spiffs.outcome == FlashWriter.Flashed ==> r.log[4] == Flash(FirmwareImage))
  {
    var start := Run(EnterOtaMode, p);
    var first := FlashPhase(start, SpiffsImage, "Updating SPIFFS...", spiffs);
    var r := RunUpdateTask(p, release, spiffs, firmware);
    if first.Continue? {
      var second := FlashPhase(first.run, FirmwareImage, "Updating firmware...", firmware);
      assert second.run.log[4] == Flash(FirmwareImage);
      assert r.log[4] == Flash(FirmwareImage);
    } else {
      assert r.log == EnterOtaMode + [Flash(SpiffsImage)] + Coda(spiffs.outcome);
      assert Flash(FirmwareImage) !in Coda(spiffs.outcome);
    }
  }

  /** A failing phase ends the update task in ERROR: the last events take the
      three collaborators out of OTA mode, right after the phase whose
      writer failed. */
  lemma FailureRestoresCollaborators(p: Progress, release: ReleaseInfo, spiffs: FlashWriter.Report, firmware: FlashWriter.Report)
    ensures var r := RunUpdateTask(p, release, spiffs, firmware);
            r.progress.state == Error ==>
              |r.log| >= 7 && r.log[|r.log| - 3..] == LeaveOtaMode &&
              ((r.log[|r.log| - 4] == Flash(SpiffsImage) && spiffs.outcome.Failed?) ||
               (r.log[|r.log| - 4] == Flash(FirmwareImage) && firmware.outcome.Failed?))
  {
    var r := RunUpdateTask(p, release, spiffs, firmware);
    if r.progress.state == Error {
      var start := Run(EnterOtaMode, p);
      var before: seq<Event>, image: Image;
      if p.target.SpiffsTarget? || (p.target.BothTargets? && |release.spiffsUrl| > 0 && spiffs.outcome.Failed?) {
        before, image := EnterOtaMode, SpiffsImage;
      } else if p.target.BothTargets? && |release.spiffsUrl| > 0 {
        before, image := EnterOtaMode + [Flash(SpiffsImage)], FirmwareImage;
      } else {
        before, image := EnterOtaMode, FirmwareImage;
      }
      assert r.log == before + [Flash(image)] + LeaveOtaMode;
      FlashThenLeave(before, Flash(image));
    }
  }

  /** A log that ends with one event and then the three leave-OTA
      notifications has that event fourth from the end. */
  lemma FlashThenLeave(before: seq<Event>, e: Event)
    requires |before| >= 3
    ensures var log := before + [e] + LeaveOtaMode;
            |log| >= 7 && log[|log| - 3..] == LeaveOtaMode && log[|log| - 4] == e
  {
    var log := before + [e] + LeaveOtaMode;
    assert log[|before| + 1..] == LeaveOtaMode;
  }

  /** The update task ends in REBOOTING at 100 % exactly when every phase it ran
      reported success; it then restarts. */
  lemma RebootingExactly(p: Progress, release: ReleaseInfo, spiffs: FlashWriter.Report, firmware: FlashWriter.Report)
    ensures var r := RunUpdateTask(p, release, spiffs, firmware);
            r.progress.state == Rebooting <==>
              (NeedsSpiffs(p.target) && (p.target.SpiffsTarget? || |release.spiffsUrl| > 0) ==> spiffs.outcome == FlashWriter.Flashed) &&
              (NeedsFirmware(p.target) ==> firmware.outcome == FlashWriter.Flashed)
    ensures var r := RunUpdateTask(p, release, spiffs, firmware);
            r.progress.state == Rebooting ==> r.progress.percent == 100 && r.log[|r.log| - 1] == Restart
  {
  }

  /** The update task with the two writers of module FlashWriter. Since
      the firmware writer restarts the device itself and never reports
      success, REBOOTING is reached only by a SPIFFS-only update. */
  function UpdateTask(p: Progress, release: ReleaseInfo, f: Flashes): (r: Run)
    ensures Begins(r.log, EnterOtaMode)
    ensures r.progress.state == Rebooting <==>
              p.target == SpiffsTarget && WriterReport(SpiffsImage, f).outcome == FlashWriter.Flashed
  {
    var spiffs := WriterReport(SpiffsImage, f);
    var firmware := WriterReport(FirmwareImage, f);
    RebootingExactly(p, release, spiffs, firmware);
    RunUpdateTask(p, release, spiffs, firmware)
  }
}

=== FILE: redirect.dfy ===
/** The redirect-chain resolver used before a download: up to ten hops,
    each reading one response head. The status line is read as in
    section 4 of RFC 9112; a 3xx answer with a Location field (sections
    15.4 and 10.2.2 of RFC 9110) moves to the next URL. The network is an
    oracle that supplies, per hop, either a failure or the head's lines. */
module Redirect {
  import opened Common
  import opened Url

  /** Number of requests the resolver may issue. */
  const MaxHops: nat := 10

  /** What one hop's connection attempt produced. */
  datatype Hop =
    | NoClient                      // the TLS client could not be allocated
    | ConnectFailed                 // the TCP/TLS connection failed
    | Head(lines: seq<string>)      // the lines read until the connection ended

  // ---------------------------------------------------------------------------
  // One response head
  // ---------------------------------------------------------------------------

  const StatusPrefix := "HTTP/1."

  /** The status code carried by one trimmed line, if it is a status line:
      the (at most) three characters after the first space, read as by
      `atol`. */
  function LineStatus(line: string): (r: Option<int>)
    ensures r.Some? <==> StartsWith(line, StatusPrefix) && ' ' in line
  {
    if StartsWith(line, StatusPrefix) && IndexOf(line, ' ') > 0 then
      var sp := IndexOf(line, ' ');
      var hi := if sp + 4 <= |line| then sp + 4 else |line|;
      Some(Atol(line[sp + 1..hi]))
    else None
  }

  /** The target of a `Location` field in one trimmed line. Only the two
      spellings "Location: " and "location: " are recognised. */
  function LineLocation(line: string): (r: Option<string>)
    ensures r.Some? <==> StartsWith(line, "Location: ") || StartsWith(line, "location: ")
    ensures r.Some? ==> r.value == Trim(line[10..])
  {
    if StartsWith(line, "Location: ") || StartsWith(line, "location: ") then Some(Trim(line[10..]))
    else None
  }

  /** What the header loop has learned so far. */
  datatype HeadInfo = HeadInfo(code: int, location: Option<string>)

  /** One non-empty trimmed line read into what is known: a status line
      replaces the code, a Location field replaces the target. */
  function Absorb(line: string, info: HeadInfo): HeadInfo {
    var code := match LineStatus(line) case Some(c) => c case None => info.code;
    var location := if LineLocation(line).Some? then LineLocation(line) else info.location;
    HeadInfo(code, location)
  }

  /** Every line of the head with surrounding whitespace removed. */
  function Trimmed(lines: seq<string>): (r: seq<string>)
    ensures |r| == |lines|
    ensures forall k :: 0 <= k < |r| ==> r[k] == Trim(lines[k])
    decreases |lines|
  {
    if |lines| == 0 then [] else [Trim(lines[0])] + Trimmed(lines[1..])
  }

  lemma {:induction false} TrimmedAppend(a: seq<string>, b: seq<string>)
    ensures Trimmed(a + b) == Trimmed(a) + Trimmed(b)
    decreases |a|
  {
    if |a| == 0 {
      assert a + b == b;
    } else {
      assert (a + b)[0] == a[0];
      assert (a + b)[1..] == a[1..] + b;
      TrimmedAppend(a[1..], b);
    }
  }

  /** The header loop over trimmed lines: the last status line and the
      last Location field win; the first empty line ends the head. */
  function ScanHead(lines: seq<string>, info: HeadInfo): HeadInfo
    decreases |lines|
  {
    if |lines| == 0 || |lines[0]| == 0 then info
    else ScanHead(lines[1..], Absorb(lines[0], info))
  }

  /** The scan keeps what it started with unless some line supplies a
      new status code or target. */
  lemma {:induction false} ScanHeadSources(lines: seq<string>, info: HeadInfo)
    ensures var r := ScanHead(lines, info);
            r.code == info.code || exists k :: 0 <= k < |lines| && LineStatus(lines[k]) == Some(r.code)
    ensures var r := ScanHead(lines, info);
            r.location == info.location || exists k :: 0 <= k < |lines| && LineLocation(lines[k]) == r.location
    decreases |lines|
  {
    if |lines| > 0 && |lines[0]| > 0 {
      var next := Absorb(lines[0], info);
      ScanHeadSources(lines[1..], next);
      var r := ScanHead(lines, info);
      if r.code != next.code {
        var k :| 0 <= k < |lines[1..]| && LineStatus(lines[1..][k]) == Some(r.code);
        assert LineStatus(lines[k + 1]) == Some(r.code);
      } else if r.code != info.code {
        assert LineStatus(lines[0]) == Some(r.code);
      }
      if r.location != next.location {
        var k :| 0 <= k < |lines[1..]| && LineLocation(lines[1..][k]) == r.location;
        assert LineLocation(lines[k + 1]) == r.location;
      } else if r.location != info.location {
        assert LineLocation(lines[0]) == r.location;
      }
    }
  }

  /** The head's status code and target; nothing is known when the first
      line is blank. */
  function ReadHead(lines: seq<string>): (r: HeadInfo)
    ensures |lines| == 0 || Blank(lines[0]) ==> r == HeadInfo(0, None)
  {
    ScanHead(Trimmed(lines), HeadInfo(0, None))
  }

  /** A status code other than 0 and a target both come from some line of
      the head, as trimmed. */
  lemma ReadHeadSources(lines: seq<string>)
    ensures var r := ReadHead(lines);
            r.code == 0 || exists k :: 0 <= k < |lines| && LineStatus(Trim(lines[k])) == Some(r.code)
    ensures var r := ReadHead(lines);
            r.location.None? || exists k :: 0 <= k < |lines| && LineLocation(Trim(lines[k])) == r.location
  {
    ScanHeadSources(Trimmed(lines), HeadInfo(0, None));
  }

  predicate Blank(line: string) {
    |Trim(line)| == 0
  }

  /** Whatever follows the first empty trimmed line is never looked at. */
  lemma {:induction false} ScanHeadStopsAtEmpty(before: seq<string>, after: seq<string>, info: HeadInfo)
    ensures ScanHead(before + [""] + after, info) == ScanHead(before + [""], info)
    decreases |before|
  {
    var long := before + [""] + after;
    var short := before + [""];
    if |before| > 0 && |before[0]| > 0 {
      assert long[0] == before[0] && short[0] == before[0];
      assert long[1..] == before[1..] + [""] + after;
      assert short[1..] == before[1..] + [""];
      ScanHeadStopsAtEmpty(before[1..], after, Absorb(before[0], info));
    } else if |before| == 0 {
      assert long[0] == "" && short[0] == "";
    } else {
      assert long[0] == before[0] && short[0] == before[0];
    }
  }

  /** Whatever follows the first blank line of a head is never looked at. */
  lemma {:induction false} ReadHeadStopsAtBlank(before: seq<string>, blank: string, after: seq<string>)
    requires Blank(blank)
    ensures ReadHead(before + [blank] + after) == ReadHead(before + [blank])
  {
    var tb := Trimmed(before);
    TrimmedAppend(before + [blank], after);
    TrimmedAppend(before, [blank]);
    assert Trimmed([blank]) == [""] by {
      assert [blank][1..] == [];
    }
    ScanHeadStopsAtEmpty(tb, Trimmed(after), HeadInfo(0, None));
  }

  /** A standard status line "HTTP/1.x NNN reason" yields NNN. */
  lemma {:induction false} StatusLineCode(minor: char, n: nat, reason: string)
    requires IsDigit(minor) && 100 <= n < 1000
    ensures LineStatus(StatusPrefix + [minor] + " " + NatToDecimal(n) + reason) == Some(n)
  {
    var line := StatusPrefix + [minor] + " " + NatToDecimal(n) + reason;
    NatToDecimalLength(n);
    assert line[..|StatusPrefix|] == StatusPrefix;
    assert line[8] == ' ';
    assert ' ' !in line[..8];
    assert IndexOf(line, ' ') == 8;
    assert line[9..12] == NatToDecimal(n);
  }

  /** A field name in any other capitalisation, such as "LOCATION: ",
      is not recognised. */
  lemma {:induction false} UpperCaseLocationIgnored(line: string)
    requires |line| >= 10 && line[1] == 'O'
    ensures LineLocation(line) == None
  {
    assert !StartsWith(line, "Location: ") by { assert line[..10][1] != "Location: "[1]; }
    assert !StartsWith(line, "location: ") by { assert line[..10][1] != "location: "[1]; }
  }

  // ---------------------------------------------------------------------------
  // The hop loop
  // ---------------------------------------------------------------------------

  predicate IsSuccess(code: int) {
    code == 200 || code == 206
  }

  /** The head asks to go elsewhere: a 3xx code with a non-empty target. */
  predicate IsRedirect(info: HeadInfo) {
    300 <= info.code < 400 && info.location.Some? && |info.location.value| > 0
  }

  /** The error text for a head that is neither success nor redirect. */
  function HeadError(code: int): (e: string)
    ensures code <= 0 ==> e == "No HTTP response"
    ensures code > 0 ==> e == "HTTP " + NatToDecimal(code)
  {
    if code > 0 then "HTTP " + IntToDecimal(code) else "No HTTP response"
  }

  /** What one hop's outcome means for the resolver, before the current
      URL is taken into account. */
  datatype Verdict =
    | NoMemory
    | NoConnection
    | Success
    | Redirect(location: string)
    | Failure(code: int)

  /** The verdict on one hop: 200 and 206 are success; a 3xx head with a
      non-empty Location is a redirect; any other head is a failure with
      its status code (0 when no status line was read). */
  function Judge(hop: Hop): (v: Verdict)
    ensures v == NoMemory <==> hop.NoClient?
    ensures v == NoConnection <==> hop.ConnectFailed?
  {
    match hop
    case NoClient => NoMemory
    case ConnectFailed => NoConnection
    case Head(lines) =>
      var info := ReadHead(lines);
      if IsSuccess(info.code) then Success
      else if IsRedirect(info) then Redirect(info.location.value)
      else Failure(info.code)
  }

  /** The verdict on a head: success exactly on 200 or 206, a redirect
      exactly on another 3xx code with a non-empty target, which it
      carries. */
  lemma JudgeMeaning(hop: Hop)
    requires hop.Head?
    ensures Judge(hop) == Success <==> IsSuccess(ReadHead(hop.lines).code)
    ensures Judge(hop).Redirect? <==> !IsSuccess(ReadHead(hop.lines).code) && IsRedirect(ReadHead(hop.lines))
    ensures Judge(hop).Redirect? ==> Judge(hop).location == ReadHead(hop.lines).location.value
    ensures Judge(hop).Failure? ==> Judge(hop).code == ReadHead(hop.lines).code
  {
  }

  /** The verdicts on a sequence of hops. */
  function JudgeAll(hops: seq<Hop>): (r: seq<Verdict>)
    ensures |r| == |hops|
    ensures forall k :: 0 <= k < |r| ==> r[k] == Judge(hops[k])
    decreases |hops|
  {
    if |hops| == 0 then [] else [Judge(hops[0])] + JudgeAll(hops[1..])
  }

  /** What one hop decides. */
  datatype Step = Stop(result: Result<string>) | Follow(next: string)

  /** One hop from `url`: allocation and connection failures stop with
      their own texts; success stops with the current URL; a redirect
      moves to the Location resolved against the current URL; any other
      head stops with "HTTP <code>" or "No HTTP response". */
  function HopStep(url: string, v: Verdict): (s: Step)
    ensures s.Follow? <==> v.Redirect?
    ensures s.Follow? ==> s.next == NextTarget(ParseUrl(url), v.location)
    ensures s == Stop(Ok(url)) <==> v.Success?
    ensures v == NoMemory ==> s == Stop(Err("Out of memory for SSL client"))
    ensures v == NoConnection ==> s == Stop(Err("Connection to " + ParseUrl(url).host + " failed"))
    ensures v.Failure? ==> s == Stop(Err(HeadError(v.code)))
  {
    match v
    case NoMemory => Stop(Err("Out of memory for SSL client"))
    case NoConnection => Stop(Err("Connection to " + ParseUrl(url).host + " failed"))
    case Success => Stop(Ok(url))
    case Redirect(location) => Follow(NextTarget(ParseUrl(url), location))
    case Failure(code) => Stop(Err(HeadError(code)))
  }

  /** No single hop stops with "Too many redirects", and a hop stops
      successfully only on a success verdict. */
  lemma HopStepMeaning(url: string, v: Verdict)
    ensures HopStep(url, v).Stop? ==> HopStep(url, v).result != Err("Too many redirects")
    ensures HopStep(url, v).Stop? ==> (HopStep(url, v).result.Ok? <==> v.Success?)
  {
    match v
    case NoMemory =>
      assert "Out of memory for SSL client"[0] != "Too many redirects"[0];
    case NoConnection =>
      var e := "Connection to " + ParseUrl(url).host + " failed";
      assert e[0] != "Too many redirects"[0];
    case Success =>
    case Redirect(_) =>
    case Failure(code) =>
      var e := HeadError(code);
      assert e[0] != "Too many redirects"[0];
  }

  /** The outcome of resolution together with the URLs requested. */
  datatype Resolution = Resolution(requested: seq<string>, result: Result<string>)

  /** Hops `i` onwards, starting from `url`; `step` decides each hop. */
  function ResolveFrom(step: (string, Verdict) -> Step, url: string, vs: seq<Verdict>, i: nat): (r: Resolution)
    requires i <= MaxHops <= |vs|
    ensures |r.requested| == 0 <==> i == MaxHops
    ensures i + |r.requested| <= MaxHops
    ensures |r.requested| > 0 ==> r.requested[0] == url
    decreases MaxHops - i
  {
    if i == MaxHops then Resolution([], Err("Too many redirects"))
    else
      match step(url, vs[i])
      case Stop(res) => Resolution([url], res)
      case Follow(next) =>
        var rest := ResolveFrom(step, next, vs, i + 1);
        Resolution([url] + rest.requested, rest.result)
  }

  /** Each requested URL but the last was redirected to the next one. */
  lemma {:induction false} ResolveChain(step: (string, Verdict) -> Step, url: string, vs: seq<Verdict>, i: nat, k: nat)
    requires i <= MaxHops <= |vs|
    requires k + 1 < |ResolveFrom(step, url, vs, i).requested|
    ensures var r := ResolveFrom(step, url, vs, i);
            step(r.requested[k], vs[i + k]) == Follow(r.requested[k + 1])
    decreases k
  {
    var r := ResolveFrom(step, url, vs, i);
    var s := step(url, vs[i]);
    var rest := ResolveFrom(step, s.next, vs, i + 1);
    assert r.requested == [url] + rest.requested;
    if k == 0 {
      assert r.requested[1] == rest.requested[0] == s.next;
    } else {
      ResolveChain(step, s.next, vs, i + 1, k - 1);
      assert r.requested[k] == rest.requested[k - 1];
      assert r.requested[k + 1] == rest.requested[k];
      assert i + k == (i + 1) + (k - 1);
    }
  }

  /** The last requested URL's step decided the result, or, on the tenth
      request, redirected once more and the chain ran out. */
  lemma {:induction false} ResolveLast(step: (string, Verdict) -> Step, url: string, vs: seq<Verdict>, i: nat)
    requires i < MaxHops <= |vs|
    ensures var r := ResolveFrom(step, url, vs, i);
            var n := |r.requested|;
            var last := step(r.requested[n - 1], vs[i + n - 1]);
            && (last.Stop? ==> r.result == last.result)
            && (last.Follow? ==> i + n == MaxHops && r.result == Err("Too many redirects"))
    decreases MaxHops - i
  {
    var r := ResolveFrom(step, url, vs, i);
    var s := step(url, vs[i]);
    if s.Stop? {
      assert r == Resolution([url], s.result);
    } else if i + 1 == MaxHops {
      assert r == Resolution([url], Err("Too many redirects"));
    } else {
      var rest := ResolveFrom(step, s.next, vs, i + 1);
      ResolveLast(step, s.next, vs, i + 1);
      assert r == Resolution([url] + rest.requested, rest.result);
      var n := |r.requested|;
      var m := |rest.requested|;
      assert n == m + 1 && i + n - 1 == (i + 1) + m - 1;
      assert r.requested[n - 1] == rest.requested[m - 1];
      assert step(r.requested[n - 1], vs[i + n - 1]) == step(rest.requested[m - 1], vs[(i + 1) + m - 1]);
    }
  }

  /** resolveRedirects: follow redirects from `start`, one oracle hop per
      request, for at most ten requests. */
  function ResolveRedirects(start: string, hops: seq<Hop>): (r: Resolution)
    requires |hops| >= MaxHops
    ensures 1 <= |r.requested| <= MaxHops
    ensures r.requested[0] == start
    ensures forall k :: 0 <= k < |r.requested| - 1 ==>
              HopStep(r.requested[k], Judge(hops[k])) == Follow(r.requested[k + 1])
    ensures r.result.Ok? ==> r.result.value == r.requested[|r.requested| - 1]
  {
    var vs := JudgeAll(hops);
    var r := ResolveFrom(HopStep, start, vs, 0);
    forall k | 0 <= k < |r.requested| - 1
      ensures HopStep(r.requested[k], Judge(hops[k])) == Follow(r.requested[k + 1])
    {
      ResolveChain(HopStep, start, vs, 0, k);
    }
    ResolveLast(HopStep, start, vs, 0);
    var n := |r.requested|;
    HopStepMeaning(r.requested[n - 1], vs[n - 1]);
    r
  }

  /** Success happens exactly when the last requested URL answered 200 or
      206. */
  lemma {:induction false} ResolveSucceedsExactlyOnSuccessCode(start: string, hops: seq<Hop>)
    requires |hops| >= MaxHops
    ensures var r := ResolveRedirects(start, hops);
            var n := |r.requested|;
            r.result.Ok? <==> Judge(hops[n - 1]) == Success
  {
    var vs := JudgeAll(hops);
    var r := ResolveFrom(HopStep, start, vs, 0);
    assert ResolveRedirects(start, hops) == r;
    var n := |r.requested|;
    var v := vs[n - 1];
    ResolveLast(HopStep, start, vs, 0);
    HopStepMeaning(r.requested[n - 1], v);
    assert v == Judge(hops[n - 1]);
    assert r.result.Ok? <==> v.Success?;
  }

  /** "Too many redirects" is reported exactly when all ten requests were
      redirected. */
  lemma {:induction false} TooManyRedirectsExactly(start: string, hops: seq<Hop>)
    requires |hops| >= MaxHops
    ensures var r := ResolveRedirects(start, hops);
            r.result == Err("Too many redirects") <==>
              |r.requested| == MaxHops && Judge(hops[MaxHops - 1]).Redirect?
  {
    var vs := JudgeAll(hops);
    var r := ResolveFrom(HopStep, start, vs, 0);
    assert ResolveRedirects(start, hops) == r;
    var n := |r.requested|;
    var v := vs[n - 1];
    assert v == Judge(hops[n - 1]);
    ResolveLast(HopStep, start, vs, 0);
    var last := HopStep(r.requested[n - 1], v);
    if last.Follow? {
      assert v.Redirect? && n == MaxHops;
    } else {
      HopStepMeaning(r.requested[n - 1], v);
      assert r.result == last.result != Err("Too many redirects");
      assert !v.Redirect?;
    }
  }

  /** A resolution that stops before running out reports what its last
      hop decided: the allocation or connection failure text, the head's
      error text, or success with the last URL. */
  lemma {:induction false} ResolveReportsLastStop(start: string, hops: seq<Hop>)
    requires |hops| >= MaxHops
    ensures var r := ResolveRedirects(start, hops);
            var n := |r.requested|;
            var last := HopStep(r.requested[n - 1], Judge(hops[n - 1]));
            && (last.Stop? ==> r.result == last.result)
            && (hops[n - 1].NoClient? ==> r.result == Err("Out of memory for SSL client"))
            && (hops[n - 1].ConnectFailed? ==>
                  r.result == Err("Connection to " + ParseUrl(r.requested[n - 1]).host + " failed"))
            && (Judge(hops[n - 1]).Failure? ==> r.result == Err(HeadError(Judge(hops[n - 1]).code)))
  {
    var vs := JudgeAll(hops);
    var r := ResolveFrom(HopStep, start, vs, 0);
    assert ResolveRedirects(start, hops) == r;
    var n := |r.requested|;
    assert vs[n - 1] == Judge(hops[n - 1]);
    ResolveLast(HopStep, start, vs, 0);
  }

  /** When every hop redirects the chain requests ten URLs and runs out. */
  lemma {:induction false} AllRedirectsRunOut(start: string, hops: seq<Hop>)
    requires |hops| >= MaxHops
    requires forall k :: 0 <= k < MaxHops ==> Judge(hops[k]).Redirect?
    ensures |ResolveRedirects(start, hops).requested| == MaxHops
    ensures ResolveRedirects(start, hops).result == Err("Too many redirects")
  {
    var vs := JudgeAll(hops);
    forall k, u | 0 <= k < MaxHops
      ensures HopStep(u, vs[k]).Follow?
    {
      assert vs[k] == Judge(hops[k]);
      HopStepMeaning(u, vs[k]);
    }
    ChainRunsOut(HopStep, start, vs, 0);
  }

  /** When every remaining hop moves on, whatever the URL, the chain
      requests one URL per remaining hop and runs out. */
  lemma {:induction false} ChainRunsOut(step: (string, Verdict) -> Step, url: string, vs: seq<Verdict>, i: nat)
    requires i <= MaxHops <= |vs|
    requires forall k, u :: i <= k < MaxHops ==> step(u, vs[k]).Follow?
    ensures |ResolveFrom(step, url, vs, i).requested| == MaxHops - i
    ensures ResolveFrom(step, url, vs, i).result == Err("Too many redirects")
    decreases MaxHops - i
  {
    if i < MaxHops {
      ChainRunsOut(step, step(url, vs[i]).next, vs, i + 1);
    }
  }
}

=== FILE: release.dfy ===
/** The cached description of the latest GitHub release and how it is
    obtained: one bounded GET of the release API, the JSON document as
    the deserializer delivers it, and the scan of its asset list for the
    two images. */
module Release {
  import opened Common
  import opened Version
  import opened HttpGet

  /** OTAReleaseInfo. `fetchedAtMs == 0` means "never fetched". */
  datatype ReleaseInfo = ReleaseInfo(
    tag: string,
    name: string,
    body: string,
    readme: string,
    firmwareUrl: string,
    spiffsUrl: string,
    fetchedAtMs: uint32)

  const EmptyRelease := ReleaseInfo("", "", "", "", "", "", 0)

  /** One element of the "assets" array; a member that is absent or not
      a string is `None` and reads as "". */
  datatype Asset = Asset(name: Option<string>, url: Option<string>)

  /** The filtered JSON document: `assets` is `None` when the member is
      absent or not an array. */
  datatype ReleaseDoc = ReleaseDoc(tagName: Option<string>, name: Option<string>, assets: Option<seq<Asset>>)

  /** Response size cap for the release API call. */
  const ReleaseApiMaxBytes: nat := 8 * 1024

  const FirmwareAsset := "firmware.bin"
  const SpiffsAsset := "spiffs.bin"

  /** The asset's name compared case-insensitively with `wanted`, which
      is given in lower case. */
  predicate Named(a: Asset, wanted: string) {
    ToLower(a.name.GetOr("")) == wanted
  }

  /** Reference definition: the URL of the last asset with the wanted
      name, or "" when there is none. */
  function LastUrlNamed(assets: seq<Asset>, wanted: string): string
    decreases |assets|
  {
    if |assets| == 0 then ""
    else if Named(assets[|assets| - 1], wanted) then assets[|assets| - 1].url.GetOr("")
    else LastUrlNamed(assets[..|assets| - 1], wanted)
  }

  /** The last matching asset decides; earlier matches are overwritten. */
  lemma {:induction false} LastMatchWins(assets: seq<Asset>, wanted: string, j: nat)
    requires j < |assets| && Named(assets[j], wanted)
    requires forall k :: j < k < |assets| ==> !Named(assets[k], wanted)
    ensures LastUrlNamed(assets, wanted) == assets[j].url.GetOr("")
    decreases |assets|
  {
    if j < |assets| - 1 {
      var init := assets[..|assets| - 1];
      assert forall k :: j < k < |init| ==> init[k] == assets[k];
      LastMatchWins(init, wanted, j);
    }
  }

  /** Without a matching asset the URL stays empty. */
  lemma {:induction false} NoMatchEmpty(assets: seq<Asset>, wanted: string)
    requires forall k :: 0 <= k < |assets| ==> !Named(assets[k], wanted)
    ensures LastUrlNamed(assets, wanted) == ""
    decreases |assets|
  {
    if |assets| > 0 {
      var init := assets[..|assets| - 1];
      assert forall k :: 0 <= k < |init| ==> init[k] == assets[k];
      NoMatchEmpty(init, wanted);
    }
  }

  /** The asset loop of fetchLatestReleaseFromGitHub: both URLs start
      empty; each asset's lower-cased name is compared with
      "firmware.bin" and then "spiffs.bin", and a match overwrites. */
  method ExtractAssetUrls(assets: seq<Asset>) returns (firmwareUrl: string, spiffsUrl: string)
    ensures firmwareUrl == LastUrlNamed(assets, FirmwareAsset)
    ensures spiffsUrl == LastUrlNamed(assets, SpiffsAsset)
  {
    firmwareUrl := "";
    spiffsUrl := "";
    var i := 0;
    while i < |assets|
      invariant 0 <= i <= |assets|
      invariant firmwareUrl == LastUrlNamed(assets[..i], FirmwareAsset)
      invariant spiffsUrl == LastUrlNamed(assets[..i], SpiffsAsset)
    {
      var a := assets[i];
      var name := ToLower(a.name.GetOr(""));
      var url := a.url.GetOr("");
      assert assets[..i + 1][..i] == assets[..i];
      if name == FirmwareAsset {
        firmwareUrl := url;
      } else if name == SpiffsAsset {
        spiffsUrl := url;
      }
      i := i + 1;
    }
    assert assets[..i] == assets;
  }

  /** Asset names are matched whatever their capitalisation: asset lists
      whose names agree up to case give the same URL. */
  lemma {:induction false} NameCaseIrrelevant(assets: seq<Asset>, other: seq<Asset>, wanted: string)
    requires |other| == |assets|
    requires forall k :: 0 <= k < |assets| ==>
               other[k].url == assets[k].url &&
               ToLower(other[k].name.GetOr("")) == ToLower(assets[k].name.GetOr(""))
    ensures LastUrlNamed(other, wanted) == LastUrlNamed(assets, wanted)
    decreases |assets|
  {
    if |assets| > 0 {
      var n := |assets| - 1;
      assert Named(other[n], wanted) == Named(assets[n], wanted);
      NameCaseIrrelevant(assets[..n], other[..n], wanted);
    }
  }

  /** fetchLatestReleaseFromGitHub: a failed GET passes its error on; a
      document the deserializer rejects gives "JSON parse error: ...";
      an absent or empty tag_name gives "Missing tag_name"; otherwise the
      normalised tag, the name and the two asset URLs are returned, with
      body and readme empty and no fetch time yet. `parsed` is the
      deserializer's verdict on the payload the GET produced. */
  function FetchLatestRelease(replies: seq<Reply>, parsed: Result<ReleaseDoc>): (r: Result<ReleaseInfo>)
    requires |replies| >= MaxRetries + 1
    ensures HttpGetToString(replies, ReleaseApiMaxBytes).result.Err? ==>
              r == Err(HttpGetToString(replies, ReleaseApiMaxBytes).result.error)
    ensures r.Ok? ==> HttpGetToString(replies, ReleaseApiMaxBytes).result.Ok? && parsed.Ok?
    ensures r.Ok? ==> |parsed.value.tagName.GetOr("")| > 0
    ensures r.Ok? ==> r.value.tag == NormalizeTagToVersion(parsed.value.tagName.value)
    ensures r.Ok? ==> r.value.tag[0] == 'v' && r.value.fetchedAtMs == 0
    ensures r.Ok? ==> r.value.body == "" && r.value.readme == ""
    ensures r.Ok? ==>
              var assets := parsed.value.assets.GetOr([]);
              r.value.firmwareUrl == LastUrlNamed(assets, FirmwareAsset) &&
              r.value.spiffsUrl == LastUrlNamed(assets, SpiffsAsset)
    ensures HttpGetToString(replies, ReleaseApiMaxBytes).result.Ok? && parsed.Ok? ==>
              (r.Err? <==> |parsed.value.tagName.GetOr("")| == 0)
    ensures r.Err? && parsed.Ok? && HttpGetToString(replies, ReleaseApiMaxBytes).result.Ok? ==>
              r.error == "Missing tag_name"
  {
    match HttpGetToString(replies, ReleaseApiMaxBytes).result
    case Err(e) => Err(e)
    case Ok(_) =>
      match parsed
      case Err(msg) => Err("JSON parse error: " + msg)
      case Ok(doc) =>
        var tag := doc.tagName.GetOr("");
        if |tag| == 0 then Err("Missing tag_name")
        else
          var assets := doc.assets.GetOr([]);
          Ok(ReleaseInfo(NormalizeTagToVersion(tag), doc.name.GetOr(""), "", "",
                         LastUrlNamed(assets, FirmwareAsset), LastUrlNamed(assets, SpiffsAsset), 0))
  }
}

=== FILE: sensors.dfy ===
/** The sensor manager: the runtime record of each DS18B20 probe, its
    history ring buffer, the hysteresis alarm machine, the consecutive
    error counter of the periodic reading, bus discovery, the hex form
    of a bus address, the lookups and the one-point calibration.
    The OneWire bus is an oracle: discovery receives the addresses a
    bus search returns, a reading receives the temperature each probe
    reports. Temperatures are reals. Callbacks become a list of
    notices in the order the firmware fires them. */
module Sensors {
  import opened Common
  import Config

  type Byte = b: int | 0 <= b < 256

  const AddressBytes: nat := 8
  /** The family code of a DS18B20 in the first address byte. */
  const FamilyDs18b20: Byte := 0x28
  const HistorySize: nat := 30
  /** The marker of a history slot that was never written (INT16_MIN). */
  const HistoryInvalid: int := -32768
  const TempInvalid: real := -127.0
  /** What the temperature library reports for a probe that does not answer. */
  const DisconnectedReading: real := -127.0
  const MinValidReading: real := -55.0
  const MaxValidReading: real := 125.0
  const Hysteresis: real := 1.0
  /** Consecutive failed readings after which a probe counts as gone. */
  const ErrorLimit: nat := 3

  datatype Alarm = Normal | BelowLow | AboveHigh | SensorError

  /** The states getAlarmCount and hasAlarm count: a threshold alarm,
      not a sensor error. */
  predicate Alarming(a: Alarm) {
    a == BelowLow || a == AboveHigh
  }

  datatype SensorData = SensorData(
    address: seq<Byte>,
    addressStr: string,
    temperature: real,
    rawTemperature: real,
    history: seq<int>,
    historyIndex: nat,
    historyCount: nat,
    alarm: Alarm,
    prevAlarm: Alarm,
    connected: bool,
    errorCount: uint32)

  /** The ring buffer has its fixed size and its cursor and count in range. */
  predicate Shaped(d: SensorData) {
    |d.history| == HistorySize && d.historyIndex < HistorySize && d.historyCount <= HistorySize
  }

  /** The default constructor of SensorData. */
  function InitialData(): (d: SensorData)
    ensures Shaped(d) && !d.connected && d.errorCount == 0
    ensures d.alarm == SensorError && d.prevAlarm == SensorError
    ensures d.temperature == TempInvalid && d.rawTemperature == TempInvalid
    ensures forall k :: 0 <= k < HistorySize ==> d.history[k] == HistoryInvalid
  {
    SensorData([0, 0, 0, 0, 0, 0, 0, 0], "", TempInvalid, TempInvalid,
               seq(HistorySize, _ => HistoryInvalid), 0, 0,
               SensorError, SensorError, false, 0)
  }

  // ---------------------------------------------------------------------------
  // The history ring buffer
  // ---------------------------------------------------------------------------

  function Min(a: nat, b: nat): nat {
    if a <= b then a else b
  }

  /** `d` holds the values `written` were added in that order: the count
      is the number of writes up to the ring size, the cursor is the
      number of writes modulo the size, and each of the last `count`
      writes sits in the slot its position selects. */
  predicate Holds(d: SensorData, written: seq<int>) {
    Shaped(d)
    && d.historyCount == Min(|written|, HistorySize)
    && d.historyIndex == |written| % HistorySize
    && forall p :: |written| - d.historyCount <= p < |written| ==>
         d.history[p % HistorySize] == written[p]
  }

  /** addToHistory on one record: write at the cursor, advance it modulo
      the ring size, and count up to the ring size. */
  function Push(d: SensorData, v: int): (r: SensorData)
    requires Shaped(d)
    ensures Shaped(r)
    ensures r.(history := d.history, historyIndex := d.historyIndex, historyCount := d.historyCount) == d
  {
    d.(history := d.history[d.historyIndex := v],
       historyIndex := (d.historyIndex + 1) % HistorySize,
       historyCount := if d.historyCount < HistorySize then d.historyCount + 1 else d.historyCount)
  }

  /** A fresh record holds no writes. */
  lemma InitialHoldsNothing()
    ensures Holds(InitialData(), [])
  {
  }

  /** Adding a value keeps the ring invariant, with the value appended to
      the writes. */
  lemma {:induction false} PushHolds(d: SensorData, written: seq<int>, v: int)
    requires Holds(d, written)
    ensures Holds(Push(d, v), written + [v])
  {
    var r := Push(d, v);
    var w := written + [v];
    var n := |written|;
    forall p | |w| - r.historyCount <= p < |w|
      ensures r.history[p % HistorySize] == w[p]
    {
      if p < n {
        assert n - d.historyCount <= p;
        assert p % HistorySize != n % HistorySize;
      }
    }
  }

  // ---------------------------------------------------------------------------
  // History value encoding
  // ---------------------------------------------------------------------------

  /** C++ float-to-integer conversion: truncation toward zero. */
  function Trunc(x: real): (r: int)
    ensures x >= 0.0 ==> 0.0 <= x - r as real < 1.0
    ensures x < 0.0 ==> -1.0 < x - r as real <= 0.0
  {
    if x >= 0.0 then x.Floor else -((-x).Floor)
  }

  /** What addToHistory stores for a temperature as written: the float
      itself converted to the int16 slot. */
  function HistoryValueAsWritten(t: real): (v: int)
    ensures t >= 0.0 ==> 0.0 <= t - v as real < 1.0
    ensures t < 0.0 ==> -1.0 < t - v as real <= 0.0
  {
    Trunc(t)
  }

  /** What the slot type promises (temperature times 100), used by the
      rest of the model: hundredths of a degree, truncated. */
  function HistoryValue(t: real): (v: int)
    ensures t >= 0.0 ==> 0.0 <= t * 100.0 - v as real < 1.0
    ensures t < 0.0 ==> -1.0 < t * 100.0 - v as real <= 0.0
  {
    Trunc(t * 100.0)
  }

  // ---------------------------------------------------------------------------
  // Bus addresses in hex
  // ---------------------------------------------------------------------------

  predicate IsUpperHex(c: char) {
    ('0' <= c <= '9') || ('A' <= c <= 'F')
  }

  function HexDigit(n: nat): (c: char)
    requires n < 16
    ensures IsUpperHex(c)
  {
    if n < 10 then ('0' as int + n) as char else ('A' as int + n - 10) as char
  }

  function HexValue(c: char): (n: nat)
    requires IsUpperHex(c)
    ensures n < 16 && HexDigit(n) == c
  {
    if c <= '9' then c as int - '0' as int else c as int - 'A' as int + 10
  }

  predicate AllUpperHex(s: string) {
    forall i :: 0 <= i < |s| ==> IsUpperHex(s[i])
  }

  /** addressToString: each byte as two uppercase hex digits ("%02X"),
      in address order. */
  function AddressToString(a: seq<Byte>): (s: string)
    ensures |s| == 2 * |a|
    ensures AllUpperHex(s)
  {
    if |a| == 0 then ""
    else [HexDigit(a[0] / 16), HexDigit(a[0] % 16)] + AddressToString(a[1..])
  }

  /** The inverse of AddressToString: pairs of uppercase hex digits back
      to bytes; anything else is rejected. */
  function ParseAddress(s: string): (r: Option<seq<Byte>>)
    ensures r.Some? ==> 2 * |r.value| == |s|
    decreases |s|
  {
    if |s| == 0 then Some([])
    else if |s| == 1 || !IsUpperHex(s[0]) || !IsUpperHex(s[1]) then None
    else match ParseAddress(s[2..])
      case None => None
      case Some(rest) => Some([(HexValue(s[0]) * 16 + HexValue(s[1])) as Byte] + rest)
  }

  lemma {:induction false} AddressRoundTrip(a: seq<Byte>)
    ensures ParseAddress(AddressToString(a)) == Some(a)
    decreases |a|, 1
  {
    if |a| > 0 {
      AddressRoundTripCons(a);
    }
  }

  lemma {:induction false} AddressRoundTripCons(a: seq<Byte>)
    requires |a| > 0
    ensures ParseAddress(AddressToString(a)) == Some(a)
    decreases |a|, 0
  {
    var rest := a[1..];
    var hi, lo := AddressHead(a);
    AddressRoundTrip(rest);
    ParsePair(AddressToString(a), hi, lo, AddressToString(rest), rest);
    assert [a[0]] + rest == a;
  }

  /** The first two characters of an address's hex form are the digits
      of its first byte. */
  lemma AddressHead(a: seq<Byte>) returns (hi: char, lo: char)
    requires |a| > 0
    ensures IsUpperHex(hi) && IsUpperHex(lo)
    ensures AddressToString(a) == [hi, lo] + AddressToString(a[1..])
    ensures (HexValue(hi) * 16 + HexValue(lo)) as Byte == a[0]
  {
    hi, lo := HexDigit(a[0] / 16), HexDigit(a[0] % 16);
    ByteRoundTrip(a[0]);
  }

  /** Two hex digits in front of a parsable string parse to their byte in
      front of its bytes. */
  lemma ParsePair(s: string, hi: char, lo: char, t: string, rest: seq<Byte>)
    requires IsUpperHex(hi) && IsUpperHex(lo) && s == [hi, lo] + t && ParseAddress(t) == Some(rest)
    ensures ParseAddress(s) == Some([(HexValue(hi) * 16 + HexValue(lo)) as Byte] + rest)
  {
    assert s[0] == hi && s[1] == lo && s[2..] == t;
  }

  /** A byte's two hex digits read back as the byte. */
  lemma ByteRoundTrip(b: Byte)
    ensures (HexValue(HexDigit(b / 16)) * 16 + HexValue(HexDigit(b % 16))) as Byte == b
  {
    HexRoundTrip(b / 16);
    HexRoundTrip(b % 16);
  }

  lemma HexRoundTrip(n: nat)
    requires n < 16
    ensures HexValue(HexDigit(n)) == n
  {
  }

  /** Two addresses with the same string are the same address. */
  lemma AddressToStringInjective(a: seq<Byte>, b: seq<Byte>)
    requires AddressToString(a) == AddressToString(b)
    ensures a == b
  {
    AddressRoundTrip(a);
    AddressRoundTrip(b);
  }

  /** The string of an eight-byte address fills the 16-character buffer
      the configuration keeps. */
  lemma AddressStringLength(a: seq<Byte>)
    requires |a| == AddressBytes
    ensures |AddressToString(a)| == Config.AddressLength
  {
  }

  // ---------------------------------------------------------------------------
  // The alarm state machine
  // ---------------------------------------------------------------------------

  /** An alarm callback (index, old state, new state, temperature) or a
      connection callback (index, connected). */
  datatype Notice =
    | AlarmChanged(index: nat, from: Alarm, to: Alarm, temperature: real)
    | ConnectionChanged(index: nat, connected: bool)

  datatype Step = Step(data: SensorData, notices: seq<Notice>)

  /** The classification against thresholds widened by the hysteresis
      band on the side of the alarm the sensor is already in. */
  function Classify(current: Alarm, temperature: real, c: Config.SensorConfig): (r: Alarm)
    ensures temperature < c.thresholdLow ==> r == BelowLow
    ensures current == BelowLow && temperature < c.thresholdLow + Hysteresis ==> r == BelowLow
    ensures temperature >= c.thresholdLow + Hysteresis && temperature > c.thresholdHigh ==> r == AboveHigh
    ensures current == AboveHigh && temperature >= c.thresholdLow && temperature > c.thresholdHigh - Hysteresis ==>
              r == AboveHigh
    ensures c.thresholdLow + Hysteresis <= temperature <= c.thresholdHigh - Hysteresis ==> r == Normal
  {
    var low := if current == BelowLow then c.thresholdLow + Hysteresis else c.thresholdLow;
    var high := if current == AboveHigh then c.thresholdHigh - Hysteresis else c.thresholdHigh;
    if temperature < low then BelowLow
    else if temperature > high then AboveHigh
    else Normal
  }

  /** updateAlarmState for sensor `i`: nothing for a disconnected
      sensor; NORMAL without a callback when it has no configuration or
      alerts are off; otherwise the hysteresis classification, with the
      previous state recorded and a callback only on a change. */
  function UpdateAlarm(i: nat, d: SensorData, c: Option<Config.SensorConfig>): (r: Step)
    ensures r.data.(alarm := d.alarm, prevAlarm := d.prevAlarm) == d
    ensures !d.connected ==> r == Step(d, [])
    ensures d.connected && (c.None? || !c.value.alertEnabled) ==> r == Step(d.(alarm := Normal), [])
    ensures d.connected && c.Some? && c.value.alertEnabled ==>
              r.data.alarm == Classify(d.alarm, d.temperature, c.value)
    ensures r.notices != [] <==> d.connected && c.Some? && c.value.alertEnabled && r.data.alarm != d.alarm
    ensures r.notices != [] ==>
              r.notices == [AlarmChanged(i, d.alarm, r.data.alarm, d.temperature)] && r.data.prevAlarm == d.alarm
    ensures r.notices == [] ==> r.data.prevAlarm == d.prevAlarm
  {
    if !d.connected then Step(d, [])
    else if c.None? || !c.value.alertEnabled then Step(d.(alarm := Normal), [])
    else
      var s := Classify(d.alarm, d.temperature, c.value);
      if s != d.alarm then Step(d.(prevAlarm := d.alarm, alarm := s), [AlarmChanged(i, d.alarm, s, d.temperature)])
      else Step(d, [])
  }

  /** A sensor in a low alarm leaves it only once the temperature reaches
      the low threshold plus the hysteresis; one without an alarm enters
      it as soon as the temperature is below the threshold. */
  lemma LowAlarmHysteresis(i: nat, d: SensorData, c: Config.SensorConfig)
    requires d.connected && c.alertEnabled
    ensures d.alarm == BelowLow ==>
              (UpdateAlarm(i, d, Some(c)).data.alarm == BelowLow <==> d.temperature < c.thresholdLow + Hysteresis)
    ensures d.alarm == Normal ==>
              (UpdateAlarm(i, d, Some(c)).data.alarm == BelowLow <==> d.temperature < c.thresholdLow)
  {
  }

  /** The mirror image for the high alarm. */
  lemma HighAlarmHysteresis(i: nat, d: SensorData, c: Config.SensorConfig)
    requires d.connected && c.alertEnabled && c.thresholdLow <= c.thresholdHigh - Hysteresis
    ensures d.alarm == AboveHigh ==>
              (UpdateAlarm(i, d, Some(c)).data.alarm == AboveHigh <==> d.temperature > c.thresholdHigh - Hysteresis)
    ensures d.alarm == Normal ==>
              (UpdateAlarm(i, d, Some(c)).data.alarm == AboveHigh <==> d.temperature > c.thresholdHigh)
  {
  }

  /** Re-evaluating an unchanged temperature changes nothing and fires
      no callback: the hysteresis never makes the machine oscillate. */
  lemma {:induction false} AlarmSettles(i: nat, d: SensorData, c: Option<Config.SensorConfig>)
    ensures var r := UpdateAlarm(i, d, c);
            UpdateAlarm(i, r.data, c) == Step(r.data, [])
  {
    var r := UpdateAlarm(i, d, c);
    if d.connected && c.Some? && c.value.alertEnabled {
      var k := c.value;
      assert r.data.alarm == Classify(d.alarm, d.temperature, k);
      assert Classify(r.data.alarm, d.temperature, k) == r.data.alarm;
    }
  }

  // ---------------------------------------------------------------------------
  // Calibration and one reading
  // ---------------------------------------------------------------------------

  /** The configuration slot that getSensorConfigByAddress finds for an
      address string. */
  function ConfigFor(cfg: Config.Store, address: string): (r: Option<Config.SensorConfig>)
    ensures r.Some? ==> r.value.isConfigured && r.value.address == address
  {
    match Config.GetSensorConfigByAddress(cfg, Some(address))
    case Some(k) => Some(cfg.sensors[k])
    case None => None
  }

  /** applyCalibration: the invalid marker stays invalid; otherwise the
      configured offset is added, and without a configuration the raw
      value is kept. */
  function ApplyCalibration(cfg: Config.Store, address: string, raw: real): (t: real)
    ensures raw == TempInvalid ==> t == TempInvalid
    ensures raw != TempInvalid && ConfigFor(cfg, address).None? ==> t == raw
    ensures raw != TempInvalid && ConfigFor(cfg, address).Some? ==>
              t - raw == ConfigFor(cfg, address).value.calibrationOffset
  {
    if raw == TempInvalid then TempInvalid
    else match ConfigFor(cfg, address)
      case Some(c) => raw + c.calibrationOffset
      case None => raw
  }

  /** A reading the firmware accepts. */
  predicate ValidReading(t: real) {
    t != DisconnectedReading && MinValidReading <= t <= MaxValidReading
  }

  /** One probe's part of readTemperatures. A rejected reading counts an
      error (a 32-bit counter); at three or more errors a connected
      probe is marked disconnected, in SENSOR_ERROR, with invalid
      temperatures, firing the connection callback and, if its state
      changes, the alarm callback. An accepted reading clears the
      counter, reconnects the probe, stores raw and calibrated values
      and adds the calibrated one to the history. */
  function ReadOne(cfg: Config.Store, i: nat, d: SensorData, t: real): (r: Step)
    requires Shaped(d)
    ensures Shaped(r.data)
    ensures r.data.address == d.address && r.data.addressStr == d.addressStr && r.data.prevAlarm == d.prevAlarm
    ensures ValidReading(t) ==>
              r.data.errorCount == 0 && r.data.connected && r.data.alarm == d.alarm
              && r.data.rawTemperature == t && r.data.temperature == ApplyCalibration(cfg, d.addressStr, t)
              && r.data.history == d.history[d.historyIndex := HistoryValue(r.data.temperature)]
              && r.data == Push(d.(errorCount := 0, connected := true, rawTemperature := t,
                                    temperature := r.data.temperature), HistoryValue(r.data.temperature))
              && r.notices == if d.connected then [] else [ConnectionChanged(i, true)]
    ensures !ValidReading(t) ==>
              r.data.errorCount == AddU32(d.errorCount, 1)
              && (r.data.connected <==> d.connected && r.data.errorCount < ErrorLimit)
              && r.data.history == d.history && r.data.historyIndex == d.historyIndex
              && r.data.historyCount == d.historyCount
    ensures !ValidReading(t) && !r.data.connected && d.connected ==>
              r.data.alarm == SensorError && r.data.temperature == TempInvalid
              && r.data.rawTemperature == TempInvalid
              && r.notices == [ConnectionChanged(i, false)]
                              + (if d.alarm != SensorError then [AlarmChanged(i, d.alarm, SensorError, TempInvalid)] else [])
    ensures !ValidReading(t) && (r.data.connected || !d.connected) ==>
              r.data == d.(errorCount := r.data.errorCount) && r.notices == []
  {
    if !ValidReading(t) then
      var e := AddU32(d.errorCount, 1);
      if e >= ErrorLimit && d.connected then
        var lost := [ConnectionChanged(i, false)]
                    + (if d.alarm != SensorError then [AlarmChanged(i, d.alarm, SensorError, TempInvalid)] else []);
        Step(d.(errorCount := e, connected := false, temperature := TempInvalid,
                rawTemperature := TempInvalid, alarm := SensorError), lost)
      else Step(d.(errorCount := e), [])
    else
      var cal := ApplyCalibration(cfg, d.addressStr, t);
      var back := if d.connected then [] else [ConnectionChanged(i, true)];
      Step(Push(d.(errorCount := 0, connected := true, rawTemperature := t, temperature := cal),
                HistoryValue(cal)), back)
  }

  /** A probe read repeatedly, keeping only its record. */
  function ReadMany(cfg: Config.Store, i: nat, d: SensorData, ts: seq<real>): (r: SensorData)
    requires Shaped(d)
    ensures Shaped(r)
    decreases |ts|
  {
    if |ts| == 0 then d else ReadMany(cfg, i, ReadOne(cfg, i, d, ts[0]).data, ts[1..])
  }

  /** A run of rejected readings counts each one; the probe stays
      connected exactly while fewer than three errors have accumulated. */
  lemma {:induction false} ErrorRun(cfg: Config.Store, i: nat, d: SensorData, ts: seq<real>)
    requires Shaped(d)
    requires forall k :: 0 <= k < |ts| ==> !ValidReading(ts[k])
    requires d.errorCount + |ts| < U32
    ensures ReadMany(cfg, i, d, ts).errorCount == d.errorCount + |ts|
    ensures ReadMany(cfg, i, d, ts).connected <==> d.connected && (|ts| == 0 || d.errorCount + |ts| < ErrorLimit)
    decreases |ts|
  {
    if |ts| > 0 {
      var e := ReadOne(cfg, i, d, ts[0]).data;
      assert e.errorCount == d.errorCount + 1;
      ErrorRun(cfg, i, e, ts[1..]);
    }
  }

  /** From a healthy probe, the third consecutive rejected reading is the
      one that disconnects it, leaving it in SENSOR_ERROR with invalid
      temperatures. */
  lemma ThirdErrorDisconnects(cfg: Config.Store, i: nat, d: SensorData, t1: real, t2: real, t3: real)
    requires Shaped(d) && d.connected && d.errorCount == 0
    requires !ValidReading(t1) && !ValidReading(t2) && !ValidReading(t3)
    ensures var d1 := ReadOne(cfg, i, d, t1).data;
            var d2 := ReadOne(cfg, i, d1, t2).data;
            var d3 := ReadOne(cfg, i, d2, t3).data;
            d1.connected && d2.connected && !d3.connected && d3.alarm == SensorError
            && d3.temperature == TempInvalid && d3.rawTemperature == TempInvalid
  {
  }

  /** One accepted reading undoes any run of errors. */
  lemma ValidReadingRecovers(cfg: Config.Store, i: nat, d: SensorData, ts: seq<real>, t: real)
    requires Shaped(d) && ValidReading(t)
    ensures var r := ReadMany(cfg, i, d, ts + [t]);
            r.errorCount == 0 && r.connected && r.rawTemperature == t
  {
    ReadManySnoc(cfg, i, d, ts, t);
  }

  lemma {:induction false} ReadManySnoc(cfg: Config.Store, i: nat, d: SensorData, ts: seq<real>, t: real)
    requires Shaped(d)
    ensures ReadMany(cfg, i, d, ts + [t]) == ReadOne(cfg, i, ReadMany(cfg, i, d, ts), t).data
    decreases |ts|
  {
    if |ts| > 0 {
      assert (ts + [t])[1..] == ts[1..] + [t];
      ReadManySnoc(cfg, i, ReadOne(cfg, i, d, ts[0]).data, ts[1..], t);
    }
  }

  // ---------------------------------------------------------------------------
  // The manager
  // ---------------------------------------------------------------------------

  /** The SensorManager's state: MAX_SENSORS records of which the first
      `count` are live, the rescan request and the data-changed flag. */
  datatype Bank = Bank(data: seq<SensorData>, count: nat, rescanRequested: bool, dataChanged: bool)

  predicate BankShaped(b: Bank) {
    |b.data| == Config.MaxSensors && b.count <= Config.MaxSensors
    && forall j :: 0 <= j < |b.data| ==> Shaped(b.data[j])
  }

  function InitialBank(): (b: Bank)
    ensures BankShaped(b) && b.count == 0
  {
    Bank(seq(Config.MaxSensors, _ => InitialData()), 0, false, false)
  }

  /** addToHistory on the manager: a no-op past the live sensors. */
  function AddToHistory(b: Bank, index: nat, v: int): (r: Bank)
    requires BankShaped(b)
    ensures BankShaped(r)
    ensures index >= b.count ==> r == b
    ensures index < b.count ==> r == b.(data := b.data[index := Push(b.data[index], v)])
  {
    if index >= b.count then b else b.(data := b.data[index := Push(b.data[index], v)])
  }

  /** hasDataChanged: report the flag and clear it. */
  function HasDataChanged(b: Bank): (r: (bool, Bank))
    ensures r.0 == b.dataChanged
    ensures !r.1.dataChanged && r.1.(dataChanged := b.dataChanged) == b
  {
    (b.dataChanged, b.(dataChanged := false))
  }

  /** Two calls in a row never both report a change. */
  lemma DataChangedOnce(b: Bank)
    ensures !HasDataChanged(HasDataChanged(b).1).0
  {
  }

  /** getSensorData: the record of a live sensor, none past the count. */
  function GetSensorData(b: Bank, index: nat): (r: Option<SensorData>)
    requires BankShaped(b)
    ensures r.Some? <==> index < b.count
    ensures r.Some? ==> r.value == b.data[index]
  {
    if index >= b.count then None else Some(b.data[index])
  }

  /** The first live sensor at or after `i` whose address string is
      `address`, or -1. */
  function IndexFrom(b: Bank, address: string, i: nat): (r: int)
    requires BankShaped(b) && i <= b.count
    ensures r == -1 || (i <= r < b.count && b.data[r].addressStr == address)
    decreases b.count - i
  {
    if i == b.count then -1
    else if b.data[i].addressStr == address then i
    else IndexFrom(b, address, i + 1)
  }

  /** getSensorIndexByAddress. */
  function GetSensorIndexByAddress(b: Bank, address: string): (r: int)
    requires BankShaped(b)
    ensures r == -1 || (0 <= r < b.count && b.data[r].addressStr == address)
  {
    IndexFrom(b, address, 0)
  }

  lemma {:induction false} IndexFromFirst(b: Bank, address: string, i: nat)
    requires BankShaped(b) && i <= b.count
    ensures IndexFrom(b, address, i) == -1 <==>
              forall j :: i <= j < b.count ==> b.data[j].addressStr != address
    ensures IndexFrom(b, address, i) >= 0 ==>
              forall j :: i <= j < IndexFrom(b, address, i) ==> b.data[j].addressStr != address
    decreases b.count - i
  {
    if i < b.count && b.data[i].addressStr != address {
      IndexFromFirst(b, address, i + 1);
    }
  }

  /** The index lookup answers -1 exactly when no live sensor has the
      address, and otherwise the first one that has it. */
  lemma IndexExactly(b: Bank, address: string)
    requires BankShaped(b)
    ensures GetSensorIndexByAddress(b, address) == -1 <==>
              forall j :: 0 <= j < b.count ==> b.data[j].addressStr != address
    ensures GetSensorIndexByAddress(b, address) >= 0 ==>
              forall j :: 0 <= j < GetSensorIndexByAddress(b, address) ==> b.data[j].addressStr != address
  {
    IndexFromFirst(b, address, 0);
  }

  // ---------------------------------------------------------------------------
  // Alarm count
  // ---------------------------------------------------------------------------

  /** The number of sensors among the first `n` in a threshold alarm. */
  function AlarmCountTo(data: seq<SensorData>, n: nat): (c: nat)
    requires n <= |data|
    ensures c <= n
  {
    if n == 0 then 0
    else AlarmCountTo(data, n - 1) + if Alarming(data[n - 1].alarm) then 1 else 0
  }

  /** getAlarmCount. */
  function GetAlarmCount(b: Bank): (c: nat)
    requires BankShaped(b)
    ensures c <= b.count
  {
    AlarmCountTo(b.data, b.count)
  }

  /** hasAlarm's scan from sensor `i`. */
  predicate AlarmFrom(data: seq<SensorData>, n: nat, i: nat)
    requires i <= n <= |data|
    decreases n - i
  {
    i < n && (Alarming(data[i].alarm) || AlarmFrom(data, n, i + 1))
  }

  /** hasAlarm: some live sensor is below its low or above its high
      threshold. */
  function HasAlarm(b: Bank): (r: bool)
    requires BankShaped(b)
    ensures r <==> exists j :: 0 <= j < b.count && Alarming(b.data[j].alarm)
  {
    AlarmFromExists(b.data, b.count, 0);
    AlarmFrom(b.data, b.count, 0)
  }

  lemma {:induction false} AlarmFromExists(data: seq<SensorData>, n: nat, i: nat)
    requires i <= n <= |data|
    ensures AlarmFrom(data, n, i) <==> exists j :: i <= j < n && Alarming(data[j].alarm)
    decreases n - i
  {
    if i < n {
      AlarmFromExists(data, n, i + 1);
    }
  }

  lemma {:induction false} AlarmCountExists(data: seq<SensorData>, n: nat)
    requires n <= |data|
    ensures AlarmCountTo(data, n) > 0 <==> exists j :: 0 <= j < n && Alarming(data[j].alarm)
  {
    if n > 0 {
      AlarmCountExists(data, n - 1);
    }
  }

  /** hasAlarm holds exactly when the alarm count is positive, which is
      exactly when some live sensor is below its low or above its high
      threshold. */
  lemma HasAlarmExactly(b: Bank)
    requires BankShaped(b)
    ensures HasAlarm(b) <==> GetAlarmCount(b) > 0
    ensures HasAlarm(b) <==> exists j :: 0 <= j < b.count && Alarming(b.data[j].alarm)
  {
    AlarmFromExists(b.data, b.count, 0);
    AlarmCountExists(b.data, b.count);
  }

  /** Changing one live sensor's state moves the count by one exactly
      when it enters or leaves a threshold alarm; a sensor error does
      not count. */
  lemma {:induction false} AlarmCountChange(data: seq<SensorData>, n: nat, j: nat, a: Alarm)
    requires j < n <= |data|
    ensures var c := AlarmCountTo(data[j := data[j].(alarm := a)], n);
            var c0 := AlarmCountTo(data, n);
            c + (if Alarming(data[j].alarm) then 1 else 0) == c0 + (if Alarming(a) then 1 else 0)
  {
    var e := data[j := data[j].(alarm := a)];
    if n - 1 == j {
      AlarmCountPrefix(data, e, n - 1);
    } else {
      AlarmCountChange(data, n - 1, j, a);
    }
  }

  /** Counts over a prefix on which two tables agree are equal. */
  lemma {:induction false} AlarmCountPrefix(a: seq<SensorData>, b: seq<SensorData>, n: nat)
    requires n <= |a| && n <= |b|
    requires forall j :: 0 <= j < n ==> a[j].alarm == b[j].alarm
    ensures AlarmCountTo(a, n) == AlarmCountTo(b, n)
  {
    if n > 0 {
      AlarmCountPrefix(a, b, n - 1);
    }
  }

  // ---------------------------------------------------------------------------
  // Reading all sensors
  // ---------------------------------------------------------------------------

  /** The callbacks the reading loop fires for sensors `i` to `n - 1`. */
  function ReadNotices(cfg: Config.Store, data: seq<SensorData>, temps: seq<real>, n: nat, i: nat): seq<Notice>
    requires BankShapedData(data) && n <= |data| && n <= |temps| && i <= n
    decreases n - i
  {
    if i == n then [] else ReadOne(cfg, i, data[i], temps[i]).notices + ReadNotices(cfg, data, temps, n, i + 1)
  }

  /** The callbacks checkAlarms fires for sensors `i` to `n - 1`. */
  function AlarmNotices(cfg: Config.Store, data: seq<SensorData>, n: nat, i: nat): seq<Notice>
    requires n <= |data| && i <= n
    decreases n - i
  {
    if i == n then [] else UpdateAlarm(i, data[i], ConfigFor(cfg, data[i].addressStr)).notices + AlarmNotices(cfg, data, n, i + 1)
  }

  predicate BankShapedData(data: seq<SensorData>) {
    forall j :: 0 <= j < |data| ==> Shaped(data[j])
  }

  datatype Reading = Reading(bank: Bank, notices: seq<Notice>)

  /** checkAlarms: every live sensor's alarm re-evaluated against its
      configuration. */
  function CheckAlarms(cfg: Config.Store, b: Bank): (r: Reading)
    requires BankShaped(b)
    ensures BankShaped(r.bank)
  {
    var data := seq(|b.data|, j requires 0 <= j < |b.data| =>
                  if j < b.count then UpdateAlarm(j, b.data[j], ConfigFor(cfg, b.data[j].addressStr)).data else b.data[j]);
    assert forall j :: 0 <= j < |data| ==> Shaped(data[j]);
    Reading(b.(data := data), AlarmNotices(cfg, b.data, b.count, 0))
  }

  /** readTemperatures: nothing without sensors; otherwise each live
      probe takes its reading (`temps[i]` is what probe `i` reports) and
      then every alarm is re-evaluated. */
  function ReadTemperatures(cfg: Config.Store, b: Bank, temps: seq<real>): (r: Reading)
    requires BankShaped(b) && |temps| == b.count
    ensures BankShaped(r.bank)
    ensures r.bank.count == b.count && r.bank.rescanRequested == b.rescanRequested
    ensures b.count == 0 ==> r == Reading(b, [])
  {
    if b.count == 0 then Reading(b, [])
    else
      var read := seq(|b.data|, j requires 0 <= j < |b.data| =>
                    if j < b.count then ReadOne(cfg, j, b.data[j], temps[j]).data else b.data[j]);
      assert forall j :: 0 <= j < |read| ==> Shaped(read[j]);
      var checked := CheckAlarms(cfg, b.(data := read));
      Reading(checked.bank, ReadNotices(cfg, b.data, temps, b.count, 0) + checked.notices)
  }

  /** What one reading pass does to sensor `j`: slots past the count are
      untouched; a live one takes its reading and then its alarm is
      re-evaluated, so its history grows by the calibrated value when
      the reading is accepted, and its alarm is left in a state a
      further evaluation does not change. */
  lemma ReadTemperaturesSlot(cfg: Config.Store, b: Bank, temps: seq<real>, j: nat, written: seq<int>)
    requires BankShaped(b) && |temps| == b.count && j < Config.MaxSensors
    requires Holds(b.data[j], written)
    ensures var r := ReadTemperatures(cfg, b, temps).bank;
            var c := ConfigFor(cfg, b.data[j].addressStr);
            && (j >= b.count ==> r.data[j] == b.data[j])
            && (j < b.count ==>
                  var d := ReadOne(cfg, j, b.data[j], temps[j]).data;
                  && r.data[j] == UpdateAlarm(j, d, c).data
                  && UpdateAlarm(j, r.data[j], c).data == r.data[j]
                  && (ValidReading(temps[j]) ==>
                        r.data[j].connected && r.data[j].errorCount == 0
                        && Holds(r.data[j], written + [HistoryValue(r.data[j].temperature)]))
                  && (!ValidReading(temps[j]) ==> Holds(r.data[j], written)))
  {
    if j < b.count {
      var d := ReadOne(cfg, j, b.data[j], temps[j]).data;
      var c := ConfigFor(cfg, b.data[j].addressStr);
      AlarmSettles(j, d, c);
      if ValidReading(temps[j]) {
        var e := b.data[j].(errorCount := 0, connected := true, rawTemperature := temps[j], temperature := d.temperature);
        assert Holds(e, written);
        PushHolds(e, written, HistoryValue(d.temperature));
      }
    }
  }

  // ---------------------------------------------------------------------------
  // Discovery
  // ---------------------------------------------------------------------------

  /** The addresses a bus search yields that belong to DS18B20 probes. */
  function Ds18b20s(found: seq<seq<Byte>>): (r: seq<seq<Byte>>)
    requires forall k :: 0 <= k < |found| ==> |found[k]| == AddressBytes
    ensures |r| <= |found|
    ensures forall k :: 0 <= k < |r| ==> |r[k]| == AddressBytes && r[k][0] == FamilyDs18b20
  {
    if |found| == 0 then []
    else if found[0][0] != FamilyDs18b20 then Ds18b20s(found[1..])
    else [found[0]] + Ds18b20s(found[1..])
  }

  datatype Enumeration = Enumeration(data: seq<SensorData>, count: nat, cfg: Config.Store)

  /** A record claimed by discovery: the address and its string are
      copied in and the probe is connected with no errors; its history,
      temperatures and alarm are what the slot held. */
  function Claimed(d: SensorData, a: seq<Byte>): SensorData {
    d.(address := a, addressStr := AddressToString(a), connected := true, errorCount := 0)
  }

  /** The DS18B20s the search takes when `room` slots are left: the
      first ones it meets, up to `room` of them. */
  function Taken(found: seq<seq<Byte>>, room: nat): (t: seq<seq<Byte>>)
    requires forall k :: 0 <= k < |found| ==> |found[k]| == AddressBytes
    ensures |t| == Min(|Ds18b20s(found)|, room)
    ensures forall k :: 0 <= k < |t| ==> t[k] == Ds18b20s(found)[k]
  {
    Ds18b20s(found)[..Min(|Ds18b20s(found)|, room)]
  }

  /** The slots from `count` on, claimed in turn for the addresses `t`;
      no other slot changes and every slot keeps its shape. */
  function ClaimAll(data: seq<SensorData>, count: nat, t: seq<seq<Byte>>): (r: seq<SensorData>)
    requires count + |t| <= |data|
    ensures |r| == |data|
    ensures forall j :: 0 <= j < |data| && !(count <= j < count + |t|) ==> r[j] == data[j]
    ensures BankShapedData(data) ==> BankShapedData(r)
    decreases |t|
  {
    if |t| == 0 then data
    else ClaimAll(data[count := Claimed(data[count], t[0])], count + 1, t[1..])
  }

  /** Find-or-create for each address of `t` in turn. */
  function ConfigureAll(cfg: Config.Store, t: seq<seq<Byte>>): (r: Config.Store)
    requires Config.WellFormed(cfg)
    ensures Config.WellFormed(r)
    decreases |t|
  {
    if |t| == 0 then cfg
    else ConfigureAll(Config.FindOrCreate(cfg, AddressToString(t[0])).store, t[1..])
  }

  /** The search loop of discoverSensors. Addresses of another family are
      skipped and the loop ends when the bus has no more devices or
      MAX_SENSORS are taken, so it takes the first DS18B20s the search
      meets; each claims the next slot and gets a configuration slot by
      find-or-create, in search order. A claim touches only the bank and
      a find-or-create only the configuration, so the loop is the two
      passes over the taken addresses. */
  function Enumerate(found: seq<seq<Byte>>, data: seq<SensorData>, count: nat, cfg: Config.Store): (r: Enumeration)
    requires forall k :: 0 <= k < |found| ==> |found[k]| == AddressBytes
    requires |data| == Config.MaxSensors && count <= Config.MaxSensors && Config.WellFormed(cfg)
    ensures |r.data| == Config.MaxSensors && count <= r.count <= Config.MaxSensors && Config.WellFormed(r.cfg)
    ensures r.count == count + Min(|Ds18b20s(found)|, Config.MaxSensors - count)
    ensures forall j :: 0 <= j < |data| && !(count <= j < r.count) ==> r.data[j] == data[j]
    ensures BankShapedData(data) ==> BankShapedData(r.data)
  {
    var t := Taken(found, Config.MaxSensors - count);
    Enumeration(ClaimAll(data, count, t), count + |t|, ConfigureAll(cfg, t))
  }

  /** Claiming in turn puts the k-th address into slot `count + k`. */
  lemma {:induction false} ClaimAllClaims(data: seq<SensorData>, count: nat, t: seq<seq<Byte>>, j: nat)
    requires count + |t| <= |data| && count <= j < count + |t|
    ensures ClaimAll(data, count, t)[j] == Claimed(data[j], t[j - count])
    decreases |t|
  {
    if j > count {
      ClaimAllClaims(data[count := Claimed(data[count], t[0])], count + 1, t[1..], j);
    }
  }

  /** The slots the enumeration claims hold the DS18B20 addresses in the
      order the search found them. */
  lemma EnumerateClaims(found: seq<seq<Byte>>, data: seq<SensorData>, count: nat, cfg: Config.Store, j: nat)
    requires forall k :: 0 <= k < |found| ==> |found[k]| == AddressBytes
    requires |data| == Config.MaxSensors && count <= Config.MaxSensors && Config.WellFormed(cfg)
    requires count <= j < Enumerate(found, data, count, cfg).count
    ensures Enumerate(found, data, count, cfg).data[j] == Claimed(data[j], Ds18b20s(found)[j - count])
  {
    ClaimAllClaims(data, count, Taken(found, Config.MaxSensors - count), j);
  }

  datatype Discovery = Discovery(bank: Bank, cfg: Config.Store, notices: seq<Notice>)

  /** The connection callbacks for previously connected slots from `i`
      up to the old count that the new count no longer covers. */
  function LostNotices(data: seq<SensorData>, oldCount: nat, i: nat): seq<Notice>
    requires oldCount <= |data| && i <= oldCount
    decreases oldCount - i
  {
    if i == oldCount then []
    else (if data[i].connected then [ConnectionChanged(i, false)] else []) + LostNotices(data, oldCount, i + 1)
  }

  /** discoverSensors: enumerate the bus from slot 0, then mark every
      slot between the new and the old count that was connected as
      disconnected in SENSOR_ERROR (firing the connection callback), and
      clear the rescan request. */
  function DiscoverSensors(b: Bank, cfg: Config.Store, found: seq<seq<Byte>>): (r: Discovery)
    requires BankShaped(b) && Config.WellFormed(cfg)
    requires forall k :: 0 <= k < |found| ==> |found[k]| == AddressBytes
    ensures BankShaped(r.bank) && Config.WellFormed(r.cfg) && !r.bank.rescanRequested
    ensures r.bank.count == Min(|Ds18b20s(found)|, Config.MaxSensors)
    ensures forall j :: r.bank.count <= j < b.count && b.data[j].connected ==>
              !r.bank.data[j].connected && r.bank.data[j].alarm == SensorError
    ensures forall j :: r.bank.count <= j < Config.MaxSensors && !(j < b.count && b.data[j].connected) ==>
              r.bank.data[j] == b.data[j]
  {
    var e := Enumerate(found, b.data, 0, cfg);
    var data := seq(|e.data|, j requires 0 <= j < |e.data| =>
                  if e.count <= j < b.count && e.data[j].connected
                  then e.data[j].(connected := false, alarm := SensorError) else e.data[j]);
    assert forall j :: 0 <= j < |data| ==> Shaped(data[j]);
    var notices := if e.count <= b.count then LostNotices(e.data, b.count, e.count) else [];
    Discovery(Bank(data, e.count, false, b.dataChanged), e.cfg, notices)
  }
  /** Discovery fills the first slots with the DS18B20s in search order,
      each connected with no errors and its address in hex. */
  lemma DiscoveredSlot(b: Bank, cfg: Config.Store, found: seq<seq<Byte>>, j: nat)
    requires BankShaped(b) && Config.WellFormed(cfg)
    requires forall k :: 0 <= k < |found| ==> |found[k]| == AddressBytes
    requires j < DiscoverSensors(b, cfg, found).bank.count
    ensures var d := DiscoverSensors(b, cfg, found).bank.data[j];
            d.address == Ds18b20s(found)[j] && d.address[0] == FamilyDs18b20
            && d.addressStr == AddressToString(Ds18b20s(found)[j])
            && d.connected && d.errorCount == 0
  {
    EnumerateClaims(found, b.data, 0, cfg, j);
  }


  /** Slot `j` of an enumeration has a configuration for its address, or
      the configuration table is full. */
  predicate ConfiguredAt(r: Enumeration, j: nat)
    requires j < |r.data|
  {
    ConfigFor(r.cfg, r.data[j].addressStr).Some? || Config.ConfiguredCount(r.cfg.sensors) == Config.MaxSensors
  }

  /** Every probe discovery keeps has a configuration slot afterwards,
      unless the configuration table is full. */
  lemma EnumerateConfigures(found: seq<seq<Byte>>, data: seq<SensorData>, count: nat, cfg: Config.Store, j: nat)
    requires forall k :: 0 <= k < |found| ==> |found[k]| == AddressBytes
    requires |data| == Config.MaxSensors && count <= Config.MaxSensors && Config.WellFormed(cfg)
    requires count <= j < Enumerate(found, data, count, cfg).count
    ensures ConfiguredAt(Enumerate(found, data, count, cfg), j)
  {
    var t := Taken(found, Config.MaxSensors - count);
    ClaimAllClaims(data, count, t, j);
    ConfigureAllConfigures(cfg, t, j - count);
  }

  /** Find-or-creating in turn leaves each address of `t` with a
      configuration, unless the table is full. */
  lemma {:induction false} ConfigureAllConfigures(cfg: Config.Store, t: seq<seq<Byte>>, k: nat)
    requires Config.WellFormed(cfg)
    requires forall i :: 0 <= i < |t| ==> |t[i]| == AddressBytes
    requires k < |t|
    ensures var r := ConfigureAll(cfg, t);
            ConfigFor(r, AddressToString(t[k])).Some? || Config.ConfiguredCount(r.sensors) == Config.MaxSensors
    decreases |t|
  {
    var c1 := Config.FindOrCreate(cfg, AddressToString(t[0])).store;
    if k == 0 {
      FindOrCreateFinds(cfg, AddressToString(t[0]));
      ConfigureAllKeeps(c1, t[1..], AddressToString(t[0]));
    } else {
      ConfigureAllConfigures(c1, t[1..], k - 1);
    }
  }

  /** After a successful find-or-create the address is found; after a
      failed one the table is full. */
  lemma FindOrCreateFinds(c: Config.Store, address: string)
    requires Config.WellFormed(c) && |address| <= Config.AddressLength
    ensures var r := Config.FindOrCreate(c, address);
            ConfigFor(r.store, address).Some? || Config.ConfiguredCount(r.store.sensors) == Config.MaxSensors
  {
    Config.FindOrCreateIdempotent(c, address);
    Config.FindOrCreateCount(c, address);
    var r := Config.FindOrCreate(c, address);
    if r.slot.None? {
      assert r.store == c;
    } else {
      Config.FindOrCreateCount(r.store, address);
    }
  }

  /** Later find-or-creates never lose an address that is found, and the
      configured count never goes down. */
  lemma EnumerateKeeps(found: seq<seq<Byte>>, data: seq<SensorData>, count: nat, cfg: Config.Store, address: string)
    requires forall k :: 0 <= k < |found| ==> |found[k]| == AddressBytes
    requires |data| == Config.MaxSensors && count <= Config.MaxSensors && Config.WellFormed(cfg)
    requires ConfigFor(cfg, address).Some? || Config.ConfiguredCount(cfg.sensors) == Config.MaxSensors
    ensures var r := Enumerate(found, data, count, cfg);
            ConfigFor(r.cfg, address).Some? || Config.ConfiguredCount(r.cfg.sensors) == Config.MaxSensors
  {
    ConfigureAllKeeps(cfg, Taken(found, Config.MaxSensors - count), address);
  }

  /** Find-or-creating in turn never loses an address that is found. */
  lemma {:induction false} ConfigureAllKeeps(cfg: Config.Store, t: seq<seq<Byte>>, address: string)
    requires Config.WellFormed(cfg)
    requires ConfigFor(cfg, address).Some? || Config.ConfiguredCount(cfg.sensors) == Config.MaxSensors
    ensures var r := ConfigureAll(cfg, t);
            ConfigFor(r, address).Some? || Config.ConfiguredCount(r.sensors) == Config.MaxSensors
    decreases |t|
  {
    if |t| > 0 {
      FindOrCreateKeeps(cfg, AddressToString(t[0]), address);
      ConfigureAllKeeps(Config.FindOrCreate(cfg, AddressToString(t[0])).store, t[1..], address);
    }
  }

  lemma FindOrCreateKeeps(c: Config.Store, created: string, address: string)
    requires Config.WellFormed(c)
    requires ConfigFor(c, address).Some? || Config.ConfiguredCount(c.sensors) == Config.MaxSensors
    ensures var r := Config.FindOrCreate(c, created).store;
            ConfigFor(r, address).Some? || Config.ConfiguredCount(r.sensors) == Config.MaxSensors
  {
    var r := Config.FindOrCreate(c, created);
    Config.FindOrCreateCount(c, created);
    Config.ConfiguredCountFull(c.sensors);
    if r.store != c && ConfigFor(c, address).Some? {
      var k := Config.GetSensorConfigByAddress(c, Some(address)).value;
      var i := r.slot.value;
      assert !c.sensors[i].isConfigured;
      assert r.store.sensors[k] == c.sensors[k];
      Config.LookupExactly(r.store, address);
    }
  }

  // ---------------------------------------------------------------------------
  // Calibration
  // ---------------------------------------------------------------------------

  /** The prefix of the default slot names. */
  const DefaultNamePrefix := "Sensor "

  /** A name the user never chose: empty, or "Sensor " and anything. */
  predicate DefaultName(name: string) {
    |name| == 0 || StartsWith(name, DefaultNamePrefix)
  }

  /** isUncalibrated: false past the live sensors; true without a
      configuration; otherwise a default name (empty or starting with
      "Sensor ") together with a zero offset. */
  function IsUncalibrated(b: Bank, cfg: Config.Store, index: nat): (r: bool)
    requires BankShaped(b)
    ensures r ==> index < b.count
    ensures index < b.count ==>
              var c := ConfigFor(cfg, b.data[index].addressStr);
              && (c.None? ==> r)
              && (c.Some? && c.value.calibrationOffset != 0.0 ==> !r)
              && (c.Some? && !DefaultName(c.value.name) ==> !r)
              && (c.Some? && DefaultName(c.value.name) && c.value.calibrationOffset == 0.0 ==> r)
  {
    index < b.count &&
    match ConfigFor(cfg, b.data[index].addressStr)
    case None => true
    case Some(c) => DefaultName(c.name) && c.calibrationOffset == 0.0
  }

  datatype Calibrated = Calibrated(bank: Bank, cfg: Config.Store, applied: bool)

  /** calibrateSensor: for a live, connected sensor with a configuration,
      store offset = reference - raw, mark the store dirty and recompute
      the calibrated temperature; otherwise nothing. */
  function CalibrateSensor(b: Bank, cfg: Config.Store, index: nat, reference: real): (r: Calibrated)
    requires BankShaped(b) && Config.WellFormed(cfg)
    ensures BankShaped(r.bank) && Config.WellFormed(r.cfg)
    ensures r.applied <==> index < b.count && b.data[index].connected && ConfigFor(cfg, b.data[index].addressStr).Some?
    ensures !r.applied ==> r.bank == b && r.cfg == cfg
    ensures r.applied ==>
              var k := Config.GetSensorConfigByAddress(cfg, Some(b.data[index].addressStr)).value;
              r.cfg.dirty && r.cfg.sensors == cfg.sensors[k := cfg.sensors[k].(calibrationOffset := reference - b.data[index].rawTemperature)]
              && r.bank == b.(data := b.data[index := b.data[index].(temperature := r.bank.data[index].temperature)])
  {
    if index >= b.count || !b.data[index].connected then Calibrated(b, cfg, false)
    else
      var d := b.data[index];
      match Config.GetSensorConfigByAddress(cfg, Some(d.addressStr))
      case None => Calibrated(b, cfg, false)
      case Some(k) =>
        var c := cfg.(sensors := cfg.sensors[k := cfg.sensors[k].(calibrationOffset := reference - d.rawTemperature)], dirty := true);
        Calibrated(b.(data := b.data[index := d.(temperature := ApplyCalibration(c, d.addressStr, d.rawTemperature))]), c, true)
  }

  /** After a calibration is applied to a sensor with a raw reading, the
      sensor reads the reference temperature. */
  lemma CalibrationHitsReference(b: Bank, cfg: Config.Store, index: nat, reference: real)
    requires BankShaped(b) && Config.WellFormed(cfg)
    requires index < b.count && b.data[index].rawTemperature != TempInvalid
    ensures var r := CalibrateSensor(b, cfg, index, reference);
            r.applied ==> r.bank.data[index].temperature == reference
                          && ApplyCalibration(r.cfg, b.data[index].addressStr, b.data[index].rawTemperature) == reference
  {
    var r := CalibrateSensor(b, cfg, index, reference);
    if r.applied {
      var a := b.data[index].addressStr;
      var k := Config.GetSensorConfigByAddress(cfg, Some(a)).value;
      Config.LookupExactly(cfg, a);
      Config.LookupExactly(r.cfg, a);
      assert Config.Matches(r.cfg.sensors[k], a);
      var v := Config.GetSensorConfigByAddress(r.cfg, Some(a)).value;
      assert v == k;
    }
  }

  /** A calibration that moves the offset away from zero marks the probe
      calibrated, so calibrateUncalibrated does not take it again. */
  lemma CalibrationMarks(b: Bank, cfg: Config.Store, index: nat, reference: real)
    requires BankShaped(b) && Config.WellFormed(cfg) && index < b.count
    requires reference != b.data[index].rawTemperature
    ensures var r := CalibrateSensor(b, cfg, index, reference);
            r.applied ==> !IsUncalibrated(r.bank, r.cfg, index)
  {
    var r := CalibrateSensor(b, cfg, index, reference);
    if r.applied {
      var a := b.data[index].addressStr;
      var k := Config.GetSensorConfigByAddress(cfg, Some(a)).value;
      Config.LookupExactly(cfg, a);
      Config.LookupExactly(r.cfg, a);
      assert Config.Matches(r.cfg.sensors[k], a);
      assert r.bank.data[index].addressStr == a;
      assert ConfigFor(r.cfg, a) == Some(r.cfg.sensors[k]);
    }
  }

  datatype CalibrationRun = CalibrationRun(bank: Bank, cfg: Config.Store, count: nat, saved: bool)

  /** The loop of calibrateUncalibrated from sensor `i`: each sensor
      still uncalibrated is handed to calibrateSensor. As written, the
      count goes up for every such sensor, whether calibrateSensor
      changed it or not. */
  function UncalibratedFromAsWritten(b: Bank, cfg: Config.Store, reference: real, i: nat): (r: CalibrationRun)
    requires BankShaped(b) && Config.WellFormed(cfg) && i <= b.count
    ensures BankShaped(r.bank) && Config.WellFormed(r.cfg) && r.bank.count == b.count
    ensures r.count <= b.count - i
    decreases b.count - i
  {
    if i == b.count then CalibrationRun(b, cfg, 0, false)
    else if IsUncalibrated(b, cfg, i) then
      var s := CalibrateSensor(b, cfg, i, reference);
      var rest := UncalibratedFromAsWritten(s.bank, s.cfg, reference, i + 1);
      rest.(count := rest.count + 1)
    else UncalibratedFromAsWritten(b, cfg, reference, i + 1)
  }

  /** calibrateUncalibrated as written: the count, and a save when it is
      positive. */
  function CalibrateUncalibratedAsWritten(b: Bank, cfg: Config.Store, reference: real): (r: CalibrationRun)
    requires BankShaped(b) && Config.WellFormed(cfg)
    ensures r.count <= b.count && (r.saved <==> r.count > 0)
  {
    var r := UncalibratedFromAsWritten(b, cfg, reference, 0);
    r.(saved := r.count > 0)
  }

  /** The loop counting only the sensors calibrateSensor actually
      calibrated. */
  function UncalibratedFrom(b: Bank, cfg: Config.Store, reference: real, i: nat): (r: CalibrationRun)
    requires BankShaped(b) && Config.WellFormed(cfg) && i <= b.count
    ensures BankShaped(r.bank) && Config.WellFormed(r.cfg) && r.bank.count == b.count
    ensures r.count <= ConnectedFrom(b.data, b.count, i)
    decreases b.count - i
  {
    if i == b.count then CalibrationRun(b, cfg, 0, false)
    else if IsUncalibrated(b, cfg, i) then
      var s := CalibrateSensor(b, cfg, i, reference);
      var rest := UncalibratedFrom(s.bank, s.cfg, reference, i + 1);
      ConnectedFromFrame(b.data, s.bank.data, b.count, i + 1);
      rest.(count := rest.count + if s.applied then 1 else 0)
    else UncalibratedFrom(b, cfg, reference, i + 1)
  }

  /** The number of connected sensors from `i` to `n - 1`. */
  function ConnectedFrom(data: seq<SensorData>, n: nat, i: nat): nat
    requires i <= n <= |data|
    decreases n - i
  {
    if i == n then 0 else (if data[i].connected then 1 else 0) + ConnectedFrom(data, n, i + 1)
  }

  lemma {:induction false} ConnectedFromFrame(a: seq<SensorData>, b: seq<SensorData>, n: nat, i: nat)
    requires i <= n <= |a| && n <= |b|
    requires forall j :: i <= j < n ==> a[j].connected == b[j].connected
    ensures ConnectedFrom(a, n, i) == ConnectedFrom(b, n, i)
    decreases n - i
  {
    if i < n {
      ConnectedFromFrame(a, b, n, i + 1);
    }
  }

  /** calibrateUncalibrated counting the sensors it calibrated: never
      more than the connected live sensors. */
  function CalibrateUncalibrated(b: Bank, cfg: Config.Store, reference: real): (r: CalibrationRun)
    requires BankShaped(b) && Config.WellFormed(cfg)
    ensures r.count <= ConnectedFrom(b.data, b.count, 0) && (r.saved <==> r.count > 0)
  {
    var r := UncalibratedFrom(b, cfg, reference, 0);
    r.(saved := r.count > 0)
  }

  /** A live sensor that stopped answering is still counted as calibrated
      by the loop as written, although calibrateSensor skips it and the
      configuration is left as it was. */
  lemma UncalibratedCountAsWritten(b: Bank, cfg: Config.Store, reference: real)
    requires BankShaped(b) && Config.WellFormed(cfg)
    requires b.count == 1 && !b.data[0].connected && IsUncalibrated(b, cfg, 0)
    ensures var r := CalibrateUncalibratedAsWritten(b, cfg, reference);
            r.count == 1 && ConnectedFrom(b.data, b.count, 0) == 0 && r.cfg == cfg
  {
    var s := CalibrateSensor(b, cfg, 0, reference);
    assert s.bank == b && s.cfg == cfg;
    assert UncalibratedFromAsWritten(s.bank, s.cfg, reference, 1) == CalibrationRun(b, cfg, 0, false);
  }

  /** The corrected loop reports no sensor for the same input. */
  lemma UncalibratedCountCorrected(b: Bank, cfg: Config.Store, reference: real)
    requires BankShaped(b) && Config.WellFormed(cfg)
    requires b.count == 1 && !b.data[0].connected && IsUncalibrated(b, cfg, 0)
    ensures CalibrateUncalibrated(b, cfg, reference).count == 0
  {
  }

  /** No two live sensors carry the same address string, as for the
      distinct ROM codes found on one bus. */
  predicate DistinctAddresses(b: Bank)
    requires BankShaped(b)
  {
    forall i, j :: 0 <= i < j < b.count ==> b.data[i].addressStr != b.data[j].addressStr
  }

  /** A live sensor that calibrateSensor will calibrate when it is found
      uncalibrated: connected and configured. */
  predicate Calibratable(b: Bank, cfg: Config.Store, i: nat)
    requires BankShaped(b)
  {
    IsUncalibrated(b, cfg, i) && b.data[i].connected && ConfigFor(cfg, b.data[i].addressStr).Some?
  }

  /** The sensors from `i` on that are uncalibrated in the given state. */
  function UncalibratedCount(b: Bank, cfg: Config.Store, i: nat): nat
    requires BankShaped(b) && i <= b.count
    decreases b.count - i
  {
    if i == b.count then 0 else (if IsUncalibrated(b, cfg, i) then 1 else 0) + UncalibratedCount(b, cfg, i + 1)
  }

  /** The sensors from `i` on that are uncalibrated, connected and
      configured in the given state. */
  function CalibratableCount(b: Bank, cfg: Config.Store, i: nat): nat
    requires BankShaped(b) && i <= b.count
    decreases b.count - i
  {
    if i == b.count then 0 else (if Calibratable(b, cfg, i) then 1 else 0) + CalibratableCount(b, cfg, i + 1)
  }

  /** Two states that agree on every live sensor from `i` on and on the
      configuration each of them finds. */
  predicate AgreeFrom(b1: Bank, c1: Config.Store, b2: Bank, c2: Config.Store, i: nat)
    requires BankShaped(b1) && BankShaped(b2)
  {
    b1.count == b2.count &&
    forall j :: i <= j < b1.count ==>
      b1.data[j] == b2.data[j] && ConfigFor(c1, b1.data[j].addressStr) == ConfigFor(c2, b1.data[j].addressStr)
  }

  lemma {:induction false} CountsAgree(b1: Bank, c1: Config.Store, b2: Bank, c2: Config.Store, i: nat)
    requires BankShaped(b1) && BankShaped(b2) && i <= b1.count
    requires AgreeFrom(b1, c1, b2, c2, i)
    ensures UncalibratedCount(b1, c1, i) == UncalibratedCount(b2, c2, i)
    ensures CalibratableCount(b1, c1, i) == CalibratableCount(b2, c2, i)
    decreases b1.count - i
  {
    if i < b1.count {
      assert IsUncalibrated(b1, c1, i) == IsUncalibrated(b2, c2, i);
      CountsAgree(b1, c1, b2, c2, i + 1);
    }
  }

  /** Calibrating one sensor leaves every other address finding the same
      configuration, when the addresses differ. */
  lemma CalibrateKeepsOthers(b: Bank, cfg: Config.Store, i: nat, reference: real, a: string)
    requires BankShaped(b) && Config.WellFormed(cfg) && i < b.count
    requires a != b.data[i].addressStr
    ensures ConfigFor(CalibrateSensor(b, cfg, i, reference).cfg, a) == ConfigFor(cfg, a)
  {
    var r := CalibrateSensor(b, cfg, i, reference);
    if r.applied {
      var k := Config.GetSensorConfigByAddress(cfg, Some(b.data[i].addressStr)).value;
      assert Config.SameKeys(r.cfg.sensors, cfg.sensors);
      Config.LookupSameKeys(r.cfg.sensors, cfg.sensors, a, 0);
      match Config.GetSensorConfigByAddress(cfg, Some(a))
      case None =>
      case Some(k2) =>
        assert k2 != k;
    }
  }

  /** After calibrating sensor `i`, the sensors after it are seen as
      before. */
  lemma CalibrateFrame(b: Bank, cfg: Config.Store, i: nat, reference: real)
    requires BankShaped(b) && Config.WellFormed(cfg) && i < b.count && DistinctAddresses(b)
    ensures var s := CalibrateSensor(b, cfg, i, reference);
            AgreeFrom(s.bank, s.cfg, b, cfg, i + 1) && DistinctAddresses(s.bank)
  {
    var s := CalibrateSensor(b, cfg, i, reference);
    forall j | i + 1 <= j < b.count
      ensures s.bank.data[j] == b.data[j]
      ensures ConfigFor(s.cfg, s.bank.data[j].addressStr) == ConfigFor(cfg, s.bank.data[j].addressStr)
    {
      CalibrateKeepsOthers(b, cfg, i, reference, b.data[j].addressStr);
    }
  }

  /** One step of either loop at an uncalibrated sensor: the rest of the
      run starts from the state calibrateSensor leaves, which the later
      sensors see as the original one. */
  lemma CalibrateStep(b: Bank, cfg: Config.Store, reference: real, i: nat)
    requires BankShaped(b) && Config.WellFormed(cfg) && i < b.count && DistinctAddresses(b)
    requires IsUncalibrated(b, cfg, i)
    ensures var s := CalibrateSensor(b, cfg, i, reference);
            && BankShaped(s.bank) && Config.WellFormed(s.cfg) && s.bank.count == b.count && DistinctAddresses(s.bank)
            && (s.applied <==> Calibratable(b, cfg, i))
            && UncalibratedCount(s.bank, s.cfg, i + 1) == UncalibratedCount(b, cfg, i + 1)
            && CalibratableCount(s.bank, s.cfg, i + 1) == CalibratableCount(b, cfg, i + 1)
            && UncalibratedFrom(b, cfg, reference, i).count
               == UncalibratedFrom(s.bank, s.cfg, reference, i + 1).count + (if s.applied then 1 else 0)
            && UncalibratedFromAsWritten(b, cfg, reference, i).count
               == UncalibratedFromAsWritten(s.bank, s.cfg, reference, i + 1).count + 1
  {
    var s := CalibrateSensor(b, cfg, i, reference);
    CalibrateFrame(b, cfg, i, reference);
    CountsAgree(s.bank, s.cfg, b, cfg, i + 1);
  }

  /** The corrected loop from `i` counts exactly the sensors from `i` on
      that are uncalibrated, connected and configured at the start. */
  lemma {:induction false} UncalibratedFromCounts(b: Bank, cfg: Config.Store, reference: real, i: nat)
    requires BankShaped(b) && Config.WellFormed(cfg) && i <= b.count && DistinctAddresses(b)
    ensures UncalibratedFrom(b, cfg, reference, i).count == CalibratableCount(b, cfg, i)
    decreases b.count - i
  {
    if i < b.count {
      if IsUncalibrated(b, cfg, i) {
        var s := CalibrateSensor(b, cfg, i, reference);
        CalibrateStep(b, cfg, reference, i);
        UncalibratedFromCounts(s.bank, s.cfg, reference, i + 1);
      } else {
        UncalibratedFromCounts(b, cfg, reference, i + 1);
      }
    }
  }

  /** The loop as written from `i` counts every sensor from `i` on that
      is uncalibrated at the start, calibrated or not. */
  lemma {:induction false} UncalibratedFromAsWrittenCounts(b: Bank, cfg: Config.Store, reference: real, i: nat)
    requires BankShaped(b) && Config.WellFormed(cfg) && i <= b.count && DistinctAddresses(b)
    ensures UncalibratedFromAsWritten(b, cfg, reference, i).count == UncalibratedCount(b, cfg, i)
    decreases b.count - i
  {
    if i < b.count {
      if IsUncalibrated(b, cfg, i) {
        var s := CalibrateSensor(b, cfg, i, reference);
        CalibrateStep(b, cfg, reference, i);
        UncalibratedFromAsWrittenCounts(s.bank, s.cfg, reference, i + 1);
      } else {
        UncalibratedFromAsWrittenCounts(b, cfg, reference, i + 1);
      }
    }
  }

  /** With distinct addresses, calibrateUncalibrated (corrected) reports
      exactly the sensors it calibrated: those uncalibrated, connected and
      configured when it starts. As written, it reports every sensor
      uncalibrated when it starts. */
  lemma CalibrationCounts(b: Bank, cfg: Config.Store, reference: real)
    requires BankShaped(b) && Config.WellFormed(cfg) && DistinctAddresses(b)
    ensures CalibrateUncalibrated(b, cfg, reference).count == CalibratableCount(b, cfg, 0)
    ensures CalibrateUncalibratedAsWritten(b, cfg, reference).count == UncalibratedCount(b, cfg, 0)
  {
    UncalibratedFromCounts(b, cfg, reference, 0);
    UncalibratedFromAsWrittenCounts(b, cfg, reference, 0);
  }

}

=== FILE: url.dfy ===
/** URL splitting used by the raw-socket redirect resolver, and the
    resolution of a redirect target against the current URL (a cut-down
    form of section 5.2 of RFC 3986 that only knows absolute-path
    references). */
module Url {
  import opened Common

  /** The parts of a URL the resolver needs to open a connection. */
  datatype UrlDetails = UrlDetails(proto: string, host: string, port: int, path: string)

  const Http := "http://"
  const Https := "https://"

  /** parseUrl: the scheme decides protocol and port ("http://" gives 80,
      anything else is treated as https on 443); every occurrence of the
      scheme text is removed; the host runs to the first '/', and the
      path is the rest, or "/" when there is no slash after the host. */
  function ParseUrl(url: string): (d: UrlDetails)
    ensures |d.path| > 0 && d.path[0] == '/'
    ensures d.port == 80 <==> StartsWith(url, Http)
    ensures d.port == 80 || d.port == 443
    ensures d.proto == (if d.port == 80 then Http else Https)
  {
    var isHttp := StartsWith(url, Http);
    var proto := if isHttp then Http else Https;
    var u := RemoveAll(url, proto);
    var slash := IndexOf(u, '/');
    if slash > 0 then UrlDetails(proto, u[..slash], if isHttp then 80 else 443, u[slash..])
    else UrlDetails(proto, u, if isHttp then 80 else 443, "/")
  }

  /** A URL rebuilt from its parts. */
  function Compose(d: UrlDetails): string {
    d.proto + d.host + d.path
  }

  /** Parts that ParseUrl can produce from their composition: a known
      scheme, a non-empty host without '/', an absolute path, and no
      second copy of the scheme text anywhere. */
  predicate WellFormed(d: UrlDetails) {
    && (d.proto == Http || d.proto == Https)
    && d.port == (if d.proto == Http then 80 else 443)
    && |d.host| > 0 && '/' !in d.host
    && |d.path| > 0 && d.path[0] == '/'
    && Free(d.host + d.path, d.proto)
  }

  /** Splitting a composed URL gives back its parts. */
  lemma {:induction false} ParseCompose(d: UrlDetails)
    requires WellFormed(d)
    ensures ParseUrl(Compose(d)) == d
  {
    var url := Compose(d);
    var rest := d.host + d.path;
    assert url == d.proto + rest;
    assert StartsWith(url, Http) <==> d.proto == Http by {
      if d.proto == Https {
        assert url[..|Http|][4] != Http[4];
      } else {
        assert url[..|Http|] == Http;
      }
    }
    assert StartsWith(url, d.proto) && url[|d.proto|..] == rest by {
      assert url[..|d.proto|] == d.proto;
    }
    RemoveAllAtMatch(url, d.proto);
    assert RemoveAll(url, d.proto) == rest;
    var slash := IndexOf(rest, '/');
    assert rest[|d.host|] == '/';
    assert slash == |d.host| by {
      assert rest[..|d.host|] == d.host;
    }
    assert rest[..slash] == d.host;
    assert rest[slash..] == d.path;
  }

  /** The next URL after a redirect: an absolute Location replaces the
      URL, anything else is appended to the current scheme and host. */
  function NextTarget(current: UrlDetails, location: string): (next: string)
    ensures StartsWith(location, Http) || StartsWith(location, Https) ==> next == location
    ensures !(StartsWith(location, Http) || StartsWith(location, Https)) ==>
              StartsWith(next, current.proto + current.host) &&
              next[|current.proto + current.host|..] == location
  {
    if StartsWith(location, Http) || StartsWith(location, Https) then location
    else
      var next := current.proto + current.host + location;
      assert next[..|current.proto + current.host|] == current.proto + current.host;
      next
  }

  /** A relative redirect to an absolute path stays on the same scheme,
      host and port, and the Location becomes the new path. */
  lemma {:induction false} RelativeRedirectKeepsOrigin(current: UrlDetails, location: string)
    requires WellFormed(current)
    requires WellFormed(current.(path := location))
    ensures ParseUrl(NextTarget(current, location)) == current.(path := location)
  {
    var d := current.(path := location);
    assert !StartsWith(location, Http) && !StartsWith(location, Https) by {
      assert location[0] == '/';
    }
    assert NextTarget(current, location) == Compose(d);
    ParseCompose(d);
  }

  /** Both copies of the scheme are deleted from "https://h/https://x". */
  lemma RemoveSchemeTwice()
    ensures RemoveAll(Https + "h/" + Https + "x", Https) == "h/x"
  {
    var c := Https + "x";
    var b := "/" + c;
    var a := "h" + b;
    var u := Https + a;
    assert u == Https + "h/" + Https + "x";
    assert u[..|Https|] == Https && u[|Https|..] == a;
    RemoveAllAtMatch(u, Https);
    assert a[..|Https|][1] != Https[1] && a[1..] == b;
    RemoveAllAtOther(a, Https);
    assert b[..|Https|][0] != Https[0] && b[1..] == c;
    RemoveAllAtOther(b, Https);
    assert c[..|Https|] == Https && c[|Https|..] == "x";
    RemoveAllAtMatch(c, Https);
  }

  /** An https URL that contains "https://" a second time, such as
      "https://h/https://x", loses that text from its path, because the
      scheme is removed everywhere. */
  lemma SchemeRemovedEverywhere()
    ensures ParseUrl(Https + "h/" + Https + "x").path == "/x"
  {
    var u := Https + "h/" + Https + "x";
    assert !StartsWith(u, Http) by { assert u[..|Http|][4] != Http[4]; }
    RemoveSchemeTwice();
    assert IndexOf("h/x", '/') == 1 by {
      assert "h/x"[1] == '/' && '/' !in "h/x"[..1];
    }
  }
}

=== FILE: version.dfy ===
/** Release-tag helpers of the OTA manager: the numeric version code used
    to decide whether a release is newer, the tag normaliser, and the
    update-available test against the running firmware's version. */
module Version {
  import opened Common

  /** The version string compiled into the firmware (config.h default). */
  const FIRMWARE_VERSION: string := "v1.0.0"

  /** The scan's running state: segments fixed so far, dots seen, and the
      segment being accumulated. */
  datatype ScanState = ScanState(major: nat, minor: nat, dots: nat, value: nat)

  const ScanStart := ScanState(0, 0, 0, 0)

  /** Character-by-character scan: digits accumulate, a dot closes the
      first or second segment, any other character stops the scan. */
  function Scan(v: string, st: ScanState): ScanState
    decreases |v|
  {
    if |v| == 0 then st
    else if IsDigit(v[0]) then Scan(v[1..], st.(value := st.value * 10 + DigitValue(v[0])))
    else if v[0] == '.' then Scan(v[1..], Close(st))
    else st
  }

  /** A dot closes the open segment: it becomes major after no dot, minor
      after one, and is dropped after two or more. */
  function Close(st: ScanState): (r: ScanState)
    ensures r.dots == st.dots + 1 && r.value == 0
    ensures st.dots == 0 ==> r.major == st.value && r.minor == st.minor
    ensures st.dots == 1 ==> r.major == st.major && r.minor == st.value
    ensures st.dots >= 2 ==> r.major == st.major && r.minor == st.minor
  {
    var major := if st.dots == 0 then st.value else st.major;
    var minor := if st.dots == 1 then st.value else st.minor;
    ScanState(major, minor, st.dots + 1, 0)
  }

  /** After the scan the open segment becomes patch, minor or major,
      depending on how many dots were seen; with three or more dots it
      is dropped. */
  function Finish(st: ScanState): nat {
    var major := if st.dots == 0 then st.value else st.major;
    var minor := if st.dots == 1 then st.value else st.minor;
    var patch := if st.dots == 2 then st.value else 0;
    major * 10000 + minor * 100 + patch
  }

  /** One leading 'v' or 'V' is skipped. */
  function StripV(version: string): (r: string)
    ensures |version| > 0 && (version[0] == 'v' || version[0] == 'V') ==> r == version[1..]
    ensures |version| == 0 || (version[0] != 'v' && version[0] != 'V') ==> r == version
  {
    if StartsWith(version, "v") || StartsWith(version, "V") then version[1..] else version
  }

  /** parseVersionNumber: "v1.2.3" becomes 1*10000 + 2*100 + 3. Text
      with no digits to read, after an optional 'v', is version 0. */
  function ParseVersionNumber(version: string): (r: nat)
    ensures var t := StripV(version); (|t| == 0 || Stops(t[0])) ==> r == 0
  {
    Finish(Scan(StripV(version), ScanStart))
  }

  /** The code of a dotted triple. With minor and patch below 100 the
      three parts can be read back from the code. */
  function Code(major: nat, minor: nat, patch: nat): (c: nat)
    ensures minor < 100 && patch < 100 ==> c / 10000 == major && c / 100 % 100 == minor && c % 100 == patch
  {
    CodeParts(major, minor, patch);
    major * 10000 + minor * 100 + patch
  }

  lemma CodeParts(major: nat, minor: nat, patch: nat)
    ensures minor < 100 && patch < 100 ==>
              var c := major * 10000 + minor * 100 + patch;
              c / 10000 == major && c / 100 % 100 == minor && c % 100 == patch
  {
    if minor < 100 && patch < 100 {
      var c := major * 10000 + minor * 100 + patch;
      var low := minor * 100 + patch;
      assert low < 10000;
      assert c == major * 10000 + low;
      assert c / 100 == major * 100 + minor;
    }
  }

  /** A character at which the scan stops. */
  predicate Stops(c: char) {
    !IsDigit(c) && c != '.'
  }

  /** The text after the version number: empty or beginning with a stop
      character such as '-' in "v1.2.3-beta". */
  predicate Tail(t: string) {
    |t| == 0 || Stops(t[0])
  }

  lemma {:induction false} ScanStopsAt(t: string, st: ScanState)
    requires Tail(t)
    ensures Scan(t, st) == st
  {
  }

  /** A run of digits accumulates into the open segment. */
  lemma {:induction false} ScanSegment(d: string, rest: string, st: ScanState)
    requires AllDigits(d) && st.value == 0
    ensures Scan(d + rest, st) == Scan(rest, st.(value := DecimalValue(d)))
    decreases |d|
  {
    if |d| == 0 {
      assert d + rest == rest;
    } else {
      var init := d[..|d| - 1];
      var c := d[|d| - 1];
      assert d + rest == init + ([c] + rest);
      ScanSegment(init, [c] + rest, st);
      assert ([c] + rest)[1..] == rest;
    }
  }

  /** A run of digits and the dot after it: the segment is closed. */
  lemma {:induction false} ScanThroughDot(d: string, rest: string, st: ScanState)
    requires AllDigits(d) && st.value == 0
    ensures Scan(d + ("." + rest), st) == Scan(rest, Close(st.(value := DecimalValue(d))))
  {
    ScanSegment(d, "." + rest, st);
    assert ("." + rest)[1..] == rest;
  }

  /** A leading 'v' or 'V' is skipped before the scan. */
  lemma {:induction false} ParseAfterPrefix(p: char, body: string)
    requires p == 'v' || p == 'V'
    ensures ParseVersionNumber([p] + body) == Finish(Scan(body, ScanStart))
  {
    assert ([p] + body)[1..] == body;
  }

  /** Three digit runs separated by dots fill the three segments. */
  lemma {:induction false} ScanTriple(a: nat, b: nat, c: nat, tail: string)
    requires Tail(tail)
    ensures Scan(NatToDecimal(a) + ("." + (NatToDecimal(b) + ("." + (NatToDecimal(c) + tail)))), ScanStart)
            == ScanState(a, b, 2, c)
  {
    var sa, sb, sc := NatToDecimal(a), NatToDecimal(b), NatToDecimal(c);
    var r2 := sc + tail;
    var r1 := sb + ("." + r2);
    ScanThroughDot(sa, r1, ScanStart);
    var s1 := Close(ScanStart.(value := a));
    ScanThroughDot(sb, r2, s1);
    var s2 := Close(s1.(value := b));
    ScanSegment(sc, tail, s2);
    ScanStopsAt(tail, s2.(value := c));
  }

  /** A full three-part version, with any tail, parses to its code. */
  lemma {:induction false} ParseTriple(a: nat, b: nat, c: nat, tail: string)
    requires Tail(tail)
    ensures ParseVersionNumber("v" + NatToDecimal(a) + "." + NatToDecimal(b) + "." + NatToDecimal(c) + tail)
            == Code(a, b, c)
  {
    var sa, sb, sc := NatToDecimal(a), NatToDecimal(b), NatToDecimal(c);
    var body := sa + ("." + (sb + ("." + (sc + tail))));
    assert "v" + sa + "." + sb + "." + sc + tail == ['v'] + body;
    ParseAfterPrefix('v', body);
    ScanTriple(a, b, c, tail);
  }

  /** Missing segments count as zero: "v3" is 3.0.0 and "v3.4" is 3.4.0. */
  lemma {:induction false} ParseShort(a: nat, b: nat)
    ensures ParseVersionNumber("v" + NatToDecimal(a)) == Code(a, 0, 0)
    ensures ParseVersionNumber("v" + NatToDecimal(a) + "." + NatToDecimal(b)) == Code(a, b, 0)
  {
    var sa, sb := NatToDecimal(a), NatToDecimal(b);
    assert ("v" + sa)[1..] == sa;
    assert sa == sa + "";
    ScanSegment(sa, "", ScanStart);
    assert ("v" + sa + "." + sb)[1..] == sa + ("." + sb);
    ScanSegment(sa, "." + sb, ScanStart);
    assert ("." + sb)[1..] == sb + "";
    ScanSegment(sb, "", ScanState(a, 0, 1, 0));
  }

  /** A version text without a prefix reads the same as with a leading
      'v' or 'V'. */
  lemma {:induction false} ParseIgnoresPrefixV(body: string)
    requires |body| == 0 || (body[0] != 'v' && body[0] != 'V')
    ensures ParseVersionNumber(body) == ParseVersionNumber("v" + body) == ParseVersionNumber("V" + body)
  {
    ParseAfterPrefix('v', body);
    ParseAfterPrefix('V', body);
    assert StripV(body) == body;
  }

  /** With minor and patch below 100 the code orders versions exactly as
      the lexicographic order of their triples. */
  lemma {:induction false} CodeOrder(a1: nat, b1: nat, c1: nat, a2: nat, b2: nat, c2: nat)
    requires b1 < 100 && c1 < 100 && b2 < 100 && c2 < 100
    ensures Code(a1, b1, c1) < Code(a2, b2, c2) <==>
            a1 < a2 || (a1 == a2 && (b1 < b2 || (b1 == b2 && c1 < c2)))
  {
    if a1 < a2 {
      assert Code(a1, b1, c1) < (a1 + 1) * 10000 <= Code(a2, b2, c2);
    } else if a1 > a2 {
      assert Code(a2, b2, c2) < (a2 + 1) * 10000 <= Code(a1, b1, c1);
    }
  }

  /** v1.10.0 is newer than v1.9.0: segments compare numerically. */
  lemma MinorTenAfterNine()
    ensures ParseVersionNumber("v1.10.0") > ParseVersionNumber("v1.9.0")
  {
    ParseTriple(1, 10, 0, "");
    ParseTriple(1, 9, 0, "");
    assert NatToDecimal(1) == "1" && NatToDecimal(9) == "9" && NatToDecimal(0) == "0";
    assert NatToDecimal(10) == "10";
    assert "v" + "1" + "." + "10" + "." + "0" + "" == "v1.10.0";
    assert "v" + "1" + "." + "9" + "." + "0" + "" == "v1.9.0";
  }

  /** The running firmware's code is 10000. */
  lemma FirmwareCode()
    ensures ParseVersionNumber(FIRMWARE_VERSION) == 10000
  {
    ParseTriple(1, 0, 0, "");
    assert NatToDecimal(1) == "1" && NatToDecimal(0) == "0";
    assert "v" + "1" + "." + "0" + "." + "0" + "" == FIRMWARE_VERSION;
  }

  /** A fourth segment is ignored and takes the patch with it:
      "v1.2.3.4" reads as 1.2.0. */
  lemma FourthSegmentDropsPatch()
    ensures ParseVersionNumber("v1.2.3.4") == Code(1, 2, 0)
  {
  }

  // ---------------------------------------------------------------------------
  // Tag normalisation
  // ---------------------------------------------------------------------------

  const RefsTags := "refs/tags/"

  /** One leading "refs/tags/" removed. */
  function StripRef(t: string): (u: string)
    ensures |u| <= |t| && u == t[|t| - |u|..]
  {
    if StartsWith(t, RefsTags) then t[|RefsTags|..] else t
  }

  /** normalizeTagToVersion: trim, strip one "refs/tags/", and prefix a
      lower-case 'v' unless one is already there. */
  function NormalizeTagToVersion(tag: string): (r: string)
    ensures |r| > 0 && r[0] == 'v'
  {
    var u := StripRef(Trim(tag));
    if StartsWith(u, "v") then assert u[0] == u[..1][0]; u else "v" + u
  }

  /** The result never has leading or trailing whitespace. */
  lemma {:induction false} NormalizedIsTrimmed(tag: string)
    ensures var r := NormalizeTagToVersion(tag);
            !IsSpace(r[0]) && !IsSpace(r[|r| - 1])
  {
    var t := Trim(tag);
    var u := StripRef(t);
    var r := NormalizeTagToVersion(tag);
    if |u| > 0 {
      assert u[|u| - 1] == t[|t| - 1];
      assert r[|r| - 1] == u[|u| - 1];
    }
  }

  /** Normalising twice is normalising once. */
  lemma {:induction false} NormalizeIdempotent(tag: string)
    ensures NormalizeTagToVersion(NormalizeTagToVersion(tag)) == NormalizeTagToVersion(tag)
  {
    var r := NormalizeTagToVersion(tag);
    NormalizedIsTrimmed(tag);
    TrimNoop(r);
    assert !StartsWith(r, RefsTags) by {
      if |r| >= |RefsTags| {
        assert r[..|RefsTags|][0] != RefsTags[0];
      }
    }
    assert StripRef(r) == r;
    assert StartsWith(r, "v") by {
      assert r[..1] == "v";
    }
  }

  /** A clean tag (no surrounding whitespace, no "refs/tags/") only gets
      a 'v' in front when it lacks one. */
  lemma {:induction false} NormalizeCleanTag(x: string)
    requires |x| > 0 ==> !IsSpace(x[0]) && !IsSpace(x[|x| - 1])
    requires !StartsWith(x, RefsTags)
    ensures NormalizeTagToVersion(x) == if StartsWith(x, "v") then x else "v" + x
  {
    TrimNoop(x);
    assert StripRef(Trim(x)) == x;
  }

  /** One "refs/tags/" prefix is removed before the 'v' test. */
  lemma {:induction false} NormalizeStripsRef(x: string)
    requires |x| > 0 ==> !IsSpace(x[0]) && !IsSpace(x[|x| - 1])
    ensures NormalizeTagToVersion(RefsTags + x) == if StartsWith(x, "v") then x else "v" + x
  {
    var t := RefsTags + x;
    assert t[0] == RefsTags[0];
    assert t[|t| - 1] == if |x| > 0 then x[|x| - 1] else RefsTags[|RefsTags| - 1];
    TrimNoop(t);
    assert StartsWith(t, RefsTags) && t[|RefsTags|..] == x by {
      assert t[..|RefsTags|] == RefsTags;
    }
    assert StripRef(Trim(t)) == x;
  }

  /** The check is case-sensitive: a tag such as "V2.0.0" becomes
      "vV2.0.0", whose code is 0. */
  lemma {:induction false} UpperCaseTagParsesAsZero(x: string)
    requires |x| > 0 && x[0] == 'V' && !IsSpace(x[|x| - 1])
    ensures NormalizeTagToVersion(x) == "v" + x
    ensures ParseVersionNumber(NormalizeTagToVersion(x)) == 0
  {
    assert !StartsWith(x, RefsTags) by {
      if |x| >= |RefsTags| {
        assert x[..|RefsTags|][0] != RefsTags[0];
      }
    }
    assert !StartsWith(x, "v") by {
      assert x[..1][0] == 'V';
    }
    NormalizeCleanTag(x);
    assert ("v" + x)[1..] == x;
    ScanStopsAt(x, ScanStart);
  }

  // ---------------------------------------------------------------------------
  // Update availability
  // ---------------------------------------------------------------------------

  /** isUpdateAvailable: the cached tag, read under the release lock, is
      non-empty and numerically newer than the running firmware. When the
      lock is not obtained in time the answer is false. */
  function IsUpdateAvailable(cachedTag: string, lockAcquired: bool): (r: bool)
    ensures r ==> lockAcquired && |cachedTag| > 0
    ensures r <==> lockAcquired && |cachedTag| > 0 && ParseVersionNumber(cachedTag) > 10000
  {
    FirmwareCode();
    lockAcquired && |cachedTag| > 0 && ParseVersionNumber(cachedTag) > ParseVersionNumber(FIRMWARE_VERSION)
  }

  /** For a well-formed tag, an update is available exactly when its
      triple is lexicographically after 1.0.0. */
  lemma {:induction false} TripleAvailable(a: nat, b: nat, c: nat)
    requires b < 100 && c < 100
    ensures IsUpdateAvailable("v" + NatToDecimal(a) + "." + NatToDecimal(b) + "." + NatToDecimal(c), true)
            <==> a > 1 || (a == 1 && (b > 0 || c > 0))
  {
    var tag := "v" + NatToDecimal(a) + "." + NatToDecimal(b) + "." + NatToDecimal(c);
    ParseTriple(a, b, c, "");
    assert tag + "" == tag;
    CodeOrder(1, 0, 0, a, b, c);
  }
}

=== FILE: web_api.dfy ===
/** The parts of the web server's REST handlers that compute rather than
    serialise: the history read-back, the OTA state names, the OTA info
    and start handlers, the WiFi scan listing, and the password handling
    of the WiFi and MQTT configuration handlers. A request body arrives
    already parsed: `None` stands for a body that is not valid JSON, and
    each field is `None` when absent. */
module WebApi {
  import opened Common
  import Config
  import Sensors
  import OtaManager
  import Version
  import WiFi

  const StatusOk: nat := 200
  const StatusAccepted: nat := 202
  const StatusBadRequest: nat := 400
  const StatusForbidden: nat := 403
  const StatusNotFound: nat := 404
  const StatusServerError: nat := 500

  // ---------------------------------------------------------------------------
  // Sensor history
  // ---------------------------------------------------------------------------

  /** The ring slot handleGetHistory visits as its i-th entry: counting
      back `historyCount` slots from the cursor, oldest first. */
  function ReadBackSlot(d: Sensors.SensorData, i: nat): (k: nat)
    requires Sensors.Shaped(d) && i < d.historyCount
    ensures k < Sensors.HistorySize
  {
    (d.historyIndex - d.historyCount + i + Sensors.HistorySize) % Sensors.HistorySize
  }

  /** The slots in the order the handler visits them. */
  function HistoryWindow(d: Sensors.SensorData): (w: seq<int>)
    requires Sensors.Shaped(d)
    ensures |w| == d.historyCount
  {
    seq(d.historyCount, i requires 0 <= i < d.historyCount => d.history[ReadBackSlot(d, i)])
  }

  /** The visiting order reads back exactly the last `historyCount`
      values written, oldest first. */
  lemma {:induction false} WindowIsLastWrites(d: Sensors.SensorData, written: seq<int>)
    requires Sensors.Holds(d, written)
    ensures HistoryWindow(d) == written[|written| - d.historyCount..]
  {
    var n := |written|;
    var c := d.historyCount;
    var w := HistoryWindow(d);
    forall i | 0 <= i < c
      ensures w[i] == written[n - c + i]
    {
      assert n == Sensors.HistorySize * (n / Sensors.HistorySize) + d.historyIndex;
      assert ReadBackSlot(d, i) == (n - c + i) % Sensors.HistorySize;
    }
  }

  /** A stored hundredth of a degree as the handler prints it. */
  function Decode(v: int): real {
    v as real / 100.0
  }

  /** The handler's output: never-written slots skipped, the rest
      decoded, in order. */
  function Readings(w: seq<int>): (r: seq<real>)
    ensures |r| <= |w|
  {
    if |w| == 0 then []
    else (if w[0] == Sensors.HistoryInvalid then [] else [Decode(w[0])]) + Readings(w[1..])
  }

  lemma {:induction false} ReadingsOfValid(w: seq<int>)
    requires forall k :: 0 <= k < |w| ==> w[k] != Sensors.HistoryInvalid
    ensures |Readings(w)| == |w|
    ensures forall k :: 0 <= k < |w| ==> Readings(w)[k] == Decode(w[k])
  {
    if |w| > 0 {
      ReadingsOfValid(w[1..]);
    }
  }

  datatype HistoryReply = SensorNotFound | History(values: seq<real>)

  /** handleGetHistory: 404 past the live sensors, else the readings. */
  function GetHistory(b: Sensors.Bank, index: nat): (r: HistoryReply)
    requires Sensors.BankShaped(b)
    ensures r.SensorNotFound? <==> index >= b.count
  {
    if index >= b.count then SensorNotFound
    else History(Readings(HistoryWindow(b.data[index])))
  }

  /** For a sensor whose writes are all real temperatures, the history
      answer is the last (at most 30) of them, oldest first, decoded. */
  lemma HistoryAnswersLastWrites(b: Sensors.Bank, index: nat, written: seq<int>)
    requires Sensors.BankShaped(b) && index < b.count
    requires Sensors.Holds(b.data[index], written)
    requires forall k :: 0 <= k < |written| ==> written[k] != Sensors.HistoryInvalid
    ensures var r := GetHistory(b, index);
            var c := Sensors.Min(|written|, Sensors.HistorySize);
            r.History? && |r.values| == c
            && forall k :: 0 <= k < c ==> r.values[k] == Decode(written[|written| - c + k])
  {
    var d := b.data[index];
    WindowIsLastWrites(d, written);
    var w := HistoryWindow(d);
    assert forall k :: 0 <= k < |w| ==> w[k] == written[|written| - d.historyCount + k];
    ReadingsOfValid(w);
  }

  /** As written, the slot holds the temperature truncated to whole
      degrees, and the division by 100 prints 23.5 degrees as 0.23. */
  lemma HistoryScaleAsWritten()
    ensures Sensors.HistoryValueAsWritten(23.5) == 23
    ensures Decode(Sensors.HistoryValueAsWritten(23.5)) == 0.23
  {
  }

  /** Storing hundredths, the printed value is within a hundredth of a
      degree of the temperature. */
  lemma HistoryScaleCorrected(t: real)
    ensures -0.01 < t - Decode(Sensors.HistoryValue(t)) < 0.01
  {
  }

  // ---------------------------------------------------------------------------
  // OTA state names
  // ---------------------------------------------------------------------------

  /** otaStateToString. */
  function OtaStateName(s: OtaManager.State): (n: string)
    ensures |n| > 0 && forall k :: 0 <= k < |n| ==> 'a' <= n[k] <= 'z' || n[k] == '_'
  {
    match s
    case Idle => "idle"
    case Checking => "checking"
    case Ready => "ready"
    case UpdatingFirmware => "updating_firmware"
    case UpdatingSpiffs => "updating_spiffs"
    case Rebooting => "rebooting"
    case Error => "error"
  }

  /** The state a client reads back from a name. */
  function OtaStateFromName(n: string): (r: Option<OtaManager.State>)
    ensures r.Some? ==> OtaStateName(r.value) == n
  {
    if n == "idle" then Some(OtaManager.Idle)
    else if n == "checking" then Some(OtaManager.Checking)
    else if n == "ready" then Some(OtaManager.Ready)
    else if n == "updating_firmware" then Some(OtaManager.UpdatingFirmware)
    else if n == "updating_spiffs" then Some(OtaManager.UpdatingSpiffs)
    else if n == "rebooting" then Some(OtaManager.Rebooting)
    else if n == "error" then Some(OtaManager.Error)
    else None
  }

  /** Every name reads back as its state, so distinct states have
      distinct names. */
  lemma OtaStateNameRoundTrip(s: OtaManager.State, t: OtaManager.State)
    ensures OtaStateFromName(OtaStateName(s)) == Some(s)
    ensures s != t ==> OtaStateName(s) != OtaStateName(t)
  {
    match s
    case Ready => assert "ready"[0] != "idle"[0] && "ready"[1] != "checking"[1];
    case Error => assert "error"[0] != "ready"[0];
    case Rebooting => assert "rebooting"[2] != "ready"[2];
    case UpdatingSpiffs => assert "updating_spiffs"[9] != "updating_firmware"[9];
    case _ =>
  }

  // ---------------------------------------------------------------------------
  // OTA info and start
  // ---------------------------------------------------------------------------

  const MsgOtaDisabled := "OTA disabled"
  const ForceValue := "1"

  /** What /api/ota/info reports about updates. `tag` is empty when the
      handler did not look (OTA disabled). */
  datatype OtaInfo = OtaInfo(
    current: string, state: Option<OtaManager.State>, tag: string, updateAvailable: bool, error: string)

  /** The handler's availability rule: a non-empty tag that differs from
      the running version as a string. */
  predicate TagDiffers(tag: string) {
    |tag| > 0 && tag != Version.FIRMWARE_VERSION
  }

  /** handleGetOtaInfo. With OTA disabled: no update, the "OTA disabled"
      error and no check. Otherwise a forced freshness check only for
      `force=1`, then the cached release read under the release lock
      (`copyLockOk`), the availability rule, and the progress error, or
      else the check's error. */
  function GetOtaInfo(m: OtaManager.Manager, otaEnabled: bool, force: Option<string>,
                      now: uint32, lockOk: bool, spawnOk: bool, copyLockOk: bool): (r: (OtaInfo, OtaManager.Manager))
    ensures r.0.current == Version.FIRMWARE_VERSION
    ensures !otaEnabled ==> r == (OtaInfo(Version.FIRMWARE_VERSION, None, "", false, MsgOtaDisabled), m)
    ensures force != Some(ForceValue) ==> r.1 == m
    ensures otaEnabled ==>
              r.0.tag == OtaManager.CachedRelease(r.1, copyLockOk).tag
              && (r.0.updateAvailable <==> TagDiffers(r.0.tag))
              && r.0.state == Some(r.1.progress.state)
  {
    if !otaEnabled then (OtaInfo(Version.FIRMWARE_VERSION, None, "", false, MsgOtaDisabled), m)
    else
      var checked := if force == Some(ForceValue) then OtaManager.EnsureReleaseInfoFresh(m, true, now, lockOk, spawnOk)
                     else OtaManager.Answer(m, true, "");
      var n := checked.m;
      var info := OtaManager.CachedRelease(n, copyLockOk);
      var error := if |n.progress.error| > 0 then n.progress.error else checked.error;
      (OtaInfo(Version.FIRMWARE_VERSION, Some(n.progress.state), info.tag, TagDiffers(info.tag), error), n)
  }

  /** The info page's flag and isUpdateAvailable answer different
      questions: the flag asks whether the cached tag differs from the
      running version, the check whether its number is larger. A release
      v0.b.c differs from v1.0.0 but is not larger. */
  lemma InfoOffersOlderRelease(b: nat, c: nat)
    requires b < 100 && c < 100
    ensures var tag := "v" + NatToDecimal(0) + "." + NatToDecimal(b) + "." + NatToDecimal(c);
            TagDiffers(tag) && !Version.IsUpdateAvailable(tag, true)
  {
    Version.TripleAvailable(0, b, c);
    ZeroTagDiffers(NatToDecimal(b), NatToDecimal(c));
  }

  /** A tag with major part 0 is not the running "v1.0.0". */
  lemma ZeroTagDiffers(minor: string, patch: string)
    ensures TagDiffers("v" + NatToDecimal(0) + "." + minor + "." + patch)
  {
    var z := NatToDecimal(0);
    assert z == [DigitChar(0)];
    var tag := "v" + z + "." + minor + "." + patch;
    assert tag[1] == z[0];
    assert Version.FIRMWARE_VERSION[1] == '1';
  }

  const TargetFirmware := "firmware"
  const TargetSpiffs := "spiffs"

  /** The target field: "firmware" or "spiffs" in any letter case select
      that image; anything else, or no field, means both. */
  function ParseTarget(target: Option<string>): (r: OtaManager.Target)
    ensures r.FirmwareTarget? <==> target.Some? && ToLower(target.value) == TargetFirmware
    ensures r.SpiffsTarget? <==> target.Some? && ToLower(target.value) == TargetSpiffs
  {
    var t := ToLower(target.GetOr("both"));
    assert TargetFirmware[0] != TargetSpiffs[0];
    if t == TargetFirmware then OtaManager.FirmwareTarget
    else if t == TargetSpiffs then OtaManager.SpiffsTarget
    else OtaManager.BothTargets
  }

  /** Letter case does not matter, and an absent field means both. */
  lemma TargetIgnoresCase(s: string)
    ensures ParseTarget(Some(s)) == ParseTarget(Some(ToLower(s)))
    ensures ParseTarget(None) == OtaManager.BothTargets
  {
    ToLowerIdempotent(s);
    assert ToLower("both")[0] == 'b';
  }

  datatype HttpAnswer = HttpAnswer(status: nat, message: string)

  const MsgWiFiNeeded := "WiFi not connected (need internet for GitHub OTA)"
  const MsgInvalidJson := "Invalid JSON"
  const MsgOtaStarted := "OTA update started"

  /** handleStartOtaUpdate: 403 when OTA is disabled, 400 without a
      station link (CONNECTED or AP_STA_MODE), 400 for a body that is not
      JSON, then startUpdate on the parsed target, whose refusal is a 400
      with its message. `body` is the target field of a parsed body. */
  function StartOtaUpdate(otaEnabled: bool, wifi: WiFi.WiFiState, body: Option<Option<string>>,
                          m: OtaManager.Manager, dev: OtaManager.Device): (r: (HttpAnswer, OtaManager.Manager))
    ensures r.0.status == StatusForbidden <==> !otaEnabled
    ensures r.0.status == StatusOk <==>
              otaEnabled && (wifi == WiFi.Connected || wifi == WiFi.ApStaMode) && body.Some?
              && OtaManager.StartUpdate(m, ParseTarget(body.value), dev).ok
    ensures r.0.status in {StatusOk, StatusBadRequest, StatusForbidden}
    ensures r.1 != m ==> body.Some? && r.1 == OtaManager.StartUpdate(m, ParseTarget(body.value), dev).m
  {
    if !otaEnabled then (HttpAnswer(StatusForbidden, MsgOtaDisabled), m)
    else if wifi != WiFi.Connected && wifi != WiFi.ApStaMode then (HttpAnswer(StatusBadRequest, MsgWiFiNeeded), m)
    else if body.None? then (HttpAnswer(StatusBadRequest, MsgInvalidJson), m)
    else
      var a := OtaManager.StartUpdate(m, ParseTarget(body.value), dev);
      if a.ok then (HttpAnswer(StatusOk, MsgOtaStarted), a.m) else (HttpAnswer(StatusBadRequest, a.error), a.m)
  }

  // ---------------------------------------------------------------------------
  // WiFi scan listing
  // ---------------------------------------------------------------------------

  const MaxListed: nat := 20

  datatype Network = Network(ssid: string, rssi: int, encrypted: bool)
  datatype Listed = Listed(ssid: string, rssi: int, encrypted: bool, signal: int)

  /** The handler's signal percentage. */
  function ScanSignal(rssi: int): (s: int)
    ensures 0 <= s <= 100
  {
    if rssi >= -50 then 100 else if rssi <= -100 then 0 else 2 * (rssi + 100)
  }

  /** The handler's scale agrees with getSignalStrength for every real
      (non-zero) RSSI. */
  lemma ScanSignalAgrees(rssi: int)
    requires rssi != 0
    ensures ScanSignal(rssi) == WiFi.SignalStrength(rssi)
  {
  }

  function Entry(n: Network): Listed {
    Listed(n.ssid, n.rssi, n.encrypted, ScanSignal(n.rssi))
  }

  /** The networks with a name, in scan order, with their signal. */
  function Listing(nets: seq<Network>): (r: seq<Listed>)
    ensures |r| <= |nets|
    ensures forall k :: 0 <= k < |r| ==> |r[k].ssid| > 0
  {
    if |nets| == 0 then []
    else (if |nets[0].ssid| == 0 then [] else [Entry(nets[0])]) + Listing(nets[1..])
  }

  /** A network is listed exactly when it was scanned and has a name. */
  lemma {:induction false} ListingExactly(nets: seq<Network>, n: Network)
    ensures Entry(n) in Listing(nets) <==> n in nets && |n.ssid| > 0
  {
    if |nets| > 0 {
      ListingExactly(nets[1..], n);
      assert nets == [nets[0]] + nets[1..];
    }
  }

  datatype ScanReply = Scanning | ScanNotStarted | Networks(list: seq<Listed>)

  /** handleWiFiScan: 202 while scanning, 500 when the scan could not
      start, else the named networks among the first 20 results. `nets`
      are the radio's results, one per counted network. */
  function WiFiScan(count: int, nets: seq<Network>): (r: ScanReply)
    requires count >= 0 ==> |nets| == count
    ensures r.Scanning? <==> count == WiFi.ScanRunning
    ensures r.ScanNotStarted? <==> count == WiFi.ScanFailed
    ensures r.Networks? ==> |r.list| <= MaxListed
    ensures r.Networks? && count >= 0 ==> r.list == Listing(nets[..Sensors.Min(count, MaxListed)])
  {
    if count == WiFi.ScanRunning then Scanning
    else if count == WiFi.ScanFailed then ScanNotStarted
    else if count < 0 then Networks([])
    else Networks(Listing(nets[..Sensors.Min(count, MaxListed)]))
  }

  // ---------------------------------------------------------------------------
  // Passwords in the configuration handlers
  // ---------------------------------------------------------------------------

  /** handleGetWiFiConfig's document: the stored record with the password
      blanked. */
  function WiFiConfigView(c: Config.WiFiConfig): (v: Config.WiFiConfig)
    ensures v.password == "" && v.(password := c.password) == c
  {
    c.(password := "")
  }

  datatype WiFiUpdate = WiFiUpdate(
    ssid: Option<string>, password: Option<string>, dhcp: Option<bool>,
    staticIp: Option<string>, gateway: Option<string>, subnet: Option<string>, dns: Option<string>)

  /** A present field replaces the stored one, cut to its buffer; the
      password only when non-empty. */
  function Replace(current: string, given: Option<string>, capacity: nat): string {
    if given.Some? then Truncate(given.value, capacity) else current
  }

  function ReplacePassword(current: string, given: Option<string>, capacity: nat): (r: string)
    ensures given.None? || |given.value| == 0 ==> r == current
    ensures given.Some? && |given.value| > 0 ==> r == Truncate(given.value, capacity)
  {
    if given.Some? && |given.value| > 0 then Truncate(given.value, capacity) else current
  }

  /** The fields handleUpdateWiFiConfig writes. */
  function ApplyWiFiUpdate(c: Config.WiFiConfig, u: WiFiUpdate): (r: Config.WiFiConfig)
    ensures r.password == ReplacePassword(c.password, u.password, 64)
  {
    Config.WiFiConfig(
      Replace(c.ssid, u.ssid, 32), ReplacePassword(c.password, u.password, 64),
      u.dhcp.GetOr(c.dhcp),
      Replace(c.staticIp, u.staticIp, 15), Replace(c.gateway, u.gateway, 15),
      Replace(c.subnet, u.subnet, 15), Replace(c.dns, u.dns, 15))
  }

  /** The record the handlers accept without cutting anything. */
  predicate WiFiFits(c: Config.WiFiConfig) {
    |c.ssid| <= 32 && |c.password| <= 64 && |c.staticIp| <= 15 && |c.gateway| <= 15
    && |c.subnet| <= 15 && |c.dns| <= 15
  }

  function WiFiAsUpdate(v: Config.WiFiConfig): WiFiUpdate {
    WiFiUpdate(Some(v.ssid), Some(v.password), Some(v.dhcp), Some(v.staticIp), Some(v.gateway),
               Some(v.subnet), Some(v.dns))
  }

  /** Loading the form and submitting it unchanged keeps the stored
      configuration, password included, although the form never showed
      it. */
  lemma WiFiFormRoundTrip(c: Config.WiFiConfig)
    requires WiFiFits(c)
    ensures ApplyWiFiUpdate(c, WiFiAsUpdate(WiFiConfigView(c))) == c
  {
  }

  /** The view does not depend on the password. */
  lemma WiFiViewHidesPassword(c: Config.WiFiConfig, password: string)
    ensures WiFiConfigView(c) == WiFiConfigView(c.(password := password))
  {
  }

  /** handleUpdateWiFiConfig: 400 for a body that is not JSON (nothing
      changes); otherwise the fields are written, then a failed save is a
      500 and a successful one a 200 followed by a reconnect. The record
      in memory is written even when the save fails. */
  function UpdateWiFiConfig(c: Config.WiFiConfig, body: Option<WiFiUpdate>, saved: bool, wifi: WiFi.Manager, now: uint32)
    : (r: (nat, Config.WiFiConfig, WiFi.Manager))
    ensures body.None? ==> r == (StatusBadRequest, c, wifi)
    ensures body.Some? ==> r.1 == ApplyWiFiUpdate(c, body.value)
    ensures body.Some? && !saved ==> r.0 == StatusServerError && r.2 == wifi
    ensures body.Some? && saved ==> r.0 == StatusOk && r.2 == WiFi.Reconnect(wifi, r.1.ssid, now).m
  {
    if body.None? then (StatusBadRequest, c, wifi)
    else
      var n := ApplyWiFiUpdate(c, body.value);
      if !saved then (StatusServerError, n, wifi)
      else (StatusOk, n, WiFi.Reconnect(wifi, n.ssid, now).m)
  }

  /** handleGetMQTTConfig's document: the stored record with the password
      blanked. */
  function MqttConfigView(c: Config.MqttConfig): (v: Config.MqttConfig)
    ensures v.password == "" && v.(password := c.password) == c
  {
    c.(password := "")
  }

  datatype MqttUpdate = MqttUpdate(
    server: Option<string>, port: Option<nat>, username: Option<string>, password: Option<string>,
    topicPrefix: Option<string>, enabled: Option<bool>, publishOnChange: Option<bool>,
    publishThreshold: Option<real>, publishInterval: Option<nat>)

  /** The fields handleUpdateMQTTConfig writes. */
  function ApplyMqttUpdate(c: Config.MqttConfig, u: MqttUpdate): (r: Config.MqttConfig)
    ensures r.password == ReplacePassword(c.password, u.password, 64)
  {
    Config.MqttConfig(
      Replace(c.server, u.server, 64), u.port.GetOr(c.port), Replace(c.username, u.username, 32),
      ReplacePassword(c.password, u.password, 64), Replace(c.topicPrefix, u.topicPrefix, 64),
      u.enabled.GetOr(c.enabled), u.publishOnChange.GetOr(c.publishOnChange),
      u.publishThreshold.GetOr(c.publishThreshold), u.publishInterval.GetOr(c.publishInterval))
  }

  predicate MqttFits(c: Config.MqttConfig) {
    |c.server| <= 64 && |c.username| <= 32 && |c.password| <= 64 && |c.topicPrefix| <= 64
  }

  function MqttAsUpdate(v: Config.MqttConfig): MqttUpdate {
    MqttUpdate(Some(v.server), Some(v.port), Some(v.username), Some(v.password), Some(v.topicPrefix),
               Some(v.enabled), Some(v.publishOnChange), Some(v.publishThreshold), Some(v.publishInterval))
  }

  /** The MQTT form round trip keeps the stored password. */
  lemma MqttFormRoundTrip(c: Config.MqttConfig)
    requires MqttFits(c)
    ensures ApplyMqttUpdate(c, MqttAsUpdate(MqttConfigView(c))) == c
  {
  }
}

=== FILE: wifi.dfy ===
/** The WiFi manager: the connection state machine with its attempt
    counter and access-point fallback, the signal-strength scale, and
    the asynchronous network scan. The radio is an oracle: each step
    receives whether the station link is up, what a scan poll or scan
    start reports, and the clock. The configured SSID is passed in. */
module WiFi {
  import opened Common

  /** Connection attempts before falling back to access-point mode. */
  const MaxConnectAttempts: nat := 3
  const ConnectTimeout: nat := 15000
  const RetryInterval: nat := 30000
  /** What the radio reports for a scan that is still running, and for
      one that failed. */
  const ScanRunning: int := -1
  const ScanFailed: int := -2

  datatype WiFiState = Disconnected | Connecting | Connected | ApMode | ApStaMode

  predicate AccessPoint(s: WiFiState) {
    s == ApMode || s == ApStaMode
  }

  /** The manager's fields; `attempts` is an 8-bit counter. */
  datatype Manager = Manager(
    state: WiFiState,
    previous: WiFiState,
    lastConnectAttempt: uint32,
    connectStart: uint32,
    attempts: nat,
    apActive: bool,
    scanResults: int,
    scanComplete: bool,
    scanInProgress: bool)

  const InitialManager := Manager(Disconnected, Disconnected, 0, 0, 0, false, -1, false, false)

  /** A state-callback invocation (old state, new state). */
  datatype Change = Change(from: WiFiState, to: WiFiState)

  datatype Step = Step(m: Manager, changes: seq<Change>)

  /** The access point runs whenever the manager is in an access-point
      state, and the counter fits its eight bits. */
  predicate Consistent(m: Manager) {
    (AccessPoint(m.state) ==> m.apActive) && m.attempts < 256
  }

  // ---------------------------------------------------------------------------
  // State changes
  // ---------------------------------------------------------------------------

  /** setState: record the previous state and fire the callback only
      when the state actually changes. */
  function SetState(m: Manager, s: WiFiState): (r: Step)
    ensures r.m.state == s
    ensures r.changes != [] <==> s != m.state
    ensures s != m.state ==> r.m == m.(previous := m.state, state := s) && r.changes == [Change(m.state, s)]
    ensures s == m.state ==> r.m == m
  {
    if s != m.state then Step(m.(previous := m.state, state := s), [Change(m.state, s)]) else Step(m, [])
  }

  /** startAP: the access point is up, and the state is AP_STA_MODE when
      the station is kept, AP_MODE otherwise. */
  function StartAp(m: Manager, keepStation: bool): (r: Step)
    ensures r.m.apActive && r.m.state == (if keepStation then ApStaMode else ApMode)
    ensures r.m.attempts == m.attempts && r.m.lastConnectAttempt == m.lastConnectAttempt
  {
    SetState(m.(apActive := true), if keepStation then ApStaMode else ApMode)
  }

  /** attemptConnection: with no SSID configured the access point starts;
      otherwise one more attempt is counted (8-bit) and the station
      starts connecting now. */
  function AttemptConnection(m: Manager, ssid: string, now: uint32): (r: Step)
    ensures |ssid| == 0 ==> r == StartAp(m, false)
    ensures |ssid| > 0 ==>
              r.m.state == Connecting && r.m.attempts == (m.attempts + 1) % 256
              && r.m.lastConnectAttempt == now && r.m.connectStart == now && r.m.apActive == m.apActive
  {
    if |ssid| == 0 then StartAp(m, false)
    else SetState(m.(attempts := (m.attempts + 1) % 256, lastConnectAttempt := now, connectStart := now), Connecting)
  }

  /** connect as the access-point states call it (credentials not
      saved): the station starts connecting now, without counting an
      attempt. */
  function Connect(m: Manager, now: uint32): (r: Step)
    ensures r.m.state == Connecting && r.m.attempts == m.attempts && r.m.apActive == m.apActive
    ensures r.m.connectStart == now && r.m.lastConnectAttempt == now
  {
    SetState(m.(connectStart := now, lastConnectAttempt := now), Connecting)
  }

  /** handleConnectionTimeout: after the last allowed attempt the access
      point starts alongside the station; before it, the manager waits
      disconnected for the next retry. */
  function HandleTimeout(m: Manager): (r: Step)
    ensures m.attempts >= MaxConnectAttempts ==> r == StartAp(m, true)
    ensures m.attempts < MaxConnectAttempts ==> r == SetState(m, Disconnected)
  {
    if m.attempts >= MaxConnectAttempts then StartAp(m, true) else SetState(m, Disconnected)
  }

  /** begin: connect when an SSID is configured, else start the access
      point. */
  function Begin(ssid: string, now: uint32): (r: Step)
    ensures |ssid| > 0 ==> r.m.state == Connecting && r.m.attempts == 1
    ensures |ssid| == 0 ==> r.m.state == ApMode && r.m.apActive
  {
    AttemptConnection(InitialManager, ssid, now)
  }

  /** reconnect: the counter and the retry clock start over. */
  function Reconnect(m: Manager, ssid: string, now: uint32): (r: Step)
    ensures |ssid| > 0 ==> r.m.attempts == 1 && r.m.state == Connecting
  {
    AttemptConnection(m.(attempts := 0, lastConnectAttempt := 0), ssid, now)
  }

  /** update: one pass of the state machine. `linkUp` is whether the
      station reports a connection. */
  function Update(m: Manager, ssid: string, linkUp: bool, now: uint32): (r: Step)
    ensures m.state == Connecting && linkUp ==> r.m.state == Connected && r.m.attempts == 0
    ensures m.state == Connecting && !linkUp && Elapsed(now, m.connectStart) <= ConnectTimeout ==> r == Step(m, [])
    ensures m.state == Connecting && !linkUp && Elapsed(now, m.connectStart) > ConnectTimeout ==> r == HandleTimeout(m)
    ensures m.state == Connected && linkUp ==> r == Step(m, [])
    ensures m.state == Connected && !linkUp ==>
              |r.changes| > 0 && r.changes[0] == Change(Connected, Disconnected)
              && r.m.state == (if |ssid| > 0 then Connecting else ApMode)
    ensures ((m.state == Disconnected || AccessPoint(m.state))
             && (|ssid| == 0 || Elapsed(now, m.lastConnectAttempt) <= RetryInterval)) ==> r == Step(m, [])
    ensures m.state == Disconnected && |ssid| > 0 && Elapsed(now, m.lastConnectAttempt) > RetryInterval ==>
              r.m.state == Connecting && r.m.attempts == (m.attempts + 1) % 256
    ensures AccessPoint(m.state) && |ssid| > 0 && Elapsed(now, m.lastConnectAttempt) > RetryInterval ==>
              r == Connect(m, now)
  {
    match m.state
    case Connecting =>
      if linkUp then SetState(m.(attempts := 0), Connected)
      else if Elapsed(now, m.connectStart) > ConnectTimeout then HandleTimeout(m)
      else Step(m, [])
    case Connected =>
      if linkUp then Step(m, [])
      else
        var lost := SetState(m, Disconnected);
        var again := AttemptConnection(lost.m.(lastConnectAttempt := now), ssid, now);
        Step(again.m, lost.changes + again.changes)
    case Disconnected =>
      if |ssid| > 0 && Elapsed(now, m.lastConnectAttempt) > RetryInterval then AttemptConnection(m, ssid, now)
      else Step(m, [])
    case _ =>
      if |ssid| > 0 && Elapsed(now, m.lastConnectAttempt) > RetryInterval then Connect(m, now)
      else Step(m, [])
  }

  /** Every transition keeps the access point running in the access-point
      states and the counter in its eight bits. */
  lemma UpdateConsistent(m: Manager, ssid: string, linkUp: bool, now: uint32)
    requires Consistent(m)
    ensures Consistent(Update(m, ssid, linkUp, now).m)
    ensures Consistent(Reconnect(m, ssid, now).m)
  {
  }

  /** Three attempts that each time out move a manager with a fresh
      counter into AP_STA_MODE; the first two leave it disconnected. */
  lemma ThreeTimeoutsFallBack(m: Manager, ssid: string, t1: uint32, t2: uint32, t3: uint32)
    requires m.attempts == 0 && |ssid| > 0
    ensures var a1 := HandleTimeout(AttemptConnection(m, ssid, t1).m).m;
            var a2 := HandleTimeout(AttemptConnection(a1, ssid, t2).m).m;
            var a3 := HandleTimeout(AttemptConnection(a2, ssid, t3).m).m;
            a1.state == Disconnected && a2.state == Disconnected
            && a3.state == ApStaMode && a3.apActive && a3.attempts == MaxConnectAttempts
  {
  }

  /** Once in AP_STA_MODE after the third failure, later retries from the
      access point do not count attempts, so each further timeout
      returns to AP_STA_MODE. */
  lemma ApRetryReturnsToAp(m: Manager, now: uint32)
    requires m.attempts >= MaxConnectAttempts
    ensures HandleTimeout(Connect(m, now).m).m.state == ApStaMode
  {
  }

  /** A station that connects, however many attempts it took, starts the
      next outage with a fresh counter. */
  lemma ConnectionResetsCounter(m: Manager, ssid: string, now: uint32, later: uint32)
    requires m.state == Connecting && |ssid| > 0
    ensures var up := Update(m, ssid, true, now).m;
            var down := Update(up, ssid, false, later).m;
            up.attempts == 0 && down.state == Connecting && down.attempts == 1
  {
  }

  // ---------------------------------------------------------------------------
  // Signal strength
  // ---------------------------------------------------------------------------

  /** getRSSI: the link's RSSI when connected, 0 otherwise. */
  function Rssi(m: Manager, linkRssi: int): (r: int)
    ensures m.state != Connected ==> r == 0
  {
    if m.state == Connected then linkRssi else 0
  }

  /** getSignalStrength's scale: 0 for a zero RSSI, 100 at -50 dBm or
      better, 0 at -100 dBm or worse, linear in between. */
  function SignalStrength(rssi: int): (r: int)
    ensures 0 <= r <= 100
    ensures rssi == 0 ==> r == 0
    ensures -100 < rssi < -50 ==> r == 2 * (rssi + 100)
    ensures rssi != 0 && rssi >= -50 ==> r == 100
    ensures rssi <= -100 ==> r == 0
  {
    if rssi == 0 then 0
    else if rssi >= -50 then 100
    else if rssi <= -100 then 0
    else 2 * (rssi + 100)
  }

  /** A stronger negative RSSI never gives a lower percentage. */
  lemma SignalMonotone(a: int, b: int)
    requires a <= b < 0
    ensures SignalStrength(a) <= SignalStrength(b)
  {
  }

  // ---------------------------------------------------------------------------
  // Network scan
  // ---------------------------------------------------------------------------

  datatype ScanAnswer = ScanAnswer(m: Manager, result: int)

  /** startAsyncScan: the previous results are discarded, and the scan is
      in progress when the radio reports it running. */
  function StartAsyncScan(m: Manager, started: int): (r: (Manager, bool))
    ensures r.1 <==> started == ScanRunning
    ensures !r.0.scanComplete && r.0.scanResults == 0 && r.0.scanInProgress == r.1
  {
    var cleared := m.(scanComplete := false, scanResults := 0);
    if started == ScanRunning then (cleared.(scanInProgress := true), true)
    else (cleared.(scanInProgress := false), false)
  }

  /** scanNetworks: the cached count of a finished scan; for a running
      scan the poll's count, -1 while it runs, -2 when it failed;
      otherwise a new scan is started, answering -1, or -2 when it does
      not start. `polled` and `started` are what the radio reports. */
  function ScanNetworks(m: Manager, polled: int, started: int): (r: ScanAnswer)
    ensures m.scanComplete && !m.scanInProgress ==> r == ScanAnswer(m, m.scanResults)
    ensures !(m.scanComplete && !m.scanInProgress) ==>
              && r.result >= ScanFailed
              && (r.result >= 0 ==> r.m.scanComplete && !r.m.scanInProgress && r.m.scanResults == r.result)
              && (r.result == ScanRunning ==> r.m.scanInProgress)
              && (r.result == ScanFailed ==> !r.m.scanInProgress && !r.m.scanComplete)
    ensures r.m.(scanResults := m.scanResults, scanComplete := m.scanComplete, scanInProgress := m.scanInProgress) == m
  {
    if m.scanComplete && !m.scanInProgress then ScanAnswer(m, m.scanResults)
    else if m.scanInProgress then
      if polled >= 0 then ScanAnswer(m.(scanResults := polled, scanComplete := true, scanInProgress := false), polled)
      else if polled == ScanRunning then ScanAnswer(m, ScanRunning)
      else ScanAnswer(m.(scanInProgress := false, scanComplete := false), ScanFailed)
    else
      var (n, ok) := StartAsyncScan(m, started);
      ScanAnswer(n, if ok then ScanRunning else ScanFailed)
  }

  /** The scan fields a manager can reach: never complete and running at
      once, and a complete scan has a count. */
  predicate ScanConsistent(m: Manager) {
    !(m.scanComplete && m.scanInProgress) && (m.scanComplete ==> m.scanResults >= 0)
  }

  /** Scanning keeps the scan fields consistent, and once a count has been
      answered, every later call answers it again without consulting the
      radio. */
  lemma ScanCached(m: Manager, polled: int, started: int, polled2: int, started2: int)
    requires ScanConsistent(m)
    ensures ScanConsistent(ScanNetworks(m, polled, started).m)
    ensures var r := ScanNetworks(m, polled, started);
            r.result >= 0 ==> ScanNetworks(r.m, polled2, started2) == r
  {
  }

  /** getScannedNetwork's index check: an index names a result exactly
      when it is below a non-negative result count. */
  function ScannedNetwork(m: Manager, index: nat): (r: Option<nat>)
    ensures r.Some? <==> 0 <= m.scanResults && index < m.scanResults
    ensures r.Some? ==> r.value == index
  {
    if index >= m.scanResults || m.scanResults < 0 then None else Some(index)
  }
}
